=== FILE: README.md ===
# Wasl marketplace — a Dafny model

Wasl is an ASP.NET MVC marketplace for freight in Saudi Arabia. Companies post shipment
requests. Approved providers bid on them, or answer a direct request a company sends them.
A company accepts one bid and turns it into a contract, which the provider signs. The company
pays the contract's invoice. The provider records tracking snapshots until delivery, and the
company then leaves feedback. Administrators approve accounts and read revenue reports.

This project models the controllers' business rules as pure Dafny functions over one immutable
`Store` of tables (`Tables`: rows with integer keys, as the database assigns them). Each
controller action takes the store, the caller's user key and the posted form. It gives back
either the new store or the reason it refused (`Marketplace.Error`); a refusal writes nothing.
The statuses the source keeps as strings in `AppConstants` are enumerations whose `Name()` is
the stored string (`Constants`).

- Money is an integer number of halalas (1 SAR = 100 halalas).
- Weight is an integer number of grams.
- Dates are proleptic Gregorian date-times with a tick of the day (`Calendar`).
- Averages are exact `real`s.

Everything outside the program becomes a parameter:

- `DateTime.Now` is an instant passed in.
- A GUID is a 32-character hexadecimal text passed in.
- The payment gateway's answer is a boolean.
- BCrypt is a pair of functions (hash, verify).
- Whether an upload was written is a boolean.
- Whether a file exists on disk is a boolean.

The modules follow the source:

- one module per controller: `Admin`, `Auth`, `CompanyBids`, `CompanyContracts`,
  `CompanyDashboard`, `CompanyInvoices`, `CompanyPayments`, `CompanyProviders`,
  `CompanyShipments`, `CompanyTracking`, `Front`, `ProviderBids`, `ProviderContracts`,
  `RequestResponses`, `ProviderShipments`, `Reports`;
- the role check of `RoleAuthorizationHandler` (`Authorization`);
- the validation attributes and view-model rules (`ValidationAttributes`, `CustomValidation`,
  `Forms`);
- the shared services (`Services`, `Uploads`, `Documents`);
- the region tables (`Locations`);
- generic helpers for LINQ-style listing, text, dates and tables (`Listing`, `Text`,
  `Calendar`, `Tables`, `Wrappers`).

Where the code does something its own comments, validation rules or schema evidently did not
intend, the model keeps the code as written and adds a corrected twin. The corrected twin is
what the rest of the model uses; see "Findings".

## Model

| member | source | states |
|---|---|---|
| Constants.RolesDistinct | VBDOTNET/Infrastructure/AppConstants.cs:10-12 | the Admin, Company and Provider role names are pairwise different, so a role claim names exactly one role |
| Constants.ParseRequestStatus | VBDOTNET/Infrastructure/AppConstants.cs:40-48 | a string parses to a request status exactly when it is that status's stored name, and parses to nothing when no status has that name |
| Constants.RequestStatusNames | VBDOTNET/Infrastructure/AppConstants.cs:40-48 | the nine request-status names are distinct: parsing each status's stored name gives back that status |
| Constants.ParseBidStatus | VBDOTNET/Infrastructure/AppConstants.cs:53-58 | a string parses to a bid status exactly when it is that status's stored name |
| Constants.BidStatusNames | VBDOTNET/Infrastructure/AppConstants.cs:53-58 | the six bid-status names are distinct: parsing each stored name gives back its status |
| Constants.ParsePaymentStatus | VBDOTNET/Infrastructure/AppConstants.cs:63-67 | a string parses to a payment status exactly when it is that status's stored name |
| Constants.PaymentStatusNames | VBDOTNET/Infrastructure/AppConstants.cs:63-67 | the five payment-status names are distinct: parsing each stored name gives back its status |
| Constants.SharedStatusNames | VBDOTNET/Infrastructure/AppConstants.cs:40-74 | the tracking "Delivered" constant is the request status Delivered, the bid Accepted name is the request Accepted name, request and payment Pending share a name, and the tracking Received and InTransit strings are no request status |
| Locations.GetCities | VBDOTNET/Controllers/AuthController.cs:278-287 | an empty, missing or unknown region gives no cities; a known region gives exactly its own city list, in the order the table lists it |
| Locations.RegionsHaveCities | VBDOTNET/Infrastructure/AppConstants.cs:82-221 | the region list and the cities table have the same thirteen region keys |
| Locations.CitiesNonEmpty | VBDOTNET/Infrastructure/AppConstants.cs:99-221 | every region in the cities table lists at least one city |
| Locations.RiyadhListed | VBDOTNET/Infrastructure/AppConstants.cs:102-113 | region "riyadh" lists 22 cities and no city key twice, as a dictionary initializer requires |
| Locations.MakkahListed | VBDOTNET/Infrastructure/AppConstants.cs:116-123 | region "makkah" lists 14 cities and no city key twice, as a dictionary initializer requires |
| Locations.EasternListed | VBDOTNET/Infrastructure/AppConstants.cs:126-133 | region "eastern" lists 12 cities and no city key twice, as a dictionary initializer requires |
| Locations.MadinahListed | VBDOTNET/Infrastructure/AppConstants.cs:136-142 | region "madinah" lists 9 cities and no city key twice, as a dictionary initializer requires |
| Locations.QassimListed | VBDOTNET/Infrastructure/AppConstants.cs:145-152 | region "qassim" lists 10 cities and no city key twice, as a dictionary initializer requires |
| Locations.HailListed | VBDOTNET/Infrastructure/AppConstants.cs:155-160 | region "hail" lists 7 cities and no city key twice, as a dictionary initializer requires |
| Locations.TabukListed | VBDOTNET/Infrastructure/AppConstants.cs:163-168 | region "tabuk" lists 7 cities and no city key twice, as a dictionary initializer requires |
| Locations.NorthernBordersListed | VBDOTNET/Infrastructure/AppConstants.cs:171-175 | region "northern_borders" lists 4 cities and no city key twice, as a dictionary initializer requires |
| Locations.JazanListed | VBDOTNET/Infrastructure/AppConstants.cs:178-184 | region "jazan" lists 11 cities and no city key twice, as a dictionary initializer requires |
| Locations.NajranListed | VBDOTNET/Infrastructure/AppConstants.cs:187-192 | region "najran" lists 7 cities and no city key twice, as a dictionary initializer requires |
| Locations.AlBahahListed | VBDOTNET/Infrastructure/AppConstants.cs:195-200 | region "al_bahah" lists 7 cities and no city key twice, as a dictionary initializer requires |
| Locations.AlJawfListed | VBDOTNET/Infrastructure/AppConstants.cs:203-208 | region "al_jawf" lists 5 cities and no city key twice, as a dictionary initializer requires |
| Locations.AsirListed | VBDOTNET/Infrastructure/AppConstants.cs:211-219 | region "asir" lists 11 cities and no city key twice, as a dictionary initializer requires |
| ValidationAttributes.PhoneNumber | VBDOTNET/Attributes/ValidationAttributes.cs:11-30 | a value is valid exactly when it is missing or blank, or is "+9665" followed by eight digits, or "05" followed by eight digits; an invalid value's message starts with the field's display name |
| ValidationAttributes.NationalIdCheck | VBDOTNET/Attributes/ValidationAttributes.cs:45-70 | the checks run in order and report exactly one outcome: wrong length when not 10 characters, else a bad region code when the first character is not 1-9, else not-all-digits, else success |
| ValidationAttributes.SaudiNationalId | VBDOTNET/Attributes/ValidationAttributes.cs:38-71 | a value is valid exactly when it is missing or blank or passes every national-ID check; every failure message starts with "The " and the field name |
| ValidationAttributes.NationalIdValidIff | VBDOTNET/Attributes/ValidationAttributes.cs:48-70 | a non-blank national ID is accepted exactly when it is ten digits not starting with 0 |
| CustomValidation.RunDigits | VBDOTNET/ViewsModels/CustomValidation.cs:18 | the automaton's `\d{n}` stage reaches acceptance on a string exactly when it is n digits |
| CustomValidation.DeadStays | VBDOTNET/ViewsModels/CustomValidation.cs:18 | once the automaton has rejected a prefix no further characters revive it |
| CustomValidation.AcceptsIff | VBDOTNET/ViewsModels/CustomValidation.cs:17-20 | the character-by-character matcher of the phone pattern accepts exactly the strings "+9665" plus eight digits or "05" plus eight digits |
| CustomValidation.AfterPlus | VBDOTNET/ViewsModels/CustomValidation.cs:18 | on strings that start with "+" the matcher accepts exactly the "+9665" plus eight digits form |
| CustomValidation.CommonPrefix | VBDOTNET/ViewsModels/CustomValidation.cs:18 | the length of the longest common prefix with "9665", at most four, after which the text and "9665" differ or one ends |
| CustomValidation.PlusDies | VBDOTNET/ViewsModels/CustomValidation.cs:18 | text that leaves the "+9665" prefix before it is complete is rejected |
| CustomValidation.PhoneNumber | VBDOTNET/ViewsModels/CustomValidation.cs:8-27 | a value is valid exactly when it is missing or blank or the matcher accepts it; an invalid one gets the message naming the display name, or the member name without one |
| CustomValidation.SameAsAttributesPhone | VBDOTNET/ViewsModels/CustomValidation.cs:6-28 | the view-model phone attribute gives the same result as the phone attribute of the Attributes namespace on every input |
| Forms.NewPaymentForm | VBDOTNET/ViewsModels/PaymentViewModel.cs:8 | a fresh payment form has the method "credit_card" and every card field unset |
| Forms.PaymentMethodRequired | VBDOTNET/ViewsModels/PaymentViewModel.cs:7-8 | a missing or blank payment method, a non-nullable string, makes the form invalid; with the default method left in place, validity depends on the card fields alone |
| Forms.DigitsNotBlank | VBDOTNET/ViewsModels/PaymentViewModel.cs:10-13 | a non-empty digit string passes the required check |
| Forms.CardNumberValidIff | VBDOTNET/ViewsModels/PaymentViewModel.cs:10-14 | a card number is valid exactly when it is present and sixteen digits |
| Forms.CvvValidIff | VBDOTNET/ViewsModels/PaymentViewModel.cs:21-25 | a CVV is valid exactly when it is present and three or four digits |
| Forms.ExpiryValidIff | VBDOTNET/ViewsModels/PaymentViewModel.cs:16-19 | an expiry date is valid exactly when it is two digits naming a month 1 to 12, a slash, and two digits; the year is not compared with any date |
| Forms.CardHolderValidIff | VBDOTNET/ViewsModels/PaymentViewModel.cs:27-30 | a card holder is valid exactly when it is present, not blank, and at most 100 characters |
| Forms.BidFormLimits | VBDOTNET/ViewsModels/BidViewModel.cs:7-21 | a bid form is valid exactly when its price, rounded to whole riyals as the range check converts it (half a riyal to the even one), is 1 to 1,000,000 SAR, that is 51 to 100,000,050 halalas, for 1 to 365 days with notes present, not blank and at most 255 characters, as a non-nullable string must be; the request key it carries plays no part |
| Forms.ResponseFormFacts | VBDOTNET/ViewsModels/BidResponseViewModel.cs:7-19 | a valid response has a positive price; missing or blank notes, labelled optional but a non-nullable string, make it invalid; a response with 500 characters of notes is valid although the bid notes column holds 255 |
| Forms.RoundToRiyal | VBDOTNET/ViewsModels/BidViewModel.cs:10-12 | a price in halalas rounds to the whole riyal nearest to it, within half a riyal either way, and a price exactly half-way rounds to the even riyal |
| Forms.PriceRounding | VBDOTNET/ViewsModels/BidViewModel.cs:10-12 | a price rounds to 1 to 1,000,000 riyals exactly when it is 51 to 100,000,050 halalas |
| Forms.FeedbackFormIff | VBDOTNET/ViewsModels/FeedbackViewModel.cs:10-16 | a feedback form is valid exactly when its rating is 1 to 5 and its comments are present, not blank, and 10 to 500 characters long |
| Forms.FitsIffValidAndShort | VBDOTNET/Data/WaslDbContext.cs:202-204 | the feedback rules narrowed to the 255-character comments column accept exactly the valid forms whose comments fit that column |
| Forms.DeadlineOnlyRequired | VBDOTNET/ViewsModels/ShipmentRequestViewModel.cs:14-52 | the deadline is only required, so moving it to any instant, past or future, keeps a valid form valid; a valid form weighs 0.1 to 100,000 kg (100 g to 100 t); missing or blank special instructions, a non-nullable string, make it invalid |
| Forms.CityUnbounded | VBDOTNET/ViewsModels/ShipmentRequestViewModel.cs:24-26 | the pickup city has no length limit: any non-blank city keeps a valid form valid, even one longer than the 100-character column, which then no longer fits |
| Authorization.FindFirst | VBDOTNET/Authorization/RoleAuthorizationHandler.cs:21 | nothing is found exactly when no claim has that kind; otherwise the value is that of a claim of that kind with no claim of that kind before it |
| Authorization.Handle | VBDOTNET/Authorization/RoleAuthorizationHandler.cs:15-38 | every request gets exactly one verdict; it is Succeed exactly when the principal is authenticated and its first role claim is non-empty and listed by the requirement; every other case fails |
| Authorization.SignedInPrincipal | VBDOTNET/Controllers/AuthController.cs:77-95 | the principal a sign-in creates is authenticated and its first role claim is the role written at sign-in |
| Authorization.SignedInPasses | VBDOTNET/Authorization/RoleAuthorizationHandler.cs:15-38 | a principal from a sign-in passes a requirement exactly when its role claim is non-empty and listed |
| Authorization.RolesKeepApart | VBDOTNET/Authorization/RoleAuthorizationHandler.cs:29-36 | a principal holding one of the three roles fails a requirement that lists only another of them |
| Authorization.MissingRoleActsAsCompany | VBDOTNET/Controllers/AuthController.cs:82 | a user signed in without a stored role passes a company-only requirement |
| Authorization.ApprovedProviderPasses | VBDOTNET/Authorization/RoleAuthorizationHandler.cs:15-38 | a provider that registered and was approved signs in and passes a provider-only requirement but fails a company-only one |
| Auth.UserByEmail | VBDOTNET/Controllers/AuthController.cs:43-44 | the user found carries the address given; nothing is found exactly when no stored user has that address |
| Auth.Dashboard | VBDOTNET/Controllers/AuthController.cs:102-108 | each of the three roles goes to its own dashboard; any other role, or none, goes to the home page |
| Auth.Login | VBDOTNET/Controllers/AuthController.cs:36-115 | an invalid form is rejected; an unknown address and a wrong password give the same refusal; sign-in succeeds exactly when the password verifies and a company or provider account has an approved profile; a signed-in user gets its own key, its role (Company when it has none) and the remember-me flag, and is sent to a local return address when one is given or else to its dashboard |
| Auth.UnknownLooksLikeWrongPassword | VBDOTNET/Controllers/AuthController.cs:46-56 | an unknown address and a wrong password produce the same outcome, so the answer does not reveal which accounts exist |
| Auth.MissingRoleGoesHome | VBDOTNET/Controllers/AuthController.cs:59-108 | a user without a stored role skips the approval checks, signs in with the Company role claim and is sent to the home page |
| Auth.RegisterCompany | VBDOTNET/Controllers/AuthController.cs:128-187 | an invalid form or an address already taken writes nothing; otherwise a Company user with the hashed password gets a fresh key and its unapproved company profile is appended, and nothing else changes |
| Auth.RegisterProvider | VBDOTNET/Controllers/AuthController.cs:200-259 | the same for a provider account and its unapproved provider profile |
| Auth.NewUserFound | VBDOTNET/Controllers/AuthController.cs:136-157 | after registration with an address nobody used, that address finds exactly the new user row |
| Auth.NewCompanyWaits | VBDOTNET/Controllers/AuthController.cs:59-66 | a company that has just registered cannot sign in: it is refused as pending approval or for a wrong password |
| Auth.NewProviderWaits | VBDOTNET/Controllers/AuthController.cs:68-75 | a provider that has just registered cannot sign in either |
| Auth.UnapprovedWaits | VBDOTNET/Controllers/AuthController.cs:59-75 | a company or provider account without an approved profile is refused, whatever the password |
| Auth.ToggledNewProvider | VBDOTNET/Controllers/AdminController.cs:106-122 | an administrator's toggle of a newly registered provider succeeds and approves it, the users stay the same and the new user's profile is that provider |
| Auth.ApprovedProviderSignsIn | VBDOTNET/Controllers/AuthController.cs:68-106 | a provider that registered and was then approved signs in with its correct password as a provider and is sent to the provider dashboard |
| Auth.ProviderSignsIn | VBDOTNET/Controllers/AuthController.cs:68-106 | a provider account whose password verifies and whose profile is approved signs in to the provider dashboard |
| Marketplace.CompanyOf | VBDOTNET/Controllers/CompanyBidController.cs:22 | the signed-in user's company profile is found exactly when some company row belongs to that user, and what is found belongs to it |
| Marketplace.ProviderOf | VBDOTNET/Controllers/ProviderBidController.cs:21 | the signed-in user's provider profile is found exactly when some provider row belongs to that user, and what is found belongs to it |
| Marketplace.CompanyBid | VBDOTNET/Controllers/CompanyBidController.cs:70-74 | a bid is visible to a company user exactly when the user has a company and the bid exists and lies on one of that company's requests |
| Marketplace.ProviderBid | VBDOTNET/Controllers/ProviderBidController.cs:58-59 | a bid is visible to a provider user exactly when the user has a provider profile and the bid exists and is that provider's |
| Marketplace.CompanyRequest | VBDOTNET/Controllers/CompanyShipmentController.cs:108-110 | a request is visible to a company user exactly when the user has a company and the request exists and is that company's |
| Marketplace.BidsOn | VBDOTNET/Controllers/CompanyShipmentController.cs:97 | the bids on a request are exactly those stored bids that name it: none missing, none foreign |
| ProviderBids.Store | VBDOTNET/Controllers/ProviderBidController.cs:113-186 | an invalid form is refused; the bid is stored exactly when the caller has a provider profile, the request exists and is Pending or Bidding, and the provider has no bid on it yet; the new Submitted bid carries exactly the form's price, days and notes, a Pending request becomes Bidding, and nothing else changes |
| ProviderBids.StoreKeepsOneBidPerProvider | VBDOTNET/Controllers/ProviderBidController.cs:145-155 | when every provider has at most one bid per request, storing a bid keeps it so |
| ProviderBids.Update | VBDOTNET/Controllers/ProviderBidController.cs:51-80 | a bid is updated exactly when the form is valid and it is the caller's own Submitted bid; only its price, days and notes change |
| ProviderBids.UpdateKeepsStatus | VBDOTNET/Controllers/ProviderBidController.cs:61-69 | an update keeps every bid's key, status, provider and request |
| ProviderBids.Delete | VBDOTNET/Controllers/ProviderBidController.cs:84-109 | a bid is removed exactly when it is the caller's own, in any status, and no contract was made from it; one a contract refers to fails to save and stays; on success exactly the bids with other keys remain |
| ProviderBids.BidPinsRequest | VBDOTNET/Data/WaslDbContext.cs:107-109 | once a bid is placed on a request, neither its company nor an administrator can delete that request |
| CompanyBids.Accept | VBDOTNET/Controllers/CompanyBidController.cs:64-102 | succeeds exactly for a Submitted bid on one of the caller's requests; the bid becomes Accepted, every other bid on that request becomes Rejected whatever its status, bids on other requests are untouched, and the request becomes Assigned to the bid's provider; nothing else changes |
| CompanyBids.AcceptSettlesRequest | VBDOTNET/Controllers/CompanyBidController.cs:82-88 | after acceptance the accepted bid is the only Accepted bid on its request, all its siblings are Rejected, and the request reads back Assigned to the bid's provider |
| CompanyBids.AcceptIgnoresRequestStatus | VBDOTNET/Controllers/CompanyBidController.cs:76-85 | whatever the request's status, Cancelled or DirectRequest included, accepting a Submitted bid on it succeeds and moves the request to Assigned |
| CompanyBids.Reject | VBDOTNET/Controllers/CompanyBidController.cs:311-348 | a bid not found for the caller is NotFound; it succeeds exactly for a Submitted bid whose reason, when given, fits the 255-character notes column; a longer reason fails to save and writes nothing; on success the bid becomes Rejected with the reason or "Rejected by company" as its notes, and the request is untouched |
| CompanyBids.NewContract | VBDOTNET/Controllers/CompanyBidController.cs:231-307 | without a company profile it fails as such; it succeeds exactly for an Accepted bid on a caller request, a non-empty document with a .pdf, .doc or .docx extension in any case, and a successful upload; then an unsigned contract carrying the bid's provider and request is appended and the bid becomes ContractCreated |
| CompanyBids.CreateContract | VBDOTNET/Controllers/CompanyBidController.cs:273-284 | a created contract is the one new row, is unsigned, refers to the bid, the bid reads back ContractCreated, and the document had an allowed extension |
| CompanyBids.ContractPinsBid | VBDOTNET/Data/WaslDbContext.cs:178-180 | once a contract is made from a bid, neither the bid's provider nor an administrator can delete the bid |
| CompanyBids.StoredSignDate | VBDOTNET/Data/WaslDbContext.cs:173-176 | an empty sign date is stored as the time of the insert, the column's `getdate()` default; a given one is kept |
| CompanyBids.NewContractAsWritten | VBDOTNET/Controllers/CompanyBidController.cs:273-284 | as written, a contract that the corrected creation would make fails to save unless a tracking row carries the request's key, because the contract's shipment reference names the tracking table; otherwise the same store results, except that an empty sign date is stored as the insert time |
| CompanyBids.NoContractWithoutTracking | VBDOTNET/Data/WaslDbContext.cs:190-192 | in a store without tracking rows, as the system starts, no contract can be created as written, and every one the corrected creation makes fails to save |
| CompanyBids.BornSigned | VBDOTNET/Controllers/CompanyBidController.cs:280 | as written, a contract created from the bids page is stored signed at the time of the insert, so its provider is refused the signing form |
| CompanyBids.ShipmentBids | VBDOTNET/Controllers/CompanyBidController.cs:134-179 | only the caller's own request is shown; its bids are a permutation of the bids on it ordered by ascending price, with the statistics computed from them |
| BidStatistics.Compute | VBDOTNET/Controllers/CompanyBidController.cs:156-162 | no bids give all zeros; otherwise the lowest and highest prices are prices of some bid, every price lies between them, and the average is the total over the count and lies between them; the bidder count is the number of distinct providers, at least one and at most the number of bids |
| BidStatistics.Prices | VBDOTNET/Controllers/FrontController.cs:145-147 | for a non-empty list, the average, lowest and highest price satisfy the price summary above, with a missing price counted as 0 |
| BidStatistics.Mean | VBDOTNET/Controllers/CompanyBidController.cs:158 | a total lying between n times a lower and n times an upper bound averages to a value between those bounds |
| CompanyShipments.Create | VBDOTNET/Controllers/CompanyShipmentController.cs:38-81 | an invalid form is refused; it succeeds exactly for a valid form, a caller with a company profile, cities and regions that fit their 100-character columns and a delivery deadline, when given, within the years 1753 to 9999 of the `datetime` column; otherwise the save fails and writes nothing; on success exactly one request is appended under a fresh key, owned by the caller's company, Pending, with no provider and requested now; nothing else changes |
| CompanyShipments.EarlyDeadlineIsLost | VBDOTNET/Data/WaslDbContext.cs:395-397 | a valid form whose delivery deadline lies before the year 1753 passes every check of the action and then fails to save, because the deadline column is a `datetime` |
| CompanyShipments.Edit | VBDOTNET/Controllers/CompanyShipmentController.cs:105-144 | the edit form opens exactly for the caller's own request while Pending or Bidding; it carries the request's fields, weight 0 for a missing one, and the deadline, or seven days from now when there is none |
| CompanyShipments.Update | VBDOTNET/Controllers/CompanyShipmentController.cs:146-196 | a request not the caller's is NotFound and one not Pending or Bidding is refused before the form is checked; it succeeds exactly for the caller's open request, a valid form, cities and regions that fit their columns and a deadline within the `datetime` years, anything else failing to save; only the descriptive fields and the update date change, while status, company, provider and request date stay |
| CompanyShipments.Delete | VBDOTNET/Controllers/CompanyShipmentController.cs:200-228 | succeeds exactly for the caller's own request while Pending or Bidding that no bid refers to; a request with bids, which every Bidding one has, fails to save and stays; on success the request is removed and nothing else changes |
| CompanyShipments.Cancel | VBDOTNET/Controllers/CompanyShipmentController.cs:235-267 | succeeds exactly for the caller's own request while Pending, Bidding or Assigned; it becomes Cancelled, and the bids are untouched |
| CompanyShipments.CancelledIsClosed | VBDOTNET/Controllers/CompanyShipmentController.cs:116-120 | a cancelled request can no longer be edited; the same Pending-or-Bidding guard, repeated in the update, delete and cancel actions, refuses those too |
| CompanyProviders.SendRequestAsWritten | VBDOTNET/Controllers/CompanyProviderController.cs:175-259 | as written, the message is never checked against its 500-character rule, so a message longer than the 255-character notes column fails to save and writes nothing; otherwise the same outcome as the corrected action |
| CompanyProviders.LongMessageIsLost | VBDOTNET/ViewsModels/SendRequestViewModel.cs:10 | a 300-character message passes every guard the code has and is then lost |
| CompanyProviders.SendRequest | VBDOTNET/Controllers/CompanyProviderController.cs:175-259 | succeeds exactly with the caller's company, an approved provider, one of the company's requests that is Pending or Bidding, no UnderReview bid of that provider on it, and a message that fits the 255-character notes column; an UnderReview bid alone is refused as already existing and a longer message as an invalid form; on success an UnderReview bid with price 0, 0 days and the message or a default as notes is appended and the request becomes DirectRequest, and nothing else changes |
| CompanyProviders.SendRequestMatchesAsWritten | VBDOTNET/Controllers/CompanyProviderController.cs:224-243 | the corrected action succeeds on exactly the inputs the code saves, with the same result, and refuses as an invalid form exactly those whose save fails |
| CompanyProviders.SecondSendRefused | VBDOTNET/Controllers/CompanyProviderController.cs:202-239 | once a direct request has been sent, a second one on the same request is refused, to any provider |
| CompanyProviders.SendRequestBreaksOneBidPerProvider | VBDOTNET/Controllers/CompanyProviderController.cs:209-218 | a direct request to a provider that already has a Submitted or other non-UnderReview bid on the request succeeds and leaves two bids of that provider on it |
| CompanyProviders.UnderReviewBid | VBDOTNET/Controllers/CompanyProviderController.cs:329-333 | a bid is found exactly when it is UnderReview and lies on one of the caller's requests |
| CompanyProviders.DeleteRequest | VBDOTNET/Controllers/CompanyProviderController.cs:316-352 | succeeds exactly for an UnderReview bid on one of the caller's requests that no contract refers to; one a contract refers to fails to save; on success that bid is removed and nothing else changes, the request's status included |
| CompanyProviders.AnsweredBid | VBDOTNET/Controllers/CompanyProviderController.cs:372-377 | a bid is found exactly when it is UnderReview on one of the caller's requests and has a positive price |
| CompanyProviders.Accept | VBDOTNET/Controllers/CompanyProviderController.cs:359-420 | succeeds exactly for an answered direct request; the bid becomes Accepted and its request Assigned to the bid's provider; nothing else changes |
| CompanyProviders.Reject | VBDOTNET/Controllers/CompanyProviderController.cs:427-487 | succeeds exactly for an answered direct request; the bid becomes Rejected and its request goes back to Pending; nothing else changes |
| CompanyProviders.AcceptLeavesSiblings | VBDOTNET/Controllers/CompanyProviderController.cs:389-400 | accepting a direct request leaves every other bid as it was and assigns the request to the bid's provider |
| CompanyProviders.RejectReopens | VBDOTNET/Controllers/CompanyProviderController.cs:458-467 | after a rejection the request is Pending again, so it is open for another direct request |
| CompanyProviders.Ratings | VBDOTNET/Controllers/CompanyProviderController.cs:50-51 | the number of ratings averaged is the number of the provider's feedback rows |
| CompanyProviders.RatingBandIff | VBDOTNET/Controllers/CompanyProviderController.cs:50-51 | the average lies in [n, n+1) exactly when the provider has feedback and n times the count is at most the total and the total is below n+1 times the count |
| CompanyProviders.AtLeastAverage | VBDOTNET/Controllers/CompanyProviderController.cs:50 | k is at most an average exactly when k times the count is at most the total |
| CompanyProviders.RatingBandsDisjoint | VBDOTNET/Controllers/CompanyProviderController.cs:46-53 | a provider lies in at most one rating band |
| CompanyProviders.Index | VBDOTNET/Controllers/CompanyProviderController.cs:21-105 | a page number below 1 makes the query fail; otherwise the total counts the approved providers the region and rating filters keep, the page count is the ceiling of the total over twelve, and the page is exactly the window from (page - 1) * 12 of those providers in the chosen order, non-empty exactly when the page is within the page count, every item stored, approved and kept by the filters |
| CompanyProviders.Ordered | VBDOTNET/Controllers/CompanyProviderController.cs:58-71 | the ordered list is a permutation of the kept providers; for "rating" no provider comes after one with a lower average rating, providers without feedback last; for "projects" no provider comes after one with fewer contracts |
| CompanyProviders.RatingKeyOrder | VBDOTNET/Controllers/CompanyProviderController.cs:61-62 | sorting by the whole-number rating key, highest first, orders two providers exactly as ordering by their average ratings does, with no feedback lowest |
| CompanyProviders.ScaledFloorOrder | VBDOTNET/Controllers/CompanyProviderController.cs:61-62 | two averages of at most n ratings each, scaled by n * n and rounded down, compare exactly as the averages do |
| CompanyProviders.SortOf | VBDOTNET/Controllers/CompanyProviderController.cs:58-71 | "rating" chooses the rating order and "projects" the project order; any other value, "name" included, chooses the name order |
| RequestResponses.OpenRequest | VBDOTNET/Controllers/ProviderRequestResponseController.cs:127-133 | a direct request is found exactly when it is the caller's own bid and is UnderReview |
| RequestResponses.RespondAsWritten | VBDOTNET/Controllers/ProviderRequestResponseController.cs:113-163 | as written, a valid form whose notes are longer than the 255-character column fails to save and writes nothing, while any other valid form is stored |
| RequestResponses.LongNotesAreLost | VBDOTNET/ViewsModels/BidResponseViewModel.cs:17 | a response with 300 characters of notes passes the form's 500-character rule but cannot be saved |
| RequestResponses.Respond | VBDOTNET/Controllers/ProviderRequestResponseController.cs:113-163 | the response is stored exactly when the direct request is open and the form is valid with notes that fit the 255-character column; any other form is refused as invalid; only the bid's price, days and notes change, and its status stays UnderReview |
| RequestResponses.RespondMatchesAsWritten | VBDOTNET/Controllers/ProviderRequestResponseController.cs:135-155 | the corrected response succeeds on exactly the inputs the code saves, with the same result, and refuses as an invalid form exactly the valid responses whose save fails |
| RequestResponses.RespondEnablesDecision | VBDOTNET/Controllers/ProviderRequestResponseController.cs:147-151 | after the provider responds, the company that owns the request finds an answered bid it can accept or reject |
| RequestResponses.Decline | VBDOTNET/Controllers/ProviderRequestResponseController.cs:170-225 | an open direct request of the caller is deleted; when no UnderReview bid on its request remains, the request goes back to Pending whatever its status was, and otherwise nothing else changes |
| RequestResponses.DeclineReverts | VBDOTNET/Controllers/ProviderRequestResponseController.cs:198-215 | after a decline the request is Pending exactly when no UnderReview bid on it remains or it already was Pending; every other request is unchanged |
| RequestResponses.Waiting | VBDOTNET/Controllers/ProviderRequestResponseController.cs:43-48 | exactly the provider's UnderReview bids, latest submission first |
| RequestResponses.Index | VBDOTNET/Controllers/ProviderRequestResponseController.cs:29-68 | without a provider profile the page fails as such; a page number or page size below 1 makes the query fail; otherwise it counts all waiting requests, gives the number of pages and exactly the window of them from (page - 1) * size, non-empty exactly when the page is within the page count |
| CompanyContracts.CompanyContracts | VBDOTNET/Controllers/CompanyContractController.cs:33-43 | the company's contracts under the request filter: only the company's contracts on the chosen request, and every such contract is listed |
| CompanyContracts.Index | VBDOTNET/Controllers/CompanyContractController.cs:19-57 | without a company profile it fails; otherwise it lists only the company's contracts that have a Successful payment on some invoice |
| CompanyContracts.WaitingPayment | VBDOTNET/Controllers/CompanyContractController.cs:60-103 | without a company profile it fails; otherwise it lists only the company's contracts with no Successful payment on any invoice |
| CompanyContracts.PaidWaitingPartition | VBDOTNET/Controllers/CompanyContractController.cs:34-74 | under the same request filter, the paid list and the waiting list together are exactly the company's contracts, each once |
| CompanyContracts.WaitingPaymentCount | VBDOTNET/ViewsModels/CompanyContractsViewModel.cs:11-19 | no list counts 0; otherwise the count is at most the list's length and is the number of its contracts not paid |
| CompanyContracts.WaitingCountIsLength | VBDOTNET/ViewsModels/CompanyContractsViewModel.cs:16-17 | for the list the waiting page builds, the waiting count equals its length |
| CompanyContracts.OwnContract | VBDOTNET/Controllers/CompanyContractController.cs:167-173 | a contract is found exactly when the caller has a company profile and the contract with that key belongs to it |
| CompanyContracts.InvoiceNumber | VBDOTNET/Controllers/CompanyContractController.cs:195 | an invoice number starts with "INV-", then eight digits of date and a dash, then digits that read back as the contract's key |
| CompanyContracts.TransactionId | VBDOTNET/Controllers/CompanyContractController.cs:214 | a transaction id is "TXN-" followed by digits that read back as the instant's tick count |
| CompanyContracts.InvoiceFor | VBDOTNET/Controllers/CompanyContractController.cs:186-206 | the contract's first invoice is reused when there is one; otherwise a new invoice is appended under a fresh key, numbered for the contract and due 15 days after it is issued; either way the invoice belongs to the contract |
| CompanyContracts.Pay | VBDOTNET/Controllers/CompanyContractController.cs:157-247 | without a company profile it fails; it succeeds exactly for the caller's contract with a bid and a valid card form; then a Successful payment for the bid's price is appended whether or not the contract was paid before, the invoice's payment reference is overwritten, the bid's request becomes InProgress when it exists, and no other table changes |
| CompanyContracts.PayRecords | VBDOTNET/Controllers/CompanyContractController.cs:209-229 | after a successful payment step the new payment is the one appended row, Successful, for the bid's price, by the chosen method, on the chosen invoice, and the bid's request reads back InProgress when it exists |
| CompanyContracts.ProcessPaymentAsWritten | VBDOTNET/Controllers/CompanyContractController.cs:209-246 | as written, the invoice's payment reference is the unsaved payment's key, 0, so a payment that passes the checks fails to save unless a payment with key 0 already exists; the rollback then undoes everything, the new invoice included |
| CompanyContracts.NoPaymentAsWritten | VBDOTNET/Controllers/CompanyContractController.cs:216-246 | with payment keys starting at 1, as the identity column gives them, no payment as written is ever recorded: every one the corrected action records fails to save instead |
| CompanyContracts.ProcessPayment | VBDOTNET/Controllers/CompanyContractController.cs:157-247 | with the same guard, exactly one payment is appended under a fresh key: Successful, for the bid's price (0 without one), by the form's method or "credit_card", on the chosen invoice, which then refers to that payment's key; the bid's request reads back InProgress when it exists; contracts, bids and every other table are unchanged |
| CompanyContracts.PaymentMakesPaid | VBDOTNET/Controllers/CompanyContractController.cs:34 | after a payment the contract counts as paid |
| CompanyContracts.PayingTwiceSucceeds | VBDOTNET/Controllers/CompanyContractController.cs:186-219 | nothing stops a second payment of the same contract: it succeeds again and leaves two new payments |
| CompanyContracts.CreateContract | VBDOTNET/Controllers/CompanyContractController.cs:295-363 | the same guards as the bid page's contract creation; on success exactly one contract is appended under a fresh key, signed now, for that bid, with the uploaded document; earlier contracts stay, the bid reads back ContractCreated, and no other table changes |
| CompanyContracts.CreateContractPagesAgree | VBDOTNET/Controllers/CompanyContractController.cs:335-342 | creating a contract from this page and from the bid page succeed on the same inputs and give the same store, except that this page's new contract is signed now |
| CompanyPayments.OwnPayment | VBDOTNET/Controllers/CompanyPaymentController.cs:167-174 | a payment is found exactly when the caller has a company profile and the payment's invoice belongs to a contract of that company |
| CompanyPayments.TransactionId | VBDOTNET/Controllers/CompanyPaymentController.cs:193 | the gateway's transaction id is sixteen upper-case hexadecimal characters, the GUID's first sixteen upper-cased |
| CompanyPayments.Process | VBDOTNET/Controllers/CompanyPaymentController.cs:153-222 | succeeds exactly for the caller's Pending payment and a valid card form; when the gateway approves, the payment becomes Successful, dated now, by "credit_card", with a transaction id, and the paid request becomes InProgress when it exists; when the gateway declines, only the payment changes, to Failed |
| CompanyPayments.Retry | VBDOTNET/Controllers/CompanyPaymentController.cs:229-264 | succeeds exactly for the caller's Failed payment, which goes back to Pending; nothing else changes |
| CompanyPayments.ProcessTransition | VBDOTNET/Controllers/CompanyPaymentController.cs:172-209 | processing moves a payment from Pending to Successful or Failed, and to Successful exactly when the gateway approves |
| CompanyPayments.RetryTransition | VBDOTNET/Controllers/CompanyPaymentController.cs:246-253 | a retry moves a payment only from Failed to Pending |
| CompanyPayments.SuccessfulIsTerminal | VBDOTNET/Controllers/CompanyPaymentController.cs:172-248 | a Successful payment can be neither processed nor retried, and processing or retrying another payment leaves it as it is |
| CompanyPayments.Index | VBDOTNET/Controllers/CompanyPaymentController.cs:29-69 | without a company profile it fails; "all" lists every payment of the company, any other string exactly those whose status name is that string, newest first; a string that names no status lists nothing |
| CompanyInvoices.Index | VBDOTNET/Controllers/CompanyInvoiceController.cs:29-89 | without a company profile it fails; otherwise it holds exactly the company's invoices the status filter keeps, newest invoice date first: "paid" keeps a present Successful payment, "unpaid" the rest, "overdue" unpaid invoices due before now, and any other string keeps all |
| CompanyInvoices.PaidUnpaidPartition | VBDOTNET/Controllers/CompanyInvoiceController.cs:56-62 | the paid and unpaid lists together are exactly the company's invoices, each once |
| CompanyInvoices.OverdueWithinUnpaid | VBDOTNET/Controllers/CompanyInvoiceController.cs:64-67 | every overdue invoice is also in the unpaid list |
| CompanyInvoices.OtherStatusKeepsAll | VBDOTNET/Controllers/CompanyInvoiceController.cs:52-70 | a status other than the three filters, "all" included, lists every invoice of the company |
| CompanyInvoices.DownloadName | VBDOTNET/Controllers/CompanyInvoiceController.cs:212 | the file name is "invoice-", the invoice number, then ".txt", and its extension is ".txt" |
| CompanyInvoices.Download | VBDOTNET/Controllers/CompanyInvoiceController.cs:182-222 | a download succeeds exactly for an invoice of the caller's company and is named after that invoice |
| CompanyInvoices.PaymentMarksInvoicePaid | VBDOTNET/Controllers/CompanyInvoiceController.cs:56-58 | after the corrected payment, the invoice counts as paid |
| ProviderContracts.OwnContract | VBDOTNET/Controllers/ProviderContractController.cs:121-137 | a contract is found exactly when the caller has a provider profile and the contract exists and is that provider's; anything else is not found |
| ProviderContracts.Mine | VBDOTNET/Controllers/ProviderContractController.cs:36-37 | the list holds exactly the stored contracts of the provider |
| ProviderContracts.Matching | VBDOTNET/Controllers/ProviderContractController.cs:36-54 | exactly the provider's contracts the status filter keeps: "signed" keeps signed ones, "pending" unsigned ones, and any other value keeps all |
| ProviderContracts.Index | VBDOTNET/Controllers/ProviderContractController.cs:24-75 | without a provider profile the page fails; otherwise it counts every match and shows min(12, matches) of them, latest signature first, each the provider's own and kept by the filter, each at most as often as it is stored; no match left off the page was signed later than one on it |
| ProviderContracts.FirstPageOfSorted | VBDOTNET/Controllers/ProviderContractController.cs:57-63 | the first page of a sorted list is exactly its first min(size, length) items, still sorted, and nothing after them comes before any of them |
| ProviderContracts.SignedPendingPartition | VBDOTNET/Controllers/ProviderContractController.cs:44-54 | the signed count plus the pending count is the count of all the provider's contracts |
| ProviderContracts.ShowSign | VBDOTNET/Controllers/ProviderContractController.cs:78-114 | the signing page opens exactly for the caller's own unsigned contract; an already signed one is refused |
| ProviderContracts.Sign | VBDOTNET/Controllers/ProviderContractController.cs:119-190 | a foreign or missing contract is not found, unaccepted terms are refused; the contract is signed exactly when the terms are accepted, a non-empty file ending in ".pdf" (any case) is posted and the upload gives a path; then only its document and sign date change |
| ProviderContracts.SignTwiceSucceeds | VBDOTNET/Controllers/ProviderContractController.cs:130-178 | signing does not check an earlier signature: after one signature the signing page is refused, yet signing again succeeds and moves the sign date |
| ProviderContracts.SignedContractListed | VBDOTNET/Controllers/ProviderContractController.cs:44-54 | a contract just signed is listed under "signed" and no longer under "pending" |
| ProviderContracts.Show | VBDOTNET/Controllers/ProviderContractController.cs:193-229 | the caller's own contract is shown with its shipment record of latest start, when it has any |
| ProviderContracts.DocumentName | VBDOTNET/Controllers/ProviderContractController.cs:267 | the download is named "Contract-", the contract key in decimal, then ".pdf", and the key can be read back from it |
| ProviderContracts.DownloadDocument | VBDOTNET/Controllers/ProviderContractController.cs:232-269 | a document is served exactly for the caller's own contract with a stored document whose file exists, under the name built from the key |
| ProviderShipments.OwnContract | VBDOTNET/Controllers/ProviderShipmentController.cs:56-59 | without a provider profile the action fails; otherwise a contract is found exactly when it exists and is the provider's |
| ProviderShipments.OwnSnapshot | VBDOTNET/Controllers/ProviderShipmentController.cs:103-106 | a shipment record is found exactly when the caller has a provider profile and the record's contract is that provider's |
| ProviderShipments.Index | VBDOTNET/Controllers/ProviderShipmentController.cs:16-29 | the list holds exactly the records on the provider's contracts, with the given status when one other than "all" is named, latest start first |
| ProviderShipments.Create | VBDOTNET/Controllers/ProviderShipmentController.cs:31-47 | the caller's own contract opens the form when it has no shipment record, and otherwise points at an existing record of that contract |
| ProviderShipments.TrackingNumber | VBDOTNET/Controllers/ProviderShipmentController.cs:66 | the tracking number starts "TRK-" and, for four-digit years, ends after the date and a dash with the contract key in decimal |
| ProviderShipments.Store | VBDOTNET/Controllers/ProviderShipmentController.cs:51-80 | for the caller's own contract a record is appended under a fresh key with the tracking number, status Received, the start time and no delivery time; nothing else changes |
| ProviderShipments.StoreTwiceDuplicates | VBDOTNET/Controllers/ProviderShipmentController.cs:51-70 | storing does not check for an existing record: a second store appends a second Received record for the same contract |
| ProviderShipments.History | VBDOTNET/Controllers/ProviderShipmentController.cs:90 | the history holds exactly the records with the tracking number, earliest start first |
| ProviderShipments.Show | VBDOTNET/Controllers/ProviderShipmentController.cs:82-94 | the caller's own record is shown with its history, which contains it |
| ProviderShipments.Next | VBDOTNET/Controllers/ProviderShipmentController.cs:108-115 | the new record keeps the contract and tracking number, takes the posted status and the current time, and has a delivery time exactly when the status is Delivered |
| ProviderShipments.UpdateStatus | VBDOTNET/Controllers/ProviderShipmentController.cs:98-128 | it succeeds exactly for the caller's own record and a status that fits the 50-character column; a longer status fails to save and writes nothing; on success a new record is appended under a fresh key and the old records stay unchanged |
| ProviderShipments.UpdateExtendsHistory | VBDOTNET/Controllers/ProviderShipmentController.cs:90-117 | after an update the tracking number's history is the old history plus exactly the new record |
| ProviderShipments.UpdatedSnapshotIsOwn | VBDOTNET/Controllers/ProviderShipmentController.cs:108-121 | the new record is again the provider's own and shares the tracking number, so it can be shown and updated in turn |
| CompanyTracking.CompanyContract | VBDOTNET/Controllers/CompanyTrackingController.cs:147-150 | the contract found has the key asked for and belongs to the company; nothing is found exactly when no such contract exists |
| CompanyTracking.Delivered | VBDOTNET/Controllers/CompanyTrackingController.cs:155-156 | exactly the contract's snapshots that carry a delivery time |
| CompanyTracking.Latest | VBDOTNET/Controllers/CompanyTrackingController.cs:155-158 | there is no latest snapshot exactly when none of the contract's snapshots has a delivery time; otherwise it is one of them with a delivery time no earlier than any other's |
| CompanyTracking.ByTrackingNumber | VBDOTNET/Controllers/CompanyTrackingController.cs:74-85 | nothing is found exactly when none of the snapshots carries the tracking number on a contract of the company; otherwise the contract is the one of the first such snapshot in table order, and it is stored and belongs to the company |
| CompanyTracking.View | VBDOTNET/Controllers/CompanyTrackingController.cs:52-117 | with no contract selected the page is empty; otherwise it shows the contract's snapshots, a permutation ordered by start date, and its latest delivered snapshot; feedback can be given exactly when that snapshot is "Delivered", and has been given exactly when the company has feedback on it |
| CompanyTracking.Show | VBDOTNET/Controllers/CompanyTrackingController.cs:29-126 | without a company profile it fails; a contract key selects the company's contract with that key, else a non-blank tracking number selects by number, else nothing is selected |
| CompanyTracking.FeedbackTarget | VBDOTNET/Controllers/CompanyTrackingController.cs:141-175 | feedback has a target exactly when the caller has a company, the contract is the company's, its latest snapshot exists and is "Delivered", and the company has no feedback on that snapshot yet |
| CompanyTracking.StoreFeedbackAsWritten | VBDOTNET/Controllers/CompanyTrackingController.cs:177-194 | as written, a valid form whose comments are longer than the 255-character column fails to save, while any other valid form is stored |
| CompanyTracking.LongCommentIsLost | VBDOTNET/ViewsModels/FeedbackViewModel.cs:15 | a 300-character comment passes the form's 10 to 500 rule but cannot be saved |
| CompanyTracking.StoreFeedback | VBDOTNET/Controllers/CompanyTrackingController.cs:133-204 | a failed check reports its own error; with a target and a form that is valid and fits the column, exactly one feedback is appended carrying the form's rating and comments, the contract's provider, the latest snapshot and the caller's company; nothing else changes |
| CompanyTracking.FeedbackOnce | VBDOTNET/Controllers/CompanyTrackingController.cs:166-175 | after feedback is stored, a second attempt on the same contract is refused as existing, and the page shows that feedback was given |
| CompanyTracking.PageAgreesWithStore | VBDOTNET/Controllers/CompanyTrackingController.cs:101-109 | the page offers the feedback form exactly when storing feedback would find a target |
| Front.ParseBand | VBDOTNET/Controllers/FrontController.cs:61-68 | exactly the four listed ranges "0-100", "100-500", "500-1000" and "1000+" name a weight band; any other value filters nothing |
| Front.BandOf | VBDOTNET/Controllers/FrontController.cs:63-66 | every weight falls in a band |
| Front.BandsPartition | VBDOTNET/Controllers/FrontController.cs:63-66 | the four weight bands do not overlap: a weight is in a band exactly when that band is its own |
| Front.KeepsIff | VBDOTNET/Controllers/FrontController.cs:40-72 | a request passes all the filled-in filters exactly when it passes each of the six filters, taken in the order the action applies them |
| Front.Narrow | VBDOTNET/Controllers/FrontController.cs:40-72 | applying the filled-in filters only removes requests from the list |
| Front.NarrowIsFilter | VBDOTNET/Controllers/FrontController.cs:40-72 | applying the filled-in filters one after another keeps exactly the requests that pass all of them, in their original order |
| Front.WhenIsFilter | VBDOTNET/Controllers/FrontController.cs:50-57 | a filter applied only when its value is filled in is the same as one filter that lets everything through when the value is empty |
| Front.Matching | VBDOTNET/Controllers/FrontController.cs:32-72 | the public list holds only stored requests, none repeated |
| Front.MatchingIsFilter | VBDOTNET/Controllers/FrontController.cs:32-72 | a request is listed exactly when it is stored, is Pending or Bidding, and passes every filled-in filter |
| Front.MoreFiltersFewerRequests | VBDOTNET/Controllers/FrontController.cs:40-72 | filling in more filters can only remove requests from the list |
| Front.ClosedStatusListsNothing | VBDOTNET/Controllers/FrontController.cs:35-72 | asking for any status other than Pending or Bidding lists nothing, because only open requests are listed |
| Front.Order | VBDOTNET/Controllers/FrontController.cs:75-81 | "deadline" sorts by earliest deadline, "weight" by heaviest first, and every other value, or none, by newest request first |
| Front.Sorted | VBDOTNET/Controllers/FrontController.cs:75-81 | the sorted list is a permutation of the matching requests, ordered by the requested key and direction |
| Front.BidCounts | VBDOTNET/Controllers/FrontController.cs:94-99 | the bid-count map has an entry exactly for each shown request that has bids, and that entry is its number of bids |
| Front.BidsOnAreBids | VBDOTNET/Controllers/FrontController.cs:95-97 | every bid counted for a request is a stored bid on that request |
| Front.Shipments | VBDOTNET/Controllers/FrontController.cs:30-122 | a page number below 1 makes the query fail; otherwise the page reports the number of matches, a page size of 12 and the requested page (1 when none); it shows exactly the window of the sorted matches from (page - 1) * 12, non-empty exactly when the page is within the page count, every item stored, open and kept by the filters; each shown request's bid count is the number of its bids; the goods types are exactly those of open requests; the regions are the fixed region list |
| Front.GoodsTypes | VBDOTNET/Controllers/FrontController.cs:101-106 | a goods type is offered exactly when some Pending or Bidding request has it |
| Front.PageMembers | VBDOTNET/Controllers/FrontController.cs:84-91 | every request on a page of the sorted matches is stored, open and kept by the filters |
| Front.ShipmentDetails | VBDOTNET/Controllers/FrontController.cs:128-159 | an unknown request is not found; otherwise the request, all of its bids cheapest first, and statistics that are all zero without bids and otherwise the mean, minimum and maximum price; the bidder count is the number of distinct providers among the request's bids |
| CompanyDashboard.Counters | VBDOTNET/Controllers/CompanyController.cs:26-49 | the in-progress, pending and delivered counts are exactly the company's requests in each of those statuses, together at most all its requests; the contract count is the company's contracts; the open-bid count is exactly the Submitted bids on the company's requests; the total spent is what the company's contracts are worth together |
| CompanyDashboard.StatusCountsDisjoint | VBDOTNET/Controllers/CompanyController.cs:28-41 | the three request counts are over disjoint status sets, so they add up to at most the company's requests |
| CompanyDashboard.Figures | VBDOTNET/Controllers/CompanyController.cs:74-86 | exactly twelve figures, the m-th being what the company spent on contracts signed in month m of the year |
| CompanyDashboard.MonthlySpending | VBDOTNET/Controllers/CompanyController.cs:69-94 | twelve figures for the current year, one per month, which add up to what the company spent on contracts signed that year |
| CompanyDashboard.AddedMonths | VBDOTNET/Controllers/CompanyController.cs:74-86 | the first k monthly figures add up to what was spent on contracts signed in the first k months |
| CompanyDashboard.SpentThroughMonth | VBDOTNET/Controllers/CompanyController.cs:76-83 | the spending through month k is the spending through month k-1 plus the spending in month k |
| CompanyDashboard.YearSpending | VBDOTNET/Controllers/CompanyController.cs:76-83 | the spending through December is the spending on all contracts signed in that year |
| CompanyDashboard.NewestRequests | VBDOTNET/Controllers/CompanyController.cs:104-108 | min(3, the company's request count) of the company's requests, each at most as often as stored, newest request date first, and no request of the company left out was requested later than one kept |
| CompanyDashboard.RequestLines | VBDOTNET/Controllers/CompanyController.cs:104-117 | one line per request of the company's three newest, in the same order, so as many lines as min(3, its request count), each dated and labelled from its request |
| CompanyDashboard.NewestContracts | VBDOTNET/Controllers/CompanyController.cs:120-126 | min(3, the company's contract count) of the company's contracts, each at most as often as stored, latest signature first, and no contract of the company left out was signed later than one kept |
| CompanyDashboard.ContractLines | VBDOTNET/Controllers/CompanyController.cs:120-135 | one line per contract of the company's three latest-signed, in the same order, so as many lines as min(3, its contract count), each dated from its signature |
| CompanyDashboard.Candidates | VBDOTNET/Controllers/CompanyController.cs:104-135 | at most six lines, each from one of the company's requests or contracts |
| CompanyDashboard.RecentActivities | VBDOTNET/Controllers/CompanyController.cs:99-138 | up to five of the candidate lines, newest first, each at most as often as it is a candidate, and no candidate left out is newer than a line shown |
| CompanyDashboard.Dashboard | VBDOTNET/Controllers/CompanyController.cs:16-63 | without a company profile it fails as such; otherwise it shows the counters, twelve monthly figures adding up to the year's spending, and the recent activity |
| CompanyDashboard.VerifyPasswordAsWritten | VBDOTNET/Controllers/CompanyController.cs:272-276 | as written, every password is accepted |
| CompanyDashboard.DeleteAccountAsWritten | VBDOTNET/Controllers/CompanyController.cs:211-267 | as written, deletion succeeds exactly for a filled form, a user with a company profile, and no request, contract or feedback of the company and no other profile of the user referring to them; with such rows the save fails and is rolled back; on success both are removed |
| CompanyDashboard.AnyPasswordDeletes | VBDOTNET/Controllers/CompanyController.cs:224 | a password that does not match the stored hash is never refused as such: the account is deleted exactly when no other row refers to it, while the checked `DeleteAccount` refuses that password |
| CompanyDashboard.DeleteAccount | VBDOTNET/Controllers/CompanyController.cs:211-267 | deletion succeeds exactly when in addition the password verifies against the stored hash and no other row refers to the company or the user; a wrong password is refused; a right one with referring rows fails to save; on success the user and its company are gone and nothing else changes |
| Admin.Negate | VBDOTNET/Controllers/AdminController.cs:70 | negating a nullable approval flag keeps it set exactly when it was set and flips a set value |
| Admin.NegateTwice | VBDOTNET/Controllers/AdminController.cs:70 | negating the flag twice gives back the original flag, unset included |
| Admin.ToggleMessage | VBDOTNET/Controllers/AdminController.cs:72 | the flash message says "approved" only when the new flag is true and "disapproved" otherwise, unset included |
| Admin.ToggleCompany | VBDOTNET/Controllers/AdminController.cs:63-79 | an unknown company key is NotFound; otherwise that company's flag is negated, every other company reads back unchanged and no other table changes |
| Admin.ToggleProvider | VBDOTNET/Controllers/AdminController.cs:106-122 | the same for a provider |
| Admin.ToggleCompanyTwice | VBDOTNET/Controllers/AdminController.cs:63-79 | toggling an existing company twice succeeds and every company reads back as before |
| Admin.ToggleProviderTwice | VBDOTNET/Controllers/AdminController.cs:106-122 | toggling an existing provider twice succeeds and every provider reads back as before |
| Admin.Counters | VBDOTNET/Controllers/AdminController.cs:19-30 | the user total counts company and provider accounts and leaves administrators out; the approved providers and the waiting providers are counted exactly, and together they are the providers whose flag is set; active requests plus delivered or cancelled ones make up all requests; revenue is the sum of the stored report totals, a missing one counting 0 |
| Admin.RecentShipments | VBDOTNET/Controllers/AdminController.cs:32 | up to five stored requests, each at most as often as stored, newest first, and no request left out is newer than one shown |
| Admin.RecentContracts | VBDOTNET/Controllers/AdminController.cs:33 | up to five stored contracts, each at most as often as stored, latest signed first, and no contract left out was signed later than one shown |
| Admin.PendingApprovals | VBDOTNET/Controllers/AdminController.cs:34 | the first providers, in table order, whose flag is false, as many as there are up to five |
| Admin.AdminDashboard | VBDOTNET/Controllers/AdminController.cs:17-37 | the dashboard carries the counters, the five most recent shipments, the five most recent contracts and the providers awaiting approval; each list has at most five entries, and the waiting list is non-empty exactly when some provider waits |
| Admin.Companies | VBDOTNET/Controllers/AdminController.cs:39-61 | one entry per company in table order; each count is the number of that company's requests or contracts, and it is positive exactly when such a row exists |
| Admin.Providers | VBDOTNET/Controllers/AdminController.cs:81-104 | one entry per provider in table order with the number of its bids and contracts; the bid count is positive exactly when the provider has a bid |
| Admin.ShipmentRequests | VBDOTNET/Controllers/AdminController.cs:124-145 | a permutation of the stored requests, newest first, each with the number of bids placed on it |
| Admin.Contracts | VBDOTNET/Controllers/AdminController.cs:191-203 | a permutation of the stored contracts, latest signed first |
| Admin.Feedbacks | VBDOTNET/Controllers/AdminController.cs:211-226 | a permutation of the stored feedback, newest first |
| Admin.DeleteShipment | VBDOTNET/Controllers/AdminController.cs:149-164 | an unknown key is NotFound; a request that bids refer to fails to save and stays; otherwise exactly the rows with that key are gone, the table is shorter and no other table changes |
| Admin.DeleteBid | VBDOTNET/Controllers/AdminController.cs:166-184 | the same for a bid, which stays while a contract refers to it |
| Admin.DeleteFeedback | VBDOTNET/Controllers/AdminController.cs:228-245 | the same for a feedback |
| Admin.DeleteShipmentCounts | VBDOTNET/Controllers/AdminController.cs:149-164 | in a table with unique keys, deleting an existing request that no bid refers to lowers the dashboard's request total by exactly one |
| Reports.Commission | VBDOTNET/Controllers/ReportController.cs:91-92 | the commission is exactly 10 % of the amount |
| Reports.Sales | VBDOTNET/Controllers/ReportController.cs:48-55 | one sale per signed contract, in order, carrying its sign date and its bid's price (0 without a bid or a price) |
| Reports.BetweenExtend | VBDOTNET/Controllers/ReportController.cs:110-127 | the revenue of months lo to hi + 1 is that of lo to hi plus that of month hi |
| Reports.MonthTotalIsBetween | VBDOTNET/Controllers/ReportController.cs:112-117 | a month's revenue is the revenue of the sales signed from its first day up to, not including, the first day of the next month |
| Reports.BetweenEmpty | VBDOTNET/Controllers/ReportController.cs:110 | an empty range of months has no revenue |
| Reports.BetweenAll | VBDOTNET/Controllers/ReportController.cs:110-117 | when every sale falls in the range of months, the range's revenue is the total revenue |
| Reports.BetweenIsRangeSum | VBDOTNET/Controllers/ReportController.cs:110-127 | the revenue of a range of months is the sum of the monthly revenues over it |
| Reports.MonthlyRevenue | VBDOTNET/Controllers/ReportController.cs:100-130 | one line per month from the start's month to the end's month (none when the end's month comes first), each with that month's revenue and its commission; when every sale lies in the period the lines add up to the total revenue |
| Reports.LinesAreMonths | VBDOTNET/Controllers/ReportController.cs:119-124 | each line names its month and carries that month's revenue and 10 % of it |
| Reports.LinesAddUp | VBDOTNET/Controllers/ReportController.cs:110-127 | lines covering the start's month to the end's month add up to the total revenue of sales inside the period |
| Reports.MonthLines | VBDOTNET/Controllers/ReportController.cs:106-129 | the loop emits one line per month from the first to the last, in order, and their revenues sum to the totals of those months |
| Reports.RevenuesAppend | VBDOTNET/Controllers/ReportController.cs:119 | appending a line adds its revenue to the lines' total |
| Reports.PeriodRevenue | VBDOTNET/Controllers/ReportController.cs:107-127 | when every sale lies between start and end, the months from the start's to the end's hold all of the revenue, and a period holding a sale has its start month no later than its end month |
| Reports.CountStanding | VBDOTNET/Controllers/ReportController.cs:66-83 | the contracts counted under one standing are at most all of them |
| Reports.PaymentBreakdown | VBDOTNET/Controllers/ReportController.cs:59-83 | the counters are exactly "Completed", "Pending" and "Failed"; every contract is counted under exactly one of them, Successful as Completed, Failed or Refunded as Failed, and anything else, or no invoice or payment, as Pending |
| Reports.TopTen | VBDOTNET/Controllers/ReportController.cs:146-148 | at most ten candidates, each at most as often as it is a candidate, all with a positive amount, highest first, as many as there are positive candidates up to ten, and none left out that has more than one listed |
| Reports.PositiveLeftOutNotHigher | VBDOTNET/Controllers/ReportController.cs:146-148 | after keeping the positive candidates and taking the ten highest, every listed one is a positive candidate and no positive candidate left out has more than a listed one |
| Reports.TopTenRanks | VBDOTNET/Controllers/ReportController.cs:132-170 | the top ten of the candidates built from a list of keys lists as many keys as spent something in the period, up to ten, with their real spending and contract count, highest first, and leaves out no key that spent more than a listed one |
| Reports.SpendersArePositive | VBDOTNET/Controllers/ReportController.cs:146-148 | the candidates with a positive amount are exactly as many as the keys that spent something in the period |
| Reports.Candidates | VBDOTNET/Controllers/ReportController.cs:137-145 | one ranking entry per key, in order, carrying that key's spending and contract count in the period |
| Reports.ApprovedCompanies | VBDOTNET/Controllers/ReportController.cs:134-135 | a key is listed exactly when some approved company has it |
| Reports.ApprovedProviders | VBDOTNET/Controllers/ReportController.cs:154-155 | a key is listed exactly when some approved provider has it |
| Reports.TopCompanies | VBDOTNET/Controllers/ReportController.cs:132-150 | as many approved companies as spent something in the period, up to ten, highest spending first, each listed with what its contracts signed in the period cost and how many were signed; no approved company left out spent more than a listed one |
| Reports.TopProviders | VBDOTNET/Controllers/ReportController.cs:152-170 | as many approved providers as earned something in the period, up to ten, highest earnings first, each listed with what its contracts signed in the period earned and how many were signed; no approved provider left out earned more than a listed one |
| Reports.PeriodContracts | VBDOTNET/Controllers/ReportController.cs:48-53 | exactly the contracts signed between start and end inclusive |
| Reports.Revenue | VBDOTNET/Controllers/ReportController.cs:17-43 | the period defaults to one month before now until now; there is no report when a month before now does not exist, when a bound of the period lies before 1753, which the query's `datetime` parameters cannot hold, or when the monthly loop would step past December 9999, where `AddMonths` throws; otherwise the report lists exactly the period's contracts, and its revenue is their bids' total; every contract is counted under exactly one payment label; the rate is 10 % and the commission 10 % of the revenue; the monthly lines carry each month's revenue from the start's month to the end's and add up to the total; the rankings are the top companies and top providers of the period |
| Services.ShipmentStatusColor | VBDOTNET/Infrastructure/Services.cs:18-29 | each request status's stored name gets that status's Bootstrap colour; every other string, DirectRequest included, gets "secondary" |
| Services.BidStatusColor | VBDOTNET/Infrastructure/Services.cs:31-39 | each bid status's stored name gets its colour; ContractCreated and any other string get "secondary" |
| Services.PaymentStatusColor | VBDOTNET/Infrastructure/Services.cs:41-49 | each payment status's stored name gets its colour; any other string gets "secondary" |
| Services.PaymentStatusIcon | VBDOTNET/Infrastructure/Services.cs:51-59 | each payment status's stored name gets its icon; any other string gets "question-circle" |
| Services.ColorsFollowStatuses | VBDOTNET/Infrastructure/Services.cs:18-59 | the colour and icon looked up from a status's stored name are the ones that status is given |
| Services.AverageRating | VBDOTNET/Infrastructure/Services.cs:244 | no feedback averages to 0; otherwise the average times the number of feedbacks is the sum of the ratings, a missing one counting 0; ratings between 0 and 5 average to between 0 and 5 |
| Services.AverageIsMean | VBDOTNET/Infrastructure/Services.cs:244 | the average rating of a list of feedback is its mean: times the list's length it gives the sum of the ratings, and it is 0 for an empty list |
| Services.RatingsBounded | VBDOTNET/Infrastructure/Services.cs:244 | ratings between 0 and 5 sum to between 0 and five times their number |
| Services.MeanBounds | VBDOTNET/Infrastructure/Services.cs:244 | a total of at most 5 per item averages to between 0 and 5 |
| Services.Sidebar | VBDOTNET/Infrastructure/Services.cs:211-251 | without a user id or a provider profile the sidebar is empty; otherwise it counts all the provider's bids, contracts and reviews, the open bids and direct requests together are at most all bids, and the rating is the average rating of the provider's feedback, 0 with no reviews |
| Services.SidebarAverage | VBDOTNET/Infrastructure/Services.cs:238-246 | the sidebar's rating times its review count is the sum of the provider's ratings, a missing one counting 0, and is 0 with no reviews |
| Services.SidebarCounts | VBDOTNET/Infrastructure/Services.cs:224-246 | the open bids are exactly the provider's Submitted bids and the direct requests exactly its UnderReview bids |
| Uploads.TrimStart | VBDOTNET/Infrastructure/Services.cs:146 | removes exactly the leading dashes: what remains is a suffix not starting with a dash, and what went was dashes |
| Uploads.TrimEnd | VBDOTNET/Infrastructure/Services.cs:146 | removes exactly the trailing dashes |
| Uploads.Strip | VBDOTNET/Infrastructure/Services.cs:143 | only lower-case letters, digits, white space and dashes remain, and no letter or digit is lost |
| Uploads.StripKeeps | VBDOTNET/Infrastructure/Services.cs:143 | text made only of kept characters passes unchanged |
| Uploads.Slugify | VBDOTNET/Infrastructure/Services.cs:139-147 | missing or empty text gives "file"; otherwise the result is a slug (lower-case letters, digits and single inner dashes) with exactly the letters and digits of the lower-cased text, empty exactly when it has none |
| Uploads.SlugSteps | VBDOTNET/Infrastructure/Services.cs:143-146 | turning white-space runs into dashes, merging dash runs and trimming dashes gives a slug with the same letters and digits |
| Uploads.TrimmedSlug | VBDOTNET/Infrastructure/Services.cs:146 | trimming the dashes of text without double dashes gives a slug with the same letters and digits |
| Uploads.MergeNoDoubleDash | VBDOTNET/Infrastructure/Services.cs:145 | after merging dash runs no two dashes are adjacent |
| Uploads.SlugFixed | VBDOTNET/Infrastructure/Services.cs:139-147 | a non-empty slug is its own slug |
| Uploads.SlugifySteps | VBDOTNET/Infrastructure/Services.cs:142-146 | the slug of non-empty text is the four replacement steps applied in order |
| Uploads.SlugifyIdempotent | VBDOTNET/Infrastructure/Services.cs:139-147 | slugifying a non-empty slug again changes nothing |
| Uploads.SymbolsOnly | VBDOTNET/Infrastructure/Services.cs:141-146 | text of symbols only slugifies to the empty string, and slugifying that gives "file": slugify is not idempotent on empty results |
| Uploads.Upload | VBDOTNET/Infrastructure/Services.cs:87-116 | a path comes back exactly when the file has content and the write succeeds; it lies under "/path/", ends with slug, date, eight GUID characters, and keeps the posted file's extension |
| Uploads.UploadKeepsExtension | VBDOTNET/Infrastructure/Services.cs:95-109 | the stored path's extension is the posted file name's extension |
| Uploads.StoredUnder | VBDOTNET/Infrastructure/Services.cs:95-109 | a plain non-empty stem followed by the file's extension, placed under a folder, keeps that extension |
| Uploads.PlainStemExtension | VBDOTNET/Infrastructure/Services.cs:97 | a name of a dot-free stem and an extension, after a separator, has exactly that extension |
| Uploads.StemPlain | VBDOTNET/Infrastructure/Services.cs:93-97 | the slug, date and GUID part of a stored name holds no dot or directory separator |
| Uploads.SlugIsPlain | VBDOTNET/Infrastructure/Services.cs:143-146 | a slug holds no dot or directory separator |
| Uploads.NoExtensionAfterSlash | VBDOTNET/Infrastructure/Services.cs:95 | a path whose last segment has no dot has no extension |
| Documents.ContractDocumentIff | VBDOTNET/Controllers/CompanyBidController.cs:254-258 | a contract document is accepted exactly when its file name ends in ".pdf", ".doc" or ".docx", in any mix of upper and lower case |
| Documents.ContractListed | VBDOTNET/Controllers/CompanyContractController.cs:319 | the contract extensions are exactly ".pdf", ".doc" and ".docx" |
| Documents.ExtensionIff | VBDOTNET/Controllers/CompanyContractController.cs:319-321 | the lower-cased extension of a file name is one of the listed document extensions exactly when the name ends with it, ignoring case |
| Documents.SignedDocumentIff | VBDOTNET/Controllers/ProviderContractController.cs:153-155 | a signed contract upload is accepted exactly when its file name ends in ".pdf", ignoring case |
| Documents.PlainExtensions | VBDOTNET/Controllers/CompanyContractController.cs:319 | each accepted document extension is a dot followed by letters only, so it is the whole extension of any name that ends with it |
| Calendar.YearLength | VBDOTNET/Controllers/CompanyContractController.cs:197 | a Gregorian year has 365 or 366 days |
| Calendar.DaysInMonth | VBDOTNET/Controllers/ReportController.cs:112 | every month has between 28 and 31 days |
| Calendar.DaysBeforeNextMonth | VBDOTNET/Controllers/ReportController.cs:112 | the days before a month plus its own days are the days before the next month, and the days before month 13 are the year's length |
| Calendar.FirstOfMonth | VBDOTNET/Controllers/ReportController.cs:107-108 | the first of a month is a valid date at midnight on day 1 and falls in that month |
| Calendar.NextDay | VBDOTNET/Controllers/CompanyContractController.cs:197 | the next day is a valid date at the same time of day, exactly one day of ticks later |
| Calendar.AddDays | VBDOTNET/Controllers/CompanyContractController.cs:197 | adding days gives a valid date at the same time of day |
| Calendar.AddDaysTicks | VBDOTNET/Controllers/CompanyShipmentController.cs:132 | adding n days moves the tick count forward by exactly n days |
| Calendar.AddMonths | VBDOTNET/Controllers/ReportController.cs:21 | adding n months lands n months later at the same time of day, on the same day of the month, or on the last day when the target month is shorter |
| Calendar.MonthStartNext | VBDOTNET/Controllers/ReportController.cs:112 | the next month starts exactly the length of this month after this month starts, across year ends included |
| Calendar.MonthStartMonotone | VBDOTNET/Controllers/ReportController.cs:110 | later months never start earlier |
| Calendar.DayNumberInMonth | VBDOTNET/Controllers/ReportController.cs:114 | every valid date lies between the start of its month and the start of the next |
| Calendar.InMonthIff | VBDOTNET/Controllers/ReportController.cs:114 | a date lies at or after the first of a month and before the first of the next exactly when it falls in that month |
| Calendar.InMonthDays | VBDOTNET/Controllers/ReportController.cs:114 | the same statement on day numbers |
| Calendar.EarlierMonth | VBDOTNET/Controllers/ReportController.cs:114 | a date in an earlier month comes before the start of a later month |
| Calendar.LaterMonth | VBDOTNET/Controllers/ReportController.cs:114 | a date in a later month comes no earlier than the end of an earlier month |
| Calendar.MonthsFollowTicks | VBDOTNET/Controllers/ReportController.cs:52 | a date in an earlier month has fewer ticks, so the month order agrees with the date order |
| Calendar.CompactDate | VBDOTNET/Controllers/CompanyContractController.cs:195 | the `yyyyMMdd` rendering is all digits and, for four-digit years, is eight characters that read back as the year, month and day |
| Calendar.IsoDate | VBDOTNET/Infrastructure/Services.cs:94 | the `yyyy-MM-dd` rendering has dashes at positions 4 and 7 and digit fields that read back as the year, month and day |
| Calendar.FieldWidths | VBDOTNET/Infrastructure/Services.cs:94 | a padded month and day are two characters each, and a padded four-digit year is four |
| Calendar.DatedNumber | VBDOTNET/Controllers/ProviderShipmentController.cs:66 | a dated number starts with its four-character prefix; for four-digit years, eight digits of date follow, then a dash, then digits that read back as the id |
| Text.Lower | VBDOTNET/Infrastructure/Services.cs:142 | lower-casing keeps the length and lower-cases each character in place |
| Text.NatToString | VBDOTNET/Controllers/ProviderContractController.cs:267 | a key prints as a non-empty run of digits without a leading zero |
| Text.ParseNatToString | VBDOTNET/Controllers/ProviderContractController.cs:267 | reading back a printed key gives the key |
| Text.NatToStringInjective | VBDOTNET/Controllers/ProviderShipmentController.cs:66 | different keys print differently |
| Text.Pad | VBDOTNET/Controllers/CompanyContractController.cs:195 | a zero-padded number is all digits, has the field width when the number fits, and reads back as the number |
| Text.GetExtension | VBDOTNET/Infrastructure/Services.cs:95 | the extension is empty or a dot, at least one more character and a suffix of the path, with no further dot or separator |
| Text.ExtensionIsSuffix | VBDOTNET/Controllers/CompanyContractController.cs:320 | a lower-cased extension equal to e means the name ends with e, ignoring case |
| Text.SuffixIsExtension | VBDOTNET/Controllers/CompanyContractController.cs:320-321 | a name that ends with a plain extension, ignoring case, has that extension once lower-cased |
| Listing.Page | VBDOTNET/Controllers/ProviderRequestResponseController.cs:51-54 | a page holds at most the page size |
| Listing.PageWindow | VBDOTNET/Controllers/ProviderRequestResponseController.cs:51-54 | page p of size n is the n items from (p - 1) * n, fewer at the end of the list |
| Listing.NonEmptyPages | VBDOTNET/Controllers/ProviderRequestResponseController.cs:51-59 | for a positive page size and a page number from 1 on, a page is non-empty exactly when its number is at most the page count |
| Listing.OffsetFetch | VBDOTNET/Controllers/ProviderRequestResponseController.cs:50-54 | the database runs a page query exactly when the page number and page size are both at least 1; the result is then the window from (page - 1) * size, non-empty exactly when the page is within the page count |
| Listing.TotalPages | VBDOTNET/Controllers/ProviderRequestResponseController.cs:59 | the page count is the fewest pages that hold every item, and zero exactly when there are no items |
| Listing.PagesCover | VBDOTNET/Controllers/ProviderRequestResponseController.cs:51-54 | the first n pages together are the first n times size items |
| Listing.TopBy | VBDOTNET/Controllers/ReportController.cs:147-148 | taking the first n after sorting keeps min(n, length) items, each at most as often as in the list, sorted, and none left out comes before one kept |
| Listing.DistinctCount | VBDOTNET/Controllers/FrontController.cs:148 | a non-empty list has between one and its length distinct keys |
| Listing.MinOf | VBDOTNET/Controllers/FrontController.cs:146 | the minimum is at most every value and is one of them |
| Listing.MaxOf | VBDOTNET/Controllers/FrontController.cs:147 | the maximum is at least every value and is one of them |

## Left out

- Views, redirects, flash messages and logging are not modelled. An action gives back the new store or an error kind. The only message texts modelled are those of the validation attributes and of the approval toggle.
- Exceptions and transaction rollback are not modelled. The `try`/`catch` blocks return the same failure as a refused guard, and a refusal writes nothing.
- Foreign keys are modelled where a save can break one. A delete fails while other rows still refer to the row, because no foreign key cascades and the actions never load the referring rows. The contract's shipment reference and the invoice's payment reference are under Findings. An insert whose keys the action has just looked up is not checked again. There is no administrator table, so an administrator profile referring to a user (`FK_Admin_User`) is not counted among the rows that block deleting that user's account.
- The caller's user key is an input. The redirect to the login page when the claim is missing is not modelled. `Services.Sidebar` is the exception: it does take the parsed claim as an option.
- Read-only pages whose only logic is an ownership lookup are not modelled: the login and registration forms; `Logout`; `AccessDenied`; `ForgotPassword`; the profile pages of the admin and the company.
- Further read-only pages are not modelled either, for the same reason:
  - the `Index` and `Edit` pages of provider bids, and `ShowResponseForm`;
  - the `Index`, `Show` and `WaitingContracts` pages of company bids;
  - `Show`, `ViewInvoice`, `DownloadContract` and `DownloadInvoice` of company contracts;
  - `Show`, `Modal` and the invoice text of company invoices;
  - `Show` and `ProcessForm` of company payments;
  - `Show` and `DirectRequests` of company providers;
  - `Index` and `Show` of company shipments;
  - the landing, privacy and error pages.
- Files on disk are not modelled. File contents, directories and streams are absent; an upload is modelled by its file name, its length and whether the write succeeded.
- Text is modelled on ASCII only. `ToLowerInvariant` lower-cases only ASCII letters. `\d` and `char.IsDigit` are the ASCII digits, and `\s` and `IsNullOrWhiteSpace` use the ASCII white-space characters. .NET's Unicode classes are wider.
- ValidationAttributes.PhoneNumber: rejects a value with one trailing newline, which .NET's `$` in `Regex.IsMatch` also accepts. The same holds for CustomValidation.PhoneNumber.
- Money is modelled in whole halalas. Prices with fractions of a halala are not modelled. Averages and commissions are exact reals rather than .NET `decimal` or `double` arithmetic.
- The month label text (`MMM yyyy`) is not modelled: a monthly line carries its month as a count of months, from which the label is formatted.
- Sorting is stated as a permutation that is ordered by the key. The order LINQ gives to ties is not modelled.
- Front.Sorted: ties keep no stated order. The same holds for every other sorted list in the model.
- CompanyProviders.Index: the free-text `search` filter is not modelled, because the database evaluates `Contains` under its collation. The `rating` parameter is the result of `int.TryParse`, so "all", an empty value or a non-number is no rating.
- CompanyProviders.Ordered: the name order (the default sort) is not modelled, because the database orders names by its collation; under it the page is a window of the kept providers in table order. The rating and project orders are modelled, but the order among ties is not.
- CompanyProviders.Ordered: the database averages ratings as `float`, which the model takes as the exact average.
- CompanyContracts.Index: the `shipment_id` parameter is the result of `int.TryParse`. The same holds for CompanyContracts.WaitingPayment.
- CompanyProviders.Ratings: states the number of ratings. The total is its defining sum.
- CompanyTracking.Latest: does not fix which snapshot is chosen when two share the latest delivery time.
- ProviderShipments.TrackingNumber: the key is read back only for years of four digits.
- `SimulatePaymentProcessing` is the gateway's boolean answer, because it is random in the source.
- The stored revenue totals summed on the admin dashboard are taken as stored. The rows that fill them are written outside the code shown.
- `AuthorizationPolicyExtensions`, `Middleware` and `BaseController` are context, not part of this model. Their effect on a request is the role check in `Authorization` and the user key passed in.
- Auth.UserByEmail: compares text exactly, character by character, while the database's default collation compares it without regard to case, so an address differing only in case finds no user here but finds one in the database.
- Auth.Login: compares text exactly, character by character, while the database's default collation compares it without regard to case, so a sign-in with the address in other capitals is refused here and accepted by the database lookup.
- Auth.RegisterCompany: compares text exactly, character by character, while the database's default collation compares it without regard to case, so an address taken in other capitals counts as free here while the database lookup finds it taken.
- Auth.RegisterProvider: compares text exactly, character by character, while the database's default collation compares it without regard to case, so an address taken in other capitals counts as free here while the database lookup finds it taken.
- CompanyPayments.Index: compares text exactly, character by character, while the database's default collation compares it without regard to case, so a status filter in other capitals lists nothing here and the matching payments in the database.
- ProviderShipments.Index: compares text exactly, character by character, while the database's default collation compares it without regard to case, so a status filter in other capitals lists nothing here and the matching records in the database.
- CompanyTracking.ByTrackingNumber: compares text exactly, character by character, while the database's default collation compares it without regard to case, so a tracking number in other capitals finds nothing here.
- Front.KeepsIff: compares text exactly, character by character, while the database's default collation compares it without regard to case, so the search text, goods type, region, city and status filters here match only text in the same capitals.
- Front.MatchingIsFilter: compares text exactly, character by character, while the database's default collation compares it without regard to case, so the listed requests here are those whose filtered fields match exactly.
- Front.ClosedStatusListsNothing: compares text exactly, character by character, while the database's default collation compares it without regard to case, so the status it names is compared exactly; "pending" in lower case lists nothing here.
- The registration forms accept a company or provider name of up to 150 characters and store it as the user name, whose column holds 100; the user name and the e-mail columns (150) are not modelled, so a registration with a longer name is not modelled as failing to save.
- Forms.BidFormLimits: a price so large that converting it to a 32-bit integer overflows makes the range check throw rather than answer; the model treats such a price as invalid.
- Column widths are modelled where the form does not already bound the field: bid and request notes (255), feedback comments (255), shipment cities and regions (100) and tracking statuses (50). The other text columns are bounded by their forms.
- CompanyProviders.Index, RequestResponses.Index and Front.Shipments: a page number below 1 gives a negative OFFSET, which the database refuses; the model gives QueryFailed for it, which stands for the exception the page then raises.
- Front.Shipments: the offset `(page - 1) * 12` is computed in 32-bit integers; for a page number above about 179 million it wraps, to a negative offset that the database refuses or to a positive one that shows another window. The model computes the offset exactly, so such a page is empty here.
- CompanyProviders.Index: the offset `(page - 1) * 12` is computed in 32-bit integers and wraps for a page number above about 179 million, so the query then fails or shows another window; the model computes it exactly and gives an empty page.
- CompanyProviders.Index: the region filter compares the region key exactly, while the database evaluates `p.ProviderRegion == region` (CompanyProviderController.cs:41-43) under its collation, which by default ignores case and trailing spaces; a region posted as "Riyadh" lists the "riyadh" providers there and none here.
- Calendar.CompactDate: gives the Gregorian year, month and day, while .NET formats `yyyyMMdd` with the current culture's calendar, so under a culture such as ar-SA, whose calendar is Um Al-Qura, tracking and invoice numbers carry other digits; the model assumes a Gregorian culture.
- Calendar.IsoDate: the same assumption for the `yyyy-MM-dd` date in upload file names.
- Text.GetExtension: `\` counts as a directory separator as well as `/`, as `Path.GetExtension` does on Windows; the model follows Windows, and on Linux a name such as `a.b\c` keeps the extension `.b\c`.
- CompanyShipments.Create: the weight is kept in whole grams, while the `weightKg` column is `decimal(10, 2)` (WaslDbContext.cs:430-432) and stores it rounded to 10 g; the same holds for CompanyShipments.Update.
- RequestResponses.Index: the offset `(page - 1) * pageSize` is computed in 32-bit integers, and the page size comes from the query string, so a large page or page size wraps it, to a negative offset that the database refuses or to a positive one that shows another window; the model computes it exactly and gives an empty page.
- Calendar.AddDays: the year has no upper bound here, while .NET's `DateTime.AddDays` throws past 31 December 9999; only the model's dates reach beyond it.
- Calendar.AddMonths: the year has no upper bound here, while .NET's `DateTime.AddMonths` throws past December 9999; `Reports.Revenue` models that throw on its own monthly loop (`MonthLoopOverflows`).
- Dates stored in the other `datetime` columns (request, bid, contract, tracking and invoice dates) come from the clock and are not checked against the column's years 1753 to 9999. The two dates a user types are checked: the delivery deadline (`Forms.DeadlineFits`) and the bounds of the revenue report (`Reports.BeforeDateTime`). The rounding of `datetime` to 1/300 of a second is not modelled.
- CompanyDashboard.RequestLines: the lines do not carry the description text (the goods type and the delivery city); the kind, the title, the date and the status do. The same holds for CompanyDashboard.ContractLines, whose description names the provider.
- Concurrency between requests is not modelled. Every action runs alone on one store.

## Findings

| source | as written | input that shows it | evidently intended | confidence | as-written member | corrected member |
|---|---|---|---|---|---|---|
| VBDOTNET/Controllers/CompanyContractController.cs:216-222 | the invoice's payment reference is copied from the new payment before it is saved, so it is 0; no payment has key 0, so `FK_Invoice_Payment` fails the save and the transaction rolls everything back | any `ProcessPayment` that passes the checks | the invoice refers to the payment just made, and the payment is recorded | not executed; high | CompanyContracts.ProcessPaymentAsWritten, CompanyContracts.NoPaymentAsWritten | CompanyContracts.ProcessPayment, CompanyInvoices.PaymentMarksInvoicePaid |
| VBDOTNET/Controllers/CompanyBidController.cs:278 | the contract's `ShipmentId` is set to the request's key, but `FK_Contract_Shipment` names the tracking table, so the insert fails unless a tracking row has that key; the contracts page does the same at CompanyContractController.cs:339 | creating the first contract, while there are no tracking rows | the contract records its request and is saved | not executed; medium (assumes the database declares the key as it is mapped) | CompanyBids.NewContractAsWritten, CompanyBids.NoContractWithoutTracking | CompanyBids.NewContract, CompanyContracts.CreateContract |
| VBDOTNET/Controllers/CompanyBidController.cs:280 | `SignDate = null` is left out of the insert because the column has a `getdate()` default, so the new contract is stored already signed | any contract created from the bids page | the contract stays unsigned until its provider signs it | not executed; medium | CompanyBids.NewContractAsWritten, CompanyBids.BornSigned | CompanyBids.CreateContract, ProviderContracts.ShowSign |
| VBDOTNET/ViewsModels/FeedbackViewModel.cs:15 | comments of up to 500 characters pass validation, but the comments column holds 255, so saving a longer comment fails | a valid form with a 300-character comment | the form accepts only comments that the column can store | not executed; high | CompanyTracking.StoreFeedbackAsWritten, CompanyTracking.LongCommentIsLost | CompanyTracking.StoreFeedback, CompanyTracking.FeedbackOnce |
| VBDOTNET/Controllers/CompanyController.cs:272-276 | `VerifyPassword` returns true whatever the password, so any password deletes the account | `DeleteAccount` with a wrong password | the password is checked against the stored hash before deletion | not executed; high | CompanyDashboard.DeleteAccountAsWritten, CompanyDashboard.AnyPasswordDeletes | CompanyDashboard.DeleteAccount |
| VBDOTNET/ViewsModels/BidResponseViewModel.cs:17 | notes of up to 500 characters pass validation, but the bid's notes column holds 255, so saving a longer response fails | a valid response with 300 characters of notes | the form accepts only notes that the column can store | not executed; high | RequestResponses.RespondAsWritten, RequestResponses.LongNotesAreLost | RequestResponses.Respond, RequestResponses.RespondMatchesAsWritten |
| VBDOTNET/ViewsModels/SendRequestViewModel.cs:10 | the message is limited to 500 characters, the action never checks the model state, and the bid's notes column holds 255, so a longer message fails to save | a direct request with a 300-character message | a message that does not fit the column is refused as invalid | not executed; high | CompanyProviders.SendRequestAsWritten, CompanyProviders.LongMessageIsLost | CompanyProviders.SendRequest, CompanyProviders.SendRequestMatchesAsWritten |

=== FILE: admin.dfy ===
/** The administrator's side: the dashboard counters and short lists, the company and
    provider lists with their counts, the approval toggles, and the deletion of requests,
    bids and feedback. */
module Admin {
  import opened Wrappers
  import opened Tables
  import opened Constants
  import opened Listing
  import opened Marketplace

  // ---------------------------------------------------------------- approval toggles

  /** `!IsApproved` on a nullable flag: true and false swap, an unset flag stays unset. */
  function Negate(v: Option<bool>): (r: Option<bool>)
    ensures r.Some? <==> v.Some?
    ensures r.Some? ==> r.value != v.value
  {
    match v
    case None => None
    case Some(b) => Some(!b)
  }

  /** The flash message after a toggle names the new state: "approved" only for a flag that
      is now true, "disapproved" otherwise (an unset flag included). */
  function ToggleMessage(kind: string, v: Option<bool>): (m: string)
    ensures v == Some(true) ==> m == kind + " approved successfully!"
    ensures v != Some(true) ==> m == kind + " disapproved successfully!"
  {
    kind + " " + (if v == Some(true) then "approved" else "disapproved") + " successfully!"
  }

  /** `ToggleCompanyApproval`: an unknown key is NotFound; otherwise the company's approval
      flag is negated and nothing else in the store changes. */
  function ToggleCompany(s: Store, id: nat): (r: Result<Store, Error>)
    ensures r.Failure? <==> !HasKey(s.companies, id)
    ensures r.Failure? ==> r.error == NotFound
    ensures r.Success? ==>
      var c := Get(s.companies, id).value;
      Get(r.value.companies, id) == Some(c.(isApproved := Negate(c.isApproved))) &&
      (forall k :: k != id ==> Get(r.value.companies, k) == Get(s.companies, k)) &&
      r.value == s.(companies := r.value.companies)
  {
    match Get(s.companies, id)
    case None => Failure(NotFound)
    case Some(c) =>
      var t := Put(s.companies, id, c.(isApproved := Negate(c.isApproved)));
      PutGet(s.companies, id, c.(isApproved := Negate(c.isApproved)));
      forall k | k != id ensures Get(t, k) == Get(s.companies, k) {
        PutGetOther(s.companies, id, c.(isApproved := Negate(c.isApproved)), k);
      }
      Success(s.(companies := t))
  }

  /** `ToggleProviderApproval`, the same for a provider. */
  function ToggleProvider(s: Store, id: nat): (r: Result<Store, Error>)
    ensures r.Failure? <==> !HasKey(s.providers, id)
    ensures r.Failure? ==> r.error == NotFound
    ensures r.Success? ==>
      var p := Get(s.providers, id).value;
      Get(r.value.providers, id) == Some(p.(isApproved := Negate(p.isApproved))) &&
      (forall k :: k != id ==> Get(r.value.providers, k) == Get(s.providers, k)) &&
      r.value == s.(providers := r.value.providers)
  {
    match Get(s.providers, id)
    case None => Failure(NotFound)
    case Some(p) =>
      var t := Put(s.providers, id, p.(isApproved := Negate(p.isApproved)));
      PutGet(s.providers, id, p.(isApproved := Negate(p.isApproved)));
      forall k | k != id ensures Get(t, k) == Get(s.providers, k) {
        PutGetOther(s.providers, id, p.(isApproved := Negate(p.isApproved)), k);
      }
      Success(s.(providers := t))
  }

  /** Negation undoes itself. */
  lemma NegateTwice(v: Option<bool>)
    ensures Negate(Negate(v)) == v
  {
  }

  /** Toggling a company twice restores every company the store reads back. */
  lemma ToggleCompanyTwice(s: Store, id: nat)
    requires HasKey(s.companies, id)
    ensures ToggleCompany(ToggleCompany(s, id).value, id).Success?
    ensures forall k :: Get(ToggleCompany(ToggleCompany(s, id).value, id).value.companies, k) == Get(s.companies, k)
  {
    var once := ToggleCompany(s, id).value;
    var twice := ToggleCompany(once, id).value;
    var c := Get(s.companies, id).value;
    NegateTwice(c.isApproved);
    assert Get(twice.companies, id) == Get(s.companies, id);
  }

  /** Toggling a provider twice restores every provider the store reads back. */
  lemma ToggleProviderTwice(s: Store, id: nat)
    requires HasKey(s.providers, id)
    ensures ToggleProvider(ToggleProvider(s, id).value, id).Success?
    ensures forall k :: Get(ToggleProvider(ToggleProvider(s, id).value, id).value.providers, k) == Get(s.providers, k)
  {
    var once := ToggleProvider(s, id).value;
    var twice := ToggleProvider(once, id).value;
    var p := Get(s.providers, id).value;
    NegateTwice(p.isApproved);
    assert Get(twice.providers, id) == Get(s.providers, id);
  }

  // ---------------------------------------------------------------- dashboard

  /** A user who signs up through registration: a company or a provider account. */
  predicate IsMember(u: User) {
    u.role == Some(RoleCompany) || u.role == Some(RoleProvider)
  }

  predicate IsAdmin(u: User) {
    u.role == Some(RoleAdmin)
  }

  predicate IsApproved(p: Provider) {
    p.isApproved == Some(true)
  }

  predicate AwaitsApproval(p: Provider) {
    p.isApproved == Some(false)
  }

  /** A request that has not reached an end: neither Delivered nor Cancelled. */
  predicate IsActive(r: ShipmentRequest) {
    r.status != Delivered && r.status != RequestStatus.Cancelled
  }

  /** The statuses a request passes through before it ends, listed one by one. */
  predicate StillMoving(st: RequestStatus) {
    st in {RequestStatus.Pending, Bidding, Assigned, RequestStatus.Accepted, InProgress, RequestStatus.Failed, DirectRequest}
  }

  predicate IsFinished(r: ShipmentRequest) {
    r.status == Delivered || r.status == RequestStatus.Cancelled
  }

  datatype Stats = Stats(
    totalUsers: nat,
    totalCompanies: nat,
    totalProviders: nat,
    pendingProviders: nat,
    totalShipments: nat,
    activeShipments: nat,
    totalContracts: nat,
    totalRevenue: int,
    totalFeedback: nat)

  /** `RevenueReports.Sum(r => r.TotalRevenue ?? 0)` over the stored reports' totals. */
  function StoredRevenue(reports: seq<Option<int>>): int {
    Sum(reports, (v: Option<int>) => v.GetOr(0))
  }

  /** The dashboard counters. Administrators are not among the users counted; approved and
      waiting providers are counted apart and together are at most all providers (a provider
      with no flag is in neither); every request is either active or finished. */
  function Counters(s: Store, reports: seq<Option<int>>): (st: Stats)
    ensures st.totalUsers + Count(Values(s.users), IsAdmin) <= |s.users|
    ensures st.totalUsers == Count(Values(s.users), IsMember)
    ensures st.totalCompanies == |s.companies| && st.totalContracts == |s.contracts|
    ensures st.totalFeedback == |s.feedbacks| && st.totalShipments == |s.requests|
    ensures st.totalProviders == Count(Values(s.providers), IsApproved)
    ensures st.pendingProviders == Count(Values(s.providers), AwaitsApproval)
    ensures st.totalProviders + st.pendingProviders <= |s.providers|
    ensures st.totalProviders + st.pendingProviders == Count(Values(s.providers), (p: Provider) => p.isApproved.Some?)
    ensures st.activeShipments + Count(Values(s.requests), IsFinished) == st.totalShipments
    ensures st.activeShipments == Count(Values(s.requests), (r: ShipmentRequest) => StillMoving(r.status))
    ensures st.totalRevenue == StoredRevenue(reports)
    ensures (forall i :: 0 <= i < |reports| ==> reports[i].GetOr(0) >= 0) ==> st.totalRevenue >= 0
  {
    var users := Values(s.users);
    var providers := Values(s.providers);
    var requests := Values(s.requests);
    assert Count(users, IsMember) + Count(users, IsAdmin) <= |s.users| by {
      CountDisjoint(users, IsMember, IsAdmin, (u: User) => IsMember(u) || IsAdmin(u));
    }
    assert Count(providers, IsApproved) + Count(providers, AwaitsApproval) ==
           Count(providers, (p: Provider) => p.isApproved.Some?) by {
      assert forall p: Provider :: p.isApproved.Some? <==> IsApproved(p) || AwaitsApproval(p) by {
        forall p: Provider ensures p.isApproved.Some? ==> IsApproved(p) || AwaitsApproval(p) {
          if p.isApproved.Some? {
            if p.isApproved.value { assert IsApproved(p); } else { assert AwaitsApproval(p); }
          }
        }
      }
      CountDisjoint(providers, IsApproved, AwaitsApproval, (p: Provider) => p.isApproved.Some?);
    }
    assert Count(requests, IsActive) + Count(requests, IsFinished) == |s.requests| by {
      CountSplit(requests, IsActive, IsFinished);
    }
    assert Count(requests, IsActive) == Count(requests, (r: ShipmentRequest) => StillMoving(r.status)) by {
      FilterSame(requests, IsActive, (r: ShipmentRequest) => StillMoving(r.status));
    }
    Stats(Count(users, IsMember), |s.companies|, Count(providers, IsApproved), Count(providers, AwaitsApproval),
      |s.requests|, Count(requests, IsActive), |s.contracts|, StoredRevenue(reports), |s.feedbacks|)
  }

  /** How many rows each short list of the dashboard shows. */
  const RecentCount: nat := 5

  function RequestDateKey(r: ShipmentRequest): Key { Stamp(r.requestDate) }

  function SignDateKey(c: Contract): Key { Stamp(c.signDate) }

  /** The five newest requests: as many as there are up to five, newest first, and no request
      left out is newer than one shown. */
  function RecentShipments(s: Store): (r: seq<ShipmentRequest>)
    ensures |r| == if |s.requests| < RecentCount then |s.requests| else RecentCount
    ensures multiset(r) <= multiset(Values(s.requests))
    ensures forall x :: x in r ==> x in Values(s.requests)
    ensures SortedBy(r, RequestDateKey, true)
    ensures forall x, y :: x in Values(s.requests) && x !in r && y in r ==> KeyLe(RequestDateKey(x), RequestDateKey(y))
  {
    TopBy(Values(s.requests), RequestDateKey, true, RecentCount)
  }

  /** The five most recently signed contracts, in the same sense. */
  function RecentContracts(s: Store): (r: seq<Contract>)
    ensures |r| == if |s.contracts| < RecentCount then |s.contracts| else RecentCount
    ensures multiset(r) <= multiset(Values(s.contracts))
    ensures forall x :: x in r ==> x in Values(s.contracts)
    ensures SortedBy(r, SignDateKey, true)
    ensures forall x, y :: x in Values(s.contracts) && x !in r && y in r ==> KeyLe(SignDateKey(x), SignDateKey(y))
  {
    TopBy(Values(s.contracts), SignDateKey, true, RecentCount)
  }

  /** The first five providers waiting for approval, in table order: the list opens the
      waiting providers' list and is short only when fewer are waiting. */
  function PendingApprovals(s: Store): (r: seq<Provider>)
    ensures |r| <= RecentCount
    ensures r <= Filter(Values(s.providers), AwaitsApproval)
    ensures multiset(r) <= multiset(Values(s.providers))
    ensures forall i :: 0 <= i < |r| ==> AwaitsApproval(r[i]) && r[i] in Values(s.providers)
    ensures |r| == if Count(Values(s.providers), AwaitsApproval) < RecentCount
                   then Count(Values(s.providers), AwaitsApproval) else RecentCount
  {
    var waiting := Filter(Values(s.providers), AwaitsApproval);
    var r := Take(waiting, RecentCount);
    assert r == waiting[..|r|];
    TakeSubMultiset(waiting, RecentCount);
    FilterSub(Values(s.providers), AwaitsApproval);
    forall i | 0 <= i < |r| ensures AwaitsApproval(r[i]) && r[i] in Values(s.providers) {
      assert r[i] == waiting[i];
      FilterIn(Values(s.providers), AwaitsApproval, waiting[i]);
    }
    r
  }

  datatype Dashboard = Dashboard(
    stats: Stats,
    recentShipments: seq<ShipmentRequest>,
    recentContracts: seq<Contract>,
    pendingApprovals: seq<Provider>)

  /** `Dashboard`: the counters and the three short lists; the waiting list is drawn from the
      providers the counter counts as pending. */
  function AdminDashboard(s: Store, reports: seq<Option<int>>): (d: Dashboard)
    ensures d.stats == Counters(s, reports)
    ensures |d.recentShipments| <= RecentCount && |d.recentContracts| <= RecentCount
    ensures |d.pendingApprovals| <= d.stats.pendingProviders
    ensures d.stats.pendingProviders > 0 ==> |d.pendingApprovals| > 0
    ensures d.recentShipments == RecentShipments(s) && d.recentContracts == RecentContracts(s)
    ensures d.pendingApprovals == PendingApprovals(s)
  {
    Dashboard(Counters(s, reports), RecentShipments(s), RecentContracts(s), PendingApprovals(s))
  }

  // ---------------------------------------------------------------- lists

  datatype CompanyWithStats = CompanyWithStats(company: Row<Company>, shipmentCount: nat, contractCount: nat)

  function OwnedRequest(companyId: nat): ShipmentRequest -> bool {
    (r: ShipmentRequest) => r.companyId == companyId
  }

  function CompanyContract(companyId: nat): Contract -> bool {
    (c: Contract) => c.companyId == companyId
  }

  /** `Companies`: every company in table order with the number of its requests and of its
      contracts. */
  function Companies(s: Store): (r: seq<CompanyWithStats>)
    ensures |r| == |s.companies|
    ensures forall i :: 0 <= i < |r| ==>
      var k := s.companies[i].id;
      r[i].company == s.companies[i] &&
      r[i].shipmentCount == |Filter(Values(s.requests), OwnedRequest(k))| &&
      (r[i].shipmentCount > 0 <==> exists j :: 0 <= j < |s.requests| && s.requests[j].val.companyId == k) &&
      r[i].contractCount == |Filter(Values(s.contracts), CompanyContract(k))| &&
      (r[i].contractCount > 0 <==> exists j :: 0 <= j < |s.contracts| && s.contracts[j].val.companyId == k)
  {
    var r := seq(|s.companies|, i requires 0 <= i < |s.companies| =>
      CompanyWithStats(s.companies[i],
        Count(Values(s.requests), OwnedRequest(s.companies[i].id)),
        Count(Values(s.contracts), CompanyContract(s.companies[i].id))));
    forall i | 0 <= i < |r|
      ensures r[i].shipmentCount > 0 <==> exists j :: 0 <= j < |s.requests| && s.requests[j].val.companyId == s.companies[i].id
      ensures r[i].contractCount > 0 <==> exists j :: 0 <= j < |s.contracts| && s.contracts[j].val.companyId == s.companies[i].id
    {
      CountPositive(Values(s.requests), OwnedRequest(s.companies[i].id));
      CountPositive(Values(s.contracts), CompanyContract(s.companies[i].id));
    }
    r
  }

  datatype ProviderWithStats = ProviderWithStats(provider: Row<Provider>, bidCount: nat, contractCount: nat)

  function ProviderBidOf(providerId: nat): Bid -> bool {
    (b: Bid) => b.providerId == providerId
  }

  function ProviderContract(providerId: nat): Contract -> bool {
    (c: Contract) => c.providerId == providerId
  }

  /** `Providers`: every provider in table order with the number of its bids and of its
      contracts. */
  function Providers(s: Store): (r: seq<ProviderWithStats>)
    ensures |r| == |s.providers|
    ensures forall i :: 0 <= i < |r| ==>
      var k := s.providers[i].id;
      r[i].provider == s.providers[i] &&
      r[i].bidCount == |Filter(Values(s.bids), ProviderBidOf(k))| &&
      (r[i].bidCount > 0 <==> exists j :: 0 <= j < |s.bids| && s.bids[j].val.providerId == k) &&
      r[i].contractCount == |Filter(Values(s.contracts), ProviderContract(k))|
  {
    var r := seq(|s.providers|, i requires 0 <= i < |s.providers| =>
      ProviderWithStats(s.providers[i],
        Count(Values(s.bids), ProviderBidOf(s.providers[i].id)),
        Count(Values(s.contracts), ProviderContract(s.providers[i].id))));
    forall i | 0 <= i < |r|
      ensures r[i].bidCount > 0 <==> exists j :: 0 <= j < |s.bids| && s.bids[j].val.providerId == s.providers[i].id
    {
      CountPositive(Values(s.bids), ProviderBidOf(s.providers[i].id));
    }
    r
  }

  /** Something is counted exactly when some element qualifies. */
  lemma CountPositive<T>(s: seq<T>, p: T -> bool)
    ensures Count(s, p) > 0 <==> exists j :: 0 <= j < |s| && p(s[j])
  {
    if exists j :: 0 <= j < |s| && p(s[j]) {
      var j :| 0 <= j < |s| && p(s[j]);
      FilterIn(s, p, s[j]);
    } else {
      FilterNone(s, p);
    }
  }

  datatype ShipmentWithBids = ShipmentWithBids(shipment: Row<ShipmentRequest>, bidCount: nat)

  function RowRequestDate(r: Row<ShipmentRequest>): Key { Stamp(r.val.requestDate) }

  /** `ShipmentRequests`: every request, newest first, with the number of bids placed on it. */
  function ShipmentRequests(s: Store): (r: seq<ShipmentWithBids>)
    ensures |r| == |s.requests|
    ensures multiset(seq(|r|, i requires 0 <= i < |r| => r[i].shipment)) == multiset(s.requests)
    ensures forall i, j :: 0 <= i < j < |r| ==> KeyLe(RowRequestDate(r[j].shipment), RowRequestDate(r[i].shipment))
    ensures forall i :: 0 <= i < |r| ==> r[i].bidCount == |BidsOn(s, r[i].shipment.id)|
  {
    var sorted := SortBy(s.requests, RowRequestDate, true);
    assert |sorted| == |multiset(sorted)| == |multiset(s.requests)| == |s.requests|;
    var r := seq(|sorted|, i requires 0 <= i < |sorted| => ShipmentWithBids(sorted[i], |BidsOn(s, sorted[i].id)|));
    assert seq(|r|, i requires 0 <= i < |r| => r[i].shipment) == sorted;
    r
  }

  function RowSignDate(c: Row<Contract>): Key { Stamp(c.val.signDate) }

  function RowFeedbackDate(f: Row<Feedback>): Key { Stamp(f.val.date) }

  /** `Contracts`: every contract, most recently signed first. */
  function Contracts(s: Store): (r: seq<Row<Contract>>)
    ensures multiset(r) == multiset(s.contracts) && |r| == |s.contracts|
    ensures SortedBy(r, RowSignDate, true)
  {
    var r := SortBy(s.contracts, RowSignDate, true);
    assert |r| == |multiset(r)| == |multiset(s.contracts)| == |s.contracts|;
    r
  }

  /** `Feedback`: every feedback, newest first. */
  function Feedbacks(s: Store): (r: seq<Row<Feedback>>)
    ensures multiset(r) == multiset(s.feedbacks) && |r| == |s.feedbacks|
    ensures SortedBy(r, RowFeedbackDate, true)
  {
    var r := SortBy(s.feedbacks, RowFeedbackDate, true);
    assert |r| == |multiset(r)| == |multiset(s.feedbacks)| == |s.feedbacks|;
    r
  }

  // ---------------------------------------------------------------- deletions

  /** `DeleteShipment`: an unknown key is NotFound; a request that bids refer to stays, because
      the database refuses the delete; otherwise exactly the rows with that key leave the
      request table and no other table changes. */
  function DeleteShipment(s: Store, id: nat): (r: Result<Store, Error>)
    ensures r.Failure? <==> !HasKey(s.requests, id) || RequestHasBids(s, id)
    ensures r.Failure? ==> r.error == (if HasKey(s.requests, id) then SaveFailed else NotFound)
    ensures r.Success? ==>
      !HasKey(r.value.requests, id) && |r.value.requests| < |s.requests| &&
      (forall x :: x in r.value.requests <==> x in s.requests && x.id != id) &&
      r.value == s.(requests := r.value.requests)
  {
    if !HasKey(s.requests, id) then Failure(NotFound)
    else if RequestHasBids(s, id) then Failure(SaveFailed)
    else Success(s.(requests := Remove(s.requests, id)))
  }

  /** `DeleteBid`, the same for a bid, which stays while a contract refers to it. */
  function DeleteBid(s: Store, id: nat): (r: Result<Store, Error>)
    ensures r.Failure? <==> !HasKey(s.bids, id) || BidInContract(s, id)
    ensures r.Failure? ==> r.error == (if HasKey(s.bids, id) then SaveFailed else NotFound)
    ensures r.Success? ==>
      !HasKey(r.value.bids, id) && |r.value.bids| < |s.bids| &&
      (forall x :: x in r.value.bids <==> x in s.bids && x.id != id) &&
      r.value == s.(bids := r.value.bids)
  {
    if !HasKey(s.bids, id) then Failure(NotFound)
    else if BidInContract(s, id) then Failure(SaveFailed)
    else Success(s.(bids := Remove(s.bids, id)))
  }

  /** `DeleteFeedback`, the same for a feedback. */
  function DeleteFeedback(s: Store, id: nat): (r: Result<Store, Error>)
    ensures r.Failure? <==> !HasKey(s.feedbacks, id)
    ensures r.Failure? ==> r.error == NotFound
    ensures r.Success? ==>
      !HasKey(r.value.feedbacks, id) && |r.value.feedbacks| < |s.feedbacks| &&
      (forall x :: x in r.value.feedbacks <==> x in s.feedbacks && x.id != id) &&
      r.value == s.(feedbacks := r.value.feedbacks)
  {
    if !HasKey(s.feedbacks, id) then Failure(NotFound)
    else Success(s.(feedbacks := Remove(s.feedbacks, id)))
  }

  /** In a well-keyed table, deleting a request that no bid refers to lowers the dashboard's
      request total by one. */
  lemma DeleteShipmentCounts(s: Store, id: nat, reports: seq<Option<int>>)
    requires WellKeyed(s.requests) && HasKey(s.requests, id) && !RequestHasBids(s, id)
    ensures Counters(DeleteShipment(s, id).value, reports).totalShipments == Counters(s, reports).totalShipments - 1
  {
    RemoveCount(s.requests, id);
  }
}

=== FILE: auth.dfy ===
/** Signing in and registering. Password hashing and checking (BCrypt) and the local-URL
    test are parameters of the model; the form validation of the login and registration
    forms is an input flag, since those forms carry only presence and length rules. */
module Auth {
  import opened Wrappers
  import opened Tables
  import opened Constants
  import opened Marketplace
  import Admin

  // ---------------------------------------------------------------- signing in

  const InvalidCredentials: string := "Invalid email or password"
  const PendingApproval: string := "Your account is pending approval"

  /** Where a successful sign-in sends the browser. */
  datatype Target = ToUrl(url: string) | ToAction(action: string, controller: string)

  datatype LoginOutcome =
    | FormRejected
    | Refused(message: string)
    | SignedIn(userId: nat, roleClaim: string, persistent: bool, target: Target)

  /** The first user row with the given e-mail address. */
  function UserByEmail(s: Store, email: string): (r: Option<Row<User>>)
    ensures r.Some? ==> r.value in s.users && r.value.val.email == email
    ensures r.None? <==> forall i :: 0 <= i < |s.users| ==> s.users[i].val.email != email
  {
    First(s.users, (u: Row<User>) => u.val.email == email)
  }

  /** A company or provider account may sign in only once its profile exists and is
      approved; any other role, or none, passes. */
  predicate Approved(s: Store, userId: nat, role: Option<string>) {
    (role == Some(RoleCompany) ==>
       CompanyOf(s, userId).Some? && Get(s.companies, CompanyOf(s, userId).value).value.isApproved == Some(true)) &&
    (role == Some(RoleProvider) ==>
       ProviderOf(s, userId).Some? && Get(s.providers, ProviderOf(s, userId).value).value.isApproved == Some(true))
  }

  /** The dashboard for a role; an unknown or missing role goes to the home page. */
  function Dashboard(role: Option<string>): (t: Target)
    ensures role == Some(RoleAdmin) ==> t == ToAction("Dashboard", "Admin")
    ensures role == Some(RoleCompany) ==> t == ToAction("Dashboard", "Company")
    ensures role == Some(RoleProvider) ==> t == ToAction("Dashboard", "Provider")
    ensures role !in {Some(RoleAdmin), Some(RoleCompany), Some(RoleProvider)} ==> t == ToAction("Index", "Home")
  {
    if role == Some(RoleAdmin) then ToAction("Dashboard", "Admin")
    else if role == Some(RoleCompany) then ToAction("Dashboard", "Company")
    else if role == Some(RoleProvider) then ToAction("Dashboard", "Provider")
    else ToAction("Index", "Home")
  }

  /** `Login` (POST). An invalid form is shown again; an unknown address and a wrong
      password give the same message; an unapproved company or provider is held back; on
      success the role claim is the user's role or Company when it has none, and the browser
      goes to a non-empty local return URL, or else to the dashboard of the user's stored
      role. */
  function Login(s: Store, formValid: bool, email: string, password: string, rememberMe: bool,
                 returnUrl: Option<string>, verify: (string, string) -> bool, isLocalUrl: string -> bool)
    : (r: LoginOutcome)
    ensures !formValid ==> r == FormRejected
    ensures formValid && (UserByEmail(s, email).None? || !verify(password, UserByEmail(s, email).value.val.passwordHash)) ==>
      r == Refused(InvalidCredentials)
    ensures r.SignedIn? <==>
      formValid && UserByEmail(s, email).Some? &&
      verify(password, UserByEmail(s, email).value.val.passwordHash) &&
      Approved(s, UserByEmail(s, email).value.id, UserByEmail(s, email).value.val.role)
    ensures r.Refused? ==> r.message in {InvalidCredentials, PendingApproval}
    ensures r.SignedIn? ==>
      var u := UserByEmail(s, email).value;
      r.userId == u.id && r.roleClaim == u.val.role.GetOr(RoleCompany) && r.persistent == rememberMe &&
      (returnUrl.Some? && |returnUrl.value| > 0 && isLocalUrl(returnUrl.value) ==> r.target == ToUrl(returnUrl.value)) &&
      (!(returnUrl.Some? && |returnUrl.value| > 0 && isLocalUrl(returnUrl.value)) ==> r.target == Dashboard(u.val.role))
  {
    if !formValid then FormRejected
    else
      match UserByEmail(s, email)
      case None => Refused(InvalidCredentials)
      case Some(u) =>
        if !verify(password, u.val.passwordHash) then Refused(InvalidCredentials)
        else if !Approved(s, u.id, u.val.role) then Refused(PendingApproval)
        else
          var target := if returnUrl.Some? && |returnUrl.value| > 0 && isLocalUrl(returnUrl.value)
                        then ToUrl(returnUrl.value) else Dashboard(u.val.role);
          SignedIn(u.id, u.val.role.GetOr(RoleCompany), rememberMe, target)
  }

  /** The login page does not reveal whether an address is registered: with no such user
      every password fails with the message that a wrong password gets. */
  lemma UnknownLooksLikeWrongPassword(s: Store, s': Store, email: string, password: string, password': string,
                                      rememberMe: bool, returnUrl: Option<string>,
                                      verify: (string, string) -> bool, isLocalUrl: string -> bool)
    requires UserByEmail(s, email).None?
    requires UserByEmail(s', email).Some? && !verify(password', UserByEmail(s', email).value.val.passwordHash)
    ensures Login(s, true, email, password, rememberMe, returnUrl, verify, isLocalUrl) ==
            Login(s', true, email, password', rememberMe, returnUrl, verify, isLocalUrl)
  {
  }

  /** A user with no stored role is signed in with the Company role claim, yet is sent to the
      home page and not to the company dashboard, because the redirect reads the stored role. */
  lemma MissingRoleGoesHome(s: Store, email: string, password: string, rememberMe: bool,
                            verify: (string, string) -> bool, isLocalUrl: string -> bool)
    requires UserByEmail(s, email).Some? && UserByEmail(s, email).value.val.role.None?
    requires verify(password, UserByEmail(s, email).value.val.passwordHash)
    ensures Login(s, true, email, password, rememberMe, None, verify, isLocalUrl) ==
      SignedIn(UserByEmail(s, email).value.id, RoleCompany, rememberMe, ToAction("Index", "Home"))
  {
  }

  // ---------------------------------------------------------------- registering

  /** The parts of the registration forms that reach the database. */
  datatype CompanyRegistration = CompanyRegistration(
    companyName: string, email: string, password: string, companyEmail: Option<string>, phone: Option<string>)

  datatype ProviderRegistration = ProviderRegistration(
    providerName: string, email: string, password: string, city: Option<string>, region: Option<string>,
    providerEmail: Option<string>, phone: Option<string>)

  predicate EmailTaken(s: Store, email: string) {
    exists i :: 0 <= i < |s.users| && s.users[i].val.email == email
  }

  /** The company row a registration creates for user `userId`: not approved, status
      PendingApproval. */
  function NewCompany(f: CompanyRegistration, userId: nat): Company {
    Company(userId, Some(f.companyName), f.companyEmail, f.phone, Some(false), Some(CompanyPendingApproval))
  }

  function NewProvider(f: ProviderRegistration, userId: nat): Provider {
    Provider(userId, Some(f.providerName), f.providerEmail, f.phone, f.city, f.region, Some(false))
  }

  /** `RegisterCompany` (POST): an invalid form or an address already registered writes
      nothing; otherwise a Company user with the hashed password and its unapproved company
      profile are appended. */
  function RegisterCompany(s: Store, formValid: bool, f: CompanyRegistration, hash: string -> string)
    : (r: Result<Store, Error>)
    ensures !formValid ==> r == Failure(InvalidForm)
    ensures formValid && EmailTaken(s, f.email) ==> r == Failure(AlreadyExists)
    ensures r.Success? <==> formValid && !EmailTaken(s, f.email)
    ensures r.Success? ==>
      var k := NextKey(s.users);
      r.value.users == s.users + [Row(k, User(f.email, hash(f.password), Some(RoleCompany)))] &&
      !HasKey(s.users, k) &&
      r.value.companies == Insert(s.companies, NewCompany(f, k)).0 &&
      r.value == s.(users := r.value.users, companies := r.value.companies)
  {
    if !formValid then Failure(InvalidForm)
    else if EmailTaken(s, f.email) then Failure(AlreadyExists)
    else
      var (users, k) := Insert(s.users, User(f.email, hash(f.password), Some(RoleCompany)));
      Success(s.(users := users, companies := Insert(s.companies, NewCompany(f, k)).0))
  }

  /** `RegisterProvider` (POST), the same for a provider account. */
  function RegisterProvider(s: Store, formValid: bool, f: ProviderRegistration, hash: string -> string)
    : (r: Result<Store, Error>)
    ensures !formValid ==> r == Failure(InvalidForm)
    ensures formValid && EmailTaken(s, f.email) ==> r == Failure(AlreadyExists)
    ensures r.Success? <==> formValid && !EmailTaken(s, f.email)
    ensures r.Success? ==>
      var k := NextKey(s.users);
      r.value.users == s.users + [Row(k, User(f.email, hash(f.password), Some(RoleProvider)))] &&
      !HasKey(s.users, k) &&
      r.value.providers == Insert(s.providers, NewProvider(f, k)).0 &&
      r.value == s.(users := r.value.users, providers := r.value.providers)
  {
    if !formValid then Failure(InvalidForm)
    else if EmailTaken(s, f.email) then Failure(AlreadyExists)
    else
      var (users, k) := Insert(s.users, User(f.email, hash(f.password), Some(RoleProvider)));
      Success(s.(users := users, providers := Insert(s.providers, NewProvider(f, k)).0))
  }

  /** Every company and provider profile belongs to an existing user (the foreign keys the
      database enforces). */
  predicate ProfilesHaveUsers(s: Store) {
    (forall i :: 0 <= i < |s.companies| ==> HasKey(s.users, s.companies[i].val.userId)) &&
    (forall i :: 0 <= i < |s.providers| ==> HasKey(s.users, s.providers[i].val.userId))
  }

  /** A user who registered just now is the one row its address finds. */
  lemma NewUserFound(s: Store, email: string, u: User)
    requires u.email == email && !EmailTaken(s, email)
    ensures UserByEmail(s.(users := Insert(s.users, u).0), email) == Some(Row(Insert(s.users, u).1, u))
  {
    var (t, k) := Insert(s.users, u);
    var r := UserByEmail(s.(users := t), email);
    assert forall i :: 0 <= i < |s.users| ==> t[i] == s.users[i] && t[i].val.email != email;
    assert t[|s.users|] == Row(k, u);
  }

  /** A freshly registered company cannot sign in, whatever password it gives, until an
      administrator approves it. */
  lemma NewCompanyWaits(s: Store, f: CompanyRegistration, hash: string -> string, password: string, rememberMe: bool,
                        returnUrl: Option<string>, verify: (string, string) -> bool, isLocalUrl: string -> bool)
    requires ProfilesHaveUsers(s)
    requires RegisterCompany(s, true, f, hash).Success?
    ensures Login(RegisterCompany(s, true, f, hash).value, true, f.email, password, rememberMe, returnUrl, verify, isLocalUrl)
            in {Refused(InvalidCredentials), Refused(PendingApproval)}
  {
    var s' := RegisterCompany(s, true, f, hash).value;
    var u := User(f.email, hash(f.password), Some(RoleCompany));
    assert UserByEmail(s', f.email) == Some(Row(NextKey(s.users), u)) by {
      NewUserFound(s, f.email, u);
      SameUsers(s', s.(users := Insert(s.users, u).0), f.email);
    }
    var v := NewCompany(f, NextKey(s.users));
    assert s'.companies == s.companies + [Row(NextKey(s.companies), v)];
    NoProfileYet(s, NextKey(s.users));
    assert forall i :: 0 <= i < |s'.companies| && i != |s.companies| ==> s'.companies[i].val.userId != NextKey(s.users) by {
      forall i | 0 <= i < |s'.companies| && i != |s.companies| ensures s'.companies[i].val.userId != NextKey(s.users) {
        assert s'.companies[i] == s.companies[i];
      }
    }
    OnlyCompanyOf(s', NextKey(s.users), |s.companies|);
    InsertGet(s.companies, v);
    UnapprovedWaits(s', f.email, password, Row(NextKey(s.users), u), rememberMe, returnUrl, verify, isLocalUrl);
  }

  /** A company or provider user whose profile is not approved never signs in. */
  lemma UnapprovedWaits(s: Store, email: string, password: string, u: Row<User>, rememberMe: bool,
                        returnUrl: Option<string>, verify: (string, string) -> bool, isLocalUrl: string -> bool)
    requires UserByEmail(s, email) == Some(u)
    requires u.val.role in {Some(RoleCompany), Some(RoleProvider)}
    requires !Approved(s, u.id, u.val.role)
    ensures Login(s, true, email, password, rememberMe, returnUrl, verify, isLocalUrl)
            in {Refused(InvalidCredentials), Refused(PendingApproval)}
  {
  }

  /** The one company row of a user is the one `CompanyOf` finds. */
  lemma OnlyCompanyOf(s: Store, userId: nat, i: int)
    requires 0 <= i < |s.companies| && s.companies[i].val.userId == userId
    requires forall j :: 0 <= j < |s.companies| && j != i ==> s.companies[j].val.userId != userId
    ensures CompanyOf(s, userId) == Some(s.companies[i].id)
  {
  }

  /** A freshly registered provider cannot sign in either until it is approved. */
  lemma NewProviderWaits(s: Store, f: ProviderRegistration, hash: string -> string, password: string, rememberMe: bool,
                         returnUrl: Option<string>, verify: (string, string) -> bool, isLocalUrl: string -> bool)
    requires ProfilesHaveUsers(s)
    requires RegisterProvider(s, true, f, hash).Success?
    ensures Login(RegisterProvider(s, true, f, hash).value, true, f.email, password, rememberMe, returnUrl, verify, isLocalUrl)
            in {Refused(InvalidCredentials), Refused(PendingApproval)}
  {
    var s' := RegisterProvider(s, true, f, hash).value;
    var u := User(f.email, hash(f.password), Some(RoleProvider));
    assert UserByEmail(s', f.email) == Some(Row(NextKey(s.users), u)) by {
      NewUserFound(s, f.email, u);
      SameUsers(s', s.(users := Insert(s.users, u).0), f.email);
    }
    var v := NewProvider(f, NextKey(s.users));
    assert s'.providers == s.providers + [Row(NextKey(s.providers), v)];
    NoProfileYet(s, NextKey(s.users));
    assert forall i :: 0 <= i < |s'.providers| && i != |s.providers| ==> s'.providers[i].val.userId != NextKey(s.users) by {
      forall i | 0 <= i < |s'.providers| && i != |s.providers| ensures s'.providers[i].val.userId != NextKey(s.users) {
        assert s'.providers[i] == s.providers[i];
      }
    }
    OnlyProviderOf(s', NextKey(s.users), |s.providers|);
    InsertGet(s.providers, v);
    UnapprovedWaits(s', f.email, password, Row(NextKey(s.users), u), rememberMe, returnUrl, verify, isLocalUrl);
  }

  /** The provider profile a registration appends is the one its user finds, and toggling
      it makes it approved without touching the users. */
  lemma ToggledNewProvider(s: Store, f: ProviderRegistration, hash: string -> string)
    requires ProfilesHaveUsers(s)
    requires RegisterProvider(s, true, f, hash).Success?
    ensures var s' := RegisterProvider(s, true, f, hash).value;
      var p := NextKey(s.providers);
      Admin.ToggleProvider(s', p).Success? &&
      var s2 := Admin.ToggleProvider(s', p).value;
      s2.users == s'.users && ProviderOf(s2, NextKey(s.users)) == Some(p) &&
      Get(s2.providers, p).value.isApproved == Some(true)
  {
    var s' := RegisterProvider(s, true, f, hash).value;
    var v := NewProvider(f, NextKey(s.users));
    assert s'.providers == s.providers + [Row(NextKey(s.providers), v)];
    assert HasKey(s'.providers, NextKey(s.providers)) by {
      assert s'.providers[|s.providers|].id == NextKey(s.providers);
    }
    var s2 := Admin.ToggleProvider(s', NextKey(s.providers)).value;
    assert s2.providers == Put(s'.providers, NextKey(s.providers), v.(isApproved := Admin.Negate(v.isApproved)));
    NoProfileYet(s, NextKey(s.users));
    assert forall i :: 0 <= i < |s2.providers| && i != |s.providers| ==> s2.providers[i].val.userId != NextKey(s.users) by {
      forall i | 0 <= i < |s2.providers| && i != |s.providers| ensures s2.providers[i].val.userId != NextKey(s.users) {
        assert s'.providers[i] == s.providers[i];
      }
    }
    OnlyProviderOf(s2, NextKey(s.users), |s.providers|);
  }

  /** An address not yet a user's key owns no profile. */
  lemma NoProfileYet(s: Store, k: nat)
    requires ProfilesHaveUsers(s) && !HasKey(s.users, k)
    ensures forall i :: 0 <= i < |s.providers| ==> s.providers[i].val.userId != k
    ensures forall i :: 0 <= i < |s.companies| ==> s.companies[i].val.userId != k
  {
  }

  /** The one provider row of a user is the one `ProviderOf` finds. */
  lemma OnlyProviderOf(s: Store, userId: nat, i: int)
    requires 0 <= i < |s.providers| && s.providers[i].val.userId == userId
    requires forall j :: 0 <= j < |s.providers| && j != i ==> s.providers[j].val.userId != userId
    ensures ProviderOf(s, userId) == Some(s.providers[i].id)
  {
  }

  /** Once an administrator toggles the new provider's approval, the provider signs in with
      the password it registered, provided the hash checks against that password. */
  lemma ApprovedProviderSignsIn(s: Store, f: ProviderRegistration, hash: string -> string, rememberMe: bool,
                                verify: (string, string) -> bool, isLocalUrl: string -> bool)
    requires ProfilesHaveUsers(s)
    requires RegisterProvider(s, true, f, hash).Success?
    requires verify(f.password, hash(f.password))
    ensures var s' := RegisterProvider(s, true, f, hash).value;
      var p := NextKey(s.providers);
      Admin.ToggleProvider(s', p).Success? &&
      Login(Admin.ToggleProvider(s', p).value, true, f.email, f.password, rememberMe, None, verify, isLocalUrl) ==
        SignedIn(NextKey(s.users), RoleProvider, rememberMe, ToAction("Dashboard", "Provider"))
  {
    var u := User(f.email, hash(f.password), Some(RoleProvider));
    var s' := RegisterProvider(s, true, f, hash).value;
    var p := NextKey(s.providers);
    ToggledNewProvider(s, f, hash);
    var s2 := Admin.ToggleProvider(s', p).value;
    assert UserByEmail(s2, f.email) == Some(Row(NextKey(s.users), u)) by {
      NewUserFound(s, f.email, u);
      assert s2.users == Insert(s.users, u).0;
      SameUsers(s2, s.(users := Insert(s.users, u).0), f.email);
    }
    ProviderSignsIn(s2, f.email, f.password, Row(NextKey(s.users), u), p, rememberMe, verify, isLocalUrl);
  }

  /** Looking a user up by address reads the users and nothing else. */
  lemma SameUsers(s: Store, s': Store, email: string)
    requires s.users == s'.users
    ensures UserByEmail(s, email) == UserByEmail(s', email)
  {
  }

  /** A provider user whose approved profile exists signs in with a password its hash
      accepts and goes to the provider dashboard. */
  lemma ProviderSignsIn(s: Store, email: string, password: string, u: Row<User>, p: nat, rememberMe: bool,
                        verify: (string, string) -> bool, isLocalUrl: string -> bool)
    requires UserByEmail(s, email) == Some(u) && u.val.role == Some(RoleProvider)
    requires verify(password, u.val.passwordHash)
    requires ProviderOf(s, u.id) == Some(p) && Get(s.providers, p).Some? && Get(s.providers, p).value.isApproved == Some(true)
    ensures Login(s, true, email, password, rememberMe, None, verify, isLocalUrl) ==
      SignedIn(u.id, RoleProvider, rememberMe, ToAction("Dashboard", "Provider"))
  {
  }
}

=== FILE: authorization.dfy ===
/** The role check behind the role-restricted pages: a principal passes a role requirement
    exactly when it is authenticated and its first role claim is a non-empty role the
    requirement lists. The handler answers every request with exactly one verdict. */
module Authorization {
  import opened Wrappers
  import opened Constants
  import opened Marketplace
  import Text
  import Auth
  import Admin
  import Tables

  /** The claim types the application writes when it signs a user in. */
  datatype ClaimKind = NameIdentifier | Name | Email | Role

  datatype Claim = Claim(kind: ClaimKind, value: string)

  /** The principal of a request: its identity, when there is one, and its claims. */
  datatype Principal = Principal(identity: Option<bool>, claims: seq<Claim>)

  /** What the handler reports to the authorization context. */
  datatype Verdict = Succeed | Fail

  /** `FindFirst(kind)?.Value`: the value of the first claim of that kind. */
  function FindFirst(claims: seq<Claim>, kind: ClaimKind): (r: Option<string>)
    ensures r.None? <==> forall i :: 0 <= i < |claims| ==> claims[i].kind != kind
    ensures r.Some? ==> exists i :: 0 <= i < |claims| && claims[i] == Claim(kind, r.value) &&
                                    forall j :: 0 <= j < i ==> claims[j].kind != kind
    decreases |claims|
  {
    if |claims| == 0 then None
    else if claims[0].kind == kind then Some(claims[0].value)
    else
      var r := FindFirst(claims[1..], kind);
      if r.Some? then
        var i :| 1 <= i + 1 <= |claims| && 0 <= i < |claims[1..]| && claims[1..][i] == Claim(kind, r.value) &&
                 forall j :: 0 <= j < i ==> claims[1..][j].kind != kind;
        assert claims[i + 1] == Claim(kind, r.value);
        assert forall j :: 1 <= j < i + 1 ==> claims[j] == claims[1..][j - 1];
        r
      else r
  }

  /** `Identity?.IsAuthenticated ?? false`. */
  predicate Authenticated(user: Principal) {
    user.identity.Some? && user.identity.value
  }

  /** The role claim the handler reads. */
  function RoleOf(user: Principal): Option<string> {
    FindFirst(user.claims, Role)
  }

  /** `HandleRequirementAsync`: the verdicts the handler reports for one request. There is
      always exactly one: an unauthenticated principal, one without a role claim or with an
      empty one, and one whose role the requirement does not list fail; all others succeed. */
  function Handle(user: Principal, roles: seq<string>): (calls: seq<Verdict>)
    ensures |calls| == 1
    ensures !Authenticated(user) ==> calls == [Fail]
    ensures RoleOf(user).None? || RoleOf(user) == Some("") ==> calls == [Fail]
    ensures calls == [Succeed] <==>
      Authenticated(user) && RoleOf(user).Some? && |RoleOf(user).value| > 0 && RoleOf(user).value in roles
    ensures Authenticated(user) && RoleOf(user).Some? && RoleOf(user).value !in roles ==> calls == [Fail]
  {
    if !Authenticated(user) then [Fail]
    else
      var role := RoleOf(user);
      if role.None? || |role.value| == 0 then [Fail]
      else if role.value in roles then [Succeed]
      else [Fail]
  }

  /** The principal a successful sign-in creates: authenticated, with the user's key, name,
      e-mail address and role claim, in that order. */
  function SignedInPrincipal(userId: string, name: string, email: string, roleClaim: string): (p: Principal)
    ensures Authenticated(p)
    ensures RoleOf(p) == Some(roleClaim)
  {
    var claims := [Claim(NameIdentifier, userId), Claim(Name, name), Claim(Email, email), Claim(Role, roleClaim)];
    assert claims[3] == Claim(Role, roleClaim);
    Principal(Some(true), claims)
  }

  /** A principal from a sign-in passes a requirement exactly when its role claim is listed
      and not empty. */
  lemma SignedInPasses(userId: string, name: string, email: string, roleClaim: string, roles: seq<string>)
    ensures Handle(SignedInPrincipal(userId, name, email, roleClaim), roles) == [Succeed] <==>
      |roleClaim| > 0 && roleClaim in roles
  {
  }

  /** The three roles keep each other out: a principal holding one of them fails a
      requirement that lists only another. */
  lemma RolesKeepApart(user: Principal, held: string, required: string)
    requires held in {RoleAdmin, RoleCompany, RoleProvider} && required in {RoleAdmin, RoleCompany, RoleProvider}
    requires RoleOf(user) == Some(held) && held != required
    ensures Handle(user, [required]) == [Fail]
  {
  }

  /** A user signed in without a stored role gets the Company role claim, so a company-only
      requirement lets it through. */
  lemma MissingRoleActsAsCompany(s: Store, email: string, password: string, rememberMe: bool,
                                 verify: (string, string) -> bool, isLocalUrl: string -> bool,
                                 name: string)
    requires Auth.UserByEmail(s, email).Some? && Auth.UserByEmail(s, email).value.val.role.None?
    requires verify(password, Auth.UserByEmail(s, email).value.val.passwordHash)
    ensures var r := Auth.Login(s, true, email, password, rememberMe, None, verify, isLocalUrl);
      r.SignedIn? && Handle(SignedInPrincipal(Text.NatToString(r.userId), name, email, r.roleClaim), [RoleCompany]) == [Succeed]
  {
    Auth.MissingRoleGoesHome(s, email, password, rememberMe, verify, isLocalUrl);
  }

  /** A provider that registers and is then approved by an administrator signs in with the
      Provider role claim and passes a provider-only requirement, but not a company-only one. */
  lemma ApprovedProviderPasses(s: Store, f: Auth.ProviderRegistration, hash: string -> string, rememberMe: bool,
                               verify: (string, string) -> bool, isLocalUrl: string -> bool, name: string)
    requires Auth.ProfilesHaveUsers(s)
    requires Auth.RegisterProvider(s, true, f, hash).Success?
    requires verify(f.password, hash(f.password))
    ensures var s' := Auth.RegisterProvider(s, true, f, hash).value;
      var approved := Admin.ToggleProvider(s', Tables.NextKey(s.providers));
      approved.Success? &&
      var r := Auth.Login(approved.value, true, f.email, f.password, rememberMe, None, verify, isLocalUrl);
      r.SignedIn? &&
      Handle(SignedInPrincipal(Text.NatToString(r.userId), name, f.email, r.roleClaim), [RoleProvider]) == [Succeed] &&
      Handle(SignedInPrincipal(Text.NatToString(r.userId), name, f.email, r.roleClaim), [RoleCompany]) == [Fail]
  {
    Auth.ApprovedProviderSignsIn(s, f, hash, rememberMe, verify, isLocalUrl);
  }
}

=== FILE: bid_statistics.dfy ===
/** The bid summary shown with a request, both to its company and on the public detail page:
    average, lowest and highest price (a bid without a price counts as 0) and the number of
    distinct providers that bid. */
module BidStatistics {
  import opened Listing
  import opened Marketplace

  datatype Stats = Stats(average: real, min: int, max: int, activeBidders: nat)

  /** `BidPrice ?? 0`. */
  function PriceOrZero(b: Bid): int {
    b.price.GetOr(0)
  }

  function BidProvider(b: Bid): nat {
    b.providerId
  }

  /** All zeros for no bids; otherwise the lowest and highest prices are prices some bid has,
      every price lies between them, and the average is the total over the count and lies
      between them too. The bidder count is the number of distinct providers: at least one
      when there are bids, and at most the number of bids. */
  function Compute(bids: seq<Bid>): (st: Stats)
    ensures |bids| == 0 ==> st == Stats(0.0, 0, 0, 0)
    ensures |bids| > 0 ==> PriceSummary(bids, st)
    ensures st.activeBidders == |Image(bids, BidProvider)| && st.activeBidders <= |bids|
    ensures |bids| > 0 ==> st.activeBidders >= 1
  {
    var bidders := DistinctCount(bids, BidProvider);
    if |bids| == 0 then Stats(0.0, 0, 0, bidders)
    else
      var p := Prices(bids);
      Stats(p.0, p.1, p.2, bidders)
  }

  /** What the three price figures mean. */
  predicate PriceSummary(bids: seq<Bid>, st: Stats) {
    (forall i :: 0 <= i < |bids| ==> st.min <= PriceOrZero(bids[i]) <= st.max) &&
    (exists i :: 0 <= i < |bids| && PriceOrZero(bids[i]) == st.min) &&
    (exists i :: 0 <= i < |bids| && PriceOrZero(bids[i]) == st.max) &&
    st.average == Sum(bids, PriceOrZero) as real / |bids| as real &&
    st.min as real <= st.average <= st.max as real
  }

  /** Average, minimum and maximum of a non-empty list of bids. */
  function Prices(bids: seq<Bid>): (r: (real, int, int))
    requires |bids| > 0
    ensures PriceSummary(bids, Stats(r.0, r.1, r.2, 0))
  {
    var lo, hi := MinOf(bids, PriceOrZero), MaxOf(bids, PriceOrZero);
    var total := Sum(bids, PriceOrZero);
    SumBounds(bids, PriceOrZero, lo, hi);
    var n := |bids|;
    assert n * lo <= total <= n * hi;
    var a := Mean(total, n, lo, hi);
    (a, lo, hi)
  }

  /** `Average`: the total over the count, which lies between any bounds of the parts. */
  function Mean(total: int, n: nat, lo: int, hi: int): (a: real)
    requires n > 0 && n * lo <= total <= n * hi
    ensures a == total as real / n as real
    ensures lo as real <= a <= hi as real
  {
    var a := total as real / n as real;
    assert (n * lo) as real == n as real * lo as real;
    assert (n * hi) as real == n as real * hi as real;
    a
  }
}

=== FILE: calendar.dfy ===
/** The slice of `System.DateTime` the application uses: proleptic Gregorian dates with a
    tick-of-day (100 ns units), the `Ticks` count that orders them, `AddDays`, `AddMonths`,
    the month a date falls in, and the `yyyyMMdd` / `yyyy-MM-dd` renderings. */
module Calendar {
  import opened Text

  const TicksPerDay: nat := 864_000_000_000

  datatype DateTime = DateTime(year: int, month: int, day: int, tick: int)

  predicate IsLeapYear(y: int) {
    (y % 4 == 0 && y % 100 != 0) || y % 400 == 0
  }

  function YearLength(y: int): (n: nat)
    ensures n == 365 || n == 366
  {
    if IsLeapYear(y) then 366 else 365
  }

  function DaysInMonth(y: int, m: int): (n: int)
    requires 1 <= m <= 12
    ensures 28 <= n <= 31
  {
    if m == 2 then (if IsLeapYear(y) then 29 else 28)
    else if m == 4 || m == 6 || m == 9 || m == 11 then 30
    else 31
  }

  /** A representable date: year from 1, a real day of a real month, a tick within the day. */
  predicate Valid(t: DateTime) {
    1 <= t.year && 1 <= t.month <= 12 && 1 <= t.day <= DaysInMonth(t.year, t.month) &&
    0 <= t.tick < TicksPerDay
  }

  /** A stored or current instant: a real date from year 1 on. The year has no upper bound
      here, while `System.DateTime` ends with 9999. */
  type Instant = t: DateTime | Valid(t) witness DateTime(1, 1, 1, 0)

  /** Days from 1 January of year 1 to 1 January of year `y`. */
  function DaysBeforeYear(y: int): nat
    requires y >= 1
    decreases y
  {
    if y == 1 then 0 else DaysBeforeYear(y - 1) + YearLength(y - 1)
  }

  /** Days from 1 January to the first of month `m` (13 meaning the next 1 January). */
  function DaysBeforeMonth(y: int, m: int): nat
    requires 1 <= m <= 13
  {
    var common := [0, 31, 59, 90, 120, 151, 181, 212, 243, 273, 304, 334, 365];
    common[m - 1] + (if IsLeapYear(y) && m > 2 then 1 else 0)
  }

  lemma DaysBeforeNextMonth(y: int, m: int)
    requires 1 <= m <= 12
    ensures DaysBeforeMonth(y, m + 1) == DaysBeforeMonth(y, m) + DaysInMonth(y, m)
    ensures DaysBeforeMonth(y, 13) == YearLength(y)
  {
  }

  /** Months are numbered consecutively from January of year 0: `year * 12 + month - 1`. */
  function MonthIndex(t: DateTime): int {
    t.year * 12 + t.month - 1
  }

  /** December of year 9999, the last month a `System.DateTime` can hold. */
  const LastMonth: int := 9999 * 12 + 11

  /** Midnight on the first day of month number `k`. */
  function FirstOfMonth(k: int): (t: DateTime)
    requires k >= 12
    ensures Valid(t) && t.day == 1 && t.tick == 0 && MonthIndex(t) == k
  {
    DateTime(k / 12, k % 12 + 1, 1, 0)
  }

  /** `DateTime.Ticks` divided by the ticks of a day: days since 1 January of year 1. */
  function DayNumber(t: DateTime): nat
    requires Valid(t)
  {
    DaysBeforeYear(t.year) + DaysBeforeMonth(t.year, t.month) + t.day - 1
  }

  /** `DateTime.Ticks`: the instant as a single count, which is how dates compare. */
  function Ticks(t: DateTime): nat
    requires Valid(t)
  {
    DayNumber(t) * TicksPerDay + t.tick
  }

  /** The following calendar day at the same time of day. */
  function NextDay(t: DateTime): (r: DateTime)
    requires Valid(t)
    ensures Valid(r) && r.tick == t.tick
    ensures Ticks(r) == Ticks(t) + TicksPerDay
  {
    DaysBeforeNextMonth(t.year, t.month);
    if t.day < DaysInMonth(t.year, t.month) then t.(day := t.day + 1)
    else if t.month < 12 then t.(month := t.month + 1, day := 1)
    else t.(year := t.year + 1, month := 1, day := 1)
  }

  /** `DateTime.AddDays` for a whole, non-negative number of days. */
  function AddDays(t: DateTime, n: nat): (r: DateTime)
    requires Valid(t)
    ensures Valid(r) && r.tick == t.tick
    decreases n
  {
    if n == 0 then t else AddDays(NextDay(t), n - 1)
  }

  /** Adding days moves the instant forward by exactly that many days of ticks. */
  lemma {:induction false} AddDaysTicks(t: DateTime, n: nat)
    requires Valid(t)
    ensures Ticks(AddDays(t, n)) == Ticks(t) + n * TicksPerDay
    decreases n
  {
    if n > 0 {
      AddDaysTicks(NextDay(t), n - 1);
    }
  }

  /** `DateTime.AddMonths`: same day and time `n` months on, the day clamped to the length of
      the target month. */
  function AddMonths(t: DateTime, n: int): (r: DateTime)
    requires Valid(t) && MonthIndex(t) + n >= 12
    ensures Valid(r) && MonthIndex(r) == MonthIndex(t) + n && r.tick == t.tick
    ensures r.day == if t.day <= DaysInMonth(r.year, r.month) then t.day else DaysInMonth(r.year, r.month)
  {
    var first := FirstOfMonth(MonthIndex(t) + n);
    var last := DaysInMonth(first.year, first.month);
    first.(day := if t.day <= last then t.day else last, tick := t.tick)
  }

  /** Day number of the first day of month `k`. */
  function MonthStart(k: int): nat
    requires k >= 12
  {
    DayNumber(FirstOfMonth(k))
  }

  lemma MonthStartNext(k: int)
    requires k >= 12
    ensures MonthStart(k + 1) == MonthStart(k) + DaysInMonth(k / 12, k % 12 + 1)
  {
    if k % 12 == 11 {
      DecemberStartNext(k, k / 12);
    } else {
      MonthStartNextInYear(k, k / 12, k % 12);
    }
  }

  lemma DecemberStartNext(k: int, y: int)
    requires y >= 1 && k == 12 * y + 11
    ensures MonthStart(k + 1) == MonthStart(k) + DaysInMonth(y, 12)
  {
    MonthStartAt(k, y, 11);
    MonthStartAt(k + 1, y + 1, 0);
    NextYearStart(y);
  }

  lemma MonthStartNextInYear(k: int, y: int, r: int)
    requires y >= 1 && 0 <= r < 11 && k == 12 * y + r
    ensures MonthStart(k + 1) == MonthStart(k) + DaysInMonth(y, r + 1)
  {
    MonthStartAt(k, y, r);
    MonthStartAt(k + 1, y, r + 1);
    DaysBeforeNextMonth(y, r + 1);
  }

  /** January of the next year starts when December of this one ends. */
  lemma NextYearStart(y: int)
    requires y >= 1
    ensures DaysBeforeYear(y + 1) + DaysBeforeMonth(y + 1, 1) == DaysBeforeYear(y) + DaysBeforeMonth(y, 12) + DaysInMonth(y, 12)
  {
    DaysBeforeNextMonth(y, 12);
  }

  /** Month number `12 * y + r` starts `r` months into year `y`. */
  lemma MonthStartAt(k: int, y: int, r: int)
    requires k == 12 * y + r && 0 <= r < 12 && y >= 1
    ensures MonthStart(k) == DaysBeforeYear(y) + DaysBeforeMonth(y, r + 1)
  {
    DivideByTwelve(k, y, r);
    assert FirstOfMonth(k) == DateTime(y, r + 1, 1, 0);
  }

  lemma DivideByTwelve(a: int, q: int, r: int)
    requires a == 12 * q + r && 0 <= r < 12
    ensures a / 12 == q && a % 12 == r
  {
  }

  /** Month starts never decrease. */
  lemma {:induction false} MonthStartMonotone(j: int, k: int)
    requires 12 <= j <= k
    ensures MonthStart(j) <= MonthStart(k)
    decreases k - j
  {
    if j < k {
      MonthStartNext(j);
      MonthStartMonotone(j + 1, k);
    }
  }

  /** A date lies in its own month's day range. */
  lemma DayNumberInMonth(t: DateTime)
    requires Valid(t)
    ensures MonthIndex(t) >= 12
    ensures MonthStart(MonthIndex(t)) <= DayNumber(t) < MonthStart(MonthIndex(t) + 1)
  {
    var k := MonthIndex(t);
    DivideByTwelve(k, t.year, t.month - 1);
    assert FirstOfMonth(k) == t.(day := 1, tick := 0);
    MonthStartNext(k);
  }

  /** A date falls between the first of month `k` (inclusive) and the first of the following
      month (exclusive) exactly when it is in month `k`. */
  lemma {:induction false} InMonthIff(t: DateTime, k: int)
    requires Valid(t) && k >= 12
    ensures Ticks(FirstOfMonth(k)) <= Ticks(t) < Ticks(FirstOfMonth(k + 1)) <==> MonthIndex(t) == k
  {
    InMonthDays(t, k);
    assert Ticks(FirstOfMonth(k)) == MonthStart(k) * TicksPerDay;
    assert Ticks(FirstOfMonth(k + 1)) == MonthStart(k + 1) * TicksPerDay;
  }

  lemma {:induction false} InMonthDays(t: DateTime, k: int)
    requires Valid(t) && k >= 12
    ensures MonthStart(k) <= DayNumber(t) < MonthStart(k + 1) <==> MonthIndex(t) == k
  {
    var i := MonthIndex(t);
    if i < k {
      EarlierMonth(t, k);
    } else if i > k {
      LaterMonth(t, k);
    } else {
      DayNumberInMonth(t);
    }
  }

  lemma {:induction false} EarlierMonth(t: DateTime, k: int)
    requires Valid(t) && MonthIndex(t) < k
    ensures DayNumber(t) < MonthStart(k)
  {
    var i := MonthIndex(t);
    DayNumberInMonth(t);
    var next := MonthStart(i + 1);
    assert DayNumber(t) < next;
    MonthStartMonotone(i + 1, k);
    assert next <= MonthStart(k);
  }

  lemma {:induction false} LaterMonth(t: DateTime, k: int)
    requires Valid(t) && 12 <= k < MonthIndex(t)
    ensures MonthStart(k + 1) <= DayNumber(t)
  {
    var i := MonthIndex(t);
    DayNumberInMonth(t);
    MonthStartMonotone(k + 1, i);
  }

  /** An instant in a later month is a later instant; so an earlier instant never falls in a
      later month. */
  lemma MonthsFollowTicks(a: DateTime, b: DateTime)
    requires Valid(a) && Valid(b)
    ensures MonthIndex(b) < MonthIndex(a) ==> Ticks(b) < Ticks(a)
  {
    if MonthIndex(b) < MonthIndex(a) {
      EarlierMonth(b, MonthIndex(a));
      DayNumberInMonth(a);
      assert Ticks(b) < (DayNumber(b) + 1) * TicksPerDay <= DayNumber(a) * TicksPerDay <= Ticks(a);
    }
  }

  /** `yyyyMMdd`. */
  function CompactDate(t: DateTime): (s: string)
    requires Valid(t)
    ensures AllDigits(s)
    ensures t.year < 10000 ==>
      |s| == 8 && ParseNat(s[..4]) == t.year && ParseNat(s[4..6]) == t.month && ParseNat(s[6..]) == t.day
  {
    FieldWidths(t);
    var y, m, d := Pad(t.year, 4), Pad(t.month, 2), Pad(t.day, 2);
    var s := y + m + d;
    assert t.year < 10000 ==> s[..4] == y && s[4..6] == m && s[6..] == d;
    s
  }

  /** `yyyy-MM-dd`. */
  function IsoDate(t: DateTime): (s: string)
    requires Valid(t)
    ensures t.year < 10000 ==>
      |s| == 10 && s[4] == '-' && s[7] == '-' && AllDigits(s[..4]) && AllDigits(s[5..7]) && AllDigits(s[8..]) &&
      ParseNat(s[..4]) == t.year && ParseNat(s[5..7]) == t.month && ParseNat(s[8..]) == t.day
  {
    FieldWidths(t);
    var y, m, d := Pad(t.year, 4), Pad(t.month, 2), Pad(t.day, 2);
    var s := y + "-" + m + "-" + d;
    assert t.year < 10000 ==> s[..4] == y && s[5..7] == m && s[8..] == d;
    s
  }

  lemma FieldWidths(t: DateTime)
    requires Valid(t)
    ensures |Pad(t.month, 2)| == 2 && |Pad(t.day, 2)| == 2
    ensures t.year < 10000 ==> |Pad(t.year, 4)| == 4
  {
    NatToStringLength(t.month, 2);
    NatToStringLength(t.day, 2);
    if t.year < 10000 {
      NatToStringLength(t.year, 4);
    }
  }

  /** `{prefix}{now:yyyyMMdd}-{id}`, the shape of invoice and tracking numbers: for a
      four-digit year the key can be read back from after the second dash. */
  function DatedNumber(prefix: string, now: Instant, id: nat): (n: string)
    requires |prefix| == 4
    ensures |n| > 4 && n[..4] == prefix
    ensures now.year < 10000 ==>
      (|n| > 13 && n[12] == '-' && AllDigits(n[4..12]) && AllDigits(n[13..]) && ParseNat(n[13..]) == id)
  {
    var d := CompactDate(now);
    var digits := NatToString(id);
    ParseNatToString(id);
    Stamped(prefix, d, digits)
  }
}

=== FILE: company_bids.dfy ===
/** A company's decisions on the bids placed on its requests: accept one (which rejects the
    others), reject one, turn an accepted bid into a contract, and the bid list with its
    statistics. */
module CompanyBids {
  import opened Wrappers
  import opened Tables
  import opened Constants
  import opened Text
  import opened Listing
  import opened Marketplace
  import Documents
  import BidStatistics
  import Forms
  import ProviderBids
  import ProviderContracts
  import Admin

  /** The bid table after accepting bid `id` of request `requestId`: that bid Accepted, every
      other bid on the same request Rejected. */
  function AcceptedBids(bids: Table<Bid>, id: nat, requestId: nat): Table<Bid> {
    seq(|bids|, i requires 0 <= i < |bids| =>
      if bids[i].id == id then bids[i].(val := bids[i].val.(status := BidStatus.Accepted))
      else if bids[i].val.requestId == requestId then bids[i].(val := bids[i].val.(status := Rejected))
      else bids[i])
  }

  /** `Accept`: only a Submitted bid on one of the caller's requests; the request's own status
      is not consulted. The bid becomes Accepted, every other bid on that request Rejected
      whatever it was, bids on other requests stay, and the request is Assigned to the bid's
      provider. */
  function Accept(s: Store, userId: nat, id: nat, now: Instant): (r: Result<Store, Error>)
    ensures r.Success? <==> CompanyBid(s, userId, id).Some? && CompanyBid(s, userId, id).value.status == Submitted
    ensures r.Success? ==>
      var b := CompanyBid(s, userId, id).value;
      var t := r.value.bids;
      |t| == |s.bids| &&
      (forall i :: 0 <= i < |t| ==> t[i].id == s.bids[i].id) &&
      (forall i :: 0 <= i < |t| && t[i].id == id ==> t[i].val == s.bids[i].val.(status := BidStatus.Accepted)) &&
      (forall i :: 0 <= i < |t| && t[i].id != id && s.bids[i].val.requestId == b.requestId ==>
         t[i].val == s.bids[i].val.(status := Rejected)) &&
      (forall i :: 0 <= i < |t| && s.bids[i].val.requestId != b.requestId && t[i].id != id ==> t[i] == s.bids[i]) &&
      r.value.requests == Put(s.requests, b.requestId,
        WithStatus(RequestOf(s, b).value, Assigned, now).(providerId := Some(b.providerId))) &&
      r.value == s.(bids := t, requests := r.value.requests)
    ensures r.Failure? ==> r.error == NotAllowed
  {
    match CompanyBid(s, userId, id)
    case None => Failure(NotAllowed)
    case Some(b) =>
      if b.status != Submitted then Failure(NotAllowed)
      else
        var req := RequestOf(s, b).value;
        var updated := WithStatus(req, Assigned, now).(providerId := Some(b.providerId));
        Success(s.(bids := AcceptedBids(s.bids, id, b.requestId), requests := Put(s.requests, b.requestId, updated)))
  }

  /** After an accept, the accepted bid is the only bid on its request that is not Rejected,
      and the request is Assigned to that bid's provider. */
  lemma AcceptSettlesRequest(s: Store, userId: nat, id: nat, now: Instant)
    requires Accept(s, userId, id, now).Success?
    ensures var b := CompanyBid(s, userId, id).value;
      var t := Accept(s, userId, id, now).value;
      (forall i :: 0 <= i < |t.bids| && t.bids[i].val.requestId == b.requestId ==>
         (t.bids[i].val.status == BidStatus.Accepted <==> t.bids[i].id == id) &&
         (t.bids[i].id != id ==> t.bids[i].val.status == Rejected)) &&
      Get(t.requests, b.requestId) == Some(WithStatus(RequestOf(s, b).value, Assigned, now).(providerId := Some(b.providerId)))
  {
    var b := CompanyBid(s, userId, id).value;
    var t := Accept(s, userId, id, now).value;
    forall i | 0 <= i < |t.bids| && t.bids[i].val.requestId == b.requestId && t.bids[i].id == id
      ensures s.bids[i].val.requestId == b.requestId
    {
      GetKeyed(s.bids, i, id);
    }
    PutGet(s.requests, b.requestId, WithStatus(RequestOf(s, b).value, Assigned, now).(providerId := Some(b.providerId)));
  }

  /** Two rows with the same key hold, as far as `Get` is concerned, the first one's value. */
  lemma GetKeyed(t: Table<Bid>, i: nat, id: nat)
    requires i < |t| && t[i].id == id && Get(t, id).Some?
    ensures Get(t, id).value.requestId == t[i].val.requestId || exists j :: 0 <= j < i && t[j].id == id
  {
  }

  /** Whether an accept succeeds does not depend on the status of the bid's request: a
      Submitted bid on a Cancelled (or DirectRequest, or Delivered) request is accepted just the
      same, and the request becomes Assigned again. */
  lemma AcceptIgnoresRequestStatus(s: Store, userId: nat, id: nat, now: Instant, st: RequestStatus)
    requires CompanyBid(s, userId, id).Some? && CompanyBid(s, userId, id).value.status == Submitted
    ensures var b := CompanyBid(s, userId, id).value;
      var s' := s.(requests := Put(s.requests, b.requestId, RequestOf(s, b).value.(status := st)));
      Accept(s', userId, id, now).Success? &&
      Get(Accept(s', userId, id, now).value.requests, b.requestId).value.status == Assigned
  {
    var b := CompanyBid(s, userId, id).value;
    var req := RequestOf(s, b).value;
    var s' := s.(requests := Put(s.requests, b.requestId, req.(status := st)));
    PutGet(s.requests, b.requestId, req.(status := st));
    assert CompanyBid(s', userId, id) == Some(b);
    AcceptSettlesRequest(s', userId, id, now);
  }

  /** `Reject`: only a Submitted bid on one of the caller's requests; it becomes Rejected with
      the given reason, or "Rejected by company", as its notes. Nothing else changes, not even
      the request's status. The reason is not checked, so one longer than the notes column is
      refused by the database and nothing is saved. */
  function Reject(s: Store, userId: nat, id: nat, reason: Option<string>): (r: Result<Store, Error>)
    ensures r.Success? <==>
      CompanyBid(s, userId, id).Some? && CompanyBid(s, userId, id).value.status == Submitted &&
      Forms.FitsColumn(reason, Forms.BidNotesColumnWidth)
    ensures CompanyBid(s, userId, id).None? ==> r == Failure(NotFound)
    ensures (CompanyBid(s, userId, id).Some? && CompanyBid(s, userId, id).value.status == Submitted &&
             !Forms.FitsColumn(reason, Forms.BidNotesColumnWidth)) ==> r == Failure(SaveFailed)
    ensures r.Success? ==>
      var b := CompanyBid(s, userId, id).value;
      r.value == s.(bids := Put(s.bids, id, b.(status := Rejected, notes := Some(reason.GetOr("Rejected by company")))))
  {
    match CompanyBid(s, userId, id)
    case None => Failure(NotFound)
    case Some(b) =>
      if b.status != Submitted then Failure(NotAllowed)
      else
        var notes := Some(reason.GetOr("Rejected by company"));
        if !Forms.FitsColumn(notes, Forms.BidNotesColumnWidth) then Failure(SaveFailed)
        else Success(s.(bids := Put(s.bids, id, b.(status := Rejected, notes := notes))))
  }

  /** The contract-creation steps shared by both places a company creates a contract: an
      Accepted bid on one of its requests, a non-empty file, a PDF or Word extension, and an
      upload that produced a path, checked in that order. The new contract links the bid,
      the company and the bid's provider, points its shipment key at the bid's request and
      stores the path; the bid becomes ContractCreated. */
  function NewContract(s: Store, userId: nat, bidId: nat, file: Option<UploadedFile>,
                       upload: Option<string>, signDate: Option<Instant>): (r: Result<Store, Error>)
    ensures CompanyOf(s, userId).None? ==> r == Failure(ProfileNotFound)
    ensures r.Success? <==>
      CompanyBid(s, userId, bidId).Some? && CompanyBid(s, userId, bidId).value.status == BidStatus.Accepted &&
      !NoContent(file) && Documents.Allowed(file.value.fileName, Documents.ContractExtensions) &&
      !IsNullOrEmpty(upload)
    ensures r.Success? ==>
      var b := CompanyBid(s, userId, bidId).value;
      var c := Contract(bidId, CompanyOf(s, userId).value, b.providerId, Some(b.requestId), upload, signDate);
      r.value == s.(contracts := Insert(s.contracts, c).0,
                    bids := Put(s.bids, bidId, b.(status := ContractCreated)))
  {
    match CompanyOf(s, userId)
    case None => Failure(ProfileNotFound)
    case Some(companyId) =>
      match CompanyBid(s, userId, bidId)
      case None => Failure(NotFound)
      case Some(b) =>
        if b.status != BidStatus.Accepted then Failure(NotFound)
        else if NoContent(file) then Failure(NoFile)
        else if !Documents.Allowed(file.value.fileName, Documents.ContractExtensions) then Failure(BadFileType)
        else if IsNullOrEmpty(upload) then Failure(UploadFailed)
        else
          var c := Contract(bidId, companyId, b.providerId, Some(b.requestId), upload, signDate);
          Success(s.(contracts := Insert(s.contracts, c).0, bids := Put(s.bids, bidId, b.(status := ContractCreated))))
  }

  /** `CreateContract` from the bids page: the contract starts unsigned. */
  function CreateContract(s: Store, userId: nat, bidId: nat, file: Option<UploadedFile>, upload: Option<string>)
    : (r: Result<Store, Error>)
    ensures r.Success? ==>
      |r.value.contracts| == |s.contracts| + 1 &&
      r.value.contracts[|s.contracts|].val.signDate.None? &&
      r.value.contracts[|s.contracts|].val.bidId == bidId &&
      Get(r.value.bids, bidId).Some? && Get(r.value.bids, bidId).value.status == ContractCreated
    ensures r.Success? ==> file.Some? && Documents.Allowed(file.value.fileName, Documents.ContractExtensions)
  {
    var r := NewContract(s, userId, bidId, file, upload, None);
    if r.Success? then
      var b := CompanyBid(s, userId, bidId).value;
      PutGet(s.bids, bidId, b.(status := ContractCreated));
      r
    else r
  }

  /** Once a contract is made from a bid, neither its provider nor an administrator can delete
      the bid: the contract refers to it. */
  lemma ContractPinsBid(s: Store, userId: nat, bidId: nat, file: Option<UploadedFile>, upload: Option<string>,
                        owner: nat)
    requires CreateContract(s, userId, bidId, file, upload).Success?
    ensures var t := CreateContract(s, userId, bidId, file, upload).value;
      BidInContract(t, bidId) && ProviderBids.Delete(t, owner, bidId).Failure? && Admin.DeleteBid(t, bidId).Failure?
  {
    var t := CreateContract(s, userId, bidId, file, upload).value;
    assert t.contracts[|s.contracts|].val.bidId == bidId;
  }

  // ---------------------------------------------------------------- contract creation as written

  /** The sign date the database stores for a new contract: the column's `getdate()` default
      fills one left empty, since EF Core leaves out of the insert a property whose value is
      its type's default when the column has a database default. */
  function StoredSignDate(signDate: Option<Instant>, now: Instant): (d: Option<Instant>)
    ensures d.Some?
    ensures signDate.Some? ==> d == signDate
    ensures signDate.None? ==> d == Some(now)
  {
    if signDate.None? then Some(now) else signDate
  }

  /** `NewContract` as written. The new contract's `shipmentId` is the request's key, but its
      foreign key `FK_Contract_Shipment` names the tracking table, so the insert fails unless
      a tracking row happens to carry that key; and an empty sign date is stored as the time
      of the insert. */
  function NewContractAsWritten(s: Store, userId: nat, bidId: nat, file: Option<UploadedFile>,
                                upload: Option<string>, signDate: Option<Instant>, now: Instant): (r: Result<Store, Error>)
    ensures NewContract(s, userId, bidId, file, upload, signDate).Failure? ==>
      r == NewContract(s, userId, bidId, file, upload, signDate)
    ensures r.Success? <==>
      NewContract(s, userId, bidId, file, upload, signDate).Success? &&
      HasKey(s.shipments, CompanyBid(s, userId, bidId).value.requestId)
    ensures (NewContract(s, userId, bidId, file, upload, signDate).Success? &&
             !HasKey(s.shipments, CompanyBid(s, userId, bidId).value.requestId)) ==> r == Failure(SaveFailed)
    ensures r.Success? ==>
      var n := NewContract(s, userId, bidId, file, upload, signDate).value;
      |r.value.contracts| == |n.contracts| == |s.contracts| + 1 &&
      r.value.contracts[|s.contracts|] ==
        n.contracts[|s.contracts|].(val := n.contracts[|s.contracts|].val.(signDate := StoredSignDate(signDate, now))) &&
      r.value == n.(contracts := r.value.contracts)
  {
    var n := NewContract(s, userId, bidId, file, upload, signDate);
    if n.Failure? then n
    else
      var b := CompanyBid(s, userId, bidId).value;
      if !HasKey(s.shipments, b.requestId) then Failure(SaveFailed)
      else
        var c := Contract(bidId, CompanyOf(s, userId).value, b.providerId, Some(b.requestId), upload,
                          StoredSignDate(signDate, now));
        Success(s.(contracts := Insert(s.contracts, c).0, bids := Put(s.bids, bidId, b.(status := ContractCreated))))
  }

  /** Tracking rows are only written for existing contracts, so in a store without any, which
      is how the system starts, no contract can be created from either page. */
  lemma NoContractWithoutTracking(s: Store, userId: nat, bidId: nat, file: Option<UploadedFile>,
                                  upload: Option<string>, signDate: Option<Instant>, now: Instant)
    requires |s.shipments| == 0
    ensures NewContractAsWritten(s, userId, bidId, file, upload, signDate, now).Failure?
    ensures NewContract(s, userId, bidId, file, upload, signDate).Success? ==>
      NewContractAsWritten(s, userId, bidId, file, upload, signDate, now) == Failure(SaveFailed)
  {
  }

  /** As written, a contract created from the bids page is stored already signed, so its
      provider is never offered the signing form for it. */
  lemma BornSigned(s: Store, userId: nat, bidId: nat, file: Option<UploadedFile>, upload: Option<string>,
                   now: Instant, providerUser: nat)
    requires NewContractAsWritten(s, userId, bidId, file, upload, None, now).Success?
    ensures var t := NewContractAsWritten(s, userId, bidId, file, upload, None, now).value;
      var k := t.contracts[|s.contracts|].id;
      Get(t.contracts, k).Some? && Get(t.contracts, k).value.signDate == Some(now) &&
      ProviderContracts.ShowSign(t, providerUser, k).Failure?
  {
    var b := CompanyBid(s, userId, bidId).value;
    var c := Contract(bidId, CompanyOf(s, userId).value, b.providerId, Some(b.requestId), upload, Some(now));
    InsertGet(s.contracts, c);
  }

  /** The company's view of one of its requests: the bids placed on it, cheapest first (a bid
      without a price first of all), with their statistics. */
  function ShipmentBids(s: Store, userId: nat, id: nat): (r: Result<(ShipmentRequest, seq<Bid>, BidStatistics.Stats), Error>)
    ensures r.Success? <==> CompanyOf(s, userId).Some? && Get(s.requests, id).Some? &&
                            Get(s.requests, id).value.companyId == CompanyOf(s, userId).value
    ensures r.Success? ==>
      var (req, bids, st) := r.value;
      Get(s.requests, id) == Some(req) &&
      multiset(bids) == multiset(BidsOn(s, id)) &&
      SortedBy(bids, (b: Bid) => b.price, false) &&
      st == BidStatistics.Compute(bids)
  {
    match CompanyOf(s, userId)
    case None => Failure(ProfileNotFound)
    case Some(c) =>
      match Get(s.requests, id)
      case None => Failure(NotFound)
      case Some(req) =>
        if req.companyId != c then Failure(NotFound)
        else
          var bids := SortBy(BidsOn(s, id), (b: Bid) => b.price, false);
          Success((req, bids, BidStatistics.Compute(bids)))
  }
}

=== FILE: company_contracts.dfy ===
/** A company's contracts: the paid and the waiting-for-payment lists, paying a contract
    (which issues the invoice on first payment and puts the shipment in progress), and
    creating a signed contract for an accepted bid. */
module CompanyContracts {
  import opened Wrappers
  import opened Tables
  import opened Constants
  import opened Text
  import opened Listing
  import opened Marketplace
  import Calendar
  import Forms
  import CompanyBids

  /** Days from issue to due date of an invoice. */
  const InvoiceTermDays: nat := 15

  /** Some payment of invoice `invoiceId` is Successful. */
  predicate InvoicePaid(s: Store, invoiceId: nat) {
    exists j :: 0 <= j < |s.payments| && s.payments[j].val.invoiceId == invoiceId &&
      s.payments[j].val.status == Successful
  }

  /** `c.Invoices.Any(i => i.Payments.Any(p => p.PaymentStatus == "Successful"))`. */
  predicate Paid(s: Store, contractId: nat) {
    exists i :: 0 <= i < |s.invoices| && s.invoices[i].val.contractId == contractId && InvoicePaid(s, s.invoices[i].id)
  }

  /** The contract lies on request `shipmentId` through its bid, when a request filter is set. */
  predicate OnShipment(s: Store, c: Contract, shipmentId: Option<int>) {
    shipmentId.None? ||
    (Get(s.bids, c.bidId).Some? && Get(s.bids, c.bidId).value.requestId == shipmentId.value)
  }

  /** The company's contracts under the request filter, before the payment condition. */
  function CompanyContracts(s: Store, companyId: nat, shipmentId: Option<int>): (r: seq<Row<Contract>>)
    ensures forall i :: 0 <= i < |r| ==> r[i].val.companyId == companyId && OnShipment(s, r[i].val, shipmentId)
    ensures forall i :: (0 <= i < |s.contracts| && s.contracts[i].val.companyId == companyId &&
                         OnShipment(s, s.contracts[i].val, shipmentId)) ==> s.contracts[i] in r
  {
    FilterKeeps(s.contracts, (c: Row<Contract>) => c.val.companyId == companyId && OnShipment(s, c.val, shipmentId));
    Filter(s.contracts, (c: Row<Contract>) => c.val.companyId == companyId && OnShipment(s, c.val, shipmentId))
  }

  /** `Index`: the contracts with a successful payment. */
  function Index(s: Store, userId: nat, shipmentId: Option<int>): (r: Result<seq<Row<Contract>>, Error>)
    ensures r.Success? <==> CompanyOf(s, userId).Some?
    ensures r.Success? ==> forall i :: 0 <= i < |r.value| ==>
      r.value[i].val.companyId == CompanyOf(s, userId).value && Paid(s, r.value[i].id)
  {
    match CompanyOf(s, userId)
    case None => Failure(ProfileNotFound)
    case Some(c) =>
      var all := CompanyContracts(s, c, shipmentId);
      var r := Filter(all, (k: Row<Contract>) => Paid(s, k.id));
      KeptFrom(all, (k: Row<Contract>) => Paid(s, k.id));
      Success(r)
  }

  /** `WaitingPayment`: the contracts without one. */
  function WaitingPayment(s: Store, userId: nat, shipmentId: Option<int>): (r: Result<seq<Row<Contract>>, Error>)
    ensures r.Success? <==> CompanyOf(s, userId).Some?
    ensures r.Success? ==> forall i :: 0 <= i < |r.value| ==>
      r.value[i].val.companyId == CompanyOf(s, userId).value && !Paid(s, r.value[i].id)
  {
    match CompanyOf(s, userId)
    case None => Failure(ProfileNotFound)
    case Some(c) =>
      var all := CompanyContracts(s, c, shipmentId);
      var r := Filter(all, (k: Row<Contract>) => !Paid(s, k.id));
      KeptFrom(all, (k: Row<Contract>) => !Paid(s, k.id));
      Success(r)
  }

  lemma KeptFrom(all: seq<Row<Contract>>, p: Row<Contract> -> bool)
    ensures forall i :: 0 <= i < |Filter(all, p)| ==> Filter(all, p)[i] in all && p(Filter(all, p)[i])
  {
    var r := Filter(all, p);
    forall i | 0 <= i < |r| ensures r[i] in all {
      assert r[i] in multiset(r);
    }
  }

  /** Under the same request filter, the paid and the waiting lists split the company's
      contracts between them: each contract is in exactly one. */
  lemma PaidWaitingPartition(s: Store, userId: nat, shipmentId: Option<int>)
    requires CompanyOf(s, userId).Some?
    ensures multiset(Index(s, userId, shipmentId).value) + multiset(WaitingPayment(s, userId, shipmentId).value) ==
      multiset(CompanyContracts(s, CompanyOf(s, userId).value, shipmentId))
  {
    FilterPartition(CompanyContracts(s, CompanyOf(s, userId).value, shipmentId),
      (k: Row<Contract>) => Paid(s, k.id), (k: Row<Contract>) => !Paid(s, k.id));
  }

  /** `CompanyContractsViewModel.WaitingPaymentCount`: 0 without a list, otherwise the number of
      listed contracts without a successful payment. */
  function WaitingPaymentCount(s: Store, contracts: Option<seq<Row<Contract>>>): (n: nat)
    ensures contracts.None? ==> n == 0
    ensures contracts.Some? ==> n <= |contracts.value|
    ensures contracts.Some? ==> n == |contracts.value| - Count(contracts.value, (k: Row<Contract>) => Paid(s, k.id))
  {
    match contracts
    case None => 0
    case Some(cs) =>
      CountSplit(cs, (k: Row<Contract>) => Paid(s, k.id), (k: Row<Contract>) => !Paid(s, k.id));
      Count(cs, (k: Row<Contract>) => !Paid(s, k.id))
  }

  /** On the list `WaitingPayment` builds, the count is the length of the list. */
  lemma WaitingCountIsLength(s: Store, userId: nat, shipmentId: Option<int>)
    requires CompanyOf(s, userId).Some?
    ensures var w := WaitingPayment(s, userId, shipmentId).value;
      WaitingPaymentCount(s, Some(w)) == |w|
  {
    var w := WaitingPayment(s, userId, shipmentId).value;
    FilterAll(w, (k: Row<Contract>) => !Paid(s, k.id));
  }

  /** The caller's contract with key `id`. */
  function OwnContract(s: Store, userId: nat, id: int): (r: Option<Contract>)
    ensures r.Some? <==> CompanyOf(s, userId).Some? && id >= 0 && Get(s.contracts, id).Some? &&
                         Get(s.contracts, id).value.companyId == CompanyOf(s, userId).value
    ensures r.Some? ==> r == Get(s.contracts, id)
  {
    match CompanyOf(s, userId)
    case None => None
    case Some(c) =>
      if id < 0 then None
      else
        match Get(s.contracts, id)
        case None => None
        case Some(k) => if k.companyId == c then Some(k) else None
  }

  /** `INV-{yyyyMMdd}-{contractId}`. */
  function InvoiceNumber(now: Instant, contractId: nat): (n: string)
    ensures |n| > 4 && n[..4] == "INV-"
    ensures now.year < 10000 ==>
      (|n| > 13 && n[12] == '-' && AllDigits(n[4..12]) && AllDigits(n[13..]) && ParseNat(n[13..]) == contractId)
  {
    Calendar.DatedNumber("INV-", now, contractId)
  }

  /** `TXN-{ticks}`. */
  function TransactionId(now: Instant): (t: string)
    ensures |t| > 4 && t[..4] == "TXN-" && AllDigits(t[4..]) && ParseNat(t[4..]) == Calendar.Ticks(now)
  {
    var t := "TXN-" + NatToString(Calendar.Ticks(now));
    ParseNatToString(Calendar.Ticks(now));
    assert t[4..] == NatToString(Calendar.Ticks(now));
    t
  }

  /** The contract's first invoice, or a new one issued now and due in fifteen days; returns
      the invoice table and the invoice's row. */
  function InvoiceFor(s: Store, contractId: nat, now: Instant): (r: (Table<Invoice>, Row<Invoice>))
    ensures var existing := First(s.invoices, (i: Row<Invoice>) => i.val.contractId == contractId);
      (existing.Some? ==> r == (s.invoices, existing.value)) &&
      (existing.None? ==>
         r.0 == s.invoices + [r.1] && !HasKey(s.invoices, r.1.id) &&
         r.1.val == Invoice(InvoiceNumber(now, contractId), Some(now),
                            Some(Calendar.AddDays(now, InvoiceTermDays)), None, contractId))
    ensures r.1 in r.0 && r.1.val.contractId == contractId
  {
    match First(s.invoices, (i: Row<Invoice>) => i.val.contractId == contractId)
    case Some(row) => (s.invoices, row)
    case None =>
      var inv := Invoice(InvoiceNumber(now, contractId), Some(now), Some(Calendar.AddDays(now, InvoiceTermDays)), None, contractId);
      var (t, k) := Insert(s.invoices, inv);
      assert t[|s.invoices|] == Row(k, inv);
      (t, Row(k, inv))
  }

  /** The payment `ProcessPayment` records: the bid's price (0 without one), the form's method
      or "credit_card", Successful, a `TXN-{ticks}` transaction id. */
  function NewPayment(b: Bid, f: Forms.PaymentForm, invoiceId: nat, now: Instant): Payment {
    Payment(Some(b.price.GetOr(0)), Some(f.paymentMethod.GetOr(Forms.DefaultPaymentMethod)), Successful,
      Some(TransactionId(now)), Some(now), invoiceId)
  }

  /** The steps of `ProcessPayment`, with `reference` the payment key written into the
      invoice: the caller's contract, with a bid, and a valid card form. The contract's first
      invoice is used, or one is issued; a Successful payment for the bid's price is appended
      to it whether or not the contract was paid before; the invoice's payment reference is
      overwritten; and the bid's request goes InProgress. */
  function Pay(s: Store, userId: nat, contractId: int, f: Forms.PaymentForm, now: Instant, reference: nat)
    : (r: Result<Store, Error>)
    ensures CompanyOf(s, userId).None? ==> r == Failure(ProfileNotFound)
    ensures r.Success? <==>
      OwnContract(s, userId, contractId).Some? && Get(s.bids, OwnContract(s, userId, contractId).value.bidId).Some? &&
      Forms.PaymentFormValid(f)
    ensures r.Success? ==>
      var b := Get(s.bids, OwnContract(s, userId, contractId).value.bidId).value;
      var (invoices, invoice) := InvoiceFor(s, contractId, now);
      r.value.payments == s.payments + [Row(NextKey(s.payments), NewPayment(b, f, invoice.id, now))] &&
      r.value.invoices == Put(invoices, invoice.id, invoice.val.(paymentId := Some(reference))) &&
      (Get(s.requests, b.requestId).Some? ==>
         r.value.requests == Put(s.requests, b.requestId, WithStatus(Get(s.requests, b.requestId).value, InProgress, now))) &&
      (Get(s.requests, b.requestId).None? ==> r.value.requests == s.requests) &&
      r.value == s.(payments := r.value.payments, invoices := r.value.invoices, requests := r.value.requests)
  {
    if CompanyOf(s, userId).None? then Failure(ProfileNotFound)
    else
      match OwnContract(s, userId, contractId)
      case None => Failure(NotFound)
      case Some(c) =>
        match Get(s.bids, c.bidId)
        case None => Failure(NotFound)
        case Some(b) =>
          if !Forms.PaymentFormValid(f) then Failure(InvalidForm)
          else
            var (invoices, invoice) := InvoiceFor(s, contractId, now);
            var payments := Insert(s.payments, NewPayment(b, f, invoice.id, now)).0;
            var invoices' := Put(invoices, invoice.id, invoice.val.(paymentId := Some(reference)));
            var requests :=
              match Get(s.requests, b.requestId)
              case None => s.requests
              case Some(req) => Put(s.requests, b.requestId, WithStatus(req, InProgress, now));
            Success(s.(payments := payments, invoices := invoices', requests := requests))
  }

  /** `ProcessPayment` as the controller writes it: the invoice's payment reference is read
      from the new payment before it is saved, when its key is still 0. The invoice's foreign
      key `FK_Invoice_Payment` then names payment 0, so the final save fails unless such a
      payment already exists, and the transaction rolls back everything, the invoice issued on
      the way included. */
  function ProcessPaymentAsWritten(s: Store, userId: nat, contractId: int, f: Forms.PaymentForm, now: Instant)
    : (r: Result<Store, Error>)
    ensures CompanyOf(s, userId).None? ==> r == Failure(ProfileNotFound)
    ensures r.Success? <==>
      OwnContract(s, userId, contractId).Some? && Get(s.bids, OwnContract(s, userId, contractId).value.bidId).Some? &&
      Forms.PaymentFormValid(f) && HasKey(s.payments, 0)
    ensures (OwnContract(s, userId, contractId).Some? && Get(s.bids, OwnContract(s, userId, contractId).value.bidId).Some? &&
             Forms.PaymentFormValid(f) && !HasKey(s.payments, 0)) ==> r == Failure(SaveFailed)
    ensures r.Success? ==>
      var invoice := InvoiceFor(s, contractId, now).1;
      r.value.invoices == Put(InvoiceFor(s, contractId, now).0, invoice.id, invoice.val.(paymentId := Some(0)))
  {
    var r := Pay(s, userId, contractId, f, now, 0);
    if r.Success? && !HasKey(s.payments, 0) then Failure(SaveFailed) else r
  }

  /** Payment keys come from an identity column starting at 1, so no payment has key 0: as
      written, every payment the corrected action records fails to save instead, and none is
      ever recorded. */
  lemma NoPaymentAsWritten(s: Store, userId: nat, contractId: int, f: Forms.PaymentForm, now: Instant)
    requires forall i :: 0 <= i < |s.payments| ==> s.payments[i].id >= 1
    ensures ProcessPaymentAsWritten(s, userId, contractId, f, now).Failure?
    ensures ProcessPayment(s, userId, contractId, f, now).Success? ==>
      ProcessPaymentAsWritten(s, userId, contractId, f, now) == Failure(SaveFailed)
  {
  }

  /** `t` holds one payment more than `s`, appended under a fresh key: Successful, against
      invoice `invoiceId`, for bid `b`'s price (0 when it has none), by the form's method or
      "credit_card". */
  predicate PaymentAppended(s: Store, t: Store, b: Bid, f: Forms.PaymentForm, invoiceId: nat) {
    |t.payments| == |s.payments| + 1 && t.payments[..|s.payments|] == s.payments &&
    !HasKey(s.payments, t.payments[|s.payments|].id) &&
    t.payments[|s.payments|].val.invoiceId == invoiceId && t.payments[|s.payments|].val.status == Successful &&
    t.payments[|s.payments|].val.amount == Some(b.price.GetOr(0)) &&
    t.payments[|s.payments|].val.paymentMethod == Some(f.paymentMethod.GetOr(Forms.DefaultPaymentMethod))
  }

  /** What a successful `Pay` leaves behind, read back: the payment appended and the bid's
      request, when it exists, InProgress. */
  lemma PayRecords(s: Store, userId: nat, contractId: int, f: Forms.PaymentForm, now: Instant, reference: nat)
    requires Pay(s, userId, contractId, f, now, reference).Success?
    ensures var t := Pay(s, userId, contractId, f, now, reference).value;
      var b := Get(s.bids, OwnContract(s, userId, contractId).value.bidId).value;
      PaymentAppended(s, t, b, f, InvoiceFor(s, contractId, now).1.id) &&
      (Get(s.requests, b.requestId).Some? ==>
         Get(t.requests, b.requestId).Some? && Get(t.requests, b.requestId).value.status == InProgress)
  {
    var b := Get(s.bids, OwnContract(s, userId, contractId).value.bidId).value;
    if Get(s.requests, b.requestId).Some? {
      PutGet(s.requests, b.requestId, WithStatus(Get(s.requests, b.requestId).value, InProgress, now));
    }
  }

  /** `ProcessPayment` with the invoice pointing at the payment it has just received (the key
      the new payment row is given). The payment is Successful, for the bid's price (0 when
      the bid has none), by the form's method or "credit_card"; the bid's request goes
      InProgress; contracts, bids and every other table stay as they were. */
  function ProcessPayment(s: Store, userId: nat, contractId: int, f: Forms.PaymentForm, now: Instant)
    : (r: Result<Store, Error>)
    ensures CompanyOf(s, userId).None? ==> r == Failure(ProfileNotFound)
    ensures r.Success? <==>
      OwnContract(s, userId, contractId).Some? && Get(s.bids, OwnContract(s, userId, contractId).value.bidId).Some? &&
      Forms.PaymentFormValid(f)
    ensures r.Success? ==>
      var b := Get(s.bids, OwnContract(s, userId, contractId).value.bidId).value;
      var invoice := InvoiceFor(s, contractId, now).1;
      PaymentAppended(s, r.value, b, f, invoice.id) &&
      r.value.invoices == Put(InvoiceFor(s, contractId, now).0, invoice.id,
                              invoice.val.(paymentId := Some(r.value.payments[|s.payments|].id))) &&
      (Get(s.requests, b.requestId).Some? ==>
         Get(r.value.requests, b.requestId).Some? && Get(r.value.requests, b.requestId).value.status == InProgress) &&
      r.value == s.(payments := r.value.payments, invoices := r.value.invoices, requests := r.value.requests)
  {
    var r := Pay(s, userId, contractId, f, now, NextKey(s.payments));
    if r.Failure? then r
    else
      PayRecords(s, userId, contractId, f, now, NextKey(s.payments));
      r
  }

  /** After a payment the contract counts as paid: it leaves the waiting list for the paid one. */
  lemma PaymentMakesPaid(s: Store, userId: nat, contractId: int, f: Forms.PaymentForm, now: Instant)
    requires ProcessPayment(s, userId, contractId, f, now).Success?
    ensures Paid(ProcessPayment(s, userId, contractId, f, now).value, contractId)
  {
    var t := ProcessPayment(s, userId, contractId, f, now).value;
    var (invoices, invoice) := InvoiceFor(s, contractId, now);
    var k :| 0 <= k < |invoices| && invoices[k] == invoice;
    assert t.invoices[k].id == invoice.id && t.invoices[k].val.contractId == contractId;
    assert t.payments[|s.payments|].val.invoiceId == invoice.id;
    assert InvoicePaid(t, t.invoices[k].id);
  }

  /** Nothing stops a second payment: paying an already paid contract succeeds again and
      appends another Successful payment. */
  lemma PayingTwiceSucceeds(s: Store, userId: nat, contractId: int, f: Forms.PaymentForm, now: Instant, later: Instant)
    requires ProcessPayment(s, userId, contractId, f, now).Success?
    ensures var t := ProcessPayment(s, userId, contractId, f, now).value;
      ProcessPayment(t, userId, contractId, f, later).Success? &&
      |ProcessPayment(t, userId, contractId, f, later).value.payments| == |s.payments| + 2
  {
    var t := ProcessPayment(s, userId, contractId, f, now).value;
    assert t.companies == s.companies;
  }

  /** This page's `CreateContract`: the same guards and effects as creating a contract from
      the bids page, but the contract is signed at creation. Earlier contracts stay, the bid
      becomes ContractCreated and no other table changes. */
  function CreateContract(s: Store, userId: nat, bidId: nat, file: Option<UploadedFile>, upload: Option<string>,
                          now: Instant): (r: Result<Store, Error>)
    ensures r.Success? <==> CompanyBids.NewContract(s, userId, bidId, file, upload, None).Success?
    ensures r.Success? ==>
      |r.value.contracts| == |s.contracts| + 1 && r.value.contracts[..|s.contracts|] == s.contracts &&
      !HasKey(s.contracts, r.value.contracts[|s.contracts|].id) &&
      r.value.contracts[|s.contracts|].val.signDate == Some(now) &&
      r.value.contracts[|s.contracts|].val.bidId == bidId &&
      r.value.contracts[|s.contracts|].val.document == upload &&
      Get(r.value.bids, bidId).Some? && Get(r.value.bids, bidId).value.status == ContractCreated &&
      r.value == s.(contracts := r.value.contracts, bids := r.value.bids)
  {
    var r := CompanyBids.NewContract(s, userId, bidId, file, upload, Some(now));
    if r.Success? then
      var b := CompanyBid(s, userId, bidId).value;
      PutGet(s.bids, bidId, b.(status := ContractCreated));
      r
    else r
  }

  /** The two places a contract is created agree on everything but the signing date: the
      bids page leaves it empty, this page sets it to now. */
  lemma CreateContractPagesAgree(s: Store, userId: nat, bidId: nat, file: Option<UploadedFile>, upload: Option<string>,
                                 now: Instant)
    ensures CreateContract(s, userId, bidId, file, upload, now).Success? <==>
      CompanyBids.CreateContract(s, userId, bidId, file, upload).Success?
    ensures CreateContract(s, userId, bidId, file, upload, now).Success? ==>
      var t := CreateContract(s, userId, bidId, file, upload, now).value;
      var u := CompanyBids.CreateContract(s, userId, bidId, file, upload).value;
      var k := |s.contracts|;
      t.bids == u.bids && t.contracts[..k] == u.contracts[..k] && |t.contracts| == |u.contracts| &&
      t.contracts[k] == u.contracts[k].(val := u.contracts[k].val.(signDate := Some(now))) &&
      t == u.(contracts := t.contracts)
  {
  }
}

=== FILE: company_dashboard.dfy ===
/** The company's dashboard (its request, contract and bid counters, what it has spent in
    total and month by month this year, and its latest activity) and the closing of its
    account. */
module CompanyDashboard {
  import opened Wrappers
  import opened Tables
  import opened Constants
  import opened Listing
  import opened Marketplace
  import opened Calendar
  import Forms

  // ---------------------------------------------------------------- counters

  /** A request of company `c` in status `st`. */
  function RequestIn(c: nat, st: RequestStatus): Row<ShipmentRequest> -> bool {
    (x: Row<ShipmentRequest>) => x.val.companyId == c && x.val.status == st
  }

  function RequestOfCompany(c: nat): Row<ShipmentRequest> -> bool {
    (x: Row<ShipmentRequest>) => x.val.companyId == c
  }

  function ContractOfCompany(c: nat): Row<Contract> -> bool {
    (x: Row<Contract>) => x.val.companyId == c
  }

  /** A Submitted bid on one of company `c`'s requests. */
  function OpenBidFor(s: Store, c: nat): Bid -> bool {
    (b: Bid) => OnCompanyRequest(s, b, c) && b.status == Submitted
  }

  datatype Stats = Stats(
    activeShipments: nat,
    pendingRequests: nat,
    totalContracts: nat,
    pendingBids: nat,
    completedShipments: nat,
    totalSpent: int)

  /** What the company's contracts are worth together. */
  function TotalSpent(s: Store, c: nat): int {
    Sum(Filter(s.contracts, ContractOfCompany(c)), (x: Row<Contract>) => BidPrice(s, x.val))
  }

  /** The dashboard counters: requests in progress, pending and delivered, contracts,
      Submitted bids on the company's requests, and the total spent. */
  function Counters(s: Store, c: nat): (st: Stats)
    ensures st.activeShipments == Count(s.requests, RequestIn(c, InProgress))
    ensures st.pendingRequests == Count(s.requests, RequestIn(c, RequestStatus.Pending))
    ensures st.completedShipments == Count(s.requests, RequestIn(c, Delivered))
    ensures st.activeShipments + st.pendingRequests + st.completedShipments <= Count(s.requests, RequestOfCompany(c))
    ensures st.totalContracts == Count(s.contracts, ContractOfCompany(c))
    ensures st.pendingBids == Count(Values(s.bids), OpenBidFor(s, c)) && st.pendingBids <= |s.bids|
    ensures st.totalSpent == TotalSpent(s, c)
  {
    var active := Count(s.requests, RequestIn(c, InProgress));
    var pending := Count(s.requests, RequestIn(c, RequestStatus.Pending));
    var completed := Count(s.requests, RequestIn(c, Delivered));
    StatusCountsDisjoint(s, c);
    Stats(active, pending, Count(s.contracts, ContractOfCompany(c)), Count(Values(s.bids), OpenBidFor(s, c)),
      completed, TotalSpent(s, c))
  }

  /** InProgress, Pending and Delivered never hold together, so the three counters count
      different requests of the company and add up to at most all of them. */
  lemma StatusCountsDisjoint(s: Store, c: nat)
    ensures Count(s.requests, RequestIn(c, InProgress)) + Count(s.requests, RequestIn(c, RequestStatus.Pending)) +
            Count(s.requests, RequestIn(c, Delivered)) <= Count(s.requests, RequestOfCompany(c))
  {
    var two := (x: Row<ShipmentRequest>) => RequestIn(c, InProgress)(x) || RequestIn(c, RequestStatus.Pending)(x);
    var three := (x: Row<ShipmentRequest>) => two(x) || RequestIn(c, Delivered)(x);
    assert Count(s.requests, RequestIn(c, InProgress)) + Count(s.requests, RequestIn(c, RequestStatus.Pending)) ==
           Count(s.requests, two) by {
      CountDisjoint(s.requests, RequestIn(c, InProgress), RequestIn(c, RequestStatus.Pending), two);
    }
    assert Count(s.requests, two) + Count(s.requests, RequestIn(c, Delivered)) == Count(s.requests, three) by {
      CountDisjoint(s.requests, two, RequestIn(c, Delivered), three);
    }
    assert Count(s.requests, three) <= Count(s.requests, RequestOfCompany(c)) by {
      CountMonotone(s.requests, three, RequestOfCompany(c));
    }
  }

  // ---------------------------------------------------------------- spending by month

  /** A contract of company `c` signed in month `m` of year `y`. */
  function SignedIn(c: nat, y: int, m: int): Row<Contract> -> bool {
    (x: Row<Contract>) => x.val.companyId == c && x.val.signDate.Some? &&
      x.val.signDate.value.year == y && x.val.signDate.value.month == m
  }

  /** A contract of company `c` signed in year `y`, in its first `k` months. */
  function SignedBy(c: nat, y: int, k: int): Row<Contract> -> bool {
    (x: Row<Contract>) => x.val.companyId == c && x.val.signDate.Some? &&
      x.val.signDate.value.year == y && x.val.signDate.value.month <= k
  }

  function Price(s: Store): Row<Contract> -> int {
    (x: Row<Contract>) => BidPrice(s, x.val)
  }

  /** What company `c` spent on contracts signed in month `m` of year `y`. */
  function MonthSpent(s: Store, c: nat, y: int, m: int): int {
    Sum(Filter(s.contracts, SignedIn(c, y, m)), Price(s))
  }

  /** What company `c` spent on contracts signed in the first `k` months of year `y`. */
  function SpentBy(s: Store, c: nat, y: int, k: int): int {
    Sum(Filter(s.contracts, SignedBy(c, y, k)), Price(s))
  }

  /** The spending of each month of year `y`, January first. */
  function Figures(s: Store, c: nat, y: int): (data: seq<int>)
    ensures |data| == 12
    ensures forall m :: 0 <= m < 12 ==> data[m] == MonthSpent(s, c, y, m + 1)
  {
    seq(12, m requires 0 <= m < 12 => MonthSpent(s, c, y, m + 1))
  }

  /** `GetMonthlySpendingData`: twelve figures, January to December of the current year,
      each what the company spent on contracts signed in that month; together they are what
      it spent on contracts signed this year. */
  function MonthlySpending(s: Store, c: nat, now: Instant): (data: seq<int>)
    ensures |data| == 12
    ensures forall m :: 0 <= m < 12 ==> data[m] == MonthSpent(s, c, now.year, m + 1)
    ensures Added(data) == SpentBy(s, c, now.year, 12)
  {
    var data := Figures(s, c, now.year);
    AddedMonths(s, c, now.year, 12);
    assert data[..12] == data;
    data
  }

  /** The first `k` monthly figures add up to what was spent in the first `k` months. */
  lemma {:induction false} AddedMonths(s: Store, c: nat, y: int, k: nat)
    requires k <= 12
    ensures Added(Figures(s, c, y)[..k]) == SpentBy(s, c, y, k)
    decreases k
  {
    if k == 0 {
      SignedByNone(s, c, y);
    } else {
      AddedMonths(s, c, y, k - 1);
      AddedMonth(s, c, y, k);
    }
  }

  /** Adding month `k`'s figure to the first `k - 1` adds what was spent in month `k`. */
  lemma AddedMonth(s: Store, c: nat, y: int, k: nat)
    requires 1 <= k <= 12
    requires Added(Figures(s, c, y)[..k - 1]) == SpentBy(s, c, y, k - 1)
    ensures Added(Figures(s, c, y)[..k]) == SpentBy(s, c, y, k)
  {
    var data := Figures(s, c, y);
    AddedPrefix(data, k);
    assert data[k - 1] == MonthSpent(s, c, y, k);
    assert SpentBy(s, c, y, k) == SpentBy(s, c, y, k - 1) + MonthSpent(s, c, y, k) by {
      SpentThroughMonth(s, c, y, k);
    }
  }

  /** The sum of a list of figures. */
  function Added(xs: seq<int>): int {
    if |xs| == 0 then 0 else Added(xs[..|xs| - 1]) + xs[|xs| - 1]
  }

  lemma AddedPrefix(xs: seq<int>, k: nat)
    requires 0 < k <= |xs|
    ensures Added(xs[..k]) == Added(xs[..k - 1]) + xs[k - 1]
  {
    assert xs[..k][..k - 1] == xs[..k - 1];
  }

  lemma SignedByNone(s: Store, c: nat, y: int)
    ensures SpentBy(s, c, y, 0) == 0
  {
    FilterNone(s.contracts, SignedBy(c, y, 0));
  }

  /** What was signed in the first `k` months is what was signed in the first `k - 1` plus
      what was signed in month `k`. */
  lemma SpentThroughMonth(s: Store, c: nat, y: int, k: int)
    requires 1 <= k
    ensures SpentBy(s, c, y, k) == SpentBy(s, c, y, k - 1) + MonthSpent(s, c, y, k)
  {
    var upTo := Filter(s.contracts, SignedBy(c, y, k));
    var notK := (x: Row<Contract>) => !SignedIn(c, y, k)(x);
    SumSplit(upTo, Price(s), SignedIn(c, y, k), notK);
    FilterFilter(s.contracts, SignedBy(c, y, k), SignedIn(c, y, k), SignedIn(c, y, k));
    FilterFilter(s.contracts, SignedBy(c, y, k), notK, SignedBy(c, y, k - 1));
  }

  /** Every date falls in one of the twelve months, so the first twelve months of a year are
      the whole year. */
  lemma YearSpending(s: Store, c: nat, y: int)
    ensures SpentBy(s, c, y, 12) ==
      Sum(Filter(s.contracts, (x: Row<Contract>) => x.val.companyId == c && x.val.signDate.Some? && x.val.signDate.value.year == y),
          Price(s))
  {
    FilterSame(s.contracts, SignedBy(c, y, 12),
      (x: Row<Contract>) => x.val.companyId == c && x.val.signDate.Some? && x.val.signDate.value.year == y);
  }

  // ---------------------------------------------------------------- recent activity

  /** A line of the activity feed: its kind ("shipment" or "contract"), title, date and
      status. */
  datatype Activity = Activity(kind: string, title: string, date: Instant, status: string)

  function ActivityKey(a: Activity): Key { Some(Ticks(a.date)) }

  function NewestRequest(x: Row<ShipmentRequest>): Key { Stamp(x.val.requestDate) }

  function NewestContract(x: Row<Contract>): Key { Stamp(x.val.signDate) }

  /** A request's line, dated when it was requested (now, if it never was). */
  function RequestActivity(x: Row<ShipmentRequest>, now: Instant): Activity {
    Activity("shipment", "New Shipment Request", x.val.requestDate.GetOr(now), x.val.status.Name())
  }

  /** A contract's line, dated when it was signed (now, if it is not). */
  function ContractActivity(x: Row<Contract>, now: Instant): Activity {
    Activity("contract", "Contract Signed", x.val.signDate.GetOr(now), "signed")
  }

  /** The line comes from one of company `c`'s requests. */
  predicate FromRequest(s: Store, c: nat, now: Instant, a: Activity) {
    exists x :: x in s.requests && x.val.companyId == c && a == RequestActivity(x, now)
  }

  /** The line comes from one of company `c`'s contracts. */
  predicate FromContract(s: Store, c: nat, now: Instant, a: Activity) {
    exists x :: x in s.contracts && x.val.companyId == c && a == ContractActivity(x, now)
  }

  /** The company's three newest requests, by request date, newest first. */
  function NewestRequests(s: Store, c: nat): (r: seq<Row<ShipmentRequest>>)
    ensures |r| == if Count(s.requests, RequestOfCompany(c)) < 3 then Count(s.requests, RequestOfCompany(c)) else 3
    ensures multiset(r) <= multiset(Filter(s.requests, RequestOfCompany(c)))
    ensures forall x :: x in r ==> x in s.requests && x.val.companyId == c
    ensures SortedBy(r, NewestRequest, true)
    ensures forall x, y :: x in s.requests && x.val.companyId == c && x !in r && y in r ==>
      InOrder(NewestRequest(y), NewestRequest(x), true)
  {
    var mine := Filter(s.requests, RequestOfCompany(c));
    var r := TopBy(mine, NewestRequest, true, 3);
    forall x | x in r ensures x in s.requests && x.val.companyId == c {
      FilterIn(s.requests, RequestOfCompany(c), x);
    }
    forall x, y | x in s.requests && x.val.companyId == c && x !in r && y in r
      ensures InOrder(NewestRequest(y), NewestRequest(x), true)
    {
      FilterIn(s.requests, RequestOfCompany(c), x);
    }
    r
  }

  /** The company's three latest-signed contracts, latest first. */
  function NewestContracts(s: Store, c: nat): (r: seq<Row<Contract>>)
    ensures |r| == if Count(s.contracts, ContractOfCompany(c)) < 3 then Count(s.contracts, ContractOfCompany(c)) else 3
    ensures multiset(r) <= multiset(Filter(s.contracts, ContractOfCompany(c)))
    ensures forall x :: x in r ==> x in s.contracts && x.val.companyId == c
    ensures SortedBy(r, NewestContract, true)
    ensures forall x, y :: x in s.contracts && x.val.companyId == c && x !in r && y in r ==>
      InOrder(NewestContract(y), NewestContract(x), true)
  {
    var mine := Filter(s.contracts, ContractOfCompany(c));
    var r := TopBy(mine, NewestContract, true, 3);
    forall x | x in r ensures x in s.contracts && x.val.companyId == c {
      FilterIn(s.contracts, ContractOfCompany(c), x);
    }
    forall x, y | x in s.contracts && x.val.companyId == c && x !in r && y in r
      ensures InOrder(NewestContract(y), NewestContract(x), true)
    {
      FilterIn(s.contracts, ContractOfCompany(c), x);
    }
    r
  }

  /** Lines drawn one by one from the company's newest requests come from its requests. */
  lemma RequestLinesFrom(s: Store, c: nat, now: Instant, r: seq<Activity>)
    requires |r| == |NewestRequests(s, c)|
    requires forall i :: 0 <= i < |r| ==> r[i] == RequestActivity(NewestRequests(s, c)[i], now)
    ensures forall a :: a in r ==> FromRequest(s, c, now, a)
  {
    var requests := NewestRequests(s, c);
    forall a | a in r ensures FromRequest(s, c, now, a) {
      var i :| 0 <= i < |r| && r[i] == a;
      var x := requests[i];
      assert x in requests;
      assert x in s.requests && x.val.companyId == c && a == RequestActivity(x, now);
    }
  }

  /** The lines of the company's three newest requests, in the same order. */
  function RequestLines(s: Store, c: nat, now: Instant): (r: seq<Activity>)
    ensures |r| == if Count(s.requests, RequestOfCompany(c)) < 3 then Count(s.requests, RequestOfCompany(c)) else 3
    ensures forall i :: 0 <= i < |r| ==> r[i] == RequestActivity(NewestRequests(s, c)[i], now)
    ensures forall a :: a in r ==> FromRequest(s, c, now, a)
  {
    var requests := NewestRequests(s, c);
    var r := seq(|requests|, i requires 0 <= i < |requests| => RequestActivity(requests[i], now));
    RequestLinesFrom(s, c, now, r);
    r
  }

  /** Lines drawn one by one from the company's newest contracts come from its contracts. */
  lemma ContractLinesFrom(s: Store, c: nat, now: Instant, r: seq<Activity>)
    requires |r| == |NewestContracts(s, c)|
    requires forall i :: 0 <= i < |r| ==> r[i] == ContractActivity(NewestContracts(s, c)[i], now)
    ensures forall a :: a in r ==> FromContract(s, c, now, a)
  {
    var contracts := NewestContracts(s, c);
    forall a | a in r ensures FromContract(s, c, now, a) {
      var i :| 0 <= i < |r| && r[i] == a;
      var x := contracts[i];
      assert x in contracts;
      assert x in s.contracts && x.val.companyId == c && a == ContractActivity(x, now);
    }
  }

  /** The lines of the company's three latest-signed contracts, in the same order. */
  function ContractLines(s: Store, c: nat, now: Instant): (r: seq<Activity>)
    ensures |r| == if Count(s.contracts, ContractOfCompany(c)) < 3 then Count(s.contracts, ContractOfCompany(c)) else 3
    ensures forall i :: 0 <= i < |r| ==> r[i] == ContractActivity(NewestContracts(s, c)[i], now)
    ensures forall a :: a in r ==> FromContract(s, c, now, a)
  {
    var contracts := NewestContracts(s, c);
    var r := seq(|contracts|, i requires 0 <= i < |contracts| => ContractActivity(contracts[i], now));
    ContractLinesFrom(s, c, now, r);
    r
  }

  /** The three newest requests and the three latest-signed contracts of the company, as
      activity lines, requests first. */
  function Candidates(s: Store, c: nat, now: Instant): (r: seq<Activity>)
    ensures |r| <= 6
    ensures forall a :: a in r ==> FromRequest(s, c, now, a) || FromContract(s, c, now, a)
  {
    RequestLines(s, c, now) + ContractLines(s, c, now)
  }

  /** `GetRecentActivities`: the five newest of those lines, newest first. */
  function RecentActivities(s: Store, c: nat, now: Instant): (r: seq<Activity>)
    ensures |r| <= 5 && |r| == (if |Candidates(s, c, now)| < 5 then |Candidates(s, c, now)| else 5)
    ensures SortedBy(r, ActivityKey, true)
    ensures multiset(r) <= multiset(Candidates(s, c, now))
    ensures forall a :: a in r ==> a in Candidates(s, c, now)
    ensures forall a, b :: a in Candidates(s, c, now) && a !in r && b in r ==> Ticks(a.date) <= Ticks(b.date)
  {
    var r := TopBy(Candidates(s, c, now), ActivityKey, true, 5);
    LeftOutNotNewer(Candidates(s, c, now), r);
    r
  }

  /** Read in ticks: no line left out is newer than a line kept. */
  lemma LeftOutNotNewer(candidates: seq<Activity>, r: seq<Activity>)
    requires forall a, b :: a in candidates && a !in r && b in r ==> InOrder(ActivityKey(b), ActivityKey(a), true)
    ensures forall a, b :: a in candidates && a !in r && b in r ==> Ticks(a.date) <= Ticks(b.date)
  {
    forall a, b | a in candidates && a !in r && b in r ensures Ticks(a.date) <= Ticks(b.date) {
      assert InOrder(ActivityKey(b), ActivityKey(a), true);
    }
  }

  // ---------------------------------------------------------------- the dashboard

  /** `Dashboard`: without a company profile the user is sent away. */
  method Dashboard(s: Store, userId: nat, now: Instant) returns (r: Result<(Stats, seq<int>, seq<Activity>), Error>)
    ensures r.Success? <==> CompanyOf(s, userId).Some?
    ensures r.Failure? ==> r.error == ProfileNotFound
    ensures r.Success? ==>
      var c := CompanyOf(s, userId).value;
      r.value.0 == Counters(s, c) && |r.value.1| == 12 &&
      Added(r.value.1) == SpentBy(s, c, now.year, 12) &&
      r.value.2 == RecentActivities(s, c, now)
  {
    match CompanyOf(s, userId) {
      case None =>
        return Failure(ProfileNotFound);
      case Some(c) =>
        return Success((Counters(s, c), MonthlySpending(s, c, now), RecentActivities(s, c, now)));
    }
  }

  // ---------------------------------------------------------------- closing the account

  /** The account with its company profile removed. */
  function Closed(s: Store, userId: nat, companyId: nat): Store {
    s.(companies := Remove(s.companies, companyId), users := Remove(s.users, userId))
  }

  /** `VerifyPassword` as written: every password is accepted. */
  function VerifyPasswordAsWritten(input: string, storedHash: string): (ok: bool)
    ensures ok
  {
    true
  }

  /** Rows outside the account refer to company `c` or to user `userId`, so the database
      refuses to delete the two and the transaction is rolled back. */
  predicate AccountInUse(s: Store, userId: nat, c: nat) {
    CompanyInUse(s, c) || UserInUse(s, userId, c)
  }

  /** `DeleteAccount` as written: a password must be entered, and the account and its
      company profile must exist; the password itself is checked by `VerifyPasswordAsWritten`.
      The delete is refused while other rows refer to the company or the user. */
  function DeleteAccountAsWritten(s: Store, userId: nat, password: Option<string>): (r: Result<Store, Error>)
    ensures r.Success? <==>
      Forms.Required(password) && Get(s.users, userId).Some? && CompanyOf(s, userId).Some? &&
      !AccountInUse(s, userId, CompanyOf(s, userId).value)
    ensures (Forms.Required(password) && Get(s.users, userId).Some? && CompanyOf(s, userId).Some? &&
             AccountInUse(s, userId, CompanyOf(s, userId).value)) ==> r == Failure(SaveFailed)
    ensures r.Success? ==> r.value == Closed(s, userId, CompanyOf(s, userId).value)
  {
    if !Forms.Required(password) then Failure(InvalidForm)
    else
      match Get(s.users, userId)
      case None => Failure(NotFound)
      case Some(user) =>
        match CompanyOf(s, userId)
        case None => Failure(NotFound)
        case Some(c) =>
          if !VerifyPasswordAsWritten(password.value, user.passwordHash) then Failure(NotAllowed)
          else if AccountInUse(s, userId, c) then Failure(SaveFailed)
          else Success(Closed(s, userId, c))
  }

  /** Whatever the password, even one the stored hash rejects, the account is never refused
      for it: it is deleted exactly when no other row refers to it, while the checked
      `DeleteAccount` refuses that password. */
  lemma AnyPasswordDeletes(s: Store, userId: nat, password: string, verify: (string, string) -> bool)
    requires Forms.Required(Some(password)) && Get(s.users, userId).Some? && CompanyOf(s, userId).Some?
    requires !verify(password, Get(s.users, userId).value.passwordHash)
    ensures DeleteAccountAsWritten(s, userId, Some(password)) != Failure(NotAllowed)
    ensures DeleteAccountAsWritten(s, userId, Some(password)).Success? <==>
      !AccountInUse(s, userId, CompanyOf(s, userId).value)
    ensures DeleteAccountAsWritten(s, userId, Some(password)).Success? ==>
      !HasKey(DeleteAccountAsWritten(s, userId, Some(password)).value.users, userId)
    ensures DeleteAccount(s, userId, Some(password), verify) == Failure(NotAllowed)
  {
  }

  /** `DeleteAccount` with the password checked against the stored hash by `verify` (the
      password hasher's check): a wrong password is refused and changes nothing; a right one
      removes the user and its company profile and nothing else, unless other rows refer to
      them. */
  function DeleteAccount(s: Store, userId: nat, password: Option<string>, verify: (string, string) -> bool)
    : (r: Result<Store, Error>)
    ensures r.Success? <==>
      Forms.Required(password) && Get(s.users, userId).Some? && CompanyOf(s, userId).Some? &&
      verify(password.value, Get(s.users, userId).value.passwordHash) &&
      !AccountInUse(s, userId, CompanyOf(s, userId).value)
    ensures (Forms.Required(password) && Get(s.users, userId).Some? && CompanyOf(s, userId).Some? &&
             !verify(password.value, Get(s.users, userId).value.passwordHash)) ==> r == Failure(NotAllowed)
    ensures (Forms.Required(password) && Get(s.users, userId).Some? && CompanyOf(s, userId).Some? &&
             verify(password.value, Get(s.users, userId).value.passwordHash) &&
             AccountInUse(s, userId, CompanyOf(s, userId).value)) ==> r == Failure(SaveFailed)
    ensures r.Success? ==>
      !HasKey(r.value.users, userId) && !HasKey(r.value.companies, CompanyOf(s, userId).value) &&
      r.value == Closed(s, userId, CompanyOf(s, userId).value)
  {
    if !Forms.Required(password) then Failure(InvalidForm)
    else
      match Get(s.users, userId)
      case None => Failure(NotFound)
      case Some(user) =>
        match CompanyOf(s, userId)
        case None => Failure(NotFound)
        case Some(c) =>
          if !verify(password.value, user.passwordHash) then Failure(NotAllowed)
          else if AccountInUse(s, userId, c) then Failure(SaveFailed)
          else Success(Closed(s, userId, c))
  }
}

=== FILE: company_invoices.dfy ===
/** A company's invoices: the list with its paid, unpaid and overdue filters, and the name of
    the downloaded invoice file. Here an invoice is paid through its own payment reference,
    not through the payments that point at it. */
module CompanyInvoices {
  import opened Wrappers
  import opened Tables
  import opened Constants
  import opened Text
  import opened Listing
  import opened Marketplace
  import Calendar
  import Forms
  import CompanyContracts

  /** `i.Payment != null && i.Payment.PaymentStatus == "Successful"`. */
  predicate IsPaid(s: Store, inv: Invoice) {
    inv.paymentId.Some? && Get(s.payments, inv.paymentId.value).Some? &&
    Get(s.payments, inv.paymentId.value).value.status == Successful
  }

  /** Due strictly before `now` and not paid; an invoice without a due date is never overdue. */
  predicate IsOverdue(s: Store, inv: Invoice, now: Instant) {
    inv.dueDate.Some? && Calendar.Ticks(inv.dueDate.value) < Calendar.Ticks(now) && !IsPaid(s, inv)
  }

  /** The invoice belongs to company `companyId` through its contract. */
  predicate OfCompany(s: Store, inv: Invoice, companyId: nat) {
    Get(s.contracts, inv.contractId).Some? && Get(s.contracts, inv.contractId).value.companyId == companyId
  }

  /** The invoices a status filter keeps: "paid", "unpaid", "overdue", and for any other
      string, "all" included, every one. */
  predicate Keeps(s: Store, status: string, inv: Invoice, now: Instant) {
    if status == "paid" then IsPaid(s, inv)
    else if status == "unpaid" then !IsPaid(s, inv)
    else if status == "overdue" then IsOverdue(s, inv, now)
    else true
  }

  function Mine(s: Store, companyId: nat): seq<Invoice> {
    Filter(Values(s.invoices), (inv: Invoice) => OfCompany(s, inv, companyId))
  }

  /** `Index`: the company's invoices the filter keeps, newest invoice date first. */
  function Index(s: Store, userId: nat, status: string, now: Instant): (r: Result<seq<Invoice>, Error>)
    ensures r.Success? <==> CompanyOf(s, userId).Some?
    ensures r.Success? ==>
      multiset(r.value) == multiset(Filter(Mine(s, CompanyOf(s, userId).value), (inv: Invoice) => Keeps(s, status, inv, now))) &&
      SortedBy(r.value, (inv: Invoice) => Stamp(inv.date), true)
    ensures r.Success? ==> forall i :: 0 <= i < |r.value| ==>
      OfCompany(s, r.value[i], CompanyOf(s, userId).value) && Keeps(s, status, r.value[i], now)
  {
    match CompanyOf(s, userId)
    case None => Failure(ProfileNotFound)
    case Some(c) =>
      var kept := Filter(Mine(s, c), (inv: Invoice) => Keeps(s, status, inv, now));
      var r := SortBy(kept, (inv: Invoice) => Stamp(inv.date), true);
      forall i | 0 <= i < |r| ensures OfCompany(s, r[i], c) && Keeps(s, status, r[i], now) {
        assert r[i] in multiset(kept);
        assert r[i] in multiset(Mine(s, c));
      }
      Success(r)
  }

  /** "paid" and "unpaid" split the company's invoices between them. */
  lemma PaidUnpaidPartition(s: Store, userId: nat, now: Instant)
    requires CompanyOf(s, userId).Some?
    ensures multiset(Index(s, userId, "paid", now).value) + multiset(Index(s, userId, "unpaid", now).value) ==
      multiset(Mine(s, CompanyOf(s, userId).value))
  {
    var c := CompanyOf(s, userId).value;
    FilterPartition(Mine(s, c), (inv: Invoice) => Keeps(s, "paid", inv, now), (inv: Invoice) => Keeps(s, "unpaid", inv, now));
  }

  /** Every overdue invoice is an unpaid one. */
  lemma OverdueWithinUnpaid(s: Store, userId: nat, now: Instant)
    requires CompanyOf(s, userId).Some?
    ensures multiset(Index(s, userId, "overdue", now).value) <= multiset(Index(s, userId, "unpaid", now).value)
  {
    var c := CompanyOf(s, userId).value;
    FilterMonotone(Mine(s, c), (inv: Invoice) => Keeps(s, "overdue", inv, now), (inv: Invoice) => Keeps(s, "unpaid", inv, now));
  }

  /** A status other than the three filters lists every invoice of the company. */
  lemma OtherStatusKeepsAll(s: Store, userId: nat, status: string, now: Instant)
    requires CompanyOf(s, userId).Some? && status != "paid" && status != "unpaid" && status != "overdue"
    ensures multiset(Index(s, userId, status, now).value) == multiset(Mine(s, CompanyOf(s, userId).value))
  {
    var c := CompanyOf(s, userId).value;
    FilterAll(Mine(s, c), (inv: Invoice) => Keeps(s, status, inv, now));
  }

  /** `invoice-{InvoiceNumber}.txt`: the invoice number between a fixed prefix and a ".txt"
      extension. */
  function DownloadName(inv: Invoice): (name: string)
    ensures |name| == |inv.number| + 12
    ensures name[..8] == "invoice-" && name[8..|name| - 4] == inv.number && name[|name| - 4..] == ".txt"
    ensures GetExtension(name) == ".txt"
  {
    var name := "invoice-" + inv.number + ".txt";
    assert name[|name| - 4..] == ".txt";
    assert Lower(".txt") == ".txt";
    SuffixIsExtension(name, ".txt");
    name
  }

  /** `DownloadInvoice`: the caller's invoice, under its download name. */
  function Download(s: Store, userId: nat, id: nat): (r: Result<string, Error>)
    ensures r.Success? <==> CompanyOf(s, userId).Some? && Get(s.invoices, id).Some? &&
                            OfCompany(s, Get(s.invoices, id).value, CompanyOf(s, userId).value)
    ensures r.Success? ==> r.value == DownloadName(Get(s.invoices, id).value)
  {
    match CompanyOf(s, userId)
    case None => Failure(ProfileNotFound)
    case Some(c) =>
      match Get(s.invoices, id)
      case None => Failure(NotFound)
      case Some(inv) => if OfCompany(s, inv, c) then Success(DownloadName(inv)) else Failure(NotFound)
  }

  /** With the reference set to the new payment, the settled invoice lists as paid. */
  lemma PaymentMarksInvoicePaid(s: Store, userId: nat, contractId: int, f: Forms.PaymentForm, now: Instant)
    requires CompanyContracts.ProcessPayment(s, userId, contractId, f, now).Success?
    ensures var t := CompanyContracts.ProcessPayment(s, userId, contractId, f, now).value;
      var id := CompanyContracts.InvoiceFor(s, contractId, now).1.id;
      Get(t.invoices, id).Some? && IsPaid(t, Get(t.invoices, id).value)
  {
    var t := CompanyContracts.ProcessPayment(s, userId, contractId, f, now).value;
    var (invoices, invoice) := CompanyContracts.InvoiceFor(s, contractId, now);
    var c := CompanyContracts.OwnContract(s, userId, contractId).value;
    var b := Get(s.bids, c.bidId).value;
    var p := CompanyContracts.NewPayment(b, f, invoice.id, now);
    PutGet(invoices, invoice.id, invoice.val.(paymentId := Some(NextKey(s.payments))));
    InsertGet(s.payments, p);
  }
}

=== FILE: company_payments.dfy ===
/** A company's payments: the list with its status filter, processing a pending payment
    through the card gateway, and retrying a failed one. The gateway's verdict and the new
    transaction's GUID are inputs. */
module CompanyPayments {
  import opened Wrappers
  import opened Tables
  import opened Constants
  import opened Text
  import opened Listing
  import opened Marketplace
  import Forms

  /** The payment with key `id` when it belongs, through its invoice and contract, to the
      caller's company. */
  function OwnPayment(s: Store, userId: nat, id: nat): (r: Option<Payment>)
    ensures r.Some? <==>
      CompanyOf(s, userId).Some? && Get(s.payments, id).Some? &&
      Get(s.invoices, Get(s.payments, id).value.invoiceId).Some? &&
      Get(s.contracts, Get(s.invoices, Get(s.payments, id).value.invoiceId).value.contractId).Some? &&
      Get(s.contracts, Get(s.invoices, Get(s.payments, id).value.invoiceId).value.contractId).value.companyId ==
        CompanyOf(s, userId).value
    ensures r.Some? ==> r == Get(s.payments, id)
  {
    match CompanyOf(s, userId)
    case None => None
    case Some(c) =>
      match Get(s.payments, id)
      case None => None
      case Some(p) => if BelongsTo(s, p, c) then Some(p) else None
  }

  predicate BelongsTo(s: Store, p: Payment, companyId: nat) {
    Get(s.invoices, p.invoiceId).Some? &&
    Get(s.contracts, Get(s.invoices, p.invoiceId).value.contractId).Some? &&
    Get(s.contracts, Get(s.invoices, p.invoiceId).value.contractId).value.companyId == companyId
  }

  /** The request a payment pays for, through invoice, contract and bid, when all exist. */
  function PaidRequest(s: Store, p: Payment): Option<nat> {
    match Get(s.invoices, p.invoiceId)
    case None => None
    case Some(inv) =>
      match Get(s.contracts, inv.contractId)
      case None => None
      case Some(c) =>
        match Get(s.bids, c.bidId)
        case None => None
        case Some(b) => if Get(s.requests, b.requestId).Some? then Some(b.requestId) else None
  }

  /** The gateway's transaction id: the first sixteen digits of the GUID, upper-cased. */
  function TransactionId(guid: GuidText): (t: string)
    ensures |t| == 16
    ensures forall i :: 0 <= i < 16 ==> IsUpperHex(t[i]) && ToLower(t[i]) == guid[i]
  {
    Upper(guid[..16])
  }

  /** `Process`: only the caller's Pending payment, and only with a valid card form. On the
      gateway's success the payment becomes Successful by "credit_card" with a new
      transaction id and date, and the request it pays for goes InProgress; on its failure
      the payment becomes Failed and nothing else changes. */
  function Process(s: Store, userId: nat, id: nat, f: Forms.PaymentForm, approved: bool, guid: GuidText, now: Instant)
    : (r: Result<Store, Error>)
    ensures r.Success? <==>
      OwnPayment(s, userId, id).Some? && OwnPayment(s, userId, id).value.status == PaymentStatus.Pending &&
      Forms.PaymentFormValid(f)
    ensures r.Success? && approved ==>
      var p := OwnPayment(s, userId, id).value;
      var p' := p.(status := Successful, date := Some(now), paymentMethod := Some(Forms.DefaultPaymentMethod),
                   transactionId := Some(TransactionId(guid)));
      r.value.payments == Put(s.payments, id, p') &&
      (PaidRequest(s, p).Some? ==>
         r.value.requests == Put(s.requests, PaidRequest(s, p).value,
                                 WithStatus(Get(s.requests, PaidRequest(s, p).value).value, InProgress, now))) &&
      (PaidRequest(s, p).None? ==> r.value.requests == s.requests) &&
      r.value == s.(payments := r.value.payments, requests := r.value.requests)
    ensures r.Success? && !approved ==>
      r.value == s.(payments := Put(s.payments, id, OwnPayment(s, userId, id).value.(status := PaymentStatus.Failed)))
  {
    if CompanyOf(s, userId).None? then Failure(ProfileNotFound)
    else
      match OwnPayment(s, userId, id)
      case None => Failure(NotFound)
      case Some(p) =>
        if p.status != PaymentStatus.Pending then Failure(NotFound)
        else if !Forms.PaymentFormValid(f) then Failure(InvalidForm)
        else if approved then
          var p' := p.(status := Successful, date := Some(now), paymentMethod := Some(Forms.DefaultPaymentMethod),
                       transactionId := Some(TransactionId(guid)));
          var requests :=
            match PaidRequest(s, p)
            case None => s.requests
            case Some(k) => Put(s.requests, k, WithStatus(Get(s.requests, k).value, InProgress, now));
          Success(s.(payments := Put(s.payments, id, p'), requests := requests))
        else
          Success(s.(payments := Put(s.payments, id, p.(status := PaymentStatus.Failed))))
  }

  /** `Retry`: only the caller's Failed payment, which goes back to Pending. */
  function Retry(s: Store, userId: nat, id: nat): (r: Result<Store, Error>)
    ensures r.Success? <==> OwnPayment(s, userId, id).Some? && OwnPayment(s, userId, id).value.status == PaymentStatus.Failed
    ensures r.Success? ==>
      r.value == s.(payments := Put(s.payments, id, OwnPayment(s, userId, id).value.(status := PaymentStatus.Pending)))
  {
    if CompanyOf(s, userId).None? then Failure(ProfileNotFound)
    else
      match OwnPayment(s, userId, id)
      case None => Failure(NotFound)
      case Some(p) =>
        if p.status != PaymentStatus.Failed then Failure(NotFound)
        else Success(s.(payments := Put(s.payments, id, p.(status := PaymentStatus.Pending))))
  }

  /** The payment status moves the two actions make. */
  predicate Allowed(from: PaymentStatus, to: PaymentStatus) {
    (from == PaymentStatus.Pending && to == Successful) ||
    (from == PaymentStatus.Pending && to == PaymentStatus.Failed) ||
    (from == PaymentStatus.Failed && to == PaymentStatus.Pending)
  }

  /** Processing moves a payment from Pending to Successful or Failed, as the gateway says. */
  lemma ProcessTransition(s: Store, userId: nat, id: nat, f: Forms.PaymentForm, approved: bool, guid: GuidText, now: Instant)
    requires Process(s, userId, id, f, approved, guid, now).Success?
    ensures var before := Get(s.payments, id).value.status;
      var after := Get(Process(s, userId, id, f, approved, guid, now).value.payments, id).value.status;
      Allowed(before, after) && (after == Successful <==> approved)
  {
    var p := OwnPayment(s, userId, id).value;
    if approved {
      PutGet(s.payments, id, p.(status := Successful, date := Some(now), paymentMethod := Some(Forms.DefaultPaymentMethod),
                                transactionId := Some(TransactionId(guid))));
    } else {
      PutGet(s.payments, id, p.(status := PaymentStatus.Failed));
    }
  }

  /** Retrying moves a payment from Failed to Pending. */
  lemma RetryTransition(s: Store, userId: nat, id: nat)
    requires Retry(s, userId, id).Success?
    ensures Allowed(Get(s.payments, id).value.status, Get(Retry(s, userId, id).value.payments, id).value.status)
  {
    PutGet(s.payments, id, OwnPayment(s, userId, id).value.(status := PaymentStatus.Pending));
  }

  /** A Successful payment is final: neither action accepts it, and an action on any other
      payment leaves it as it is. */
  lemma SuccessfulIsTerminal(s: Store, userId: nat, id: nat, other: nat, f: Forms.PaymentForm, approved: bool,
                             guid: GuidText, now: Instant)
    requires Get(s.payments, id).Some? && Get(s.payments, id).value.status == Successful
    ensures Process(s, userId, id, f, approved, guid, now).Failure? && Retry(s, userId, id).Failure?
    ensures other != id && Process(s, userId, other, f, approved, guid, now).Success? ==>
      Get(Process(s, userId, other, f, approved, guid, now).value.payments, id) == Get(s.payments, id)
    ensures other != id && Retry(s, userId, other).Success? ==>
      Get(Retry(s, userId, other).value.payments, id) == Get(s.payments, id)
  {
    if other != id && Process(s, userId, other, f, approved, guid, now).Success? {
      var p := OwnPayment(s, userId, other).value;
      if approved {
        PutGetOther(s.payments, other, p.(status := Successful, date := Some(now),
          paymentMethod := Some(Forms.DefaultPaymentMethod), transactionId := Some(TransactionId(guid))), id);
      } else {
        PutGetOther(s.payments, other, p.(status := PaymentStatus.Failed), id);
      }
    }
    if other != id && Retry(s, userId, other).Success? {
      PutGetOther(s.payments, other, OwnPayment(s, userId, other).value.(status := PaymentStatus.Pending), id);
    }
  }

  /** `Index`: the company's payments, all of them for "all" and otherwise exactly those whose
      status is the given string, newest first; a string naming no status lists nothing. */
  function Index(s: Store, userId: nat, status: string): (r: Result<seq<Payment>, Error>)
    ensures r.Success? <==> CompanyOf(s, userId).Some?
    ensures r.Success? ==>
      var mine := Filter(Values(s.payments), (p: Payment) => BelongsTo(s, p, CompanyOf(s, userId).value));
      SortedBy(r.value, (p: Payment) => Stamp(p.date), true) &&
      (status == "all" ==> multiset(r.value) == multiset(mine)) &&
      (status != "all" ==> multiset(r.value) == multiset(Filter(mine, (p: Payment) => p.status.Name() == status)))
    ensures r.Success? && status != "all" && ParsePaymentStatus(status).None? ==> r.value == []
  {
    match CompanyOf(s, userId)
    case None => Failure(ProfileNotFound)
    case Some(c) =>
      var mine := Filter(Values(s.payments), (p: Payment) => BelongsTo(s, p, c));
      var chosen := if status == "all" then mine else Filter(mine, (p: Payment) => p.status.Name() == status);
      Success(SortBy(chosen, (p: Payment) => Stamp(p.date), true))
  }
}

=== FILE: company_providers.dfy ===
/** A company's dealings with providers directly: the list of approved providers, sending one
    of them a direct request for a shipment, withdrawing it, and accepting or rejecting the
    provider's answer. A direct request is a bid in status UnderReview that the company
    creates with no price; the provider fills the price in when responding. */
module CompanyProviders {
  import opened Wrappers
  import opened Tables
  import opened Constants
  import opened Listing
  import opened Marketplace
  import Forms

  const PageSize: nat := 12
  const DefaultMessage: string := "Direct request from company"

  /** The provider with key `id`, when it is approved (`IsApproved == true`). */
  predicate Approved(s: Store, id: nat) {
    Get(s.providers, id).Some? && Get(s.providers, id).value.isApproved == Some(true)
  }

  /** Some bid of provider `providerId` on request `requestId` is UnderReview. */
  predicate HasDirectRequest(s: Store, requestId: nat, providerId: nat) {
    exists i :: 0 <= i < |s.bids| && s.bids[i].val.requestId == requestId &&
      s.bids[i].val.providerId == providerId && s.bids[i].val.status == UnderReview
  }

  /** The bid a direct request creates. */
  function DirectBid(requestId: nat, providerId: nat, message: Option<string>, now: Instant): Bid {
    Bid(requestId, providerId, Some(0), Some(0), Some(message.GetOr(DefaultMessage)), UnderReview, Some(now))
  }

  /** The guards of a direct request: the caller's company, an approved provider, one of the
      company's requests that is Pending or Bidding, and no UnderReview bid of that provider
      on it. */
  predicate CanSendRequest(s: Store, userId: nat, providerId: nat, shipmentId: int) {
    CompanyOf(s, userId).Some? && Approved(s, providerId) && shipmentId >= 0 &&
    CompanyRequest(s, userId, shipmentId).Some? && CompanyRequest(s, userId, shipmentId).value.status.IsOpen() &&
    !HasDirectRequest(s, shipmentId, providerId)
  }

  /** The store after a direct request: an UnderReview bid appended and the request moved
      to DirectRequest. */
  function Sent(s: Store, req: ShipmentRequest, providerId: nat, shipmentId: nat, message: Option<string>, now: Instant): Store {
    s.(bids := Insert(s.bids, DirectBid(shipmentId, providerId, message, now)).0,
       requests := Put(s.requests, shipmentId, WithStatus(req, DirectRequest, now)))
  }

  /** `SendRequest` as the code does it: the message is never checked against its 500-character
      rule, and the notes column holds 255, so a longer message is refused by the database,
      the transaction is rolled back and nothing is saved. */
  function SendRequestAsWritten(s: Store, userId: nat, providerId: nat, shipmentId: int, message: Option<string>, now: Instant)
    : (r: Result<Store, Error>)
    ensures r.Success? <==> CanSendRequest(s, userId, providerId, shipmentId) && Forms.RequestMessageFits(message)
    ensures (CanSendRequest(s, userId, providerId, shipmentId) && !Forms.RequestMessageFits(message)) ==>
      r == Failure(SaveFailed)
    ensures r.Success? ==> r.value == Sent(s, CompanyRequest(s, userId, shipmentId).value, providerId, shipmentId, message, now)
  {
    if CompanyOf(s, userId).None? || !Approved(s, providerId) then Failure(NotFound)
    else if shipmentId < 0 then Failure(NotFound)
    else
      match CompanyRequest(s, userId, shipmentId)
      case None => Failure(NotFound)
      case Some(req) =>
        if !req.status.IsOpen() then Failure(NotAllowed)
        else if HasDirectRequest(s, shipmentId, providerId) then Failure(AlreadyExists)
        else if !Forms.RequestMessageFits(message) then Failure(SaveFailed)
        else Success(Sent(s, req, providerId, shipmentId, message, now))
  }

  /** A 300-character message passes every guard the code has and is then lost. */
  lemma LongMessageIsLost(s: Store, userId: nat, providerId: nat, shipmentId: int, now: Instant)
    requires CanSendRequest(s, userId, providerId, shipmentId)
    ensures SendRequestAsWritten(s, userId, providerId, shipmentId, Some(seq(300, _ => 'x')), now) == Failure(SaveFailed)
  {
  }

  /** `SendRequest`: needs the caller's company, an approved provider, one of the company's
      requests that is Pending or Bidding, and no UnderReview bid of that provider on it; a
      bid of the provider in any other status does not stand in the way. A message longer
      than the notes column is refused as an invalid form. Appends an UnderReview bid with
      price 0, 0 days and the message (or a default) as notes, and moves the request to
      DirectRequest. */
  function SendRequest(s: Store, userId: nat, providerId: nat, shipmentId: int, message: Option<string>, now: Instant)
    : (r: Result<Store, Error>)
    ensures r.Success? <==>
      CompanyOf(s, userId).Some? && Approved(s, providerId) && shipmentId >= 0 &&
      CompanyRequest(s, userId, shipmentId).Some? && CompanyRequest(s, userId, shipmentId).value.status.IsOpen() &&
      !HasDirectRequest(s, shipmentId, providerId) && Forms.RequestMessageFits(message)
    ensures (CompanyOf(s, userId).Some? && Approved(s, providerId) && shipmentId >= 0 &&
             CompanyRequest(s, userId, shipmentId).Some? && CompanyRequest(s, userId, shipmentId).value.status.IsOpen() &&
             HasDirectRequest(s, shipmentId, providerId)) ==> r == Failure(AlreadyExists)
    ensures (CanSendRequest(s, userId, providerId, shipmentId) && !Forms.RequestMessageFits(message)) ==>
      r == Failure(InvalidForm)
    ensures r.Success? ==>
      var req := CompanyRequest(s, userId, shipmentId).value;
      r.value == s.(bids := s.bids + [Row(NextKey(s.bids), DirectBid(shipmentId, providerId, message, now))],
                    requests := Put(s.requests, shipmentId, WithStatus(req, DirectRequest, now)))
  {
    if CompanyOf(s, userId).None? || !Approved(s, providerId) then Failure(NotFound)
    else if shipmentId < 0 then Failure(NotFound)
    else
      match CompanyRequest(s, userId, shipmentId)
      case None => Failure(NotFound)
      case Some(req) =>
        if !req.status.IsOpen() then Failure(NotAllowed)
        else if HasDirectRequest(s, shipmentId, providerId) then Failure(AlreadyExists)
        else if !Forms.RequestMessageFits(message) then Failure(InvalidForm)
        else Success(Sent(s, req, providerId, shipmentId, message, now))
  }

  /** The corrected `SendRequest` succeeds on exactly the requests the code saves, with the
      same result, and refuses as an invalid form exactly those whose save fails. */
  lemma SendRequestMatchesAsWritten(s: Store, userId: nat, providerId: nat, shipmentId: int, message: Option<string>, now: Instant)
    ensures SendRequest(s, userId, providerId, shipmentId, message, now).Success? <==>
      SendRequestAsWritten(s, userId, providerId, shipmentId, message, now).Success?
    ensures SendRequest(s, userId, providerId, shipmentId, message, now).Success? ==>
      SendRequest(s, userId, providerId, shipmentId, message, now) == SendRequestAsWritten(s, userId, providerId, shipmentId, message, now)
    ensures SendRequestAsWritten(s, userId, providerId, shipmentId, message, now) == Failure(SaveFailed) <==>
      SendRequest(s, userId, providerId, shipmentId, message, now) == Failure(InvalidForm)
  {
  }

  /** Once a direct request is out, the request is in DirectRequest, so a second one for the
      same request, to any provider, is refused until the first is settled. */
  lemma SecondSendRefused(s: Store, userId: nat, providerId: nat, shipmentId: int, message: Option<string>,
                          now: Instant, other: nat, message': Option<string>, later: Instant)
    requires SendRequest(s, userId, providerId, shipmentId, message, now).Success?
    ensures SendRequest(SendRequest(s, userId, providerId, shipmentId, message, now).value, userId, other,
                        shipmentId, message', later).Failure?
  {
    var req := CompanyRequest(s, userId, shipmentId).value;
    PutGet(s.requests, shipmentId, WithStatus(req, DirectRequest, now));
  }

  /** A Submitted bid does not block a direct request, so a provider that has already bid on
      a request can be sent a direct request for it, and then holds two bids on the same
      request. */
  lemma SendRequestBreaksOneBidPerProvider(s: Store, userId: nat, providerId: nat, shipmentId: int,
                                           message: Option<string>, now: Instant)
    requires SendRequest(s, userId, providerId, shipmentId, message, now).Success?
    requires HasBidOn(s, shipmentId, providerId)
    ensures !OneBidPerProvider(SendRequest(s, userId, providerId, shipmentId, message, now).value)
  {
    var t := SendRequest(s, userId, providerId, shipmentId, message, now).value;
    var i :| 0 <= i < |s.bids| && s.bids[i].val.requestId == shipmentId && s.bids[i].val.providerId == providerId;
    assert t.bids[i] == s.bids[i];
    assert t.bids[|s.bids|].val.providerId == providerId;
  }

  /** The caller's bid with key `id` when it is a direct request still under review. */
  function UnderReviewBid(s: Store, userId: nat, id: nat): (r: Option<Bid>)
    ensures r.Some? <==> CompanyBid(s, userId, id).Some? && CompanyBid(s, userId, id).value.status == UnderReview
    ensures r.Some? ==> r == Get(s.bids, id)
  {
    match CompanyBid(s, userId, id)
    case None => None
    case Some(b) => if b.status == UnderReview then Some(b) else None
  }

  /** `DeleteRequest`: withdraws one of the caller's direct requests still under review. The
      bid row goes; the request keeps its status, DirectRequest included. A bid a contract
      refers to stays, because the database refuses the delete. */
  function DeleteRequest(s: Store, userId: nat, id: nat): (r: Result<Store, Error>)
    ensures r.Success? <==> CompanyOf(s, userId).Some? && UnderReviewBid(s, userId, id).Some? && !BidInContract(s, id)
    ensures (CompanyOf(s, userId).Some? && UnderReviewBid(s, userId, id).Some? && BidInContract(s, id)) ==>
      r == Failure(SaveFailed)
    ensures r.Success? ==> r.value == s.(bids := Remove(s.bids, id)) && !HasKey(r.value.bids, id)
  {
    if CompanyOf(s, userId).None? then Failure(ProfileNotFound)
    else
      match UnderReviewBid(s, userId, id)
      case None => Failure(NotFound)
      case Some(_) =>
        if BidInContract(s, id) then Failure(SaveFailed)
        else Success(s.(bids := Remove(s.bids, id)))
  }

  /** The guard of a direct accept or reject: a direct request under review on one of the
      caller's requests, which the provider has answered with a positive price. */
  function AnsweredBid(s: Store, userId: nat, id: nat): (r: Option<Bid>)
    ensures r.Some? <==>
      UnderReviewBid(s, userId, id).Some? && UnderReviewBid(s, userId, id).value.price.Some? &&
      UnderReviewBid(s, userId, id).value.price.value > 0
    ensures r.Some? ==> r == Get(s.bids, id)
  {
    match UnderReviewBid(s, userId, id)
    case None => None
    case Some(b) => if b.price.Some? && b.price.value > 0 then Some(b) else None
  }

  /** Direct `Accept`: the answered bid becomes Accepted and its request Assigned to the bid's
      provider. Unlike accepting an open bid, other bids on the request are left alone. */
  function Accept(s: Store, userId: nat, id: nat, now: Instant): (r: Result<Store, Error>)
    ensures r.Success? <==> CompanyOf(s, userId).Some? && AnsweredBid(s, userId, id).Some?
    ensures r.Success? ==>
      var b := AnsweredBid(s, userId, id).value;
      r.value == s.(bids := Put(s.bids, id, b.(status := BidStatus.Accepted)),
                    requests := Put(s.requests, b.requestId,
                      WithStatus(RequestOf(s, b).value, Assigned, now).(providerId := Some(b.providerId))))
  {
    if CompanyOf(s, userId).None? then Failure(ProfileNotFound)
    else
      match AnsweredBid(s, userId, id)
      case None => Failure(NotFound)
      case Some(b) =>
        var req := RequestOf(s, b).value;
        Success(s.(bids := Put(s.bids, id, b.(status := BidStatus.Accepted)),
                   requests := Put(s.requests, b.requestId, WithStatus(req, Assigned, now).(providerId := Some(b.providerId)))))
  }

  /** Direct `Reject`: the answered bid becomes Rejected and its request goes back to Pending,
      open to bids and to new direct requests again. */
  function Reject(s: Store, userId: nat, id: nat, now: Instant): (r: Result<Store, Error>)
    ensures r.Success? <==> CompanyOf(s, userId).Some? && AnsweredBid(s, userId, id).Some?
    ensures r.Success? ==>
      var b := AnsweredBid(s, userId, id).value;
      r.value == s.(bids := Put(s.bids, id, b.(status := Rejected)),
                    requests := Put(s.requests, b.requestId, WithStatus(RequestOf(s, b).value, RequestStatus.Pending, now)))
  {
    if CompanyOf(s, userId).None? then Failure(ProfileNotFound)
    else
      match AnsweredBid(s, userId, id)
      case None => Failure(NotFound)
      case Some(b) =>
        var req := RequestOf(s, b).value;
        Success(s.(bids := Put(s.bids, id, b.(status := Rejected)),
                   requests := Put(s.requests, b.requestId, WithStatus(req, RequestStatus.Pending, now))))
  }

  /** Accepting an answered bid leaves every other bid exactly as it was, and the request
      Assigned to the bid's provider. */
  lemma AcceptLeavesSiblings(s: Store, userId: nat, id: nat, now: Instant)
    requires Accept(s, userId, id, now).Success?
    ensures var b := AnsweredBid(s, userId, id).value;
      var t := Accept(s, userId, id, now).value;
      (forall i :: 0 <= i < |s.bids| && s.bids[i].id != id ==> t.bids[i] == s.bids[i]) &&
      Get(t.requests, b.requestId).value.status == Assigned &&
      Get(t.requests, b.requestId).value.providerId == Some(b.providerId)
  {
    var b := AnsweredBid(s, userId, id).value;
    PutGet(s.requests, b.requestId, WithStatus(RequestOf(s, b).value, Assigned, now).(providerId := Some(b.providerId)));
  }

  /** After a direct reject the request is Pending, so the company may send another direct
      request for it. */
  lemma RejectReopens(s: Store, userId: nat, id: nat, now: Instant)
    requires Reject(s, userId, id, now).Success?
    ensures var b := AnsweredBid(s, userId, id).value;
      var t := Reject(s, userId, id, now).value;
      Get(t.requests, b.requestId).value.status == RequestStatus.Pending &&
      CompanyRequest(t, userId, b.requestId).Some? && CompanyRequest(t, userId, b.requestId).value.status.IsOpen()
  {
    var b := AnsweredBid(s, userId, id).value;
    PutGet(s.requests, b.requestId, WithStatus(RequestOf(s, b).value, RequestStatus.Pending, now));
  }

  // ---------------------------------------------------------------- the provider list

  /** The total of a provider's ratings (a missing rating counts as 0) and how many there are. */
  function Ratings(s: Store, providerId: nat): (r: (int, nat))
    ensures r.1 == Count(Values(s.feedbacks), (f: Feedback) => f.providerId == providerId)
  {
    var fs := Filter(Values(s.feedbacks), (f: Feedback) => f.providerId == providerId);
    (Sum(fs, (f: Feedback) => f.rating.GetOr(0)), |fs|)
  }

  /** The rating filter for `n`: the provider has feedback and its average rating lies in
      [n, n + 1). A provider with no feedback has no average and is never kept. */
  predicate InRatingBand(s: Store, providerId: nat, n: int) {
    var (total, count) := Ratings(s, providerId);
    count > 0 && n as real <= total as real / count as real < (n + 1) as real
  }

  /** The band test in whole numbers: n * count <= total < (n + 1) * count. */
  lemma RatingBandIff(s: Store, providerId: nat, n: int)
    ensures var (total, count) := Ratings(s, providerId);
      InRatingBand(s, providerId, n) <==> count > 0 && n * count <= total < (n + 1) * count
  {
    var (total, count) := Ratings(s, providerId);
    if count > 0 {
      AtLeastAverage(total, count, n);
      AtLeastAverage(total, count, n + 1);
    }
  }

  /** `k <= total / count` exactly when `k * count <= total`, for a positive count. */
  lemma AtLeastAverage(total: int, count: nat, k: int)
    requires count > 0
    ensures k as real <= total as real / count as real <==> k * count <= total
  {
    var c := count as real;
    var a := total as real / c;
    assert a * c == total as real;
    assert (k * count) as real == k as real * c;
    if k as real <= a {
      assert k as real * c <= a * c;
    } else {
      assert a * c < k as real * c;
    }
  }

  /** Each provider is kept by at most one rating band. */
  lemma RatingBandsDisjoint(s: Store, providerId: nat, n: int, m: int)
    requires InRatingBand(s, providerId, n) && InRatingBand(s, providerId, m)
    ensures n == m
  {
    RatingBandIff(s, providerId, n);
    RatingBandIff(s, providerId, m);
    var (total, count) := Ratings(s, providerId);
    if n < m {
      MultiplyMonotone(n + 1, m, count);
    } else if m < n {
      MultiplyMonotone(m + 1, n, count);
    }
  }

  /** The providers the list shows, before paging: approved, in the chosen region when one
      is chosen (anything but empty or "all"), and in the chosen rating band when a rating
      was given. */
  predicate Listed(s: Store, p: Row<Provider>, region: string, rating: Option<int>) {
    p.val.isApproved == Some(true) &&
    (region == "" || region == "all" || p.val.region == Some(region)) &&
    (rating.None? || InRatingBand(s, p.id, rating.value))
  }

  /** The `sort` choices: "rating", "projects", and anything else, "name" by default. */
  datatype SortChoice = ByName | ByRating | ByProjects

  function SortOf(sort: string): (c: SortChoice)
    ensures c == ByRating <==> sort == "rating"
    ensures c == ByProjects <==> sort == "projects"
  {
    if sort == "rating" then ByRating else if sort == "projects" then ByProjects else ByName
  }

  /** How many contracts a provider holds. */
  function Projects(s: Store, providerId: nat): nat {
    Count(Values(s.contracts), (c: Contract) => c.providerId == providerId)
  }

  /** `a` comes before `b` when the list is ordered by average rating, highest first: a
      provider with no feedback has no average, and the database puts it after every
      provider that has one. */
  predicate RatedAtLeast(s: Store, a: nat, b: nat) {
    MeanAtLeast(Ratings(s, a), Ratings(s, b))
  }

  /** Rating totals `x` rank at or above `y`: `y` has no ratings, or both have and the
      average of `x` is at least that of `y`. */
  predicate MeanAtLeast(x: (int, nat), y: (int, nat)) {
    y.1 == 0 || (x.1 > 0 && Mean(y.0, y.1) <= Mean(x.0, x.1))
  }

  /** The average of `count` ratings whose total is `total`. */
  function Mean(total: int, count: nat): real
    requires count > 0
  {
    total as real / count as real
  }

  /** A whole-number key for the average rating: the average scaled by the square of the
      number of feedback rows, rounded down. No feedback gives no key. */
  function RatingKey(s: Store, p: Row<Provider>): Key {
    ScaledKey(Ratings(s, p.id).0, Ratings(s, p.id).1, |s.feedbacks| * |s.feedbacks|)
  }

  function ScaledKey(total: int, count: nat, k: nat): Key {
    if count == 0 then None else Some((Mean(total, count) * k as real).Floor)
  }

  function ProjectsKey(s: Store, p: Row<Provider>): Key {
    Some(Projects(s, p.id))
  }

  /** Rounding down keeps order, and two averages with counts whose product is at most `k`
      differ by at least 1 / k, so scaling by `k` keeps them apart: the scaled floors are
      ordered exactly as the averages are. */
  lemma {:induction false} ScaledFloorOrder(ta: int, ca: nat, tb: int, cb: nat, k: nat)
    requires 0 < ca && 0 < cb && ca * cb <= k
    ensures ScaledKey(tb, cb, k).value <= ScaledKey(ta, ca, k).value <==> Mean(tb, cb) <= Mean(ta, ca)
  {
    var xa := Mean(ta, ca);
    var xb := Mean(tb, cb);
    var K := k as real;
    assert ScaledKey(ta, ca, k).value == (xa * K).Floor;
    assert ScaledKey(tb, cb, k).value == (xb * K).Floor;
    if xb <= xa {
      assert xb * K <= xa * K;
      assert (xb * K).Floor as real <= xb * K;
      assert xa * K < (xa * K).Floor as real + 1.0;
    } else {
      var q := (ca * cb) as real;
      var d := tb * ca - ta * cb;
      assert xa * ca as real == ta as real;
      assert xb * cb as real == tb as real;
      assert (xb - xa) * q == d as real by {
        assert (xb - xa) * q == xb * cb as real * ca as real - xa * ca as real * cb as real;
      }
      assert d >= 1;
      assert (xb - xa) * K >= (xb - xa) * q;
      assert xb * K >= xa * K + 1.0;
    }
  }

  /** The rating key orders two providers, highest first, exactly as their averages do. */
  lemma RatingKeyOrder(s: Store, a: Row<Provider>, b: Row<Provider>)
    ensures KeyLe(RatingKey(s, b), RatingKey(s, a)) <==> RatedAtLeast(s, a.id, b.id)
  {
    ScaledKeyOrder(Ratings(s, a.id), Ratings(s, b.id), |s.feedbacks|);
  }

  /** With both counts at most `n`, the keys scaled by `n * n` rank two rating totals as
      `MeanAtLeast` does. */
  lemma ScaledKeyOrder(x: (int, nat), y: (int, nat), n: nat)
    requires x.1 <= n && y.1 <= n
    ensures KeyLe(ScaledKey(y.0, y.1, n * n), ScaledKey(x.0, x.1, n * n)) <==> MeanAtLeast(x, y)
  {
    var k := n * n;
    if y.1 == 0 {
      assert ScaledKey(y.0, y.1, k).None?;
    } else if x.1 == 0 {
      assert ScaledKey(x.0, x.1, k).None?;
    } else {
      assert ScaledKey(x.0, x.1, k).Some? && ScaledKey(y.0, y.1, k).Some?;
      ProductBound(x.1, y.1, n);
      ScaledFloorOrder(x.0, x.1, y.0, y.1, k);
    }
  }

  lemma ProductBound(a: nat, b: nat, n: nat)
    requires a <= n && b <= n
    ensures a * b <= n * n
  {
    MultiplyMonotone(a, n, b);
    MultiplyMonotone(b, n, n);
  }

  /** The kept providers in the chosen order. The rating and project orders are stated as
      orders; the order among ties is not modelled, nor is the name order (see README). */
  function Ordered(s: Store, all: seq<Row<Provider>>, sort: SortChoice): (r: seq<Row<Provider>>)
    ensures multiset(r) == multiset(all)
    ensures sort == ByRating ==> forall i, j :: 0 <= i < j < |r| ==> RatedAtLeast(s, r[i].id, r[j].id)
    ensures sort == ByProjects ==> forall i, j :: 0 <= i < j < |r| ==> Projects(s, r[i].id) >= Projects(s, r[j].id)
    ensures sort == ByName ==> r == all
  {
    match sort
    case ByName => all
    case ByRating =>
      var r := SortBy(all, (p: Row<Provider>) => RatingKey(s, p), true);
      forall i, j | 0 <= i < j < |r| ensures RatedAtLeast(s, r[i].id, r[j].id) {
        RatingKeyOrder(s, r[i], r[j]);
      }
      r
    case ByProjects => SortBy(all, (p: Row<Provider>) => ProjectsKey(s, p), true)
  }

  datatype ProviderPage = ProviderPage(items: seq<Row<Provider>>, totalItems: nat, totalPages: nat)

  /** `Index`: twelve providers a page, the total counted before paging, then ordered by the
      chosen sort. The database refuses a page number below 1, and the action then shows an
      empty list: `QueryFailed`. */
  function Index(s: Store, region: string, rating: Option<int>, sort: string, page: int): (r: Result<ProviderPage, Error>)
    ensures r.Success? <==> page >= 1
    ensures r.Failure? ==> r.error == QueryFailed
    ensures r.Success? ==>
      var all := Filter(s.providers, (p: Row<Provider>) => Listed(s, p, region, rating));
      r.value.totalItems == Count(s.providers, (p: Row<Provider>) => Listed(s, p, region, rating)) &&
      r.value.totalPages == TotalPages(r.value.totalItems, PageSize) &&
      IsPageOf(r.value.items, Ordered(s, all, SortOf(sort)), page, PageSize) &&
      (|r.value.items| > 0 <==> page <= r.value.totalPages)
    ensures r.Success? ==>
      forall i :: 0 <= i < |r.value.items| ==> Listed(s, r.value.items[i], region, rating) && r.value.items[i] in s.providers
  {
    var all := Filter(s.providers, (p: Row<Provider>) => Listed(s, p, region, rating));
    var ordered := Ordered(s, all, SortOf(sort));
    assert |ordered| == |all| by { assert |multiset(ordered)| == |multiset(all)|; }
    match OffsetFetch(ordered, page, PageSize)
    case None => Failure(QueryFailed)
    case Some(items) =>
      forall i | 0 <= i < |items| ensures Listed(s, items[i], region, rating) && items[i] in s.providers {
        assert items[i] == ordered[(page - 1) * PageSize + i];
        assert items[i] in multiset(ordered);
        assert items[i] in multiset(all);
      }
      Success(ProviderPage(items, |all|, TotalPages(|all|, PageSize)))
  }
}

=== FILE: company_shipments.dfy ===
/** A company's own shipment requests: create one, edit it while it is open, delete it while
    it is open, cancel it until a provider has started on it. */
module CompanyShipments {
  import opened Wrappers
  import opened Tables
  import opened Constants
  import opened Marketplace
  import Forms
  import Calendar

  /** The statuses from which a request may be cancelled. */
  predicate Cancellable(st: RequestStatus) {
    st == RequestStatus.Pending || st == Bidding || st == Assigned
  }

  /** The request a valid form creates for company `companyId`. */
  function Created(f: Forms.ShipmentRequestForm, companyId: nat, now: Instant): ShipmentRequest {
    ShipmentRequest(companyId, None, f.goodsType, f.weightGrams, f.pickupLocation, f.pickupCity,
      f.pickupRegion, f.deliveryLocation, f.deliveryCity, f.deliveryRegion, f.deliveryDeadline,
      f.specialInstructions, RequestStatus.Pending, Some(now), Some(now))
  }

  /** `Create`: with a valid form and a company profile, appends a request owned by the
      caller's company, with no provider, status Pending, and request and update dates now.
      The form does not bound cities, regions or the deadline, so a city or region longer
      than its column, or a deadline outside the years of a `datetime` column, is refused by
      the database and nothing is saved. */
  function Create(s: Store, userId: nat, f: Forms.ShipmentRequestForm, now: Instant): (r: Result<Store, Error>)
    ensures r.Success? <==> Forms.ShipmentRequestFormValid(f) && CompanyOf(s, userId).Some? && Forms.RequestFits(f)
    ensures !Forms.ShipmentRequestFormValid(f) ==> r == Failure(InvalidForm)
    ensures (Forms.ShipmentRequestFormValid(f) && CompanyOf(s, userId).Some? && !Forms.RequestFits(f)) ==>
      r == Failure(SaveFailed)
    ensures r.Success? ==>
      var t := r.value.requests;
      |t| == |s.requests| + 1 && t[..|s.requests|] == s.requests &&
      t[|s.requests|].val.companyId == CompanyOf(s, userId).value &&
      t[|s.requests|].val.status == RequestStatus.Pending && t[|s.requests|].val.providerId.None? &&
      t[|s.requests|].val.requestDate == Some(now) &&
      !HasKey(s.requests, t[|s.requests|].id) &&
      r.value == s.(requests := t)
  {
    if !Forms.ShipmentRequestFormValid(f) then Failure(InvalidForm)
    else
      match CompanyOf(s, userId)
      case None => Failure(ProfileNotFound)
      case Some(c) =>
        if !Forms.RequestFits(f) then Failure(SaveFailed)
        else Success(s.(requests := Insert(s.requests, Created(f, c, now)).0))
  }

  /** A form the validation accepts with a deadline before 1753 is still lost when saved. */
  lemma EarlyDeadlineIsLost(s: Store, userId: nat, f: Forms.ShipmentRequestForm, now: Instant, d: Instant)
    requires Forms.ShipmentRequestFormValid(f) && Forms.PlacesFit(f) && CompanyOf(s, userId).Some?
    requires d.year < Forms.DateTimeFirstYear
    ensures Forms.ShipmentRequestFormValid(f.(deliveryDeadline := Some(d)))
    ensures Create(s, userId, f.(deliveryDeadline := Some(d)), now) == Failure(SaveFailed)
  {
    Forms.DeadlineOnlyRequired(f, d);
  }

  /** The form `Edit` shows: the request's fields, a missing weight as 0 and a missing deadline
      as a week from now; only for the caller's own request while it is Pending or Bidding. */
  function Edit(s: Store, userId: nat, id: nat, now: Instant): (r: Result<Forms.ShipmentRequestForm, Error>)
    ensures r.Success? <==> CompanyRequest(s, userId, id).Some? && CompanyRequest(s, userId, id).value.status.IsOpen()
    ensures r.Success? ==>
      var req := CompanyRequest(s, userId, id).value;
      r.value.goodsType == req.goodsType && r.value.weightGrams == Some(req.weightGrams.GetOr(0)) &&
      r.value.deliveryDeadline.Some? &&
      (req.deliveryDeadline.Some? ==> r.value.deliveryDeadline == req.deliveryDeadline) &&
      (req.deliveryDeadline.None? ==>
         Calendar.Ticks(r.value.deliveryDeadline.value) == Calendar.Ticks(now) + 7 * Calendar.TicksPerDay)
  {
    match CompanyRequest(s, userId, id)
    case None => Failure(NotFound)
    case Some(req) =>
      if !req.status.IsOpen() then Failure(NotAllowed)
      else
        Calendar.AddDaysTicks(now, 7);
        var deadline: Instant := if req.deliveryDeadline.Some? then req.deliveryDeadline.value else Calendar.AddDays(now, 7);
        Success(Forms.ShipmentRequestForm(req.goodsType, Some(req.weightGrams.GetOr(0)), req.pickupLocation,
          req.pickupCity, req.pickupRegion, req.deliveryLocation, req.deliveryCity, req.deliveryRegion,
          Some(deadline), req.specialInstructions))
  }

  /** The descriptive fields of a request replaced by a form's. */
  function Edited(req: ShipmentRequest, f: Forms.ShipmentRequestForm, now: Instant): ShipmentRequest {
    req.(goodsType := f.goodsType, weightGrams := f.weightGrams, pickupLocation := f.pickupLocation,
         pickupRegion := f.pickupRegion, pickupCity := f.pickupCity, deliveryLocation := f.deliveryLocation,
         deliveryRegion := f.deliveryRegion, deliveryCity := f.deliveryCity,
         deliveryDeadline := f.deliveryDeadline, specialInstructions := f.specialInstructions,
         updateAt := Some(now))
  }

  /** `Update`: the caller's own request, while Pending or Bidding, with a valid form (the
      status is checked before the form). It rewrites the descriptive fields and the update
      date; status, company, provider and request date stay. A city or region longer than its
      column, or a deadline outside the years of a `datetime` column, is refused by the
      database and nothing is saved. */
  function Update(s: Store, userId: nat, id: nat, f: Forms.ShipmentRequestForm, now: Instant): (r: Result<Store, Error>)
    ensures CompanyRequest(s, userId, id).None? ==> r == Failure(NotFound)
    ensures CompanyRequest(s, userId, id).Some? && !CompanyRequest(s, userId, id).value.status.IsOpen() ==>
      r == Failure(NotAllowed)
    ensures r.Success? <==>
      CompanyRequest(s, userId, id).Some? && CompanyRequest(s, userId, id).value.status.IsOpen() &&
      Forms.ShipmentRequestFormValid(f) && Forms.RequestFits(f)
    ensures (CompanyRequest(s, userId, id).Some? && CompanyRequest(s, userId, id).value.status.IsOpen() &&
             Forms.ShipmentRequestFormValid(f) && !Forms.RequestFits(f)) ==> r == Failure(SaveFailed)
    ensures r.Success? ==>
      var req := CompanyRequest(s, userId, id).value;
      var req' := Edited(req, f, now);
      r.value == s.(requests := Put(s.requests, id, req')) &&
      req'.status == req.status && req'.companyId == req.companyId && req'.providerId == req.providerId &&
      req'.requestDate == req.requestDate
  {
    match CompanyRequest(s, userId, id)
    case None => Failure(NotFound)
    case Some(req) =>
      if !req.status.IsOpen() then Failure(NotAllowed)
      else if !Forms.ShipmentRequestFormValid(f) then Failure(InvalidForm)
      else if !Forms.RequestFits(f) then Failure(SaveFailed)
      else Success(s.(requests := Put(s.requests, id, Edited(req, f, now))))
  }

  /** `Delete`: the caller's own request, only while Pending or Bidding; the row is removed
      and nothing else is touched. A request with bids stays, because the database refuses
      the delete. */
  function Delete(s: Store, userId: nat, id: nat): (r: Result<Store, Error>)
    ensures r.Success? <==>
      CompanyRequest(s, userId, id).Some? && CompanyRequest(s, userId, id).value.status.IsOpen() &&
      !RequestHasBids(s, id)
    ensures (CompanyRequest(s, userId, id).Some? && CompanyRequest(s, userId, id).value.status.IsOpen() &&
             RequestHasBids(s, id)) ==> r == Failure(SaveFailed)
    ensures r.Success? ==> r.value == s.(requests := Remove(s.requests, id))
    ensures r.Success? ==> !HasKey(r.value.requests, id) && |r.value.requests| < |s.requests|
  {
    match CompanyRequest(s, userId, id)
    case None => Failure(NotFound)
    case Some(req) =>
      if !req.status.IsOpen() then Failure(NotAllowed)
      else if RequestHasBids(s, id) then Failure(SaveFailed)
      else Success(s.(requests := Remove(s.requests, id)))
  }

  /** `Cancel`: the caller's own request, only from Pending, Bidding or Assigned, and always
      to Cancelled. The request's bids are left as they are. */
  function Cancel(s: Store, userId: nat, id: nat, now: Instant): (r: Result<Store, Error>)
    ensures r.Success? <==> CompanyRequest(s, userId, id).Some? && Cancellable(CompanyRequest(s, userId, id).value.status)
    ensures r.Success? ==>
      r.value == s.(requests := Put(s.requests, id, WithStatus(CompanyRequest(s, userId, id).value, RequestStatus.Cancelled, now)))
    ensures r.Success? ==> r.value.bids == s.bids
  {
    match CompanyRequest(s, userId, id)
    case None => Failure(NotFound)
    case Some(req) =>
      if !Cancellable(req.status) then Failure(NotAllowed)
      else Success(s.(requests := Put(s.requests, id, WithStatus(req, RequestStatus.Cancelled, now))))
  }

  /** Once cancelled, a request can be neither edited, updated, deleted nor cancelled again. */
  lemma CancelledIsClosed(s: Store, userId: nat, id: nat, now: Instant, f: Forms.ShipmentRequestForm)
    requires Cancel(s, userId, id, now).Success?
    ensures var t := Cancel(s, userId, id, now).value;
      Update(t, userId, id, f, now).Failure? && Delete(t, userId, id).Failure? &&
      Cancel(t, userId, id, now).Failure? && Edit(t, userId, id, now).Failure?
  {
    var req := CompanyRequest(s, userId, id).value;
    var t := Cancel(s, userId, id, now).value;
    assert t.companies == s.companies;
    PutGet(s.requests, id, WithStatus(req, RequestStatus.Cancelled, now));
  }

}

=== FILE: company_tracking.dfy ===
/** A company's tracking page and its feedback. The page follows one of the company's
    contracts, chosen by key or by a tracking number, lists the contract's snapshots and picks
    the latest delivered one, on which the company may leave one feedback. */
module CompanyTracking {
  import opened Wrappers
  import opened Tables
  import opened Constants
  import opened Text
  import opened Listing
  import opened Marketplace
  import Calendar
  import Forms

  /** The company's contract with key `id` (`FirstOrDefault(c => c.ContractId == id && c.CompanyId == …)`). */
  function CompanyContract(s: Store, companyId: nat, id: int): (r: Option<Row<Contract>>)
    ensures r.Some? ==> r.value in s.contracts && r.value.id == id && r.value.val.companyId == companyId
    ensures r.None? <==> forall k :: k in s.contracts ==> !(k.id == id && k.val.companyId == companyId)
  {
    First(s.contracts, (k: Row<Contract>) => k.id == id && k.val.companyId == companyId)
  }

  /** The snapshots of contract `contractId` that carry a delivery time. */
  function Delivered(s: Store, contractId: nat): (r: seq<Row<Shipment>>)
    ensures forall x :: x in r <==> x in s.shipments && x.val.contractId == contractId && x.val.deliveryTime.Some?
  {
    FilterKeeps(s.shipments, (x: Row<Shipment>) => x.val.contractId == contractId && x.val.deliveryTime.Some?);
    Filter(s.shipments, (x: Row<Shipment>) => x.val.contractId == contractId && x.val.deliveryTime.Some?)
  }

  /** The snapshot of the contract with the latest delivery time, among those with one. */
  function Latest(s: Store, contractId: nat): (r: Option<Row<Shipment>>)
    ensures r.None? <==> forall x :: x in s.shipments && x.val.contractId == contractId ==> x.val.deliveryTime.None?
    ensures r.Some? ==>
      r.value in s.shipments && r.value.val.contractId == contractId && r.value.val.deliveryTime.Some? &&
      forall x :: x in s.shipments && x.val.contractId == contractId && x.val.deliveryTime.Some? ==>
        Calendar.Ticks(x.val.deliveryTime.value) <= Calendar.Ticks(r.value.val.deliveryTime.value)
  {
    var candidates := Delivered(s, contractId);
    var sorted := SortBy(candidates, (x: Row<Shipment>) => Stamp(x.val.deliveryTime), true);
    if |sorted| == 0 then
      assert |candidates| == |multiset(candidates)| == |multiset(sorted)| == 0;
      None
    else
      assert sorted[0] in multiset(candidates);
      forall x | x in candidates
        ensures Calendar.Ticks(x.val.deliveryTime.value) <= Calendar.Ticks(sorted[0].val.deliveryTime.value)
      {
        assert x in multiset(sorted);
        var j :| 0 <= j < |sorted| && sorted[j] == x;
        if j > 0 {
          assert InOrder(Stamp(sorted[0].val.deliveryTime), Stamp(sorted[j].val.deliveryTime), true);
        }
      }
      Some(sorted[0])
  }

  /** The company has left feedback on snapshot `shipmentId`. */
  predicate HasFeedback(s: Store, shipmentId: nat, companyId: nat) {
    exists i :: 0 <= i < |s.feedbacks| && s.feedbacks[i].val.shipmentId == shipmentId &&
      s.feedbacks[i].val.companyId == companyId
  }

  /** The page's view: the contract followed, its snapshots in start order, the latest
      delivered snapshot, and the two feedback flags. */
  datatype Tracking = Tracking(
    contract: Option<Row<Contract>>,
    snapshots: seq<Shipment>,
    latest: Option<Row<Shipment>>,
    canProvideFeedback: bool,
    hasProvidedFeedback: bool)

  /** A snapshot with the tracking number, on a contract of the company. */
  predicate Tracks(s: Store, companyId: nat, trackingNumber: string, x: Row<Shipment>)
  {
    x.val.trackingNumber == trackingNumber &&
    Get(s.contracts, x.val.contractId).Some? && Get(s.contracts, x.val.contractId).value.companyId == companyId
  }

  /** The contract of the first of the company's snapshots with the tracking number. */
  function ByTrackingNumber(s: Store, companyId: nat, trackingNumber: string): (r: Option<Row<Contract>>)
    ensures r.None? <==> forall i :: 0 <= i < |s.shipments| ==> !Tracks(s, companyId, trackingNumber, s.shipments[i])
    ensures r.Some? ==>
      exists i :: 0 <= i < |s.shipments| && Tracks(s, companyId, trackingNumber, s.shipments[i]) &&
        r.value.id == s.shipments[i].val.contractId &&
        (forall j :: 0 <= j < i ==> !Tracks(s, companyId, trackingNumber, s.shipments[j]))
    ensures r.Some? ==>
      (r.value in s.contracts && r.value.val.companyId == companyId &&
       exists x :: x in s.shipments && x.val.trackingNumber == trackingNumber && x.val.contractId == r.value.id)
  {
    match First(s.shipments, (x: Row<Shipment>) => Tracks(s, companyId, trackingNumber, x))
    case None => None
    case Some(x) =>
      var c := Get(s.contracts, x.val.contractId).value;
      Some(Row(x.val.contractId, c))
  }

  /** The tracking view of a chosen contract (or of none). */
  function View(s: Store, companyId: nat, selected: Option<Row<Contract>>): (v: Tracking)
    ensures v.contract == selected
    ensures selected.None? ==> v.snapshots == [] && v.latest.None? && !v.canProvideFeedback && !v.hasProvidedFeedback
    ensures selected.Some? ==>
      SortedBy(v.snapshots, (sh: Shipment) => Stamp(sh.startDate), false) &&
      multiset(v.snapshots) == multiset(Filter(Values(s.shipments), (sh: Shipment) => sh.contractId == selected.value.id)) &&
      v.latest == Latest(s, selected.value.id)
    ensures v.canProvideFeedback <==> v.latest.Some? && v.latest.value.val.status == TrackingDelivered
    ensures v.hasProvidedFeedback <==> v.latest.Some? && HasFeedback(s, v.latest.value.id, companyId)
  {
    match selected
    case None => Tracking(None, [], None, false, false)
    case Some(c) =>
      var snapshots := SortBy(Filter(Values(s.shipments), (sh: Shipment) => sh.contractId == c.id),
                              (sh: Shipment) => Stamp(sh.startDate), false);
      var latest := Latest(s, c.id);
      Tracking(selected, snapshots, latest,
        latest.Some? && latest.value.val.status == TrackingDelivered,
        latest.Some? && HasFeedback(s, latest.value.id, companyId))
  }

  /** `Show`: a contract key takes precedence over a tracking number; a blank tracking number
      selects nothing. */
  function Show(s: Store, userId: nat, contractId: Option<int>, trackingNumber: Option<string>): (r: Result<Tracking, Error>)
    ensures r.Success? <==> CompanyOf(s, userId).Some?
    ensures r.Success? && contractId.Some? ==>
      r.value == View(s, CompanyOf(s, userId).value, CompanyContract(s, CompanyOf(s, userId).value, contractId.value))
    ensures r.Success? && contractId.None? && IsNullOrWhiteSpace(trackingNumber) ==> r.value.contract.None?
    ensures r.Success? && contractId.None? && !IsNullOrWhiteSpace(trackingNumber) ==>
      r.value == View(s, CompanyOf(s, userId).value, ByTrackingNumber(s, CompanyOf(s, userId).value, trackingNumber.value))
  {
    match CompanyOf(s, userId)
    case None => Failure(ProfileNotFound)
    case Some(company) =>
      var selected :=
        if contractId.Some? then CompanyContract(s, company, contractId.value)
        else if !IsNullOrWhiteSpace(trackingNumber) then ByTrackingNumber(s, company, trackingNumber.value)
        else None;
      Success(View(s, company, selected))
  }

  /** The feedback a company leaves on the latest delivered snapshot of a contract. */
  function NewFeedback(f: Forms.FeedbackForm, c: Row<Contract>, latest: Row<Shipment>, companyId: nat, now: Instant): Feedback {
    Feedback(f.rating, f.comments, Some(now), c.val.providerId, latest.id, companyId)
  }

  /** The checks `StoreFeedback` makes before the form, in order: a company, its contract, a
      latest snapshot that is "Delivered", and no feedback of the company on it yet. */
  function FeedbackTarget(s: Store, userId: nat, contractId: int): (r: Result<(nat, Row<Contract>, Row<Shipment>), Error>)
    ensures r.Success? <==>
      CompanyOf(s, userId).Some? && CompanyContract(s, CompanyOf(s, userId).value, contractId).Some? &&
      Latest(s, CompanyContract(s, CompanyOf(s, userId).value, contractId).value.id).Some? &&
      Latest(s, CompanyContract(s, CompanyOf(s, userId).value, contractId).value.id).value.val.status == TrackingDelivered &&
      !HasFeedback(s, Latest(s, CompanyContract(s, CompanyOf(s, userId).value, contractId).value.id).value.id,
                   CompanyOf(s, userId).value)
    ensures r.Success? ==>
      r.value.0 == CompanyOf(s, userId).value &&
      Some(r.value.1) == CompanyContract(s, r.value.0, contractId) && Some(r.value.2) == Latest(s, r.value.1.id)
  {
    match CompanyOf(s, userId)
    case None => Failure(ProfileNotFound)
    case Some(company) =>
      match CompanyContract(s, company, contractId)
      case None => Failure(NotFound)
      case Some(c) =>
        match Latest(s, c.id)
        case None => Failure(NotAllowed)
        case Some(latest) =>
          if latest.val.status != TrackingDelivered then Failure(NotAllowed)
          else if HasFeedback(s, latest.id, company) then Failure(AlreadyExists)
          else Success((company, c, latest))
  }

  /** `StoreFeedback` as written: the form admits comments up to 500 characters, but the
      comments column holds 255, so the database refuses a longer comment when it is saved. */
  function StoreFeedbackAsWritten(s: Store, userId: nat, contractId: int, f: Forms.FeedbackForm, now: Instant)
    : (r: Result<Store, Error>)
    ensures FeedbackTarget(s, userId, contractId).Failure? ==> r == Failure(FeedbackTarget(s, userId, contractId).error)
    ensures r.Success? <==>
      FeedbackTarget(s, userId, contractId).Success? && Forms.FeedbackFormValid(f) &&
      |f.comments.value| <= Forms.FeedbackCommentsColumnWidth
    ensures r.Success? ==>
      var (company, c, latest) := FeedbackTarget(s, userId, contractId).value;
      r.value == s.(feedbacks := Insert(s.feedbacks, NewFeedback(f, c, latest, company, now)).0)
  {
    match FeedbackTarget(s, userId, contractId)
    case Failure(e) => Failure(e)
    case Success((company, c, latest)) =>
      if !Forms.FeedbackFormValid(f) then Failure(InvalidForm)
      else if |f.comments.value| > Forms.FeedbackCommentsColumnWidth then Failure(SaveFailed)
      else Success(s.(feedbacks := Insert(s.feedbacks, NewFeedback(f, c, latest, company, now)).0))
  }

  /** A valid five-star feedback with a 300-character comment passes every check and is still
      not stored. */
  lemma LongCommentIsLost(s: Store, userId: nat, contractId: int, now: Instant)
    requires FeedbackTarget(s, userId, contractId).Success?
    ensures var f := Forms.FeedbackForm(Some(5), Some(seq(300, _ => 'a')));
      Forms.FeedbackFormValid(f) && StoreFeedbackAsWritten(s, userId, contractId, f, now) == Failure(SaveFailed)
  {
    var f := Forms.FeedbackForm(Some(5), Some(seq(300, _ => 'a')));
    assert !IsWhiteSpace(f.comments.value[0]);
    assert Forms.FeedbackFormValid(f);
  }

  /** `StoreFeedback` with the comment limit at the column width: every form it accepts is
      saved, with the company, the contract's provider and the latest delivered snapshot. */
  function StoreFeedback(s: Store, userId: nat, contractId: int, f: Forms.FeedbackForm, now: Instant)
    : (r: Result<Store, Error>)
    ensures FeedbackTarget(s, userId, contractId).Failure? ==> r == Failure(FeedbackTarget(s, userId, contractId).error)
    ensures r.Success? <==> FeedbackTarget(s, userId, contractId).Success? && Forms.FeedbackFormFits(f)
    ensures r.Success? ==>
      var (company, c, latest) := FeedbackTarget(s, userId, contractId).value;
      |r.value.feedbacks| == |s.feedbacks| + 1 && r.value.feedbacks[..|s.feedbacks|] == s.feedbacks &&
      r.value.feedbacks[|s.feedbacks|].val == NewFeedback(f, c, latest, company, now) &&
      |r.value.feedbacks[|s.feedbacks|].val.comments.value| <= Forms.FeedbackCommentsColumnWidth &&
      r.value == s.(feedbacks := r.value.feedbacks)
  {
    match FeedbackTarget(s, userId, contractId)
    case Failure(e) => Failure(e)
    case Success((company, c, latest)) =>
      if !Forms.FeedbackFormFits(f) then Failure(InvalidForm)
      else Success(s.(feedbacks := Insert(s.feedbacks, NewFeedback(f, c, latest, company, now)).0))
  }

  /** A company gives feedback on a delivery once: after it has, the page says so and a second
      submission is refused as a duplicate. */
  lemma FeedbackOnce(s: Store, userId: nat, contractId: int, f: Forms.FeedbackForm, g: Forms.FeedbackForm, now: Instant, later: Instant)
    requires StoreFeedback(s, userId, contractId, f, now).Success?
    ensures var t := StoreFeedback(s, userId, contractId, f, now).value;
      StoreFeedback(t, userId, contractId, g, later) == Failure(AlreadyExists) &&
      Show(t, userId, Some(contractId), None).value.hasProvidedFeedback
  {
    var (company, c, latest) := FeedbackTarget(s, userId, contractId).value;
    var t := StoreFeedback(s, userId, contractId, f, now).value;
    assert t.companies == s.companies && t.contracts == s.contracts && t.shipments == s.shipments;
    assert CompanyOf(t, userId) == CompanyOf(s, userId);
    assert CompanyContract(t, company, contractId) == Some(c);
    assert Latest(t, c.id) == Some(latest);
    assert t.feedbacks[|s.feedbacks|].val.shipmentId == latest.id;
    assert HasFeedback(t, latest.id, company);
  }

  /** The page offers the feedback form exactly when a submission would pass the checks
      before the form. */
  lemma PageAgreesWithStore(s: Store, userId: nat, contractId: int)
    requires CompanyOf(s, userId).Some?
    ensures var v := Show(s, userId, Some(contractId), None).value;
      (v.canProvideFeedback && !v.hasProvidedFeedback) <==> FeedbackTarget(s, userId, contractId).Success?
  {
  }
}

=== FILE: constants.dfy ===
/** The status vocabulary of the marketplace. Each family of status strings becomes an
    enumeration whose `Name` is the stored string; `Parse` reads a stored string back. */
module Constants {
  import opened Wrappers

  const RoleAdmin: string := "Admin"
  const RoleCompany: string := "Company"
  const RoleProvider: string := "Provider"

  const CompanyPendingApproval: string := "PendingApproval"

  /** The three role names are pairwise different, so a role claim names one role. */
  lemma RolesDistinct()
    ensures RoleAdmin != RoleCompany && RoleAdmin != RoleProvider && RoleCompany != RoleProvider
  {
    assert RoleAdmin[0] != RoleCompany[0] && RoleAdmin[0] != RoleProvider[0];
    assert RoleCompany[0] != RoleProvider[0];
  }

  /** Status of a shipment request. */
  datatype RequestStatus =
    | Pending | Bidding | Assigned | Accepted | InProgress | Delivered | Cancelled | Failed | DirectRequest
  {
    function Name(): string {
      match this
      case Pending => "Pending"
      case Bidding => "Bidding"
      case Assigned => "Assigned"
      case Accepted => "Accepted"
      case InProgress => "InProgress"
      case Delivered => "Delivered"
      case Cancelled => "Cancelled"
      case Failed => "Failed"
      case DirectRequest => "DirectRequest"
    }

    /** Open for bids: the states in which providers may bid, the company may edit or
        delete, and a direct request may be sent. */
    predicate IsOpen() { this == RequestStatus.Pending || this == Bidding }
  }

  function ParseRequestStatus(s: string): (r: Option<RequestStatus>)
    ensures r.Some? ==> r.value.Name() == s
    ensures r.None? ==> forall st: RequestStatus :: st.Name() != s
  {
    if s == "Pending" then Some(RequestStatus.Pending)
    else if s == "Bidding" then Some(Bidding)
    else if s == "Assigned" then Some(Assigned)
    else if s == "Accepted" then Some(RequestStatus.Accepted)
    else if s == "InProgress" then Some(InProgress)
    else if s == "Delivered" then Some(Delivered)
    else if s == "Cancelled" then Some(RequestStatus.Cancelled)
    else if s == "Failed" then Some(RequestStatus.Failed)
    else if s == "DirectRequest" then Some(DirectRequest)
    else None
  }

  /** The nine request status strings are pairwise different: parsing a name gives back the
      status it came from. */
  lemma RequestStatusNames(st: RequestStatus)
    ensures ParseRequestStatus(st.Name()) == Some(st)
  {
  }

  /** Status of a bid. */
  datatype BidStatus = Submitted | UnderReview | Accepted | Rejected | Cancelled | ContractCreated
  {
    function Name(): string {
      match this
      case Submitted => "Submitted"
      case UnderReview => "UnderReview"
      case Accepted => "Accepted"
      case Rejected => "Rejected"
      case Cancelled => "Cancelled"
      case ContractCreated => "ContractCreated"
    }
  }

  function ParseBidStatus(s: string): (r: Option<BidStatus>)
    ensures r.Some? ==> r.value.Name() == s
    ensures r.None? ==> forall st: BidStatus :: st.Name() != s
  {
    if s == "Submitted" then Some(Submitted)
    else if s == "UnderReview" then Some(UnderReview)
    else if s == "Accepted" then Some(BidStatus.Accepted)
    else if s == "Rejected" then Some(Rejected)
    else if s == "Cancelled" then Some(BidStatus.Cancelled)
    else if s == "ContractCreated" then Some(ContractCreated)
    else None
  }

  /** The six bid status strings are pairwise different. */
  lemma BidStatusNames(st: BidStatus)
    ensures ParseBidStatus(st.Name()) == Some(st)
  {
  }

  /** Status of a payment. */
  datatype PaymentStatus = Pending | Processing | Successful | Failed | Refunded
  {
    function Name(): string {
      match this
      case Pending => "Pending"
      case Processing => "Processing"
      case Successful => "Successful"
      case Failed => "Failed"
      case Refunded => "Refunded"
    }
  }

  function ParsePaymentStatus(s: string): (r: Option<PaymentStatus>)
    ensures r.Some? ==> r.value.Name() == s
    ensures r.None? ==> forall st: PaymentStatus :: st.Name() != s
  {
    if s == "Pending" then Some(PaymentStatus.Pending)
    else if s == "Processing" then Some(Processing)
    else if s == "Successful" then Some(Successful)
    else if s == "Failed" then Some(PaymentStatus.Failed)
    else if s == "Refunded" then Some(Refunded)
    else None
  }

  /** The five payment status strings are pairwise different. */
  lemma PaymentStatusNames(st: PaymentStatus)
    ensures ParsePaymentStatus(st.Name()) == Some(st)
  {
  }

  /** Tracking snapshot statuses. Snapshots store free text; these are the three the
      provider's form offers. */
  const TrackingReceived: string := "Received"
  const TrackingInTransit: string := "InTransit"
  const TrackingDelivered: string := "Delivered"

  /** The tracking "delivered" string is the request status Delivered, while "Accepted" and
      "Pending" each name a status in two families, so a bare string does not tell which
      family it belongs to. */
  lemma SharedStatusNames()
    ensures TrackingDelivered == RequestStatus.Delivered.Name()
    ensures BidStatus.Accepted.Name() == RequestStatus.Accepted.Name()
    ensures RequestStatus.Pending.Name() == PaymentStatus.Pending.Name()
    ensures ParseRequestStatus(TrackingReceived).None? && ParseRequestStatus(TrackingInTransit).None?
  {
  }
}

=== FILE: custom_validation.dfy ===
/** The second `PhoneNumberAttribute`, declared in the view-model validation namespace. Its
    pattern is the same regular expression; here the match is written as the automaton the
    expression denotes, run character by character, and proved to accept exactly the strings
    the first attribute accepts. */
module CustomValidation {
  import opened Wrappers
  import opened Text
  import ValidationAttributes

  /** Automaton states: how much of which alternative has been read. */
  datatype PhoneState =
    | Start
    | Plus(matched: nat)      // read '+' and `matched` more characters of "9665"
    | Zero                    // read "0"
    | Digits(left: nat)       // in the digit run, `left` digits still to read
    | Dead

  function Step(q: PhoneState, c: char): PhoneState {
    match q
    case Start => if c == '+' then Plus(0) else if c == '0' then Zero else Dead
    case Plus(k) =>
      if k < 4 && c == "9665"[k] then (if k == 3 then Digits(8) else Plus(k + 1)) else Dead
    case Zero => if c == '5' then Digits(8) else Dead
    case Digits(n) => if n > 0 && IsDigit(c) then Digits(n - 1) else Dead
    case Dead => Dead
  }

  function Run(q: PhoneState, s: string): PhoneState
    decreases |s|
  {
    if |s| == 0 then q else Run(Step(q, s[0]), s[1..])
  }

  predicate Accepts(s: string) {
    Run(Start, s) == Digits(0)
  }

  /** The digit run accepts exactly `n` digits. */
  lemma {:induction false} RunDigits(n: nat, s: string)
    ensures Run(Digits(n), s) == Digits(0) <==> |s| == n && AllDigits(s)
    decreases |s|
  {
    if |s| > 0 {
      if n > 0 && IsDigit(s[0]) {
        RunDigits(n - 1, s[1..]);
        assert AllDigits(s) <==> AllDigits(s[1..]);
      } else {
        DeadStays(s[1..]);
      }
    }
  }

  lemma {:induction false} DeadStays(s: string)
    ensures Run(Dead, s) == Dead
    decreases |s|
  {
    if |s| > 0 {
      DeadStays(s[1..]);
    }
  }

  /** The automaton accepts exactly the strings of the declarative pattern. */
  lemma AcceptsIff(s: string)
    ensures Accepts(s) <==> ValidationAttributes.IsSaudiPhone(s)
  {
    if |s| >= 1 && s[0] == '+' {
      AfterPlus(s);
    } else if |s| >= 2 && s[0] == '0' && s[1] == '5' {
      assert Run(Start, s) == Run(Zero, s[1..]);
      assert Run(Zero, s[1..]) == Run(Digits(8), s[1..][1..]);
      assert s[1..][1..] == s[2..];
      RunDigits(8, s[2..]);
    } else if |s| >= 2 && s[0] == '0' {
      assert Run(Start, s) == Run(Zero, s[1..]);
      assert Run(Zero, s[1..]) == Run(Dead, s[1..][1..]);
      DeadStays(s[1..][1..]);
    } else if |s| >= 1 && s[0] != '0' {
      assert Run(Start, s) == Run(Dead, s[1..]);
      DeadStays(s[1..]);
      assert |s| >= 5 ==> s[..5][0] != "+9665"[0];
      assert |s| >= 2 ==> s[..2][0] != "05"[0];
    } else if |s| == 1 {
      assert Run(Start, s) == Run(Zero, s[1..]);
    }
  }

  lemma AfterPlus(s: string)
    requires |s| >= 1 && s[0] == '+'
    ensures Accepts(s) <==> ValidationAttributes.IsSaudiPhone(s)
  {
    var t := s[1..];
    assert Run(Start, s) == Run(Plus(0), t);
    var k := CommonPrefix(t);
    if k == 4 {
      assert t[..4] == "9665";
      assert Run(Plus(0), t) == Run(Plus(1), t[1..]);
      assert Run(Plus(1), t[1..]) == Run(Plus(2), t[2..]) by { assert t[1..][1..] == t[2..]; }
      assert Run(Plus(2), t[2..]) == Run(Plus(3), t[3..]) by { assert t[2..][1..] == t[3..]; }
      assert Run(Plus(3), t[3..]) == Run(Digits(8), t[4..]) by { assert t[3..][1..] == t[4..]; }
      assert t[4..] == s[5..];
      RunDigits(8, s[5..]);
      assert s[..5] == "+9665";
    } else {
      PlusDies(t, 0, k);
      if |s| >= 5 {
        assert s[k + 1] == t[k] && "+9665"[k + 1] == "9665"[k];
        assert s[..5][k + 1] != "+9665"[k + 1];
      }
    }
  }

  /** How many leading characters of `t` agree with "9665", at most four. */
  function CommonPrefix(t: string): (k: nat)
    ensures k <= 4 && k <= |t| && t[..k] == "9665"[..k]
    ensures k == |t| || k == 4 || t[k] != "9665"[k]
  {
    if |t| == 0 || t[0] != '9' then 0
    else if |t| == 1 || t[1] != '6' then 1
    else if |t| == 2 || t[2] != '6' then 2
    else if |t| == 3 || t[3] != '5' then 3
    else 4
  }

  lemma {:induction false} PlusDies(t: string, i: nat, k: nat)
    requires i <= k < 4 && k <= |t| && t[..k] == "9665"[..k]
    requires k == |t| || t[k] != "9665"[k]
    ensures Run(Plus(i), t[i..]) != Digits(0)
    decreases |t| - i
  {
    if i == |t| {
    } else if i < k {
      assert t[i] == t[..k][i];
      assert t[i..][1..] == t[i + 1..];
      PlusDies(t, i + 1, k);
    } else {
      assert t[i..][1..] == t[i + 1..];
      DeadStays(t[i + 1..]);
    }
  }

  /** `PhoneNumberAttribute.IsValid` of the view-model namespace. */
  function PhoneNumber(value: Option<string>, displayName: Option<string>, memberName: string): (r: ValidationAttributes.ValidationResult)
    ensures r.Valid? <==> IsNullOrWhiteSpace(value) || Accepts(value.value)
    ensures r.Invalid? ==>
      r.message == ValidationAttributes.FieldName(displayName, memberName) + " must be a valid phone number. Example: +966566193395 or 0566193395"
  {
    if IsNullOrWhiteSpace(value) || Accepts(value.value) then ValidationAttributes.Valid
    else
      ValidationAttributes.Invalid(ValidationAttributes.FieldName(displayName, memberName) +
        " must be a valid phone number. Example: +966566193395 or 0566193395")
  }

  /** The two phone attributes give the same verdict and the same message on every input. */
  lemma SameAsAttributesPhone(value: Option<string>, displayName: Option<string>, memberName: string)
    ensures PhoneNumber(value, displayName, memberName) ==
            ValidationAttributes.PhoneNumber(value, displayName, memberName)
  {
    if value.Some? {
      AcceptsIff(value.value);
    }
  }
}

=== FILE: documents.dfy ===
/** The document-type checks on uploaded contracts: the extension of the posted file name,
    lower-cased, must be one of a whitelist. */
module Documents {
  import opened Text

  /** A company's contract document: PDF or Word. */
  const ContractExtensions: seq<string> := [".pdf", ".doc", ".docx"]

  /** A signed contract uploaded by the provider: PDF only. */
  const SignedExtensions: seq<string> := [".pdf"]

  /** `allowed.Contains(Path.GetExtension(name).ToLowerInvariant())`. */
  predicate Allowed(name: string, allowed: seq<string>) {
    Lower(GetExtension(name)) in allowed
  }

  /** `name` ends with `e`, ignoring the case of ASCII letters. */
  predicate EndsWithIgnoringCase(name: string, e: string) {
    |e| <= |name| && Lower(name[|name| - |e|..]) == e
  }

  /** A contract document is accepted exactly when its name ends in ".pdf", ".doc" or ".docx",
      in any mix of upper and lower case. */
  lemma ContractDocumentIff(name: string)
    ensures Allowed(name, ContractExtensions) <==>
      EndsWithIgnoringCase(name, ".pdf") || EndsWithIgnoringCase(name, ".doc") ||
      EndsWithIgnoringCase(name, ".docx")
  {
    ContractListed(Lower(GetExtension(name)));
    ExtensionIff(name, ".pdf");
    ExtensionIff(name, ".doc");
    ExtensionIff(name, ".docx");
  }

  lemma ContractListed(x: string)
    ensures x in ContractExtensions <==> x == ".pdf" || x == ".doc" || x == ".docx"
  {
  }

  lemma ExtensionIff(name: string, e: string)
    requires e in [".pdf", ".doc", ".docx"]
    ensures Lower(GetExtension(name)) == e <==> EndsWithIgnoringCase(name, e)
  {
    PlainExtensions();
    ExtensionMatchesSuffix(name, e);
  }

  /** A signed contract is accepted exactly when its name ends in ".pdf", in any case. */
  lemma SignedDocumentIff(name: string)
    ensures Allowed(name, SignedExtensions) <==> EndsWithIgnoringCase(name, ".pdf")
  {
    PlainExtensions();
    ExtensionMatchesSuffix(name, ".pdf");
  }

  lemma PlainExtensions()
    ensures IsPlainExtension(".pdf") && IsPlainExtension(".doc") && IsPlainExtension(".docx")
  {
  }
}

=== FILE: forms.dfy ===
/** The posted forms and their data annotations. A form is valid (`ModelState.IsValid`)
    when every annotation on every field holds; a non-nullable string property is required
    even without `[Required]`, since the project has nullable annotations on. Money is in halalas (1/100 SAR), weight in
    grams; a numeric field that was not posted, or did not bind, is absent. */
module Forms {
  import opened Wrappers
  import opened Text
  import Calendar

  /** `[Required]` on a string: present and not blank. */
  predicate Required(v: Option<string>) {
    !IsNullOrWhiteSpace(v)
  }

  /** `[StringLength(max, MinimumLength = min)]`: a null value passes. */
  predicate LengthBetween(v: Option<string>, min: nat, max: nat) {
    v.None? || min <= |v.value| <= max
  }

  /** `[RegularExpression]`: a null or empty value passes; otherwise the whole value must
      match. */
  predicate PatternHolds(v: Option<string>, matches: string -> bool) {
    v.None? || |v.value| == 0 || matches(v.value)
  }

  /** `[Range(lo, hi)]` on a required number. */
  predicate InRange(v: Option<int>, lo: int, hi: int) {
    v.Some? && lo <= v.value <= hi
  }

  // ---------------------------------------------------------------- payment

  const DefaultPaymentMethod: string := "credit_card"

  datatype PaymentForm = PaymentForm(
    paymentMethod: Option<string>,
    cardNumber: Option<string>,
    expiryDate: Option<string>,
    cvv: Option<string>,
    cardHolder: Option<string>)

  /** A fresh form, before binding: the method defaults to "credit_card". */
  function NewPaymentForm(): (f: PaymentForm)
    ensures f.paymentMethod == Some(DefaultPaymentMethod)
    ensures f.cardNumber.None? && f.expiryDate.None? && f.cvv.None? && f.cardHolder.None?
  {
    PaymentForm(Some(DefaultPaymentMethod), None, None, None, None)
  }

  /** `^\d{16}$`. */
  predicate SixteenDigits(s: string) { |s| == 16 && AllDigits(s) }

  /** `^(0[1-9]|1[0-2])\/\d{2}$`. */
  predicate MonthSlashYear(s: string) {
    |s| == 5 && s[2] == '/' && IsDigit(s[3]) && IsDigit(s[4]) &&
    ((s[0] == '0' && '1' <= s[1] <= '9') || (s[0] == '1' && '0' <= s[1] <= '2'))
  }

  /** `^\d{3,4}$`. */
  predicate ThreeOrFourDigits(s: string) { 3 <= |s| <= 4 && AllDigits(s) }

  predicate CardNumberValid(v: Option<string>) {
    Required(v) && LengthBetween(v, 16, 16) && PatternHolds(v, SixteenDigits)
  }

  predicate ExpiryValid(v: Option<string>) {
    Required(v) && PatternHolds(v, MonthSlashYear)
  }

  predicate CvvValid(v: Option<string>) {
    Required(v) && LengthBetween(v, 3, 4) && PatternHolds(v, ThreeOrFourDigits)
  }

  predicate CardHolderValid(v: Option<string>) {
    Required(v) && LengthBetween(v, 0, 100)
  }

  /** The payment method is a non-nullable string: required, though a form that does not
      post it keeps "credit_card". */
  predicate PaymentFormValid(f: PaymentForm) {
    Required(f.paymentMethod) &&
    CardNumberValid(f.cardNumber) && ExpiryValid(f.expiryDate) && CvvValid(f.cvv) &&
    CardHolderValid(f.cardHolder)
  }

  /** The method is required: an empty post, which binds to null, or a blank method makes the
      form invalid, while a form that leaves the default in place is judged on its card
      fields alone. */
  lemma PaymentMethodRequired(f: PaymentForm)
    ensures IsNullOrWhiteSpace(f.paymentMethod) ==> !PaymentFormValid(f)
    ensures PaymentFormValid(f.(paymentMethod := NewPaymentForm().paymentMethod)) <==>
      CardNumberValid(f.cardNumber) && ExpiryValid(f.expiryDate) && CvvValid(f.cvv) && CardHolderValid(f.cardHolder)
  {
    assert DefaultPaymentMethod[0] == 'c';
  }

  /** A non-empty string of digits is not blank. */
  lemma DigitsNotBlank(s: string)
    requires |s| > 0 && AllDigits(s)
    ensures !IsNullOrWhiteSpace(Some(s))
  {
    assert IsDigit(s[0]);
  }

  /** The card number passes its three annotations exactly when it is sixteen digits. */
  lemma CardNumberValidIff(v: Option<string>)
    ensures CardNumberValid(v) <==> v.Some? && |v.value| == 16 && AllDigits(v.value)
  {
    if v.Some? && |v.value| == 16 && AllDigits(v.value) {
      DigitsNotBlank(v.value);
    }
  }

  /** The CVV passes exactly when it is three or four digits. */
  lemma CvvValidIff(v: Option<string>)
    ensures CvvValid(v) <==> v.Some? && 3 <= |v.value| <= 4 && AllDigits(v.value)
  {
    if v.Some? && 3 <= |v.value| <= 4 && AllDigits(v.value) {
      DigitsNotBlank(v.value);
    }
  }

  /** The expiry passes exactly when it reads MM/YY with a month from 01 to 12; the year is
      any two digits, so an expired card is accepted. */
  lemma ExpiryValidIff(v: Option<string>)
    ensures ExpiryValid(v) <==>
      v.Some? && |v.value| == 5 && v.value[2] == '/' && AllDigits(v.value[..2]) && AllDigits(v.value[3..]) &&
      1 <= ParseNat(v.value[..2]) <= 12
  {
    if v.Some? && |v.value| == 5 {
      var s := v.value;
      var mm := s[..2];
      if AllDigits(mm) {
        assert mm[..1] == [s[0]] && mm[..1][..0] == [] && mm[1] == s[1];
        assert ParseNat(mm[..1]) == DigitValue(s[0]);
        assert ParseNat(mm) == 10 * DigitValue(s[0]) + DigitValue(s[1]);
      }
      if MonthSlashYear(s) {
        assert !IsWhiteSpace(s[2]);
      }
      assert AllDigits(s[3..]) <==> IsDigit(s[3]) && IsDigit(s[4]) by {
        assert s[3..][0] == s[3] && s[3..][1] == s[4];
      }
    }
  }

  /** The holder's name passes exactly when it is present, not blank and at most 100
      characters long. */
  lemma CardHolderValidIff(v: Option<string>)
    ensures CardHolderValid(v) <==> v.Some? && !IsNullOrWhiteSpace(v) && |v.value| <= 100
  {
  }

  // ---------------------------------------------------------------- bids

  /** Price and weight limits, in the model's units. */
  const HalalasPerRiyal: int := 100
  const GramsPerKilogram: int := 1000

  datatype BidForm = BidForm(
    shipmentRequestId: int,
    bidPrice: Option<int>,
    estimatedDeliveryDays: Option<int>,
    bidNotes: Option<string>)

  /** `Convert.ToInt32` of a price in riyals, given in halalas, which is what `[Range(1,
      1000000)]` compares on a decimal: to the nearest whole riyal, a half riyal to the even
      one. */
  function RoundToRiyal(halalas: int): (n: int)
    ensures -50 <= halalas - n * HalalasPerRiyal <= 50
    ensures halalas - n * HalalasPerRiyal == 50 || halalas - n * HalalasPerRiyal == -50 ==> n % 2 == 0
  {
    var q, r := halalas / HalalasPerRiyal, halalas % HalalasPerRiyal;
    if r < 50 then q
    else if r > 50 then q + 1
    else if q % 2 == 0 then q
    else q + 1
  }

  /** A bid price that rounds to 1 to 1,000,000 SAR, from 1 to 365 days, notes of at most
      255 characters, required as a non-nullable string; the request id carries no
      annotation. */
  predicate BidFormValid(f: BidForm) {
    f.bidPrice.Some? && 1 <= RoundToRiyal(f.bidPrice.value) <= 1_000_000 &&
    InRange(f.estimatedDeliveryDays, 1, 365) &&
    Required(f.bidNotes) && LengthBetween(f.bidNotes, 0, 255)
  }

  /** In halalas: a valid bid form asks from 0.51 SAR (which rounds to 1) up to
      1,000,000.50 SAR (which rounds to the even 1,000,000) for 1 to 365 days, and whatever
      request key it names does not matter. */
  lemma BidFormLimits(f: BidForm, requestId: int)
    ensures BidFormValid(f) <==>
      f.bidPrice.Some? && 51 <= f.bidPrice.value <= 100_000_050 &&
      f.estimatedDeliveryDays.Some? && 1 <= f.estimatedDeliveryDays.value <= 365 &&
      f.bidNotes.Some? && !IsNullOrWhiteSpace(f.bidNotes) && |f.bidNotes.value| <= 255
    ensures BidFormValid(f) <==> BidFormValid(f.(shipmentRequestId := requestId))
  {
    if f.bidPrice.Some? {
      PriceRounding(f.bidPrice.value);
    }
  }

  /** The prices whose rounding lands from 1 to 1,000,000 riyals. */
  lemma PriceRounding(p: int)
    ensures 1 <= RoundToRiyal(p) <= 1_000_000 <==> 51 <= p <= 100_000_050
  {
  }

  datatype BidResponseForm = BidResponseForm(
    bidPrice: Option<int>,
    estimatedDays: Option<int>,
    bidNotes: Option<string>)

  /** A price of at least 0.01 SAR with no upper bound, 1 to 365 days, notes of at most 500
      characters, required as a non-nullable string although labelled optional. */
  predicate BidResponseFormValid(f: BidResponseForm) {
    f.bidPrice.Some? && f.bidPrice.value >= 1 &&
    InRange(f.estimatedDays, 1, 365) &&
    Required(f.bidNotes) && LengthBetween(f.bidNotes, 0, 500)
  }

  // ---------------------------------------------------------------- column widths

  /** The notes column of a bid holds 255 characters. */
  const BidNotesColumnWidth: nat := 255

  /** The status column of a tracking snapshot holds 50 characters. */
  const ShipmentStatusColumnWidth: nat := 50

  /** The pickup and delivery city and region columns of a request hold 100 characters. */
  const PlaceColumnWidth: nat := 100

  /** A value the database can store in a column of `width` characters; a null fits any. */
  predicate FitsColumn(v: Option<string>, width: nat) {
    v.None? || |v.value| <= width
  }

  /** Any valid response carries a positive price, which is what the company's direct
      accept and reject demand of a bid; yet a valid response's notes may be longer than the
      column that stores them. */
  lemma ResponseFormFacts(f: BidResponseForm)
    ensures BidResponseFormValid(f) ==> f.bidPrice.value > 0
    ensures IsNullOrWhiteSpace(f.bidNotes) ==> !BidResponseFormValid(f)
    ensures BidResponseFormValid(BidResponseForm(Some(1), Some(1), Some(seq(500, i => 'x'))))
    ensures |seq(500, i => 'x')| > BidNotesColumnWidth
  {
    assert seq(500, i => 'x')[0] == 'x';
  }

  /** The response rules with the notes limit at the column width. */
  predicate BidResponseFormFits(f: BidResponseForm) {
    BidResponseFormValid(f) && FitsColumn(f.bidNotes, BidNotesColumnWidth)
  }

  /** The direct request's message is optional and, under its own rules, up to 500
      characters; it is stored in the same 255-character notes column as a bid's notes. */
  predicate RequestMessageFits(message: Option<string>) {
    FitsColumn(message, BidNotesColumnWidth)
  }

  // ---------------------------------------------------------------- feedback

  datatype FeedbackForm = FeedbackForm(rating: Option<int>, comments: Option<string>)

  /** A rating from 1 to 5 and comments of 10 to 500 characters, not blank. */
  predicate FeedbackFormValid(f: FeedbackForm) {
    InRange(f.rating, 1, 5) && Required(f.comments) && LengthBetween(f.comments, 10, 500)
  }

  /** A missing rating, or comments missing, blank, shorter than 10 or longer than 500
      characters, make the form invalid; otherwise it is valid. */
  lemma FeedbackFormIff(f: FeedbackForm)
    ensures FeedbackFormValid(f) <==>
      f.rating.Some? && 1 <= f.rating.value <= 5 &&
      f.comments.Some? && !IsNullOrWhiteSpace(f.comments) && 10 <= |f.comments.value| <= 500
  {
  }

  /** The comments column of a feedback holds 255 characters. */
  const FeedbackCommentsColumnWidth: nat := 255

  /** The feedback rules with the comment limit at the column width. */
  predicate FeedbackFormFits(f: FeedbackForm) {
    InRange(f.rating, 1, 5) && Required(f.comments) && LengthBetween(f.comments, 10, FeedbackCommentsColumnWidth)
  }

  /** The fitted rules accept fewer forms than the posted ones: exactly those whose comments
      fit the column. */
  lemma FitsIffValidAndShort(f: FeedbackForm)
    ensures FeedbackFormFits(f) <==>
      FeedbackFormValid(f) && f.comments.Some? && |f.comments.value| <= FeedbackCommentsColumnWidth
  {
  }

  // ---------------------------------------------------------------- shipment requests

  datatype ShipmentRequestForm = ShipmentRequestForm(
    goodsType: Option<string>,
    weightGrams: Option<int>,
    pickupLocation: Option<string>,
    pickupCity: Option<string>,
    pickupRegion: Option<string>,
    deliveryLocation: Option<string>,
    deliveryCity: Option<string>,
    deliveryRegion: Option<string>,
    deliveryDeadline: Option<Calendar.Instant>,
    specialInstructions: Option<string>)

  /** Goods type up to 100 characters; weight from 0.1 to 100,000 kg; locations up to 255
      characters; cities and regions required with no bound; a deadline, which may lie in
      the past; instructions up to 255 characters, required as a non-nullable string. */
  predicate ShipmentRequestFormValid(f: ShipmentRequestForm) {
    Required(f.goodsType) && LengthBetween(f.goodsType, 0, 100) &&
    InRange(f.weightGrams, 100, 100_000 * GramsPerKilogram) &&
    Required(f.pickupLocation) && LengthBetween(f.pickupLocation, 0, 255) &&
    Required(f.pickupCity) && Required(f.pickupRegion) &&
    Required(f.deliveryLocation) && LengthBetween(f.deliveryLocation, 0, 255) &&
    Required(f.deliveryCity) && Required(f.deliveryRegion) &&
    f.deliveryDeadline.Some? &&
    Required(f.specialInstructions) && LengthBetween(f.specialInstructions, 0, 255)
  }

  /** The deadline is only required: a valid form stays valid whatever instant, past or
      future, its deadline is moved to; and the weight lies between 100 g and 100 t. */
  lemma DeadlineOnlyRequired(f: ShipmentRequestForm, d: Calendar.Instant)
    requires f.deliveryDeadline.Some?
    ensures ShipmentRequestFormValid(f) <==> ShipmentRequestFormValid(f.(deliveryDeadline := Some(d)))
    ensures ShipmentRequestFormValid(f) ==> 100 <= f.weightGrams.value <= 100_000_000
    ensures IsNullOrWhiteSpace(f.specialInstructions) ==> !ShipmentRequestFormValid(f)
  {
  }

  /** The cities and regions of a request form fit their 100-character columns. */
  predicate PlacesFit(f: ShipmentRequestForm) {
    FitsColumn(f.pickupCity, PlaceColumnWidth) && FitsColumn(f.pickupRegion, PlaceColumnWidth) &&
    FitsColumn(f.deliveryCity, PlaceColumnWidth) && FitsColumn(f.deliveryRegion, PlaceColumnWidth)
  }

  /** SQL Server's `datetime` column holds the years 1753 to 9999. */
  const DateTimeFirstYear: int := 1753
  const DateTimeLastYear: int := 9999

  /** The deadline of a request form fits its `datetime` column. */
  predicate DeadlineFits(f: ShipmentRequestForm) {
    f.deliveryDeadline.None? || DateTimeFirstYear <= f.deliveryDeadline.value.year <= DateTimeLastYear
  }

  /** What the request form leaves unbounded fits the table: cities, regions and deadline. */
  predicate RequestFits(f: ShipmentRequestForm) {
    PlacesFit(f) && DeadlineFits(f)
  }

  /** Cities and regions have no length limit: a valid form stays valid with any non-blank
      city, even one too long for its column. */
  lemma CityUnbounded(f: ShipmentRequestForm, city: string)
    requires !IsNullOrWhiteSpace(Some(city))
    ensures ShipmentRequestFormValid(f) ==> ShipmentRequestFormValid(f.(pickupCity := Some(city)))
    ensures |city| > PlaceColumnWidth ==> !PlacesFit(f.(pickupCity := Some(city)))
  {
  }
}

=== FILE: front.dfy ===
/** The public pages: the list of requests open for bids, narrowed by the visitor's filters,
    sorted and cut into pages of twelve, and the detail page of one request with its bids. */
module Front {
  import opened Wrappers
  import opened Tables
  import opened Constants
  import opened Text
  import opened Listing
  import opened Marketplace
  import Locations
  import BidStatistics

  const PageSize: nat := 12

  /** The query string of the list page; every field may be missing. */
  datatype ShipmentFilter = ShipmentFilter(
    search: Option<string>,
    goodsType: Option<string>,
    region: Option<string>,
    city: Option<string>,
    weightRange: Option<string>,
    status: Option<string>,
    sort: Option<string>,
    page: Option<int>)

  // ---------------------------------------------------------------- weight bands

  /** The four weight ranges the list offers, in kilograms: up to 100, above 100 up to 500,
      above 500 up to 1000, above 1000. Weights are held in grams. */
  datatype WeightBand = UpTo100 | UpTo500 | UpTo1000 | Over1000

  function ParseBand(range: string): (b: Option<WeightBand>)
    ensures b.Some? <==> range in {"0-100", "100-500", "500-1000", "1000+"}
  {
    if range == "0-100" then Some(UpTo100)
    else if range == "100-500" then Some(UpTo500)
    else if range == "500-1000" then Some(UpTo1000)
    else if range == "1000+" then Some(Over1000)
    else None
  }

  /** A missing weight lies in no band: a comparison with NULL is never true. */
  predicate InBand(w: Option<int>, b: WeightBand) {
    w.Some? &&
    match b
    case UpTo100 => w.value <= 100_000
    case UpTo500 => 100_000 < w.value <= 500_000
    case UpTo1000 => 500_000 < w.value <= 1_000_000
    case Over1000 => 1_000_000 < w.value
  }

  /** The band of a known weight. */
  function BandOf(w: int): (b: WeightBand)
    ensures InBand(Some(w), b)
  {
    if w <= 100_000 then UpTo100
    else if w <= 500_000 then UpTo500
    else if w <= 1_000_000 then UpTo1000
    else Over1000
  }

  /** The bands are disjoint and together cover every known weight: a weight lies in a band
      exactly when that band is its `BandOf`. */
  lemma BandsPartition(w: int, b: WeightBand)
    ensures InBand(Some(w), b) <==> b == BandOf(w)
  {
  }

  /** A weight-range value the list does not know leaves the query as it was. */
  predicate WeightKeeps(range: string, w: Option<int>) {
    match ParseBand(range)
    case None => true
    case Some(b) => InBand(w, b)
  }

  // ---------------------------------------------------------------- the filters

  /** A missing column never contains the search text. */
  predicate FieldContains(field: Option<string>, q: string) {
    field.Some? && Contains(field.value, q)
  }

  predicate MatchesSearch(r: ShipmentRequest, q: string) {
    FieldContains(r.goodsType, q) || FieldContains(r.pickupCity, q) || FieldContains(r.deliveryCity, q) ||
    FieldContains(r.pickupRegion, q) || FieldContains(r.deliveryRegion, q)
  }

  /** The six filters in the order the list applies them: search, goods type, pickup region,
      pickup city, weight range, status. Filter `k` is applied when its field is filled in. */
  const FilterCount: nat := 6

  predicate On(f: ShipmentFilter, k: nat) {
    match k
    case 0 => !IsNullOrEmpty(f.search)
    case 1 => !IsNullOrEmpty(f.goodsType)
    case 2 => !IsNullOrEmpty(f.region)
    case 3 => !IsNullOrEmpty(f.city)
    case 4 => !IsNullOrEmpty(f.weightRange)
    case 5 => !IsNullOrEmpty(f.status)
    case _ => false
  }

  /** The condition of filter `k`. */
  predicate Test(f: ShipmentFilter, k: nat, x: Row<ShipmentRequest>) {
    match k
    case 0 => MatchesSearch(x.val, f.search.GetOr(""))
    case 1 => x.val.goodsType == f.goodsType
    case 2 => x.val.pickupRegion == f.region
    case 3 => x.val.pickupCity == f.city
    case 4 => WeightKeeps(f.weightRange.GetOr(""), x.val.weightGrams)
    case 5 => x.val.status.Name() == f.status.GetOr("")
    case _ => true
  }

  /** Filter `k` lets `x` through: it is off, or `x` meets its condition. */
  predicate Passes(f: ShipmentFilter, k: nat, x: Row<ShipmentRequest>) {
    !On(f, k) || Test(f, k, x)
  }

  /** Filters `k` onwards all let `x` through. */
  predicate PassesFrom(f: ShipmentFilter, k: nat, x: Row<ShipmentRequest>)
    decreases FilterCount - k
  {
    k >= FilterCount || (Passes(f, k, x) && PassesFrom(f, k + 1, x))
  }

  /** Every filter that is filled in, stated field by field. */
  predicate Keeps(f: ShipmentFilter, x: Row<ShipmentRequest>) {
    (IsNullOrEmpty(f.search) || MatchesSearch(x.val, f.search.value)) &&
    (IsNullOrEmpty(f.goodsType) || x.val.goodsType == f.goodsType) &&
    (IsNullOrEmpty(f.region) || x.val.pickupRegion == f.region) &&
    (IsNullOrEmpty(f.city) || x.val.pickupCity == f.city) &&
    (IsNullOrEmpty(f.weightRange) || WeightKeeps(f.weightRange.value, x.val.weightGrams)) &&
    (IsNullOrEmpty(f.status) || x.val.status.Name() == f.status.value)
  }

  lemma KeepsIff(f: ShipmentFilter, x: Row<ShipmentRequest>)
    ensures Keeps(f, x) <==> PassesFrom(f, 0, x)
  {
    assert PassesFrom(f, 0, x) <==>
      Passes(f, 0, x) && Passes(f, 1, x) && Passes(f, 2, x) && Passes(f, 3, x) && Passes(f, 4, x) && Passes(f, 5, x);
  }

  /** Only requests still open for bids are public. */
  predicate Listed(x: Row<ShipmentRequest>) {
    x.val.status.IsOpen()
  }

  /** A filter applied only when its value is filled in. */
  function When<T>(on: bool, q: seq<T>, p: T -> bool): seq<T> {
    if on then Filter(q, p) else q
  }

  /** Filters `k` onwards applied in turn, each only when filled in. */
  function Narrow(q: seq<Row<ShipmentRequest>>, f: ShipmentFilter, k: nat): (r: seq<Row<ShipmentRequest>>)
    ensures multiset(r) <= multiset(q)
    decreases FilterCount - k
  {
    if k >= FilterCount then q
    else
      var q' := When(On(f, k), q, (x: Row<ShipmentRequest>) => Test(f, k, x));
      assert multiset(q') <= multiset(q) by {
        if On(f, k) { FilterSub(q, (x: Row<ShipmentRequest>) => Test(f, k, x)); }
      }
      Narrow(q', f, k + 1)
  }

  /** Applying the filters in turn keeps what passes all of them, in the original order. */
  lemma {:induction false} NarrowIsFilter(q: seq<Row<ShipmentRequest>>, f: ShipmentFilter, k: nat)
    ensures Narrow(q, f, k) == Filter(q, (x: Row<ShipmentRequest>) => PassesFrom(f, k, x))
    decreases FilterCount - k
  {
    if k >= FilterCount {
      FilterAll(q, (x: Row<ShipmentRequest>) => PassesFrom(f, k, x));
    } else {
      var pk := (x: Row<ShipmentRequest>) => Passes(f, k, x);
      var rest := (x: Row<ShipmentRequest>) => PassesFrom(f, k + 1, x);
      var q' := When(On(f, k), q, (x: Row<ShipmentRequest>) => Test(f, k, x));
      WhenIsFilter(q, On(f, k), (x: Row<ShipmentRequest>) => Test(f, k, x), pk);
      NarrowIsFilter(q', f, k + 1);
      FilterFilter(q, pk, rest, (x: Row<ShipmentRequest>) => PassesFrom(f, k, x));
    }
  }

  /** A filter skipped when off is a filter by "off, or the condition". */
  lemma WhenIsFilter<T>(q: seq<T>, on: bool, p: T -> bool, p': T -> bool)
    requires forall x :: p'(x) <==> !on || p(x)
    ensures When(on, q, p) == Filter(q, p')
  {
    if on {
      FilterSame(q, p, p');
    } else {
      FilterAll(q, p');
    }
  }

  /** The open requests narrowed by each filled-in filter in turn. */
  function Matching(s: Store, f: ShipmentFilter): (r: seq<Row<ShipmentRequest>>)
    ensures multiset(r) <= multiset(s.requests)
  {
    FilterSub(s.requests, Listed);
    Narrow(Filter(s.requests, Listed), f, 0)
  }

  /** The chain of filters keeps, in table order, the open requests that pass every filled-in
      filter, as one filter by the conjunction of the conditions would; so a request is listed
      exactly when it is open and passes them all. */
  lemma MatchingIsFilter(s: Store, f: ShipmentFilter)
    ensures Matching(s, f) == Filter(s.requests, (x: Row<ShipmentRequest>) => Listed(x) && Keeps(f, x))
    ensures forall x :: x in Matching(s, f) <==> x in s.requests && Listed(x) && Keeps(f, x)
  {
    var all := (x: Row<ShipmentRequest>) => PassesFrom(f, 0, x);
    var keeps := (x: Row<ShipmentRequest>) => Listed(x) && Keeps(f, x);
    NarrowIsFilter(Filter(s.requests, Listed), f, 0);
    forall x ensures keeps(x) <==> Listed(x) && all(x) {
      KeepsIff(f, x);
    }
    FilterFilter(s.requests, Listed, all, keeps);
    forall x ensures x in Matching(s, f) <==> x in s.requests && Listed(x) && Keeps(f, x) {
      FilterIn(s.requests, keeps, x);
    }
  }

  /** `g` asks for everything `f` asks for, and possibly more. */
  predicate Narrower(g: ShipmentFilter, f: ShipmentFilter) {
    (IsNullOrEmpty(f.search) || g.search == f.search) &&
    (IsNullOrEmpty(f.goodsType) || g.goodsType == f.goodsType) &&
    (IsNullOrEmpty(f.region) || g.region == f.region) &&
    (IsNullOrEmpty(f.city) || g.city == f.city) &&
    (IsNullOrEmpty(f.weightRange) || g.weightRange == f.weightRange) &&
    (IsNullOrEmpty(f.status) || g.status == f.status)
  }

  /** Filling in more filters can only remove requests from the list, never add one or
      repeat one. */
  lemma MoreFiltersFewerRequests(s: Store, f: ShipmentFilter, g: ShipmentFilter)
    requires Narrower(g, f)
    ensures multiset(Matching(s, g)) <= multiset(Matching(s, f))
  {
    MatchingIsFilter(s, g);
    MatchingIsFilter(s, f);
    FilterMonotone(s.requests, (x: Row<ShipmentRequest>) => Listed(x) && Keeps(g, x),
      (x: Row<ShipmentRequest>) => Listed(x) && Keeps(f, x));
  }

  /** Asking for a status other than Pending or Bidding lists nothing, since only those two
      are public. */
  lemma ClosedStatusListsNothing(s: Store, f: ShipmentFilter)
    requires !IsNullOrEmpty(f.status) && f.status.value != "Pending" && f.status.value != "Bidding"
    ensures Matching(s, f) == []
  {
    var keeps := (x: Row<ShipmentRequest>) => Listed(x) && Keeps(f, x);
    MatchingIsFilter(s, f);
    forall i | 0 <= i < |s.requests| ensures !keeps(s.requests[i]) {
      var st := s.requests[i].val.status;
      assert st.IsOpen() ==> st.Name() == "Pending" || st.Name() == "Bidding";
    }
    FilterNone(s.requests, keeps);
  }

  // ---------------------------------------------------------------- order and paging

  function DeadlineKey(x: Row<ShipmentRequest>): Key { Stamp(x.val.deliveryDeadline) }
  function WeightKey(x: Row<ShipmentRequest>): Key { x.val.weightGrams }
  function NewestKey(x: Row<ShipmentRequest>): Key { Stamp(x.val.requestDate) }

  /** The sort the list asks for: "deadline" earliest deadline first, "weight" heaviest
      first, anything else (and nothing) newest request first. */
  function Order(sort: Option<string>): (r: (Row<ShipmentRequest> -> Key, bool))
    ensures sort == Some("deadline") ==> r == (DeadlineKey, false)
    ensures sort == Some("weight") ==> r == (WeightKey, true)
    ensures sort != Some("deadline") && sort != Some("weight") ==> r == (NewestKey, true)
  {
    match sort.GetOr("newest")
    case "deadline" => (DeadlineKey, false)
    case "weight" => (WeightKey, true)
    case _ => (NewestKey, true)
  }

  /** The matching requests in the asked-for order. */
  function Sorted(s: Store, f: ShipmentFilter): (r: seq<Row<ShipmentRequest>>)
    ensures multiset(r) == multiset(Matching(s, f)) && |r| == |Matching(s, f)|
    ensures SortedBy(r, Order(f.sort).0, Order(f.sort).1)
  {
    var r := SortBy(Matching(s, f), Order(f.sort).0, Order(f.sort).1);
    assert |multiset(r)| == |multiset(Matching(s, f))|;
    r
  }

  /** How many bids each request on the page has; a request without bids has no entry. */
  function BidCounts(s: Store, page: seq<Row<ShipmentRequest>>): (m: map<nat, nat>)
    ensures forall id :: id in m <==>
      (exists i :: 0 <= i < |page| && page[i].id == id) && exists j :: 0 <= j < |s.bids| && s.bids[j].val.requestId == id
    ensures forall id :: id in m ==> m[id] == |BidsOn(s, id)| && m[id] > 0
  {
    var ids := set i | 0 <= i < |page| :: page[i].id;
    var m := map id | id in ids && |BidsOn(s, id)| > 0 :: |BidsOn(s, id)|;
    forall id ensures id in m <==>
      (exists i :: 0 <= i < |page| && page[i].id == id) && exists j :: 0 <= j < |s.bids| && s.bids[j].val.requestId == id
    {
      if j :| 0 <= j < |s.bids| && s.bids[j].val.requestId == id {
        assert s.bids[j].val in BidsOn(s, id);
      }
      if |BidsOn(s, id)| > 0 {
        var b := BidsOn(s, id)[0];
        assert b in multiset(BidsOn(s, id));
        BidsOnAreBids(s, id, b);
      }
    }
    m
  }

  /** A bid on the list of a request's bids is a bid of the table, placed on that request. */
  lemma BidsOnAreBids(s: Store, id: nat, b: Bid)
    requires b in BidsOn(s, id)
    ensures exists j :: 0 <= j < |s.bids| && s.bids[j].val.requestId == id && s.bids[j].val == b
  {
    assert b in multiset(BidsOn(s, id));
    FilterIn(Values(s.bids), (b: Bid) => b.requestId == id, b);
    var k :| 0 <= k < |Values(s.bids)| && Values(s.bids)[k] == b;
  }

  datatype ShipmentsPage = ShipmentsPage(
    shipments: seq<Row<ShipmentRequest>>,
    bidsCounts: map<nat, nat>,
    goodsTypes: set<Option<string>>,
    regions: map<string, string>,
    totalItems: nat,
    pageSize: nat,
    currentPage: int)

  /** `Shipments`: the page the filter asks for (page 1 when none is given) of the sorted
      matching requests, the total number of matching requests, the bid counts of the
      requests on the page and the goods types of all open requests. The database refuses a
      page number below 1, and nothing catches it: `QueryFailed`. */
  function Shipments(s: Store, f: ShipmentFilter): (r: Result<ShipmentsPage, Error>)
    ensures r.Success? <==> f.page.GetOr(1) >= 1
    ensures r.Failure? ==> r.error == QueryFailed
    ensures r.Success? ==>
      r.value.totalItems == |Matching(s, f)| && r.value.pageSize == PageSize && r.value.currentPage == f.page.GetOr(1) &&
      IsPageOf(r.value.shipments, Sorted(s, f), r.value.currentPage, PageSize) &&
      (|r.value.shipments| > 0 <==> r.value.currentPage <= TotalPages(r.value.totalItems, PageSize))
    ensures r.Success? ==> forall x :: x in r.value.shipments ==> x in s.requests && Listed(x) && Keeps(f, x)
    ensures r.Success? ==> r.value.bidsCounts == BidCounts(s, r.value.shipments)
    ensures r.Success? ==>
      (forall g :: g in r.value.goodsTypes <==> exists i :: 0 <= i < |s.requests| && Listed(s.requests[i]) && s.requests[i].val.goodsType == g) &&
      r.value.regions == Locations.Regions
  {
    var sorted := Sorted(s, f);
    var pageNumber := f.page.GetOr(1);
    match OffsetFetch(sorted, pageNumber, PageSize)
    case None => Failure(QueryFailed)
    case Some(shipments) =>
      PageMembers(s, f, shipments, pageNumber);
      Success(ShipmentsPage(shipments, BidCounts(s, shipments), GoodsTypes(s), Locations.Regions, |sorted|, PageSize, pageNumber))
  }

  /** The goods types of the open requests, for the filter's choice list. */
  function GoodsTypes(s: Store): (g: set<Option<string>>)
    ensures forall x :: x in g <==> exists i :: 0 <= i < |s.requests| && Listed(s.requests[i]) && s.requests[i].val.goodsType == x
  {
    set i | 0 <= i < |s.requests| && Listed(s.requests[i]) :: s.requests[i].val.goodsType
  }

  /** Whatever a page of the sorted matches shows is a stored open request the filter keeps. */
  lemma PageMembers(s: Store, f: ShipmentFilter, shown: seq<Row<ShipmentRequest>>, page: int)
    requires IsPageOf(shown, Sorted(s, f), page, PageSize)
    ensures forall x :: x in shown ==> x in s.requests && Listed(x) && Keeps(f, x)
  {
    forall x | x in shown ensures x in s.requests && Listed(x) && Keeps(f, x) {
      var i :| 0 <= i < |shown| && shown[i] == x;
      assert x == Sorted(s, f)[(page - 1) * PageSize + i];
      assert x in multiset(Sorted(s, f));
      MatchingIsFilter(s, f);
    }
  }

  // ---------------------------------------------------------------- details

  /** `ShipmentDetails`: any request, whatever its status, with its bids cheapest first and
      their statistics, the bidders counted as the distinct providers among the request's
      bids; an unknown key is NotFound. */
  function ShipmentDetails(s: Store, id: nat): (r: Result<(ShipmentRequest, seq<Bid>, BidStatistics.Stats), Error>)
    ensures r.Success? <==> Get(s.requests, id).Some?
    ensures r.Failure? ==> r.error == NotFound
    ensures r.Success? ==>
      var (req, bids, st) := r.value;
      Some(req) == Get(s.requests, id) &&
      multiset(bids) == multiset(BidsOn(s, id)) &&
      SortedBy(bids, (b: Bid) => b.price, false) &&
      (|bids| == 0 ==> st == BidStatistics.Stats(0.0, 0, 0, 0)) &&
      (|bids| > 0 ==> BidStatistics.PriceSummary(bids, st) && 1 <= st.activeBidders <= |bids|) &&
      st.activeBidders == |Image(BidsOn(s, id), BidStatistics.BidProvider)|
  {
    match Get(s.requests, id)
    case None => Failure(NotFound)
    case Some(req) =>
      var bids := SortBy(BidsOn(s, id), (b: Bid) => b.price, false);
      ImagePermutation(bids, BidsOn(s, id), BidStatistics.BidProvider);
      Success((req, bids, BidStatistics.Compute(bids)))
  }
}

=== FILE: listing.dfy ===
/** The LINQ operators the controllers compose into queries: `Where`, `Count`, `Sum`,
    `Distinct().Count()`, `OrderBy`/`OrderByDescending`, `Skip`/`Take`, and the page count
    shown under a paged list. */
module Listing {
  import opened Wrappers

  /** `Where`: the elements satisfying `p`, in their original order. */
  function Filter<T>(s: seq<T>, p: T -> bool): (r: seq<T>)
    ensures |r| <= |s|
    ensures forall i :: 0 <= i < |r| ==> p(r[i]) && r[i] in s
    decreases |s|
  {
    if |s| == 0 then []
    else
      var rest := Filter(s[..|s| - 1], p);
      var last := s[|s| - 1];
      assert forall i :: 0 <= i < |rest| ==> rest[i] in s;
      if p(last) then rest + [last] else rest
  }

  lemma {:induction false} FilterAppend<T>(a: seq<T>, b: seq<T>, p: T -> bool)
    ensures Filter(a + b, p) == Filter(a, p) + Filter(b, p)
    decreases |b|
  {
    if |b| > 0 {
      assert (a + b)[..|a + b| - 1] == a + b[..|b| - 1];
      FilterAppend(a, b[..|b| - 1], p);
    } else {
      assert a + b == a;
    }
  }

  /** Filtering twice is filtering by both conditions. */
  lemma {:induction false} FilterFilter<T>(s: seq<T>, p: T -> bool, q: T -> bool, both: T -> bool)
    requires forall x :: both(x) <==> p(x) && q(x)
    ensures Filter(Filter(s, p), q) == Filter(s, both)
    decreases |s|
  {
    if |s| > 0 {
      var init := s[..|s| - 1];
      FilterFilter(init, p, q, both);
      var last := s[|s| - 1];
      if p(last) {
        FilterAppend(Filter(init, p), [last], q);
      }
    }
  }

  /** A filter keeps some of the elements, each no more often than it was there. */
  lemma {:induction false} FilterSub<T>(s: seq<T>, p: T -> bool)
    ensures multiset(Filter(s, p)) <= multiset(s)
    decreases |s|
  {
    if |s| > 0 {
      FilterSub(s[..|s| - 1], p);
      MultisetSnoc(s);
    }
  }

  /** A filter keeps every element that meets the condition. */
  lemma {:induction false} FilterKeeps<T>(s: seq<T>, p: T -> bool)
    ensures forall x :: x in s && p(x) ==> x in Filter(s, p)
    decreases |s|
  {
    if |s| > 0 {
      var init := s[..|s| - 1];
      FilterKeeps(init, p);
      assert forall x :: x in s ==> x in init || x == s[|s| - 1] by {
        assert s == init + [s[|s| - 1]];
      }
    }
  }

  /** An element survives a filter exactly when it was there and meets the condition. */
  lemma FilterIn<T>(s: seq<T>, p: T -> bool, x: T)
    ensures x in Filter(s, p) <==> x in s && p(x)
  {
    FilterKeeps(s, p);
  }

  /** A condition no element meets keeps nothing. */
  lemma {:induction false} FilterNone<T>(s: seq<T>, p: T -> bool)
    requires forall i :: 0 <= i < |s| ==> !p(s[i])
    ensures Filter(s, p) == []
    decreases |s|
  {
    if |s| > 0 {
      FilterNone(s[..|s| - 1], p);
    }
  }

  /** Predicates that agree everywhere keep the same elements. */
  lemma {:induction false} FilterSame<T>(s: seq<T>, p: T -> bool, q: T -> bool)
    requires forall x :: p(x) <==> q(x)
    ensures Filter(s, p) == Filter(s, q)
    decreases |s|
  {
    if |s| > 0 {
      FilterSame(s[..|s| - 1], p, q);
    }
  }

  /** A weaker predicate keeps at least the same elements, as often. */
  lemma {:induction false} FilterMonotone<T>(s: seq<T>, p: T -> bool, q: T -> bool)
    requires forall x :: p(x) ==> q(x)
    ensures multiset(Filter(s, p)) <= multiset(Filter(s, q))
    decreases |s|
  {
    if |s| > 0 {
      FilterMonotone(s[..|s| - 1], p, q);
    }
  }

  lemma {:induction false} FilterPartition<T>(s: seq<T>, p: T -> bool, q: T -> bool)
    requires forall x :: q(x) <==> !p(x)
    ensures multiset(Filter(s, p)) + multiset(Filter(s, q)) == multiset(s)
    decreases |s|
  {
    if |s| > 0 {
      var init, last := s[..|s| - 1], s[|s| - 1];
      FilterPartition(init, p, q);
      MultisetSnoc(s);
      if p(last) {
        assert Filter(s, p) == Filter(init, p) + [last];
        assert Filter(s, q) == Filter(init, q);
      } else {
        assert Filter(s, p) == Filter(init, p);
        assert Filter(s, q) == Filter(init, q) + [last];
      }
    }
  }

  lemma MultisetSnoc<T>(s: seq<T>)
    requires |s| > 0
    ensures multiset(s) == multiset(s[..|s| - 1]) + multiset{s[|s| - 1]}
  {
    assert s == s[..|s| - 1] + [s[|s| - 1]];
  }

  /** Filtering by a condition every element meets keeps the whole list. */
  lemma {:induction false} FilterAll<T>(s: seq<T>, p: T -> bool)
    requires forall i :: 0 <= i < |s| ==> p(s[i])
    ensures Filter(s, p) == s
    decreases |s|
  {
    if |s| > 0 {
      FilterAll(s[..|s| - 1], p);
      assert s == s[..|s| - 1] + [s[|s| - 1]];
    }
  }

  /** `Count(p)`. */
  function Count<T>(s: seq<T>, p: T -> bool): (n: nat)
    ensures n <= |s|
  {
    |Filter(s, p)|
  }

  /** Every element is counted by exactly one of `p` and its negation. */
  lemma {:induction false} CountSplit<T>(s: seq<T>, p: T -> bool, q: T -> bool)
    requires forall x :: q(x) <==> !p(x)
    ensures Count(s, p) + Count(s, q) == |s|
    decreases |s|
  {
    if |s| > 0 {
      CountSplit(s[..|s| - 1], p, q);
    }
  }

  /** Counts of conditions that never hold together add up to the count of their union. */
  lemma {:induction false} CountDisjoint<T>(s: seq<T>, p: T -> bool, q: T -> bool, either: T -> bool)
    requires forall i :: 0 <= i < |s| ==> !(p(s[i]) && q(s[i]))
    requires forall x :: either(x) <==> p(x) || q(x)
    ensures Count(s, p) + Count(s, q) == Count(s, either)
    decreases |s|
  {
    if |s| > 0 {
      CountDisjoint(s[..|s| - 1], p, q, either);
    }
  }

  /** A weaker condition counts at least as many elements. */
  lemma {:induction false} CountMonotone<T>(s: seq<T>, p: T -> bool, q: T -> bool)
    requires forall i :: 0 <= i < |s| ==> p(s[i]) ==> q(s[i])
    ensures Count(s, p) <= Count(s, q)
    decreases |s|
  {
    if |s| > 0 {
      CountMonotone(s[..|s| - 1], p, q);
    }
  }

  /** `Sum(f)`. */
  function Sum<T>(s: seq<T>, f: T -> int): (total: int)
    ensures (forall i :: 0 <= i < |s| ==> f(s[i]) >= 0) ==> total >= 0
    decreases |s|
  {
    if |s| == 0 then 0 else Sum(s[..|s| - 1], f) + f(s[|s| - 1])
  }

  lemma {:induction false} SumAppend<T>(a: seq<T>, b: seq<T>, f: T -> int)
    ensures Sum(a + b, f) == Sum(a, f) + Sum(b, f)
    decreases |b|
  {
    if |b| > 0 {
      assert (a + b)[..|a + b| - 1] == a + b[..|b| - 1];
      SumAppend(a, b[..|b| - 1], f);
    } else {
      assert a + b == a;
    }
  }

  /** A sum splits into the part where `p` holds and the part where it does not. */
  lemma {:induction false} SumSplit<T>(s: seq<T>, f: T -> int, p: T -> bool, q: T -> bool)
    requires forall x :: q(x) <==> !p(x)
    ensures Sum(s, f) == Sum(Filter(s, p), f) + Sum(Filter(s, q), f)
    decreases |s|
  {
    if |s| > 0 {
      var init, last := s[..|s| - 1], s[|s| - 1];
      SumSplit(init, f, p, q);
      if p(last) {
        SumAppend(Filter(init, p), [last], f);
      } else {
        SumAppend(Filter(init, q), [last], f);
      }
    }
  }

  /** `Min(f)` of a non-empty sequence: a value some element has, and no element is below. */
  function MinOf<T>(s: seq<T>, f: T -> int): (m: int)
    requires |s| > 0
    ensures forall i :: 0 <= i < |s| ==> m <= f(s[i])
    ensures exists i :: 0 <= i < |s| && f(s[i]) == m
    decreases |s|
  {
    if |s| == 1 then f(s[0])
    else
      var rest := MinOf(s[1..], f);
      assert forall i :: 1 <= i < |s| ==> s[i] == s[1..][i - 1];
      if f(s[0]) <= rest then f(s[0]) else rest
  }

  /** `Max(f)` of a non-empty sequence. */
  function MaxOf<T>(s: seq<T>, f: T -> int): (m: int)
    requires |s| > 0
    ensures forall i :: 0 <= i < |s| ==> f(s[i]) <= m
    ensures exists i :: 0 <= i < |s| && f(s[i]) == m
    decreases |s|
  {
    if |s| == 1 then f(s[0])
    else
      var rest := MaxOf(s[1..], f);
      assert forall i :: 1 <= i < |s| ==> s[i] == s[1..][i - 1];
      if f(s[0]) >= rest then f(s[0]) else rest
  }

  /** A sum lies between the count times a lower bound and the count times an upper bound. */
  lemma {:induction false} SumBounds<T>(s: seq<T>, f: T -> int, lo: int, hi: int)
    requires forall i :: 0 <= i < |s| ==> lo <= f(s[i]) <= hi
    ensures |s| * lo <= Sum(s, f) <= |s| * hi
    decreases |s|
  {
    if |s| > 0 {
      var init := s[..|s| - 1];
      assert forall i :: 0 <= i < |init| ==> init[i] == s[i];
      SumBounds(init, f, lo, hi);
      MultiplySucc(|init|, lo);
      MultiplySucc(|init|, hi);
      assert Sum(s, f) == Sum(init, f) + f(s[|s| - 1]);
    }
  }

  lemma MultiplySucc(n: int, c: int)
    ensures (n + 1) * c == n * c + c
  {
  }

  /** `Select(f).Distinct().Count()`. */
  function DistinctCount<T, K(==)>(s: seq<T>, f: T -> K): (n: nat)
    ensures n <= |s|
    ensures |s| > 0 ==> n >= 1
  {
    DistinctSize(s, f);
    |Image(s, f)|
  }

  function Image<T, K(==)>(s: seq<T>, f: T -> K): set<K> {
    set i | 0 <= i < |s| :: f(s[i])
  }

  lemma {:induction false} DistinctSize<T, K>(s: seq<T>, f: T -> K)
    ensures |Image(s, f)| <= |s|
    ensures |s| > 0 ==> |Image(s, f)| >= 1
    decreases |s|
  {
    if |s| > 0 {
      var init := s[..|s| - 1];
      DistinctSize(init, f);
      assert Image(s, f) == Image(init, f) + {f(s[|s| - 1])} by {
        forall k | k in Image(s, f) ensures k in Image(init, f) + {f(s[|s| - 1])} {
          var i :| 0 <= i < |s| && f(s[i]) == k;
          if i < |s| - 1 {
            assert init[i] == s[i];
          }
        }
        forall k | k in Image(init, f) ensures k in Image(s, f) {
          var i :| 0 <= i < |init| && f(init[i]) == k;
          assert s[i] == init[i];
        }
      }
      assert f(s[|s| - 1]) in Image(s, f);
    }
  }

  /** Two lists holding the same elements, in any order, have the same image. */
  lemma ImagePermutation<T, K>(a: seq<T>, b: seq<T>, f: T -> K)
    requires multiset(a) == multiset(b)
    ensures Image(a, f) == Image(b, f)
  {
    forall k | k in Image(a, f) ensures k in Image(b, f) {
      var i :| 0 <= i < |a| && f(a[i]) == k;
      assert a[i] in multiset(b);
      var j :| 0 <= j < |b| && b[j] == a[i];
    }
    forall k | k in Image(b, f) ensures k in Image(a, f) {
      var j :| 0 <= j < |b| && f(b[j]) == k;
      assert b[j] in multiset(a);
      var i :| 0 <= i < |a| && a[i] == b[j];
    }
  }

  /** `Take(n)`. */
  function Take<T>(s: seq<T>, n: int): (r: seq<T>)
    ensures |r| == if n <= 0 then 0 else if n < |s| then n else |s|
    ensures forall i :: 0 <= i < |r| ==> r[i] == s[i]
  {
    if n <= 0 then [] else if n < |s| then s[..n] else s
  }

  /** The first elements of a list are among its elements, each as often at most. */
  lemma TakeSubMultiset<T>(s: seq<T>, n: int)
    ensures multiset(Take(s, n)) <= multiset(s)
  {
    var r := Take(s, n);
    assert s == r + s[|r|..];
    assert multiset(s) == multiset(r) + multiset(s[|r|..]);
  }

  /** `Skip(n)`: a negative count skips nothing. */
  function Skip<T>(s: seq<T>, n: int): (r: seq<T>)
    ensures |r| == if n <= 0 then |s| else if n < |s| then |s| - n else 0
    ensures forall i :: 0 <= i < |r| ==> r[i] == s[i + (if n <= 0 then 0 else n)]
  {
    if n <= 0 then s else if n < |s| then s[n..] else []
  }

  /** `Skip((page - 1) * size).Take(size)`. */
  function Page<T>(s: seq<T>, page: int, size: nat): (r: seq<T>)
    ensures |r| <= size
  {
    Take(Skip(s, (page - 1) * size), size)
  }

  /** For a page number from 1 on, the page holds elements (page-1)*size up to but excluding
      page*size, as far as the list reaches. */
  lemma PageWindow<T>(s: seq<T>, page: int, size: nat)
    requires page >= 1
    ensures var lo := (page - 1) * size;
      |Page(s, page, size)| == (if lo >= |s| then 0 else if lo + size <= |s| then size else |s| - lo) &&
      forall i :: 0 <= i < |Page(s, page, size)| ==> Page(s, page, size)[i] == s[lo + i]
  {
    assert (page - 1) * size >= 0;
  }

  /** Pages 1 to n laid end to end are the first n*size elements. */
  lemma {:induction false} PagesCover<T>(s: seq<T>, n: nat, size: nat)
    ensures Pages(s, n, size) == Take(s, n * size)
    decreases n
  {
    if n > 0 {
      PagesCover(s, n - 1, size);
      var lo := (n - 1) * size;
      assert n * size == lo + size;
      TakeSplit(s, lo, size);
    }
  }

  function Pages<T>(s: seq<T>, n: nat, size: nat): seq<T> {
    if n == 0 then [] else Pages(s, n - 1, size) + Page(s, n, size)
  }

  lemma TakeSplit<T>(s: seq<T>, a: nat, b: nat)
    ensures Take(s, a + b) == Take(s, a) + Take(Skip(s, a), b)
  {
    var l, r := Take(s, a + b), Take(s, a) + Take(Skip(s, a), b);
    assert |l| == |r|;
    forall i | 0 <= i < |l| ensures l[i] == r[i] {
      if i >= |Take(s, a)| {
        assert r[i] == Take(Skip(s, a), b)[i - a];
      }
    }
  }

  /** `(int)Math.Ceiling((double)total / size)`. */
  function TotalPages(total: nat, size: nat): (n: nat)
    requires size > 0
    ensures n * size >= total
    ensures n > 0 ==> (n - 1) * size < total
    ensures total == 0 <==> n == 0
  {
    (total + size - 1) / size
  }

  /** Of the pages from 1 on, exactly 1..TotalPages are non-empty. */
  lemma NonEmptyPages<T>(s: seq<T>, page: int, size: nat)
    requires size > 0 && page >= 1
    ensures |Page(s, page, size)| > 0 <==> page <= TotalPages(|s|, size)
  {
    var n := TotalPages(|s|, size);
    PageWindow(s, page, size);
    if page <= n {
      MultiplyMonotone(page - 1, n - 1, size);
    } else {
      MultiplyMonotone(n, page - 1, size);
    }
  }

  /** `items` is page `page` of `s` at `size` a page: elements (page-1)*size up to but
      excluding page*size of `s`, as far as `s` reaches. */
  ghost predicate IsPageOf<T>(items: seq<T>, s: seq<T>, page: int, size: nat) {
    var lo := (page - 1) * size;
    lo >= 0 &&
    |items| == (if lo >= |s| then 0 else if lo + size <= |s| then size else |s| - lo) &&
    forall i :: 0 <= i < |items| ==> items[i] == s[lo + i]
  }

  /** `Skip((page - 1) * size).Take(size)` on a database query, which SQL Server runs as
      `OFFSET (page - 1) * size ROWS FETCH NEXT size ROWS ONLY`: the server refuses a negative
      offset and a row count below one, so only a page number from 1 on with a positive size
      gives a page. That page is the window of the list, and it is non-empty exactly up to
      the page count. */
  function OffsetFetch<T>(s: seq<T>, page: int, size: int): (r: Option<seq<T>>)
    ensures r.Some? <==> page >= 1 && size >= 1
    ensures r.Some? ==> IsPageOf(r.value, s, page, size) && (|r.value| > 0 <==> page <= TotalPages(|s|, size))
  {
    if size < 1 || (page - 1) * size < 0 then None
    else
      assert page >= 1 by {
        if page < 1 { MultiplyMonotone(page - 1, -1, size); }
      }
      PageWindow(s, page, size);
      NonEmptyPages(s, page, size);
      Some(Page(s, page, size))
  }

  lemma MultiplyMonotone(a: int, b: int, c: nat)
    requires a <= b
    ensures a * c <= b * c
  {
  }

  /** Sort keys: an optional number, as a nullable column. A missing value sorts before every
      present one, as SQL Server orders NULL. */
  type Key = Option<int>

  predicate KeyLe(a: Key, b: Key) {
    a.None? || (b.Some? && a.value <= b.value)
  }

  /** Ascending (`OrderBy`) or descending (`OrderByDescending`) by `key`. */
  predicate InOrder(a: Key, b: Key, descending: bool) {
    if descending then KeyLe(b, a) else KeyLe(a, b)
  }

  predicate SortedBy<T>(s: seq<T>, key: T -> Key, descending: bool) {
    forall i, j :: 0 <= i < j < |s| ==> InOrder(key(s[i]), key(s[j]), descending)
  }

  /** `OrderBy(key)` / `OrderByDescending(key)`: a permutation of `s` in key order. */
  function SortBy<T>(s: seq<T>, key: T -> Key, descending: bool): (r: seq<T>)
    ensures multiset(r) == multiset(s)
    ensures SortedBy(r, key, descending)
    decreases |s|
  {
    if |s| == 0 then []
    else
      assert s == [s[0]] + s[1..];
      InsertSorted(s[0], SortBy(s[1..], key, descending), key, descending)
  }

  function InsertSorted<T>(x: T, s: seq<T>, key: T -> Key, descending: bool): (r: seq<T>)
    requires SortedBy(s, key, descending)
    ensures multiset(r) == multiset(s) + multiset{x}
    ensures SortedBy(r, key, descending)
    decreases |s|
  {
    if |s| == 0 then [x]
    else if InOrder(key(x), key(s[0]), descending) then
      ConsSorted(x, s, key, descending);
      [x] + s
    else
      var rest := InsertSorted(x, s[1..], key, descending);
      assert s == [s[0]] + s[1..];
      forall y | y in multiset(rest) ensures InOrder(key(s[0]), key(y), descending) {
        if y != x {
          assert y in s[1..];
        }
      }
      ConsSorted(s[0], rest, key, descending);
      [s[0]] + rest
  }

  /** Putting in front an element ordered before every element of a sorted list keeps it
      sorted. */
  lemma ConsSorted<T>(h: T, s: seq<T>, key: T -> Key, descending: bool)
    requires SortedBy(s, key, descending)
    requires forall y :: y in multiset(s) ==> InOrder(key(h), key(y), descending)
    ensures SortedBy([h] + s, key, descending)
  {
    var r := [h] + s;
    forall i, j | 0 <= i < j < |r| ensures InOrder(key(r[i]), key(r[j]), descending) {
      assert r[j] == s[j - 1] && s[j - 1] in multiset(s);
    }
  }

  /** `OrderBy(key).Take(n)` (or descending): at most `n` elements of `s`, in order, and no
      element left out comes before one kept. */
  function TopBy<T>(s: seq<T>, key: T -> Key, descending: bool, n: nat): (r: seq<T>)
    ensures |r| == if n < |s| then n else |s|
    ensures multiset(r) <= multiset(s)
    ensures forall x :: x in r ==> x in s
    ensures SortedBy(r, key, descending)
    ensures forall x, y :: x in s && x !in r && y in r ==> InOrder(key(y), key(x), descending)
  {
    var sorted := SortBy(s, key, descending);
    var r := Take(sorted, n);
    assert |sorted| == |multiset(sorted)| == |multiset(s)| == |s|;
    TakeSubMultiset(sorted, n);
    forall x | x in r ensures x in s {
      assert x in multiset(sorted);
    }
    forall x, y | x in s && x !in r && y in r ensures InOrder(key(y), key(x), descending) {
      assert x in multiset(sorted);
      var j :| 0 <= j < |sorted| && sorted[j] == x;
      var i :| 0 <= i < |r| && r[i] == y;
      assert j >= |r|;
    }
    r
  }
}

=== FILE: locations.dfy ===
/** Saudi regions and their cities, as offered by the region and city pickers, and the
    `GetCities` lookup behind the city picker. */
module Locations {
  import opened Wrappers

  /** `KSALocations.Regions`: region key to display name. */
  const Regions: map<string, string> := map[
    "riyadh" := "Riyadh Region",
    "makkah" := "Makkah Region",
    "eastern" := "Eastern Province",
    "madinah" := "Madinah Region",
    "qassim" := "Qassim Region",
    "hail" := "Hail Region",
    "tabuk" := "Tabuk Region",
    "northern_borders" := "Northern Borders Region",
    "jazan" := "Jazan Region",
    "najran" := "Najran Region",
    "al_bahah" := "Al Bahah Region",
    "al_jawf" := "Al Jawf Region",
    "asir" := "Asir Region"
  ]

  /** A city as the picker offers it: its key and its display name. */
  type City = (string, string)

  /** The cities of region "riyadh", in the order they are listed. */
  const RiyadhCities: seq<City> := [
    ("riyadh", "Riyadh"),
    ("diriyah", "Diriyah"),
    ("alkharj", "Al Kharj"),
    ("dhurma", "Dhurma"),
    ("muzahmiyya", "Al Muzahmiyya"),
    ("wadi_ad_dawasir", "Wadi Ad-Dawasir"),
    ("afif", "Afif"),
    ("shagra", "Al Shagra"),
    ("hotat_bani_tamim", "Hotat Bani Tamim"),
    ("layla", "Layla"),
    ("sulayyil", "As Sulayyil"),
    ("aflaj", "Aflaj"),
    ("dilam", "Dilam"),
    ("ramah", "Ramah"),
    ("thadiq", "Thadiq"),
    ("huraymila", "Huraymila"),
    ("majmaah", "Al Majmaah"),
    ("quwayiyah", "Quwayiyah"),
    ("dawadmi", "Ad Dawadmi"),
    ("harmah", "Harmah"),
    ("shaqra", "Shaqra"),
    ("gat", "Al Gat")
  ]

  /** The cities of region "makkah", in the order they are listed. */
  const MakkahCities: seq<City> := [
    ("makkah", "Makkah"),
    ("jeddah", "Jeddah"),
    ("taif", "At Taif"),
    ("kamil", "Al Kamil"),
    ("khulays", "Khulays"),
    ("qunfudhah", "Al Qunfudhah"),
    ("lith", "Al Lith"),
    ("rabigh", "Rabigh"),
    ("ranyah", "Ranyah"),
    ("turbah", "Turbah"),
    ("khurmah", "Al Khurmah"),
    ("maysan", "Maysan"),
    ("adhlam", "Adhlam"),
    ("jammah", "Al Jammah")
  ]

  /** The cities of region "eastern", in the order they are listed. */
  const EasternCities: seq<City> := [
    ("dammam", "Dammam"),
    ("khobar", "Al Khobar"),
    ("dhahran", "Dhahran"),
    ("jubail", "Al Jubail"),
    ("qatif", "Al Qatif"),
    ("hafr_albatin", "Hafr Al-Batin"),
    ("ahsa", "Al Ahsa"),
    ("jubail_industrial", "Jubail Industrial City"),
    ("ras_tanura", "Ras Tanura"),
    ("abqaiq", "Abqaiq"),
    ("nuayriyah", "An Nuayriyah"),
    ("qaryat_alulaya", "Qaryat Al Ulaya")
  ]

  /** The cities of region "madinah", in the order they are listed. */
  const MadinahCities: seq<City> := [
    ("madinah", "Al Madinah"),
    ("yanbu", "Yanbu"),
    ("badr", "Badr"),
    ("khaybar", "Khaybar"),
    ("al_ula", "Al Ula"),
    ("mahd_adh_dhahab", "Mahd Adh Dhahab"),
    ("hanakiyah", "Al Hanakiyah"),
    ("wajh", "Al Wajh"),
    ("mabouk", "Mabouk")
  ]

  /** The cities of region "qassim", in the order they are listed. */
  const QassimCities: seq<City> := [
    ("buraidah", "Buraidah"),
    ("unayzah", "Unaizah"),
    ("rass", "Ar Rass"),
    ("muthnab", "Al Muthnab"),
    ("bukayriyah", "Al Bukayriyah"),
    ("badaya", "Al Badaya"),
    ("riyadh_alkhabra", "Riyadh Al Khabra"),
    ("nabhaniyah", "An Nabhaniyah"),
    ("ash_shimasiyah", "Ash Shimasiyah"),
    ("dariyah", "Ad Dariyah")
  ]

  /** The cities of region "hail", in the order they are listed. */
  const HailCities: seq<City> := [
    ("hail", "Hail"),
    ("baqa", "Al Baqa"),
    ("shinan", "Ash Shinan"),
    ("ghazala", "Al Ghazala"),
    ("sumaira", "As Sumaira"),
    ("mawqaq", "Mawqaq"),
    ("kutum", "Al Kutum")
  ]

  /** The cities of region "tabuk", in the order they are listed. */
  const TabukCities: seq<City> := [
    ("tabuk", "Tabuk"),
    ("duba", "Duba"),
    ("alwajh", "Al Wajh"),
    ("haql", "Haql"),
    ("umluj", "Umluj"),
    ("tayma", "Tayma"),
    ("sharma", "Ash Sharma")
  ]

  /** The cities of region "northern_borders", in the order they are listed. */
  const NorthernBordersCities: seq<City> := [
    ("arar", "Arar"),
    ("turaif", "Turaif"),
    ("rafha", "Rafha"),
    ("al_uwqaylah", "Al Uwqaylah")
  ]

  /** The cities of region "jazan", in the order they are listed. */
  const JazanCities: seq<City> := [
    ("jazan", "Jazan"),
    ("sabya", "Sabya"),
    ("abu_arish", "Abu Arish"),
    ("damad", "Damad"),
    ("samtah", "Samtah"),
    ("al_ardah", "Al Ardah"),
    ("baish", "Baish"),
    ("farasan", "Farasan"),
    ("dayer", "Ad Dayer"),
    ("aidabi", "Aidabi"),
    ("al_harth", "Al Harth")
  ]

  /** The cities of region "najran", in the order they are listed. */
  const NajranCities: seq<City> := [
    ("najran", "Najran"),
    ("sharourah", "Sharourah"),
    ("hubuna", "Hubuna"),
    ("badr_aljanub", "Badr Al Janub"),
    ("yadamah", "Yadamah"),
    ("thar", "Thar"),
    ("khabash", "Khabash")
  ]

  /** The cities of region "al_bahah", in the order they are listed. */
  const AlBahahCities: seq<City> := [
    ("al_bahah", "Al Bahah"),
    ("baljurashi", "Baljurashi"),
    ("al_mandaq", "Al Mandaq"),
    ("al_makhwah", "Al Makhwah"),
    ("al_aqiq", "Al Aqiq"),
    ("qilwah", "Qilwah"),
    ("mandaq", "Mandaq")
  ]

  /** The cities of region "al_jawf", in the order they are listed. */
  const AlJawfCities: seq<City> := [
    ("sakaka", "Sakaka"),
    ("qurayyat", "Qurayyat"),
    ("dawmat_aljandal", "Dawmat Al Jandal"),
    ("tabarjal", "Tabarjal"),
    ("al_isawiyah", "Al Isawiyah")
  ]

  /** The cities of region "asir", in the order they are listed. */
  const AsirCities: seq<City> := [
    ("abha", "Abha"),
    ("khamis_mushait", "Khamis Mushait"),
    ("bisha", "Bisha"),
    ("muhayil", "Muhayil"),
    ("sarat_abidah", "Sarat Abidah"),
    ("nanman", "An Naman"),
    ("dhahran_aljanub", "Dhahran Al Janub"),
    ("tathlith", "Tathlith"),
    ("rijal_almah", "Rijal Alma"),
    ("balqarn", "Balqarn"),
    ("majardah", "Majardah")
  ]

  /** `KSALocations.CitiesByRegion`: region key to that region's cities. A dictionary keeps
      the order its entries were added in, so each region maps to its list in that order. */
  const CitiesByRegion: map<string, seq<City>> := map[
    "riyadh" := RiyadhCities,
    "makkah" := MakkahCities,
    "eastern" := EasternCities,
    "madinah" := MadinahCities,
    "qassim" := QassimCities,
    "hail" := HailCities,
    "tabuk" := TabukCities,
    "northern_borders" := NorthernBordersCities,
    "jazan" := JazanCities,
    "najran" := NajranCities,
    "al_bahah" := AlBahahCities,
    "al_jawf" := AlJawfCities,
    "asir" := AsirCities
  ]

  /** No two cities of `cities` share a key, as a dictionary demands. */
  predicate DistinctKeys(cities: seq<City>) {
    forall i, j | 0 <= i < j < |cities| :: cities[i].0 != cities[j].0
  }

  /** `GetCities(region)`: the region's cities, or none for a null, empty or unknown region
      key. */
  function GetCities(region: Option<string>): (r: seq<City>)
    ensures region.None? || region.value == [] || region.value !in CitiesByRegion ==> r == []
    ensures region.Some? && region.value in CitiesByRegion ==> r == CitiesByRegion[region.value]
  {
    if region.None? || |region.value| == 0 || region.value !in CitiesByRegion then []
    else CitiesByRegion[region.value]
  }

  /** Every selectable region has a city list and every city list belongs to a selectable
      region. */
  lemma RegionsHaveCities()
    ensures Regions.Keys == CitiesByRegion.Keys
  {
  }

  /** No city list is empty, so picking any region offers some city. */
  lemma CitiesNonEmpty(k: string)
    requires k in CitiesByRegion
    ensures |GetCities(Some(k))| > 0
  {
  }

  /** Region "riyadh" lists 22 cities, no two under the same key. */
  lemma RiyadhListed()
    ensures |RiyadhCities| == 22 && DistinctKeys(RiyadhCities)
  {
  }

  /** Region "makkah" lists 14 cities, no two under the same key. */
  lemma MakkahListed()
    ensures |MakkahCities| == 14 && DistinctKeys(MakkahCities)
  {
  }

  /** Region "eastern" lists 12 cities, no two under the same key. */
  lemma EasternListed()
    ensures |EasternCities| == 12 && DistinctKeys(EasternCities)
  {
  }

  /** Region "madinah" lists 9 cities, no two under the same key. */
  lemma MadinahListed()
    ensures |MadinahCities| == 9 && DistinctKeys(MadinahCities)
  {
  }

  /** Region "qassim" lists 10 cities, no two under the same key. */
  lemma QassimListed()
    ensures |QassimCities| == 10 && DistinctKeys(QassimCities)
  {
  }

  /** Region "hail" lists 7 cities, no two under the same key. */
  lemma HailListed()
    ensures |HailCities| == 7 && DistinctKeys(HailCities)
  {
  }

  /** Region "tabuk" lists 7 cities, no two under the same key. */
  lemma TabukListed()
    ensures |TabukCities| == 7 && DistinctKeys(TabukCities)
  {
  }

  /** Region "northern_borders" lists 4 cities, no two under the same key. */
  lemma NorthernBordersListed()
    ensures |NorthernBordersCities| == 4 && DistinctKeys(NorthernBordersCities)
  {
  }

  /** Region "jazan" lists 11 cities, no two under the same key. */
  lemma JazanListed()
    ensures |JazanCities| == 11 && DistinctKeys(JazanCities)
  {
  }

  /** Region "najran" lists 7 cities, no two under the same key. */
  lemma NajranListed()
    ensures |NajranCities| == 7 && DistinctKeys(NajranCities)
  {
  }

  /** Region "al_bahah" lists 7 cities, no two under the same key. */
  lemma AlBahahListed()
    ensures |AlBahahCities| == 7 && DistinctKeys(AlBahahCities)
  {
  }

  /** Region "al_jawf" lists 5 cities, no two under the same key. */
  lemma AlJawfListed()
    ensures |AlJawfCities| == 5 && DistinctKeys(AlJawfCities)
  {
  }

  /** Region "asir" lists 11 cities, no two under the same key. */
  lemma AsirListed()
    ensures |AsirCities| == 11 && DistinctKeys(AsirCities)
  {
  }
}

=== FILE: marketplace.dfy ===
/** The marketplace's records and the database that holds them. Every table is a
    `Tables.Table`; a foreign key the application always fills in is a plain key, one the
    application leaves empty at times is an `Option`. Money is in halalas, weights in grams,
    and the status columns the application writes hold one of the enumerated statuses. */
module Marketplace {
  import opened Wrappers
  import opened Tables
  import opened Constants
  import Calendar
  import Listing

  type Instant = Calendar.Instant

  datatype User = User(email: string, passwordHash: string, role: Option<string>)

  datatype Company = Company(
    userId: nat,
    name: Option<string>,
    email: Option<string>,
    phone: Option<string>,
    isApproved: Option<bool>,
    status: Option<string>)

  datatype Provider = Provider(
    userId: nat,
    name: Option<string>,
    email: Option<string>,
    phone: Option<string>,
    city: Option<string>,
    region: Option<string>,
    isApproved: Option<bool>)

  datatype ShipmentRequest = ShipmentRequest(
    companyId: nat,
    providerId: Option<nat>,
    goodsType: Option<string>,
    weightGrams: Option<int>,
    pickupLocation: Option<string>,
    pickupCity: Option<string>,
    pickupRegion: Option<string>,
    deliveryLocation: Option<string>,
    deliveryCity: Option<string>,
    deliveryRegion: Option<string>,
    deliveryDeadline: Option<Instant>,
    specialInstructions: Option<string>,
    status: RequestStatus,
    requestDate: Option<Instant>,
    updateAt: Option<Instant>)

  datatype Bid = Bid(
    requestId: nat,
    providerId: nat,
    price: Option<int>,
    days: Option<int>,
    notes: Option<string>,
    status: BidStatus,
    submitDate: Option<Instant>)

  /** `shipmentId` is filled with the bid's request key when a company creates the contract. */
  datatype Contract = Contract(
    bidId: nat,
    companyId: nat,
    providerId: nat,
    shipmentId: Option<nat>,
    document: Option<string>,
    signDate: Option<Instant>)

  datatype Invoice = Invoice(
    number: string,
    date: Option<Instant>,
    dueDate: Option<Instant>,
    paymentId: Option<nat>,
    contractId: nat)

  datatype Payment = Payment(
    amount: Option<int>,
    paymentMethod: Option<string>,
    status: PaymentStatus,
    transactionId: Option<string>,
    date: Option<Instant>,
    invoiceId: nat)

  /** A tracking snapshot: the application never edits one, it appends a new one per status. */
  datatype Shipment = Shipment(
    trackingNumber: string,
    status: string,
    startDate: Option<Instant>,
    deliveryTime: Option<Instant>,
    contractId: nat)

  datatype Feedback = Feedback(
    rating: Option<int>,
    comments: Option<string>,
    date: Option<Instant>,
    providerId: nat,
    shipmentId: nat,
    companyId: nat)

  datatype Store = Store(
    users: Table<User>,
    companies: Table<Company>,
    providers: Table<Provider>,
    requests: Table<ShipmentRequest>,
    bids: Table<Bid>,
    contracts: Table<Contract>,
    invoices: Table<Invoice>,
    payments: Table<Payment>,
    shipments: Table<Shipment>,
    feedbacks: Table<Feedback>)

  /** A file posted with a form: its client-side name and its length in bytes. */
  datatype UploadedFile = UploadedFile(fileName: string, length: nat)

  /** `file == null || file.Length == 0`. */
  predicate NoContent(file: Option<UploadedFile>) {
    file.None? || file.value.length == 0
  }

  /** Why an action refused; a refusal writes nothing. `SaveFailed` is the database refusing
      a row (a text longer than its column, say), which the action reports as a generic
      failure; `QueryFailed` is the database refusing a query. */
  datatype Error =
    | ProfileNotFound
    | NotFound
    | NotAllowed
    | AlreadyExists
    | InvalidForm
    | NoFile
    | BadFileType
    | UploadFailed
    | TermsNotAccepted
    | SaveFailed
    | QueryFailed

  /** The company profile of the signed-in user (`Companies.FirstOrDefault(c => c.UserId == userId)`). */
  function CompanyOf(s: Store, userId: nat): (r: Option<nat>)
    ensures r.Some? ==>
      exists i :: 0 <= i < |s.companies| && s.companies[i].id == r.value && s.companies[i].val.userId == userId
    ensures r.None? <==> forall i :: 0 <= i < |s.companies| ==> s.companies[i].val.userId != userId
  {
    match First(s.companies, (c: Row<Company>) => c.val.userId == userId)
    case None => None
    case Some(row) => Some(row.id)
  }

  /** The provider profile of the signed-in user. */
  function ProviderOf(s: Store, userId: nat): (r: Option<nat>)
    ensures r.Some? ==>
      exists i :: 0 <= i < |s.providers| && s.providers[i].id == r.value && s.providers[i].val.userId == userId
    ensures r.None? <==> forall i :: 0 <= i < |s.providers| ==> s.providers[i].val.userId != userId
  {
    match First(s.providers, (p: Row<Provider>) => p.val.userId == userId)
    case None => None
    case Some(row) => Some(row.id)
  }

  /** A request's status after a write at `now`. */
  function WithStatus(r: ShipmentRequest, st: RequestStatus, now: Instant): ShipmentRequest {
    r.(status := st, updateAt := Some(now))
  }

  /** The request a bid was placed on (`bid.ShipmentRequest`). */
  function RequestOf(s: Store, b: Bid): Option<ShipmentRequest> {
    Get(s.requests, b.requestId)
  }

  /** The bid is on a request of company `companyId`. */
  predicate OnCompanyRequest(s: Store, b: Bid, companyId: nat) {
    RequestOf(s, b).Some? && RequestOf(s, b).value.companyId == companyId
  }

  /** The bid with key `id` when it lies on a request of the signed-in user's company
      (`Bids.FirstOrDefault(b => b.BidId == id && b.ShipmentRequest.CompanyId == company.CompanyId)`). */
  function CompanyBid(s: Store, userId: nat, id: nat): (r: Option<Bid>)
    ensures r.Some? <==> (CompanyOf(s, userId).Some? && Get(s.bids, id).Some? &&
                          OnCompanyRequest(s, Get(s.bids, id).value, CompanyOf(s, userId).value))
    ensures r.Some? ==> r == Get(s.bids, id)
  {
    match CompanyOf(s, userId)
    case None => None
    case Some(c) =>
      match Get(s.bids, id)
      case None => None
      case Some(b) => if OnCompanyRequest(s, b, c) then Some(b) else None
  }

  /** The bid with key `id` when the signed-in provider placed it
      (`Bids.FirstOrDefault(b => b.BidId == id && b.ProviderId == provider.ProviderId)`). */
  function ProviderBid(s: Store, userId: nat, id: nat): (r: Option<Bid>)
    ensures r.Some? <==> (ProviderOf(s, userId).Some? && Get(s.bids, id).Some? &&
                          Get(s.bids, id).value.providerId == ProviderOf(s, userId).value)
    ensures r.Some? ==> r == Get(s.bids, id)
  {
    match ProviderOf(s, userId)
    case None => None
    case Some(p) =>
      match Get(s.bids, id)
      case None => None
      case Some(b) => if b.providerId == p then Some(b) else None
  }

  /** The request with key `id` when it belongs to the signed-in user's company
      (`ShipmentRequests.FirstOrDefault(s => s.ShipmentRequestId == id && s.CompanyId == company.CompanyId)`). */
  function CompanyRequest(s: Store, userId: nat, id: nat): (r: Option<ShipmentRequest>)
    ensures r.Some? <==> (CompanyOf(s, userId).Some? && Get(s.requests, id).Some? &&
                          Get(s.requests, id).value.companyId == CompanyOf(s, userId).value)
    ensures r.Some? ==> r == Get(s.requests, id)
  {
    match CompanyOf(s, userId)
    case None => None
    case Some(c) =>
      match Get(s.requests, id)
      case None => None
      case Some(req) => if req.companyId == c then Some(req) else None
  }

  /** The bids placed on request `requestId`, in table order. */
  function BidsOn(s: Store, requestId: nat): (r: seq<Bid>)
    ensures forall i :: 0 <= i < |r| ==> r[i].requestId == requestId
    ensures forall i :: 0 <= i < |s.bids| && s.bids[i].val.requestId == requestId ==> s.bids[i].val in r
  {
    Listing.FilterKeeps(Values(s.bids), (b: Bid) => b.requestId == requestId);
    Listing.Filter(Values(s.bids), (b: Bid) => b.requestId == requestId)
  }

  /** A nullable date as a sort key: its tick count, or nothing. */
  function Stamp(d: Option<Instant>): (k: Listing.Key)
    ensures k.Some? <==> d.Some?
    ensures d.Some? ==> k.value == Calendar.Ticks(d.value)
  {
    match d
    case None => None
    case Some(t) => Some(Calendar.Ticks(t))
  }

  /** What a contract is worth: its bid's price (`c.Bid?.BidPrice ?? 0`). */
  function BidPrice(s: Store, c: Contract): int {
    match Get(s.bids, c.bidId)
    case None => 0
    case Some(b) => b.price.GetOr(0)
  }

  /** No provider has two bids on the same request. */
  predicate OneBidPerProvider(s: Store) {
    forall i, j :: 0 <= i < j < |s.bids| ==>
      !(s.bids[i].val.requestId == s.bids[j].val.requestId && s.bids[i].val.providerId == s.bids[j].val.providerId)
  }

  /** Some bid of provider `providerId` lies on request `requestId`. */
  predicate HasBidOn(s: Store, requestId: nat, providerId: nat) {
    exists i :: 0 <= i < |s.bids| && s.bids[i].val.requestId == requestId && s.bids[i].val.providerId == providerId
  }

  // ---------------------------------------------------------------- rows that refer to a key

  // None of the schema's foreign keys cascades on delete, and an action that deletes a row
  // never loads the rows that refer to it, so the database refuses the delete while such a
  // row exists.

  /** A contract refers to bid `id` (`FK_Contract_Bid`). */
  predicate BidInContract(s: Store, id: nat) {
    exists i :: 0 <= i < |s.contracts| && s.contracts[i].val.bidId == id
  }

  /** A bid refers to request `id` (`FK_Bid_ShipmentRequest`). */
  predicate RequestHasBids(s: Store, id: nat) {
    exists i :: 0 <= i < |s.bids| && s.bids[i].val.requestId == id
  }

  /** A request, a contract or a feedback refers to company `c` (`FK_ShipmentRequest_Company`,
      `FK_Contract_Company`, `FK_Feedback_Company`). */
  predicate CompanyInUse(s: Store, c: nat) {
    (exists i :: 0 <= i < |s.requests| && s.requests[i].val.companyId == c) ||
    (exists i :: 0 <= i < |s.contracts| && s.contracts[i].val.companyId == c) ||
    (exists i :: 0 <= i < |s.feedbacks| && s.feedbacks[i].val.companyId == c)
  }

  /** A provider profile, or a company profile under another key than `c`, refers to user
      `userId` (`FK_Provider_User`, `FK_Company_User`). */
  predicate UserInUse(s: Store, userId: nat, c: nat) {
    (exists i :: 0 <= i < |s.providers| && s.providers[i].val.userId == userId) ||
    (exists i :: 0 <= i < |s.companies| && s.companies[i].id != c && s.companies[i].val.userId == userId)
  }
}

=== FILE: provider_bids.dfy ===
/** A provider's own bids: place one on an open request, change it while it is still only
    submitted, withdraw it. */
module ProviderBids {
  import opened Wrappers
  import opened Tables
  import opened Constants
  import opened Marketplace
  import Forms
  import CompanyShipments
  import Admin

  /** The bid a valid form places. */
  function Placed(f: Forms.BidForm, requestId: nat, providerId: nat, now: Instant): Bid {
    Bid(requestId, providerId, f.bidPrice, f.estimatedDeliveryDays, f.bidNotes, Submitted, Some(now))
  }

  /** `Store`: refuses, writing nothing, unless the form is valid, the caller has a provider
      profile, the request exists and is Pending or Bidding, and the provider has no bid on it
      yet in any status. Otherwise it appends a Submitted bid carrying exactly the form's
      price, days and notes, and a Pending request becomes Bidding (a Bidding one is left as
      it is). */
  function Store(s: Store, userId: nat, f: Forms.BidForm, now: Instant): (r: Result<Store, Error>)
    ensures !Forms.BidFormValid(f) ==> r == Failure(InvalidForm)
    ensures r.Success? <==>
      Forms.BidFormValid(f) && ProviderOf(s, userId).Some? && f.shipmentRequestId >= 0 &&
      Get(s.requests, f.shipmentRequestId).Some? && Get(s.requests, f.shipmentRequestId).value.status.IsOpen() &&
      !HasBidOn(s, f.shipmentRequestId, ProviderOf(s, userId).value)
    ensures r.Success? ==>
      var p, rid := ProviderOf(s, userId).value, f.shipmentRequestId as nat;
      var req := Get(s.requests, rid).value;
      r.value.bids == s.bids + [Row(NextKey(s.bids), Placed(f, rid, p, now))] &&
      r.value.requests == (if req.status == RequestStatus.Pending then Put(s.requests, rid, WithStatus(req, Bidding, now))
                           else s.requests) &&
      r.value == s.(bids := r.value.bids, requests := r.value.requests)
  {
    if !Forms.BidFormValid(f) then Failure(InvalidForm)
    else
      match ProviderOf(s, userId)
      case None => Failure(ProfileNotFound)
      case Some(p) =>
        if f.shipmentRequestId < 0 then Failure(NotAllowed)
        else
          var rid := f.shipmentRequestId as nat;
          match Get(s.requests, rid)
          case None => Failure(NotAllowed)
          case Some(req) =>
            if !req.status.IsOpen() then Failure(NotAllowed)
            else if HasBidOn(s, rid, p) then Failure(AlreadyExists)
            else
              var bids := Insert(s.bids, Placed(f, rid, p, now)).0;
              var requests := if req.status == RequestStatus.Pending then Put(s.requests, rid, WithStatus(req, Bidding, now))
                              else s.requests;
              Success(s.(bids := bids, requests := requests))
  }

  /** A request that has received a bid can no longer be deleted, by its company or by an
      administrator: the new bid refers to it. */
  lemma BidPinsRequest(s: Store, userId: nat, f: Forms.BidForm, now: Instant, owner: nat)
    requires Store(s, userId, f, now).Success?
    ensures var t, rid := Store(s, userId, f, now).value, f.shipmentRequestId as nat;
      RequestHasBids(t, rid) && CompanyShipments.Delete(t, owner, rid).Failure? && Admin.DeleteShipment(t, rid).Failure?
  {
    var t, rid := Store(s, userId, f, now).value, f.shipmentRequestId as nat;
    assert t.bids[|s.bids|].val.requestId == rid;
  }

  /** Placing a bid never gives a provider a second bid on the same request. */
  lemma StoreKeepsOneBidPerProvider(s: Store, userId: nat, f: Forms.BidForm, now: Instant)
    requires OneBidPerProvider(s)
    requires Store(s, userId, f, now).Success?
    ensures OneBidPerProvider(Store(s, userId, f, now).value)
  {
    var t := Store(s, userId, f, now).value;
    var n := |s.bids|;
    forall i, j | 0 <= i < j < |t.bids|
      ensures !(t.bids[i].val.requestId == t.bids[j].val.requestId && t.bids[i].val.providerId == t.bids[j].val.providerId)
    {
      if j == n {
        assert t.bids[i] == s.bids[i];
      } else {
        assert t.bids[i] == s.bids[i] && t.bids[j] == s.bids[j];
      }
    }
  }

  /** `Update`: refuses unless the form is valid and the bid is the caller's own and still
      Submitted; then it rewrites that bid's price, days and notes and nothing else (not its
      request, provider or status). */
  function Update(s: Store, userId: nat, id: nat, f: Forms.BidForm): (r: Result<Store, Error>)
    ensures r.Success? <==>
      Forms.BidFormValid(f) && ProviderBid(s, userId, id).Some? && ProviderBid(s, userId, id).value.status == Submitted
    ensures r.Success? ==>
      var b := ProviderBid(s, userId, id).value;
      r.value == s.(bids := Put(s.bids, id, b.(price := f.bidPrice, days := f.estimatedDeliveryDays, notes := f.bidNotes)))
  {
    if !Forms.BidFormValid(f) then Failure(InvalidForm)
    else
      match ProviderBid(s, userId, id)
      case None => Failure(NotAllowed)
      case Some(b) =>
        if b.status != Submitted then Failure(NotAllowed)
        else Success(s.(bids := Put(s.bids, id, b.(price := f.bidPrice, days := f.estimatedDeliveryDays, notes := f.bidNotes))))
  }

  /** With unique bid keys, an update keeps every bid's request, provider and status. */
  lemma UpdateKeepsStatus(s: Store, userId: nat, id: nat, f: Forms.BidForm)
    requires WellKeyed(s.bids)
    requires Update(s, userId, id, f).Success?
    ensures var t := Update(s, userId, id, f).value.bids;
      |t| == |s.bids| &&
      forall i :: 0 <= i < |t| ==>
        t[i].id == s.bids[i].id && t[i].val.status == s.bids[i].val.status &&
        t[i].val.providerId == s.bids[i].val.providerId && t[i].val.requestId == s.bids[i].val.requestId
  {
    var b := ProviderBid(s, userId, id).value;
    var t := Update(s, userId, id, f).value.bids;
    forall i | 0 <= i < |t| && s.bids[i].id == id
      ensures s.bids[i].val == b
    {
      GetUnique(s.bids, i);
    }
  }

  /** `Delete`: removes the caller's own bid whatever its status; its request keeps its
      status, and nothing else changes. A bid a contract was made from stays, because the
      database refuses the delete. */
  function Delete(s: Store, userId: nat, id: nat): (r: Result<Store, Error>)
    ensures r.Success? <==> ProviderBid(s, userId, id).Some? && !BidInContract(s, id)
    ensures (ProviderBid(s, userId, id).Some? && BidInContract(s, id)) ==> r == Failure(SaveFailed)
    ensures r.Success? ==> r.value == s.(bids := Remove(s.bids, id))
    ensures r.Success? ==> forall x :: x in r.value.bids <==> x in s.bids && x.id != id
  {
    match ProviderBid(s, userId, id)
    case None => Failure(NotFound)
    case Some(_) =>
      if BidInContract(s, id) then Failure(SaveFailed)
      else Success(s.(bids := Remove(s.bids, id)))
  }
}

=== FILE: provider_contracts.dfy ===
/** A provider's contracts: the list with its signed and pending filters, the signing form,
    signing with an uploaded PDF, the contract page with its latest tracking snapshot, and the
    document download. The upload's resulting path and whether the stored file still exists
    are inputs. */
module ProviderContracts {
  import opened Wrappers
  import opened Tables
  import opened Text
  import opened Listing
  import opened Marketplace
  import Documents

  /** Contracts per page; the list always shows the first page. */
  const PageSize: nat := 12

  /** The contract with key `id` when the signed-in provider is its provider; both a missing
      provider profile and a foreign contract are Not Found. */
  function OwnContract(s: Store, userId: nat, id: nat): (r: Result<Contract, Error>)
    ensures r.Success? <==> ProviderOf(s, userId).Some? && Get(s.contracts, id).Some? &&
                            Get(s.contracts, id).value.providerId == ProviderOf(s, userId).value
    ensures r.Success? ==> Some(r.value) == Get(s.contracts, id)
    ensures r.Failure? ==> r.error == NotFound
  {
    match ProviderOf(s, userId)
    case None => Failure(NotFound)
    case Some(p) =>
      match Get(s.contracts, id)
      case None => Failure(NotFound)
      case Some(c) => if c.providerId == p then Success(c) else Failure(NotFound)
  }

  /** The status filter: "signed" keeps the contracts with a sign date, "pending" those
      without, and any other string keeps every contract. */
  predicate Keeps(status: string, c: Contract) {
    if status == "signed" then c.signDate.Some?
    else if status == "pending" then c.signDate.None?
    else true
  }

  /** The provider's contracts, in table order. */
  function Mine(s: Store, providerId: nat): (r: seq<Row<Contract>>)
    ensures forall k :: k in r ==> k in s.contracts && k.val.providerId == providerId
    ensures forall k :: k in s.contracts && k.val.providerId == providerId ==> k in r
  {
    FilterKeeps(s.contracts, (c: Row<Contract>) => c.val.providerId == providerId);
    Filter(s.contracts, (c: Row<Contract>) => c.val.providerId == providerId)
  }

  /** The filter as a test on rows. */
  function KeptBy(status: string): Row<Contract> -> bool {
    (c: Row<Contract>) => Keeps(status, c.val)
  }

  /** The provider's contracts the filter keeps, in table order. */
  function Matching(s: Store, providerId: nat, status: string): (r: seq<Row<Contract>>)
    ensures forall k :: k in r ==> k in s.contracts && k.val.providerId == providerId && Keeps(status, k.val)
    ensures forall k :: (k in s.contracts && k.val.providerId == providerId && Keeps(status, k.val)) ==> k in r
  {
    FilterKeeps(Mine(s, providerId), KeptBy(status));
    Filter(Mine(s, providerId), KeptBy(status))
  }

  /** The ordering key of the list: the sign date, latest first, unsigned last. */
  function SignKey(c: Row<Contract>): Key {
    Stamp(c.val.signDate)
  }

  /** `Index`: the first page of the provider's filtered contracts, latest signature first
      (unsigned ones last), and the number of contracts the filter keeps. The page holds the
      latest-signed matches: no match left off it was signed later than one on it. */
  function Index(s: Store, userId: nat, status: string): (r: Result<(seq<Row<Contract>>, nat), Error>)
    ensures r.Success? <==> ProviderOf(s, userId).Some?
    ensures r.Success? ==>
      var (page, total) := r.value;
      var all := Matching(s, ProviderOf(s, userId).value, status);
      total == |all| &&
      |page| == (if total < PageSize then total else PageSize) &&
      multiset(page) <= multiset(all) &&
      SortedBy(page, SignKey, true) &&
      (forall x, y :: x in all && x !in page && y in page ==> InOrder(SignKey(y), SignKey(x), true)) &&
      (forall k :: k in page ==> k.val.providerId == ProviderOf(s, userId).value && Keeps(status, k.val))
  {
    match ProviderOf(s, userId)
    case None => Failure(ProfileNotFound)
    case Some(p) =>
      var all := Matching(s, p, status);
      var page := TopBy(all, SignKey, true, PageSize);
      Success((page, |all|))
  }

  /** The first page of a sorted list is its first min(size, length) items: still sorted,
      and nothing after it comes earlier in the order than anything on it. This is why the
      page `Index` shows is the top of the sorted matches. */
  lemma FirstPageOfSorted<T>(s: seq<T>, size: nat, key: T -> Key)
    requires SortedBy(s, key, true)
    ensures Page(s, 1, size) == s[..(if |s| < size then |s| else size)]
    ensures multiset(Page(s, 1, size)) <= multiset(s)
    ensures SortedBy(Page(s, 1, size), key, true)
    ensures forall x, y :: x in s && x !in Page(s, 1, size) && y in Page(s, 1, size) ==> InOrder(key(y), key(x), true)
  {
    var page := Page(s, 1, size);
    PageWindow(s, 1, size);
    assert page == s[..|page|];
    assert s == page + s[|page|..];
    forall x, y | x in s && x !in page && y in page ensures InOrder(key(y), key(x), true) {
      var j :| 0 <= j < |s| && s[j] == x;
      var i :| 0 <= i < |page| && page[i] == y;
      assert j >= |page|;
    }
  }

  /** The signed and the pending totals add up to the total without a filter. */
  lemma SignedPendingPartition(s: Store, userId: nat)
    requires ProviderOf(s, userId).Some?
    ensures Index(s, userId, "signed").value.1 + Index(s, userId, "pending").value.1 == Index(s, userId, "all").value.1
  {
    var mine := Mine(s, ProviderOf(s, userId).value);
    CountSplit(mine, KeptBy("signed"), KeptBy("pending"));
    FilterAll(mine, KeptBy("all"));
  }

  /** `ShowSign`: the signing form, only for the provider's own contract while it is unsigned;
      a signed one is sent to its page instead. */
  function ShowSign(s: Store, userId: nat, id: nat): (r: Result<Contract, Error>)
    ensures r.Success? <==> OwnContract(s, userId, id).Success? && OwnContract(s, userId, id).value.signDate.None?
    ensures OwnContract(s, userId, id).Success? && r.Failure? ==> r.error == NotAllowed
  {
    match OwnContract(s, userId, id)
    case Failure(e) => Failure(e)
    case Success(c) => if c.signDate.Some? then Failure(NotAllowed) else Success(c)
  }

  /** `Sign`: the provider's own contract, the terms accepted, a non-empty file, a ".pdf" name
      in any case, and an upload that produced a path, checked in that order. The contract's
      document becomes the path and its sign date now; nothing else changes. */
  function Sign(s: Store, userId: nat, id: nat, termsAccepted: bool, file: Option<UploadedFile>,
                upload: Option<string>, now: Instant): (r: Result<Store, Error>)
    ensures OwnContract(s, userId, id).Failure? ==> r == Failure(NotFound)
    ensures OwnContract(s, userId, id).Success? && !termsAccepted ==> r == Failure(TermsNotAccepted)
    ensures r.Success? <==>
      OwnContract(s, userId, id).Success? && termsAccepted && !NoContent(file) &&
      Documents.EndsWithIgnoringCase(file.value.fileName, ".pdf") && !IsNullOrEmpty(upload)
    ensures r.Success? ==>
      var c := OwnContract(s, userId, id).value;
      r.value == s.(contracts := Put(s.contracts, id, c.(document := upload, signDate := Some(now))))
  {
    Documents.SignedDocumentIff(if file.Some? then file.value.fileName else "");
    match OwnContract(s, userId, id)
    case Failure(e) => Failure(e)
    case Success(c) =>
      if !termsAccepted then Failure(TermsNotAccepted)
      else if NoContent(file) then Failure(NoFile)
      else if !Documents.Allowed(file.value.fileName, Documents.SignedExtensions) then Failure(BadFileType)
      else if IsNullOrEmpty(upload) then Failure(UploadFailed)
      else Success(s.(contracts := Put(s.contracts, id, c.(document := upload, signDate := Some(now)))))
  }

  /** Unlike the signing form, `Sign` does not refuse a contract that is already signed: it
      signs it again, replacing the document and the sign date. */
  lemma SignTwiceSucceeds(s: Store, userId: nat, id: nat, file: Option<UploadedFile>, upload: Option<string>,
                          now: Instant, later: Instant)
    requires Sign(s, userId, id, true, file, upload, now).Success?
    ensures var t := Sign(s, userId, id, true, file, upload, now).value;
      ShowSign(t, userId, id).Failure? &&
      Sign(t, userId, id, true, file, upload, later).Success? &&
      Get(Sign(t, userId, id, true, file, upload, later).value.contracts, id).value.signDate == Some(later)
  {
    var c := OwnContract(s, userId, id).value;
    var t := Sign(s, userId, id, true, file, upload, now).value;
    var c' := c.(document := upload, signDate := Some(now));
    PutGet(s.contracts, id, c');
    assert t.providers == s.providers;
    assert OwnContract(t, userId, id) == Success(c');
    PutGet(t.contracts, id, c'.(document := upload, signDate := Some(later)));
  }

  /** A signed contract lists under "signed" and no longer under "pending". */
  lemma SignedContractListed(s: Store, userId: nat, id: nat, file: Option<UploadedFile>, upload: Option<string>, now: Instant)
    requires Sign(s, userId, id, true, file, upload, now).Success?
    ensures var t := Sign(s, userId, id, true, file, upload, now).value;
      var p := ProviderOf(s, userId).value;
      (exists k :: k in Matching(t, p, "signed") && k.id == id) &&
      (forall k :: k in Matching(t, p, "pending") ==> k.id != id)
  {
    var c := OwnContract(s, userId, id).value;
    var t := Sign(s, userId, id, true, file, upload, now).value;
    var p := ProviderOf(s, userId).value;
    var c' := c.(document := upload, signDate := Some(now));
    assert t.contracts == Put(s.contracts, id, c');
    PutRows(s.contracts, id, c');
    PutRowPresent(s.contracts, id, c');
    assert Keeps("signed", c');
    assert Row(id, c') in Matching(t, p, "signed");
    forall k | k in Matching(t, p, "pending") ensures k.id != id {
      assert k in t.contracts && k.val.signDate.None?;
    }
  }

  /** A `Put` on a present key leaves a row with that key and the new value. */
  lemma PutRowPresent(t: Table<Contract>, id: nat, v: Contract)
    requires HasKey(t, id)
    ensures Row(id, v) in Put(t, id, v)
  {
    var i :| 0 <= i < |t| && t[i].id == id;
    assert Put(t, id, v)[i] == Row(id, v);
  }

  /** Every row a `Put` leaves under key `id` holds the new value. */
  lemma PutRows(t: Table<Contract>, id: nat, v: Contract)
    ensures forall k :: k in Put(t, id, v) && k.id == id ==> k.val == v
  {
  }

  /** `Show`: the provider's own contract with the snapshot that started last, if any. */
  function Show(s: Store, userId: nat, id: nat): (r: Result<(Contract, Option<Shipment>), Error>)
    ensures r.Success? <==> OwnContract(s, userId, id).Success?
    ensures r.Success? ==>
      var snapshots := Filter(Values(s.shipments), (sh: Shipment) => sh.contractId == id);
      r.value.0 == OwnContract(s, userId, id).value &&
      (r.value.1.None? <==> |snapshots| == 0) &&
      (r.value.1.Some? ==>
         (r.value.1.value in snapshots &&
          forall x :: x in snapshots ==> InOrder(Stamp(r.value.1.value.startDate), Stamp(x.startDate), true)))
  {
    match OwnContract(s, userId, id)
    case Failure(e) => Failure(e)
    case Success(c) =>
      var snapshots := Filter(Values(s.shipments), (sh: Shipment) => sh.contractId == id);
      var sorted := SortBy(snapshots, (sh: Shipment) => Stamp(sh.startDate), true);
      if |sorted| == 0 then Success((c, None))
      else
        assert sorted[0] in multiset(snapshots);
        forall x | x in snapshots ensures InOrder(Stamp(sorted[0].startDate), Stamp(x.startDate), true) {
          assert x in multiset(sorted);
          var j :| 0 <= j < |sorted| && sorted[j] == x;
          if j > 0 {
            assert InOrder(Stamp(sorted[0].startDate), Stamp(sorted[j].startDate), true);
          }
        }
        Success((c, Some(sorted[0])))
  }

  /** `Contract-{id}.pdf`: the contract key between a fixed prefix and a ".pdf" extension. */
  function DocumentName(id: nat): (name: string)
    ensures |name| > 13 && name[..9] == "Contract-" && GetExtension(name) == ".pdf"
    ensures AllDigits(name[9..|name| - 4]) && ParseNat(name[9..|name| - 4]) == id
  {
    var digits := NatToString(id);
    var name := "Contract-" + digits + ".pdf";
    assert name[9..|name| - 4] == digits;
    assert name[|name| - 4..] == ".pdf";
    ParseNatToString(id);
    Documents.PlainExtensions();
    SuffixIsExtension(name, ".pdf");
    name
  }

  /** `DownloadDocument`: the provider's own contract with a stored document whose file still
      exists, served under its download name. */
  function DownloadDocument(s: Store, userId: nat, id: nat, fileExists: bool): (r: Result<string, Error>)
    ensures r.Success? <==> OwnContract(s, userId, id).Success? &&
                            !IsNullOrEmpty(OwnContract(s, userId, id).value.document) && fileExists
    ensures r.Success? ==> r.value == DocumentName(id)
  {
    match OwnContract(s, userId, id)
    case Failure(e) => Failure(e)
    case Success(c) =>
      if IsNullOrEmpty(c.document) || !fileExists then Failure(NotFound)
      else Success(DocumentName(id))
  }
}

=== FILE: provider_shipments.dfy ===
/** A provider's tracking snapshots. A shipment is never edited: starting one appends a
    "Received" snapshot with a fresh tracking number, and every status change appends another
    snapshot with the same tracking number, so the snapshots sharing a number are the history. */
module ProviderShipments {
  import opened Wrappers
  import opened Tables
  import opened Constants
  import opened Text
  import opened Listing
  import opened Marketplace
  import Calendar
  import Forms

  /** The snapshot belongs to one of provider `providerId`'s contracts. */
  predicate OfProvider(s: Store, sh: Shipment, providerId: nat) {
    Get(s.contracts, sh.contractId).Some? && Get(s.contracts, sh.contractId).value.providerId == providerId
  }

  /** The caller's contract with key `contractId`. A missing provider profile fails the
      request as the source's null dereference does. */
  function OwnContract(s: Store, userId: nat, contractId: nat): (r: Result<Contract, Error>)
    ensures ProviderOf(s, userId).None? ==> r == Failure(ProfileNotFound)
    ensures r.Success? <==> ProviderOf(s, userId).Some? && Get(s.contracts, contractId).Some? &&
                            Get(s.contracts, contractId).value.providerId == ProviderOf(s, userId).value
    ensures r.Success? ==> Some(r.value) == Get(s.contracts, contractId)
  {
    match ProviderOf(s, userId)
    case None => Failure(ProfileNotFound)
    case Some(p) =>
      match Get(s.contracts, contractId)
      case None => Failure(NotFound)
      case Some(c) => if c.providerId == p then Success(c) else Failure(NotFound)
  }

  /** The caller's snapshot with key `id`. */
  function OwnSnapshot(s: Store, userId: nat, id: nat): (r: Result<Shipment, Error>)
    ensures ProviderOf(s, userId).None? ==> r == Failure(ProfileNotFound)
    ensures r.Success? <==> ProviderOf(s, userId).Some? && Get(s.shipments, id).Some? &&
                            OfProvider(s, Get(s.shipments, id).value, ProviderOf(s, userId).value)
    ensures r.Success? ==> Some(r.value) == Get(s.shipments, id)
  {
    match ProviderOf(s, userId)
    case None => Failure(ProfileNotFound)
    case Some(p) =>
      match Get(s.shipments, id)
      case None => Failure(NotFound)
      case Some(sh) => if OfProvider(s, sh, p) then Success(sh) else Failure(NotFound)
  }

  /** `Index`: the snapshots of the provider's contracts, latest start first; a status other
      than null, "" or "all" keeps only the snapshots in exactly that status. */
  function Index(s: Store, userId: nat, status: Option<string>): (r: Result<seq<Shipment>, Error>)
    ensures r.Success? <==> ProviderOf(s, userId).Some?
    ensures r.Success? ==>
      var p := ProviderOf(s, userId).value;
      var filtered := !IsNullOrEmpty(status) && status.value != "all";
      SortedBy(r.value, (sh: Shipment) => Stamp(sh.startDate), true) &&
      (forall sh :: sh in r.value ==> OfProvider(s, sh, p) && (filtered ==> sh.status == status.value)) &&
      (forall sh :: sh in Values(s.shipments) && OfProvider(s, sh, p) && (filtered ==> sh.status == status.value) ==>
         sh in r.value)
  {
    match ProviderOf(s, userId)
    case None => Failure(ProfileNotFound)
    case Some(p) =>
      var filtered := !IsNullOrEmpty(status) && status.value != "all";
      var keep := (sh: Shipment) => OfProvider(s, sh, p) && (filtered ==> sh.status == status.value);
      var kept := Filter(Values(s.shipments), keep);
      var r := SortBy(kept, (sh: Shipment) => Stamp(sh.startDate), true);
      assert forall sh :: sh in r ==> keep(sh) by {
        forall sh | sh in r ensures keep(sh) {
          assert sh in multiset(kept);
        }
      }
      assert forall sh :: sh in Values(s.shipments) && keep(sh) ==> sh in r by {
        FilterKeeps(Values(s.shipments), keep);
        forall sh | sh in kept ensures sh in r {
          assert sh in multiset(r);
        }
      }
      Success(r)
  }

  /** What `Create` shows: the form for a contract without snapshots, or the first existing
      snapshot of the contract. */
  datatype CreatePage = StartForm(contract: Contract) | ExistingShipment(id: nat)

  function Create(s: Store, userId: nat, contractId: nat): (r: Result<CreatePage, Error>)
    ensures r.Success? <==> OwnContract(s, userId, contractId).Success?
    ensures r.Success? && r.value.ExistingShipment? ==>
      exists i :: 0 <= i < |s.shipments| && s.shipments[i].id == r.value.id && s.shipments[i].val.contractId == contractId
    ensures r.Success? && r.value.StartForm? ==>
      forall i :: 0 <= i < |s.shipments| ==> s.shipments[i].val.contractId != contractId
  {
    match OwnContract(s, userId, contractId)
    case Failure(e) => Failure(e)
    case Success(c) =>
      match First(s.shipments, (sh: Row<Shipment>) => sh.val.contractId == contractId)
      case Some(row) => Success(ExistingShipment(row.id))
      case None => Success(StartForm(c))
  }

  /** `TRK-{yyyyMMdd}-{contractId}`. */
  function TrackingNumber(now: Instant, contractId: nat): (n: string)
    ensures |n| > 4 && n[..4] == "TRK-"
    ensures now.year < 10000 ==> |n| > 13 && AllDigits(n[13..]) && ParseNat(n[13..]) == contractId
  {
    Calendar.DatedNumber("TRK-", now, contractId)
  }

  /** `Store`: for the caller's contract, appends a "Received" snapshot started now, with no
      delivery time and a tracking number built from today's date and the contract key. It
      does not look for existing snapshots, so a second one for the same contract is
      appended all the same. Returns the new snapshot's key. */
  function Store(s: Store, userId: nat, contractId: nat, now: Instant): (r: Result<(Store, nat), Error>)
    ensures r.Success? <==> OwnContract(s, userId, contractId).Success?
    ensures r.Success? ==>
      var (t, id) := r.value;
      t == s.(shipments := s.shipments + [Row(id, Shipment(TrackingNumber(now, contractId), TrackingReceived, Some(now), None, contractId))]) &&
      !HasKey(s.shipments, id)
  {
    match OwnContract(s, userId, contractId)
    case Failure(e) => Failure(e)
    case Success(_) =>
      var (shipments, id) := Insert(s.shipments, Shipment(TrackingNumber(now, contractId), TrackingReceived, Some(now), None, contractId));
      Success((s.(shipments := shipments), id))
  }

  /** Starting a shipment twice for the same contract is not refused: both calls append a
      "Received" snapshot for it. */
  lemma StoreTwiceDuplicates(s: Store, userId: nat, contractId: nat, now: Instant, later: Instant)
    requires Store(s, userId, contractId, now).Success?
    ensures var t := Store(s, userId, contractId, now).value.0;
      Store(t, userId, contractId, later).Success? &&
      var u := Store(t, userId, contractId, later).value.0;
      |u.shipments| == |s.shipments| + 2 &&
      u.shipments[|s.shipments|].val.contractId == contractId && u.shipments[|s.shipments| + 1].val.contractId == contractId &&
      u.shipments[|s.shipments|].val.status == TrackingReceived && u.shipments[|s.shipments| + 1].val.status == TrackingReceived
  {
    var t := Store(s, userId, contractId, now).value.0;
    assert t.providers == s.providers && t.contracts == s.contracts;
  }

  /** The snapshots sharing a tracking number, earliest start first. */
  function History(s: Store, trackingNumber: string): (r: seq<Shipment>)
    ensures forall sh :: sh in r <==> sh in Values(s.shipments) && sh.trackingNumber == trackingNumber
    ensures SortedBy(r, (sh: Shipment) => Stamp(sh.startDate), false)
  {
    var tracked := (sh: Shipment) => sh.trackingNumber == trackingNumber;
    var same := Filter(Values(s.shipments), tracked);
    var r := SortBy(same, (sh: Shipment) => Stamp(sh.startDate), false);
    FilterKeeps(Values(s.shipments), tracked);
    forall sh | sh in r ensures sh in Values(s.shipments) && sh.trackingNumber == trackingNumber {
      assert sh in multiset(same);
    }
    forall sh | sh in same ensures sh in r {
      assert sh in multiset(r);
    }
    r
  }

  /** `Show`: the caller's snapshot with the history of its tracking number. */
  function Show(s: Store, userId: nat, id: nat): (r: Result<(Shipment, seq<Shipment>), Error>)
    ensures r.Success? <==> OwnSnapshot(s, userId, id).Success?
    ensures r.Success? ==> r.value.0 == OwnSnapshot(s, userId, id).value && r.value.0 in r.value.1 &&
                           r.value.1 == History(s, r.value.0.trackingNumber)
  {
    match OwnSnapshot(s, userId, id)
    case Failure(e) => Failure(e)
    case Success(sh) =>
      var i :| 0 <= i < |s.shipments| && s.shipments[i] == Row(id, sh);
      assert Values(s.shipments)[i] == sh;
      Success((sh, History(s, sh.trackingNumber)))
  }

  /** The snapshot a status change appends: same contract and tracking number, started now,
      with a delivery time exactly when the status is "Delivered". Any status string is
      accepted. */
  function Next(current: Shipment, status: string, now: Instant): (sh: Shipment)
    ensures sh.contractId == current.contractId && sh.trackingNumber == current.trackingNumber
    ensures sh.status == status && sh.startDate == Some(now)
    ensures sh.deliveryTime.Some? <==> status == TrackingDelivered
    ensures sh.deliveryTime.Some? ==> sh.deliveryTime == Some(now)
  {
    Shipment(current.trackingNumber, status, Some(now), if status == TrackingDelivered then Some(now) else None, current.contractId)
  }

  /** `UpdateStatus`: appends the next snapshot of the caller's snapshot `id`; earlier
      snapshots are never touched. Returns the new snapshot's key. The status text is not
      checked, so one longer than its column is refused by the database and nothing is saved. */
  function UpdateStatus(s: Store, userId: nat, id: nat, status: string, now: Instant): (r: Result<(Store, nat), Error>)
    ensures r.Success? <==> OwnSnapshot(s, userId, id).Success? && |status| <= Forms.ShipmentStatusColumnWidth
    ensures OwnSnapshot(s, userId, id).Failure? ==> r == Failure(OwnSnapshot(s, userId, id).error)
    ensures (OwnSnapshot(s, userId, id).Success? && |status| > Forms.ShipmentStatusColumnWidth) ==>
      r == Failure(SaveFailed)
    ensures r.Success? ==>
      var (t, k) := r.value;
      t == s.(shipments := s.shipments + [Row(k, Next(OwnSnapshot(s, userId, id).value, status, now))]) &&
      !HasKey(s.shipments, k)
  {
    match OwnSnapshot(s, userId, id)
    case Failure(e) => Failure(e)
    case Success(current) =>
      if |status| > Forms.ShipmentStatusColumnWidth then Failure(SaveFailed)
      else
        var (shipments, k) := Insert(s.shipments, Next(current, status, now));
        Success((s.(shipments := shipments), k))
  }

  /** A status change adds the new snapshot to the tracking number's history and keeps every
      earlier entry. */
  lemma UpdateExtendsHistory(s: Store, userId: nat, id: nat, status: string, now: Instant)
    requires UpdateStatus(s, userId, id, status, now).Success?
    ensures var current := OwnSnapshot(s, userId, id).value;
      var t := UpdateStatus(s, userId, id, status, now).value.0;
      multiset(History(t, current.trackingNumber)) ==
        multiset(History(s, current.trackingNumber)) + multiset{Next(current, status, now)}
  {
    var current := OwnSnapshot(s, userId, id).value;
    var (t, k) := UpdateStatus(s, userId, id, status, now).value;
    var next := Next(current, status, now);
    assert Values(t.shipments) == Values(s.shipments) + [next];
    FilterAppend(Values(s.shipments), [next], (sh: Shipment) => sh.trackingNumber == current.trackingNumber);
  }

  /** The new snapshot can itself be changed: it belongs to the same contract, so to the
      same provider. */
  lemma UpdatedSnapshotIsOwn(s: Store, userId: nat, id: nat, status: string, now: Instant)
    requires UpdateStatus(s, userId, id, status, now).Success?
    ensures var (t, k) := UpdateStatus(s, userId, id, status, now).value;
      OwnSnapshot(t, userId, k).Success? && OwnSnapshot(t, userId, k).value.trackingNumber == OwnSnapshot(s, userId, id).value.trackingNumber
  {
    var (t, k) := UpdateStatus(s, userId, id, status, now).value;
    var current := OwnSnapshot(s, userId, id).value;
    assert t.shipments == Insert(s.shipments, Next(current, status, now)).0;
    InsertGet(s.shipments, Next(current, status, now));
    assert t.providers == s.providers && t.contracts == s.contracts;
  }
}

=== FILE: reports.dfy ===
/** The administrator's revenue report over a period: the contracts signed in it, their
    revenue and the platform's commission, how their payments stand, the revenue month by
    month, and the ten approved companies that spent most and providers that earned most.
    Amounts are in halalas; the commission is an exact fraction of them. */
module Reports {
  import opened Wrappers
  import opened Tables
  import opened Constants
  import opened Text
  import opened Listing
  import opened Marketplace
  import opened Calendar
  import Forms

  /** The platform's commission, in percent of the revenue. */
  const CommissionPercent: nat := 10

  /** How many companies and providers the report ranks. */
  const TopCount: nat := 10

  /** Signed within the period, both ends included. */
  predicate InPeriod(c: Contract, start: Instant, end: Instant) {
    c.signDate.Some? && Ticks(start) <= Ticks(c.signDate.value) <= Ticks(end)
  }

  /** The commission on an amount. */
  function Commission(amount: int): (r: real)
    ensures r * 100.0 == (amount * CommissionPercent) as real
  {
    (amount * CommissionPercent) as real / 100.0
  }

  // ---------------------------------------------------------------- revenue by month

  /** A contract of the period as the monthly breakdown sees it: when it was signed and
      what its bid was worth. */
  datatype Sale = Sale(signed: Instant, amount: int)

  function Sales(s: Store, rows: seq<Row<Contract>>): (r: seq<Sale>)
    requires forall i :: 0 <= i < |rows| ==> rows[i].val.signDate.Some?
    ensures |r| == |rows|
    ensures forall i :: 0 <= i < |rows| ==> r[i] == Sale(rows[i].val.signDate.value, BidPrice(s, rows[i].val))
  {
    seq(|rows|, i requires 0 <= i < |rows| => Sale(rows[i].val.signDate.value, BidPrice(s, rows[i].val)))
  }

  function Total(sales: seq<Sale>): int
    decreases |sales|
  {
    if |sales| == 0 then 0 else Total(sales[..|sales| - 1]) + sales[|sales| - 1].amount
  }

  /** Signed on or after the first of month `k` and before the first of the next month. */
  predicate InMonth(x: Sale, k: int)
    requires k >= 12
  {
    Ticks(FirstOfMonth(k)) <= Ticks(x.signed) < Ticks(FirstOfMonth(k + 1))
  }

  /** The revenue of the sales signed in month `k`. */
  function MonthTotal(sales: seq<Sale>, k: int): int
    requires k >= 12
    decreases |sales|
  {
    if |sales| == 0 then 0
    else MonthTotal(sales[..|sales| - 1], k) + (if InMonth(sales[|sales| - 1], k) then sales[|sales| - 1].amount else 0)
  }

  /** The revenue of the sales whose month number lies in `lo` up to but excluding `hi`. */
  function Between(sales: seq<Sale>, lo: int, hi: int): int
    decreases |sales|
  {
    if |sales| == 0 then 0
    else
      var m := MonthIndex(sales[|sales| - 1].signed);
      Between(sales[..|sales| - 1], lo, hi) + (if lo <= m < hi then sales[|sales| - 1].amount else 0)
  }

  /** Widening the month range by one month adds that month's revenue. */
  lemma {:induction false} BetweenExtend(sales: seq<Sale>, lo: int, hi: int)
    requires lo <= hi
    ensures Between(sales, lo, hi + 1) == Between(sales, lo, hi) + Between(sales, hi, hi + 1)
    decreases |sales|
  {
    if |sales| > 0 {
      BetweenExtend(sales[..|sales| - 1], lo, hi);
    }
  }

  /** The sales signed between the first of month `k` and the first of the next month are
      the sales whose month number is `k`. */
  lemma {:induction false} MonthTotalIsBetween(sales: seq<Sale>, k: int)
    requires k >= 12
    ensures MonthTotal(sales, k) == Between(sales, k, k + 1)
    decreases |sales|
  {
    if |sales| > 0 {
      MonthTotalIsBetween(sales[..|sales| - 1], k);
      InMonthIff(sales[|sales| - 1].signed, k);
    }
  }

  /** An empty month range holds no revenue. */
  lemma {:induction false} BetweenEmpty(sales: seq<Sale>, k: int)
    ensures Between(sales, k, k) == 0
    decreases |sales|
  {
    if |sales| > 0 {
      BetweenEmpty(sales[..|sales| - 1], k);
    }
  }

  /** When every sale's month lies in the range, the range holds all the revenue. */
  lemma {:induction false} BetweenAll(sales: seq<Sale>, lo: int, hi: int)
    requires forall i :: 0 <= i < |sales| ==> lo <= MonthIndex(sales[i].signed) < hi
    ensures Between(sales, lo, hi) == Total(sales)
    decreases |sales|
  {
    if |sales| > 0 {
      BetweenAll(sales[..|sales| - 1], lo, hi);
    }
  }

  /** One line of the monthly breakdown: the month's number, its revenue and commission. */
  datatype MonthRevenue = MonthRevenue(month: int, revenue: int, commission: real)

  function Revenues(months: seq<MonthRevenue>): int
    decreases |months|
  {
    if |months| == 0 then 0 else Revenues(months[..|months| - 1]) + months[|months| - 1].revenue
  }

  /** The revenue of each month number. */
  function MonthTotals(sales: seq<Sale>): int -> int {
    (k: int) => Between(sales, k, k + 1)
  }

  /** The sum of `total` over the months `lo` up to but excluding `hi`. */
  function RangeSum(total: int -> int, lo: int, hi: int): int
    decreases hi - lo
  {
    if hi <= lo then 0 else RangeSum(total, lo, hi - 1) + total(hi - 1)
  }

  /** Adding up the months one by one gives the revenue of the whole range. */
  lemma {:induction false} BetweenIsRangeSum(sales: seq<Sale>, lo: int, hi: int)
    requires lo <= hi
    ensures Between(sales, lo, hi) == RangeSum(MonthTotals(sales), lo, hi)
    decreases hi - lo
  {
    if hi == lo {
      BetweenEmpty(sales, lo);
    } else {
      BetweenIsRangeSum(sales, lo, hi - 1);
      BetweenExtend(sales, lo, hi - 1);
    }
  }

  /** One line per month from the start's month to the end's (none when the end's month
      comes first), each with the revenue of the sales signed in that month and its
      commission. */
  ghost predicate MonthlyLines(months: seq<MonthRevenue>, sales: seq<Sale>, start: Instant, end: Instant)
    requires MonthIndex(start) >= 12
  {
    |months| == (if MonthIndex(start) <= MonthIndex(end) then MonthIndex(end) - MonthIndex(start) + 1 else 0) &&
    forall i :: 0 <= i < |months| ==>
      months[i].month == MonthIndex(start) + i && months[i].revenue == MonthTotal(sales, MonthIndex(start) + i) &&
      months[i].commission == Commission(months[i].revenue)
  }

  /** `CalculateMonthlyRevenue`: one line per month from the start's month to the end's,
      each with the revenue of the sales signed in it. When every sale lies in the period the
      lines add up to the period's revenue. */
  method MonthlyRevenue(sales: seq<Sale>, start: Instant, end: Instant) returns (months: seq<MonthRevenue>)
    ensures MonthIndex(start) >= 12
    ensures MonthlyLines(months, sales, start, end)
    ensures (forall i :: 0 <= i < |sales| ==> Ticks(start) <= Ticks(sales[i].signed) <= Ticks(end)) ==>
      Revenues(months) == Total(sales)
  {
    var k0, k1 := MonthIndex(start), MonthIndex(end);
    assert k0 >= 12;
    months := MonthLines(MonthTotals(sales), k0, k1);
    LinesAreMonths(sales, months, start);
    LinesAddUp(sales, months, start, end);
  }

  /** Lines built from the month figures carry the revenue of the sales signed in each
      month. */
  lemma LinesAreMonths(sales: seq<Sale>, months: seq<MonthRevenue>, start: Instant)
    requires MonthIndex(start) >= 12
    requires forall i :: 0 <= i < |months| ==>
      months[i] == MonthRevenue(MonthIndex(start) + i, MonthTotals(sales)(MonthIndex(start) + i),
                                Commission(MonthTotals(sales)(MonthIndex(start) + i)))
    ensures forall i :: 0 <= i < |months| ==>
      months[i].month == MonthIndex(start) + i && months[i].revenue == MonthTotal(sales, MonthIndex(start) + i) &&
      months[i].commission == Commission(months[i].revenue)
  {
    var k0 := MonthIndex(start);
    forall i | 0 <= i < |months|
      ensures months[i].month == k0 + i && months[i].revenue == MonthTotal(sales, k0 + i)
    {
      MonthTotalIsBetween(sales, k0 + i);
    }
  }

  /** The lines of the months from the start's to the end's add up to the revenue of the
      sales signed in the period. */
  lemma LinesAddUp(sales: seq<Sale>, months: seq<MonthRevenue>, start: Instant, end: Instant)
    requires MonthIndex(start) >= 12
    requires Revenues(months) ==
      RangeSum(MonthTotals(sales), MonthIndex(start), if MonthIndex(start) <= MonthIndex(end) then MonthIndex(end) + 1 else MonthIndex(start))
    ensures (forall i :: 0 <= i < |sales| ==> Ticks(start) <= Ticks(sales[i].signed) <= Ticks(end)) ==>
      Revenues(months) == Total(sales)
  {
    BetweenIsRangeSum(sales, MonthIndex(start),
      if MonthIndex(start) <= MonthIndex(end) then MonthIndex(end) + 1 else MonthIndex(start));
    PeriodRevenue(sales, start, end);
  }

  /** The lines of months `k0` to `k1`, in order, each with the month's figure from `total`
      and its commission, and their revenue in total. */
  method MonthLines(total: int -> int, k0: int, k1: int) returns (months: seq<MonthRevenue>)
    ensures |months| == (if k0 <= k1 then k1 - k0 + 1 else 0)
    ensures forall i :: 0 <= i < |months| ==>
      months[i] == MonthRevenue(k0 + i, total(k0 + i), Commission(total(k0 + i)))
    ensures Revenues(months) == RangeSum(total, k0, if k0 <= k1 then k1 + 1 else k0)
  {
    months := [];
    var k := k0;
    while k <= k1
      invariant k0 <= k <= (if k0 <= k1 then k1 + 1 else k0)
      invariant |months| == k - k0
      invariant forall i :: 0 <= i < |months| ==>
        months[i] == MonthRevenue(k0 + i, total(k0 + i), Commission(total(k0 + i)))
      invariant Revenues(months) == RangeSum(total, k0, k)
      decreases k1 - k
    {
      var line := MonthRevenue(k, total(k), Commission(total(k)));
      RevenuesAppend(months, line);
      months := months + [line];
      k := k + 1;
    }
  }

  lemma RevenuesAppend(months: seq<MonthRevenue>, m: MonthRevenue)
    ensures Revenues(months + [m]) == Revenues(months) + m.revenue
  {
    assert (months + [m])[..|months|] == months;
  }

  /** The sales of a period fall in the months from the start's to the end's, which then hold
      all their revenue. */
  lemma PeriodRevenue(sales: seq<Sale>, start: Instant, end: Instant)
    ensures (forall i :: 0 <= i < |sales| ==> Ticks(start) <= Ticks(sales[i].signed) <= Ticks(end)) ==>
      Between(sales, MonthIndex(start), MonthIndex(end) + 1) == Total(sales) &&
      (MonthIndex(start) <= MonthIndex(end) || |sales| == 0)
  {
    var k0, k1 := MonthIndex(start), MonthIndex(end);
    if forall i :: 0 <= i < |sales| ==> Ticks(start) <= Ticks(sales[i].signed) <= Ticks(end) {
      forall i | 0 <= i < |sales| ensures k0 <= MonthIndex(sales[i].signed) < k1 + 1 {
        MonthsFollowTicks(start, sales[i].signed);
        MonthsFollowTicks(sales[i].signed, end);
      }
      BetweenAll(sales, k0, k1 + 1);
    }
  }

  // ---------------------------------------------------------------- payment status

  /** Where a contract's payment stands, as the report's three counters name it. */
  datatype Standing = Completed | Outstanding | Lost {
    function Label(): string {
      match this
      case Completed => "Completed"
      case Outstanding => "Pending"
      case Lost => "Failed"
    }
  }

  /** The payment of the contract's first invoice: Successful is Completed, Failed or
      Refunded is Lost, anything else, and no invoice or payment at all, is Outstanding. */
  function StandingOf(s: Store, c: Row<Contract>): Standing {
    match First(s.invoices, (i: Row<Invoice>) => i.val.contractId == c.id)
    case None => Outstanding
    case Some(inv) =>
      if inv.val.paymentId.None? || Get(s.payments, inv.val.paymentId.value).None? then Outstanding
      else
        var st := Get(s.payments, inv.val.paymentId.value).value.status;
        if st == Successful then Completed
        else if st == PaymentStatus.Failed || st == Refunded then Lost
        else Outstanding
  }

  /** How many of the contracts stand at `x`. */
  function CountStanding(s: Store, rows: seq<Row<Contract>>, x: Standing): (n: nat)
    ensures n <= |rows|
    decreases |rows|
  {
    if |rows| == 0 then 0
    else CountStanding(s, rows[..|rows| - 1], x) + (if StandingOf(s, rows[|rows| - 1]) == x then 1 else 0)
  }

  /** The three counters, keyed by label. */
  function Counters(completed: nat, pending: nat, failed: nat): map<string, nat> {
    map["Completed" := completed, "Pending" := pending, "Failed" := failed]
  }

  /** The payment-status counters of the period's contracts: every contract is counted under
      exactly one of the three labels. */
  method PaymentBreakdown(s: Store, rows: seq<Row<Contract>>) returns (counts: map<string, nat>)
    ensures counts.Keys == {"Completed", "Pending", "Failed"}
    ensures counts["Completed"] + counts["Pending"] + counts["Failed"] == |rows|
    ensures forall x: Standing :: counts[x.Label()] == CountStanding(s, rows, x)
  {
    var completed, pending, failed := 0, 0, 0;
    var i := 0;
    while i < |rows|
      invariant 0 <= i <= |rows|
      decreases |rows| - i
      invariant completed == CountStanding(s, rows[..i], Completed)
      invariant pending == CountStanding(s, rows[..i], Outstanding)
      invariant failed == CountStanding(s, rows[..i], Lost)
      invariant completed + pending + failed == i
    {
      assert rows[..i + 1][..i] == rows[..i];
      match StandingOf(s, rows[i]) {
        case Completed => completed := completed + 1;
        case Outstanding => pending := pending + 1;
        case Lost => failed := failed + 1;
      }
      i := i + 1;
    }
    assert rows[..i] == rows;
    counts := Counters(completed, pending, failed);
  }

  // ---------------------------------------------------------------- rankings

  /** A ranked company or provider: its key, the amount it spent or earned in the period and
      the number of its contracts signed in the period. */
  datatype Ranked = Ranked(id: nat, amount: int, contracts: nat)

  function Amount(r: Ranked): Key {
    Some(r.amount)
  }

  /** Spent or earned something in the period. */
  predicate Positive(x: Ranked) {
    x.amount > 0
  }

  /** `Where(amount > 0).OrderByDescending(amount).Take(10)`. */
  function TopTen(candidates: seq<Ranked>): (r: seq<Ranked>)
    ensures |r| <= TopCount
    ensures |r| == (if Count(candidates, Positive) < TopCount then Count(candidates, Positive) else TopCount)
    ensures multiset(r) <= multiset(candidates)
    ensures forall x :: x in r ==> x in candidates && x.amount > 0
    ensures SortedBy(r, Amount, true)
    ensures forall x :: x in candidates && x.amount > 0 && x !in r ==> forall y :: y in r ==> x.amount <= y.amount
  {
    var positive := Filter(candidates, Positive);
    FilterSub(candidates, Positive);
    var r := TopBy(positive, Amount, true, TopCount);
    PositiveLeftOutNotHigher(candidates, r);
    r
  }

  /** A positive candidate the top ten leaves out has no more than any listed one. */
  lemma PositiveLeftOutNotHigher(candidates: seq<Ranked>, r: seq<Ranked>)
    requires r == TopBy(Filter(candidates, Positive), Amount, true, TopCount)
    ensures forall x :: x in r ==> x in candidates && x.amount > 0
    ensures forall x :: x in candidates && x.amount > 0 && x !in r ==> forall y :: y in r ==> x.amount <= y.amount
  {
    var positive := Filter(candidates, Positive);
    FilterKeeps(candidates, Positive);
    forall x | x in r ensures x in candidates && x.amount > 0 {
      assert x in positive;
    }
    forall x, y | x in candidates && x.amount > 0 && x !in r && y in r ensures x.amount <= y.amount {
      assert x in positive;
      assert InOrder(Amount(y), Amount(x), true);
    }
  }

  /** Whose contract it is: the company's for the spending ranking, the provider's for the
      earnings ranking. */
  predicate PaidBy(id: nat, c: Contract) {
    c.companyId == id
  }

  predicate EarnedBy(id: nat, c: Contract) {
    c.providerId == id
  }

  /** What the contracts of `id` (as `party` assigns them) spent in the period (a contract
      without a bid counts nothing) and how many of them were signed in it. */
  function Spending(s: Store, party: (nat, Contract) -> bool, id: nat, start: Instant, end: Instant): (int, nat) {
    var signed := Filter(Values(s.contracts), (c: Contract) => party(id, c) && InPeriod(c, start, end));
    (Sum(Filter(signed, (c: Contract) => Get(s.bids, c.bidId).Some?), (c: Contract) => BidPrice(s, c)), |signed|)
  }

  /** The ranking candidates: each key with what its contracts spent and how many there were. */
  function Candidates(s: Store, ids: seq<nat>, party: (nat, Contract) -> bool, start: Instant, end: Instant): (r: seq<Ranked>)
    ensures |r| == |ids|
    ensures forall i :: 0 <= i < |ids| ==>
      r[i] == Ranked(ids[i], Spending(s, party, ids[i], start, end).0, Spending(s, party, ids[i], start, end).1)
  {
    seq(|ids|, i requires 0 <= i < |ids| =>
      Ranked(ids[i], Spending(s, party, ids[i], start, end).0, Spending(s, party, ids[i], start, end).1))
  }

  /** The keys of the approved companies, one per approved row. */
  function ApprovedCompanies(s: Store): (ids: seq<nat>)
    ensures forall id :: id in ids <==>
      exists i :: 0 <= i < |s.companies| && s.companies[i].id == id && s.companies[i].val.isApproved == Some(true)
  {
    var isApproved := (c: Row<Company>) => c.val.isApproved == Some(true);
    var approved := Filter(s.companies, isApproved);
    FilterKeeps(s.companies, isApproved);
    var ids := seq(|approved|, i requires 0 <= i < |approved| => approved[i].id);
    forall id | id in ids
      ensures exists i :: 0 <= i < |s.companies| && s.companies[i].id == id && s.companies[i].val.isApproved == Some(true)
    {
      var j :| 0 <= j < |ids| && ids[j] == id;
      assert approved[j] in multiset(approved);
    }
    forall i | 0 <= i < |s.companies| && s.companies[i].val.isApproved == Some(true) ensures s.companies[i].id in ids {
      assert s.companies[i] in approved;
      var j :| 0 <= j < |approved| && approved[j] == s.companies[i];
      assert ids[j] == s.companies[i].id;
    }
    ids
  }

  /** The keys of the approved providers, one per approved row. */
  function ApprovedProviders(s: Store): (ids: seq<nat>)
    ensures forall id :: id in ids <==>
      exists i :: 0 <= i < |s.providers| && s.providers[i].id == id && s.providers[i].val.isApproved == Some(true)
  {
    var isApproved := (p: Row<Provider>) => p.val.isApproved == Some(true);
    var approved := Filter(s.providers, isApproved);
    FilterKeeps(s.providers, isApproved);
    var ids := seq(|approved|, i requires 0 <= i < |approved| => approved[i].id);
    forall id | id in ids
      ensures exists i :: 0 <= i < |s.providers| && s.providers[i].id == id && s.providers[i].val.isApproved == Some(true)
    {
      var j :| 0 <= j < |ids| && ids[j] == id;
      assert approved[j] in multiset(approved);
    }
    forall i | 0 <= i < |s.providers| && s.providers[i].val.isApproved == Some(true) ensures s.providers[i].id in ids {
      assert s.providers[i] in approved;
      var j :| 0 <= j < |approved| && approved[j] == s.providers[i];
      assert ids[j] == s.providers[i].id;
    }
    ids
  }

  /** How many of `ids` spent something in the period, a key counted once per occurrence. */
  function Spenders(s: Store, ids: seq<nat>, party: (nat, Contract) -> bool, start: Instant, end: Instant): nat
  {
    if |ids| == 0 then 0
    else
      Spenders(s, ids[..|ids| - 1], party, start, end) +
      (if Spending(s, party, ids[|ids| - 1], start, end).0 > 0 then 1 else 0)
  }

  /** The positive candidates built from `ids` are as many as the keys that spent something. */
  lemma {:induction false} SpendersArePositive(s: Store, ids: seq<nat>, party: (nat, Contract) -> bool, start: Instant, end: Instant)
    ensures Count(Candidates(s, ids, party, start, end), Positive) == Spenders(s, ids, party, start, end)
    decreases |ids|
  {
    if |ids| > 0 {
      var n := |ids|;
      var c := Candidates(s, ids, party, start, end);
      var front := ids[..n - 1];
      SpendersArePositive(s, front, party, start, end);
      assert c[..n - 1] == Candidates(s, front, party, start, end);
      assert Filter(c, Positive) ==
        Filter(c[..n - 1], Positive) + (if Positive(c[n - 1]) then [c[n - 1]] else []);
    }
  }

  /** A ranking of `ids` by what `party` assigns them, as long as the keys that spent something
      allow up to ten: every entry is one of the keys with
      its real spending and contract count in the period, spending positive, highest first;
      and no key left out spent more than a listed one. */
  ghost predicate IsRanking(r: seq<Ranked>, s: Store, ids: seq<nat>, party: (nat, Contract) -> bool, start: Instant, end: Instant) {
    |r| == (if Spenders(s, ids, party, start, end) < TopCount then Spenders(s, ids, party, start, end) else TopCount) &&
    SortedBy(r, Amount, true) &&
    (forall x :: x in r ==>
       x.id in ids && x.amount > 0 &&
       x.amount == Spending(s, party, x.id, start, end).0 && x.contracts == Spending(s, party, x.id, start, end).1) &&
    (forall id :: id in ids && Spending(s, party, id, start, end).0 > 0 && (forall x :: x in r ==> x.id != id) ==>
       forall y :: y in r ==> Spending(s, party, id, start, end).0 <= y.amount)
  }

  /** The top ten of a candidate list built from `ids` is a ranking of them. */
  lemma TopTenRanks(s: Store, ids: seq<nat>, party: (nat, Contract) -> bool, start: Instant, end: Instant)
    ensures IsRanking(TopTen(Candidates(s, ids, party, start, end)), s, ids, party, start, end)
  {
    var candidates := Candidates(s, ids, party, start, end);
    var r := TopTen(candidates);
    SpendersArePositive(s, ids, party, start, end);
    forall x | x in r
      ensures x.id in ids && x.amount == Spending(s, party, x.id, start, end).0 &&
              x.contracts == Spending(s, party, x.id, start, end).1
    {
      var j :| 0 <= j < |candidates| && candidates[j] == x;
    }
    forall id | id in ids && Spending(s, party, id, start, end).0 > 0 && (forall x :: x in r ==> x.id != id)
      ensures forall y :: y in r ==> Spending(s, party, id, start, end).0 <= y.amount
    {
      var j :| 0 <= j < |ids| && ids[j] == id;
      assert candidates[j] in candidates && candidates[j] !in r;
    }
  }

  /** The approved companies, ranked by what they spent on contracts signed in the period. */
  function TopCompanies(s: Store, start: Instant, end: Instant): (r: seq<Ranked>)
    ensures IsRanking(r, s, ApprovedCompanies(s), PaidBy, start, end)
    ensures forall x :: x in r ==>
      exists i :: 0 <= i < |s.companies| && s.companies[i].id == x.id && s.companies[i].val.isApproved == Some(true)
  {
    TopTenRanks(s, ApprovedCompanies(s), PaidBy, start, end);
    TopTen(Candidates(s, ApprovedCompanies(s), PaidBy, start, end))
  }

  /** The approved providers, ranked by what they earned on contracts signed in the period. */
  function TopProviders(s: Store, start: Instant, end: Instant): (r: seq<Ranked>)
    ensures IsRanking(r, s, ApprovedProviders(s), EarnedBy, start, end)
    ensures forall x :: x in r ==>
      exists i :: 0 <= i < |s.providers| && s.providers[i].id == x.id && s.providers[i].val.isApproved == Some(true)
  {
    TopTenRanks(s, ApprovedProviders(s), EarnedBy, start, end);
    TopTen(Candidates(s, ApprovedProviders(s), EarnedBy, start, end))
  }

  // ---------------------------------------------------------------- the report

  datatype RevenueReport = RevenueReport(
    start: Instant,
    end: Instant,
    totalRevenue: int,
    totalCommission: real,
    commissionRate: nat,
    totalContracts: nat,
    paymentStatus: map<string, nat>,
    monthly: seq<MonthRevenue>,
    contracts: seq<Row<Contract>>,
    topCompanies: seq<Ranked>,
    topProviders: seq<Ranked>)

  /** The contracts signed within the period, in table order. */
  function PeriodContracts(s: Store, start: Instant, end: Instant): (r: seq<Row<Contract>>)
    ensures forall c :: c in r <==> c in s.contracts && InPeriod(c.val, start, end)
    ensures forall i :: 0 <= i < |r| ==> r[i].val.signDate.Some?
  {
    FilterKeeps(s.contracts, (c: Row<Contract>) => InPeriod(c.val, start, end));
    Filter(s.contracts, (c: Row<Contract>) => InPeriod(c.val, start, end))
  }

  /** The monthly loop steps from the period's first month to its last, and each step asks
      for the month after the current one; a step on December 9999 asks for a month that
      `System.DateTime` cannot hold, so the loop throws exactly when it runs at all and its
      last month is December 9999 or later. */
  predicate MonthLoopOverflows(startMonth: int, endMonth: int) {
    startMonth <= endMonth && endMonth >= Calendar.LastMonth
  }

  /** A period whose start month or end lies before 1753 cannot be bound to the period query:
      its bounds are compared with the `datetime` sign date, whose parameters start in 1753. */
  predicate BeforeDateTime(startMonth: int, end: Instant) {
    startMonth < Forms.DateTimeFirstYear * 12 || end.year < Forms.DateTimeFirstYear
  }

  /** `Revenue`: the period runs from `startDate`, or the same moment a month before now,
      to `endDate`, or now. A month back from January of year 1 does not exist, and neither
      does the month after December 9999, which the monthly loop asks for when the period
      reaches that month; a bound before 1753 overflows the query's `datetime` parameters;
      the action then falls back to the dashboard (`None`). Otherwise the report covers exactly
      the contracts signed in the period; its commission is a tenth of its revenue; every
      contract is counted once among the payment statuses; and the monthly lines add up to
      the period's revenue. */
  method Revenue(s: Store, startDate: Option<Instant>, endDate: Option<Instant>, now: Instant)
    returns (r: Option<RevenueReport>)
    ensures r.None? <==>
      (startDate.None? && MonthIndex(now) < 13) ||
      MonthLoopOverflows(if startDate.Some? then MonthIndex(startDate.value) else MonthIndex(now) - 1,
                         MonthIndex(endDate.GetOr(now))) ||
      BeforeDateTime(if startDate.Some? then MonthIndex(startDate.value) else MonthIndex(now) - 1, endDate.GetOr(now))
    ensures r.Some? ==>
      var rep := r.value;
      (startDate.Some? ==> rep.start == startDate.value) &&
      (startDate.None? ==> MonthIndex(rep.start) == MonthIndex(now) - 1 && rep.start.tick == now.tick) &&
      rep.end == endDate.GetOr(now) &&
      (forall c :: c in rep.contracts <==> c in s.contracts && InPeriod(c.val, rep.start, rep.end)) &&
      rep.totalContracts == |rep.contracts| &&
      rep.paymentStatus.Keys == {"Completed", "Pending", "Failed"} &&
      rep.paymentStatus["Completed"] + rep.paymentStatus["Pending"] + rep.paymentStatus["Failed"] == rep.totalContracts &&
      rep.commissionRate == CommissionPercent &&
      rep.totalCommission * 100.0 == (rep.totalRevenue * CommissionPercent) as real &&
      Revenues(rep.monthly) == rep.totalRevenue &&
      |rep.topCompanies| <= TopCount && |rep.topProviders| <= TopCount
    ensures r.Some? ==>
      var rep := r.value;
      rep.contracts == PeriodContracts(s, rep.start, rep.end) &&
      rep.totalRevenue == Total(Sales(s, rep.contracts)) &&
      (forall x: Standing :: rep.paymentStatus[x.Label()] == CountStanding(s, rep.contracts, x)) &&
      MonthIndex(rep.start) >= 12 && MonthlyLines(rep.monthly, Sales(s, rep.contracts), rep.start, rep.end) &&
      rep.topCompanies == TopCompanies(s, rep.start, rep.end) && rep.topProviders == TopProviders(s, rep.start, rep.end)
  {
    if startDate.None? && MonthIndex(now) < 13 {
      return None;
    }
    var start := if startDate.Some? then startDate.value else AddMonths(now, -1);
    var end := endDate.GetOr(now);
    if MonthLoopOverflows(MonthIndex(start), MonthIndex(end)) || BeforeDateTime(MonthIndex(start), end) {
      return None;
    }
    var rows := PeriodContracts(s, start, end);
    var sales := Sales(s, rows);
    forall i | 0 <= i < |sales|
      ensures Ticks(start) <= Ticks(sales[i].signed) <= Ticks(end)
    {
      assert rows[i] in rows;
    }
    var total := Total(sales);
    var counts := PaymentBreakdown(s, rows);
    var months := MonthlyRevenue(sales, start, end);
    r := Some(RevenueReport(start, end, total, Commission(total), CommissionPercent, |rows|, counts, months, rows,
      TopCompanies(s, start, end), TopProviders(s, start, end)));
  }
}

=== FILE: request_responses.dfy ===
/** A provider's side of a direct request: the list of requests awaiting an answer, answering
    one with a price, days and notes, or declining it. */
module RequestResponses {
  import opened Wrappers
  import opened Tables
  import opened Constants
  import opened Listing
  import opened Marketplace
  import Forms
  import CompanyProviders

  /** The caller's bid with key `id` when it is a direct request still under review. */
  function OpenRequest(s: Store, userId: nat, id: nat): (r: Option<Bid>)
    ensures r.Some? <==> ProviderBid(s, userId, id).Some? && ProviderBid(s, userId, id).value.status == UnderReview
    ensures r.Some? ==> r == Get(s.bids, id)
  {
    match ProviderBid(s, userId, id)
    case None => None
    case Some(b) => if b.status == UnderReview then Some(b) else None
  }

  /** The bid as a response leaves it: the form's price, days and notes, status unchanged. */
  function Answered(b: Bid, f: Forms.BidResponseForm): Bid {
    b.(price := f.bidPrice, days := f.estimatedDays, notes := f.bidNotes)
  }

  /** `Respond` as the code does it: the form rules allow 500 characters of notes, but the
      notes column holds 255, so a valid response with longer notes is refused by the
      database and nothing is saved. */
  function RespondAsWritten(s: Store, userId: nat, id: nat, f: Forms.BidResponseForm): (r: Result<Store, Error>)
    ensures r.Success? <==>
      OpenRequest(s, userId, id).Some? && Forms.BidResponseFormValid(f) &&
      Forms.FitsColumn(f.bidNotes, Forms.BidNotesColumnWidth)
    ensures (OpenRequest(s, userId, id).Some? && !Forms.BidResponseFormValid(f)) ==> r == Failure(InvalidForm)
    ensures (OpenRequest(s, userId, id).Some? && Forms.BidResponseFormValid(f) &&
             !Forms.FitsColumn(f.bidNotes, Forms.BidNotesColumnWidth)) ==> r == Failure(SaveFailed)
    ensures r.Success? ==> r.value == s.(bids := Put(s.bids, id, Answered(OpenRequest(s, userId, id).value, f)))
  {
    if ProviderOf(s, userId).None? then Failure(ProfileNotFound)
    else
      match OpenRequest(s, userId, id)
      case None => Failure(NotFound)
      case Some(b) =>
        if !Forms.BidResponseFormValid(f) then Failure(InvalidForm)
        else if !Forms.FitsColumn(f.bidNotes, Forms.BidNotesColumnWidth) then Failure(SaveFailed)
        else Success(s.(bids := Put(s.bids, id, Answered(b, f))))
  }

  /** A valid response with 300 characters of notes is lost: the form accepts it and the
      save fails. */
  lemma LongNotesAreLost(s: Store, userId: nat, id: nat)
    requires OpenRequest(s, userId, id).Some?
    ensures var f := Forms.BidResponseForm(Some(1), Some(1), Some(seq(300, _ => 'x')));
      Forms.BidResponseFormValid(f) && RespondAsWritten(s, userId, id, f) == Failure(SaveFailed)
  {
    assert seq(300, _ => 'x')[0] == 'x';
  }

  /** `Respond`: on the caller's own direct request under review, with a form whose notes
      fit the notes column, the bid takes the form's price, days and notes and stays
      UnderReview. Any other form is refused and changes nothing. */
  function Respond(s: Store, userId: nat, id: nat, f: Forms.BidResponseForm): (r: Result<Store, Error>)
    ensures r.Success? <==> OpenRequest(s, userId, id).Some? && Forms.BidResponseFormFits(f)
    ensures (OpenRequest(s, userId, id).Some? && !Forms.BidResponseFormFits(f)) ==> r == Failure(InvalidForm)
    ensures r.Success? ==>
      r.value == s.(bids := Put(s.bids, id, Answered(OpenRequest(s, userId, id).value, f))) &&
      Forms.FitsColumn(f.bidNotes, Forms.BidNotesColumnWidth)
  {
    if ProviderOf(s, userId).None? then Failure(ProfileNotFound)
    else
      match OpenRequest(s, userId, id)
      case None => Failure(NotFound)
      case Some(b) =>
        if !Forms.BidResponseFormFits(f) then Failure(InvalidForm)
        else Success(s.(bids := Put(s.bids, id, Answered(b, f))))
  }

  /** The corrected `Respond` succeeds on exactly the responses the code saves, storing the
      same bid, and refuses as an invalid form exactly the valid responses whose save fails. */
  lemma RespondMatchesAsWritten(s: Store, userId: nat, id: nat, f: Forms.BidResponseForm)
    ensures Respond(s, userId, id, f).Success? <==> RespondAsWritten(s, userId, id, f).Success?
    ensures Respond(s, userId, id, f).Success? ==> Respond(s, userId, id, f) == RespondAsWritten(s, userId, id, f)
    ensures RespondAsWritten(s, userId, id, f) == Failure(SaveFailed) <==>
      Respond(s, userId, id, f) == Failure(InvalidForm) && Forms.BidResponseFormValid(f)
  {
  }

  /** An answered direct request is one the company can accept or reject: the bid is still
      UnderReview and its price, coming from a valid form, is positive. */
  lemma RespondEnablesDecision(s: Store, userId: nat, id: nat, f: Forms.BidResponseForm, companyUser: nat)
    requires Respond(s, userId, id, f).Success?
    requires CompanyBid(s, companyUser, id).Some?
    ensures CompanyProviders.AnsweredBid(Respond(s, userId, id, f).value, companyUser, id).Some?
  {
    var b := OpenRequest(s, userId, id).value;
    var b' := Answered(b, f);
    var t := s.(bids := Put(s.bids, id, b'));
    assert Respond(s, userId, id, f).value == t;
    PutGet(s.bids, id, b');
    Forms.ResponseFormFacts(f);
    assert RequestOf(t, b') == RequestOf(s, b);
    assert CompanyBid(t, companyUser, id) == Some(b');
  }

  /** Some bid on request `requestId` is still UnderReview. */
  predicate AnyUnderReview(bids: Table<Bid>, requestId: nat) {
    exists i :: 0 <= i < |bids| && bids[i].val.requestId == requestId && bids[i].val.status == UnderReview
  }

  /** `Decline`: deletes the caller's own direct request under review. When no bid on that
      request remains UnderReview, the request goes back to Pending whatever its status was;
      otherwise it is left as it is. */
  function Decline(s: Store, userId: nat, id: nat, now: Instant): (r: Result<Store, Error>)
    ensures r.Success? <==> ProviderOf(s, userId).Some? && OpenRequest(s, userId, id).Some?
    ensures r.Success? ==>
      var b := OpenRequest(s, userId, id).value;
      var bids := Remove(s.bids, id);
      r.value.bids == bids && !HasKey(bids, id) &&
      (AnyUnderReview(bids, b.requestId) ==> r.value == s.(bids := bids)) &&
      (!AnyUnderReview(bids, b.requestId) && Get(s.requests, b.requestId).Some? ==>
         r.value == s.(bids := bids, requests := Put(s.requests, b.requestId,
                                     WithStatus(Get(s.requests, b.requestId).value, RequestStatus.Pending, now))))
  {
    if ProviderOf(s, userId).None? then Failure(ProfileNotFound)
    else
      match OpenRequest(s, userId, id)
      case None => Failure(NotFound)
      case Some(b) =>
        var bids := Remove(s.bids, id);
        if AnyUnderReview(bids, b.requestId) then Success(s.(bids := bids))
        else
          match Get(s.requests, b.requestId)
          case None => Success(s.(bids := bids))
          case Some(req) =>
            Success(s.(bids := bids, requests := Put(s.requests, b.requestId, WithStatus(req, RequestStatus.Pending, now))))
  }

  /** After a decline, the request is Pending exactly when no direct request on it is left
      under review or it was Pending already; every other request keeps its status. */
  lemma DeclineReverts(s: Store, userId: nat, id: nat, now: Instant, other: nat)
    requires Decline(s, userId, id, now).Success?
    ensures var b := OpenRequest(s, userId, id).value;
      var t := Decline(s, userId, id, now).value;
      (Get(s.requests, b.requestId).Some? ==>
        Get(t.requests, b.requestId).Some? &&
        (Get(t.requests, b.requestId).value.status == RequestStatus.Pending <==>
          !AnyUnderReview(t.bids, b.requestId) || Get(s.requests, b.requestId).value.status == RequestStatus.Pending)) &&
      (other != b.requestId ==> Get(t.requests, other) == Get(s.requests, other))
  {
    var b := OpenRequest(s, userId, id).value;
    var t := Decline(s, userId, id, now).value;
    if Get(s.requests, b.requestId).Some? && !AnyUnderReview(t.bids, b.requestId) {
      var req := Get(s.requests, b.requestId).value;
      PutGet(s.requests, b.requestId, WithStatus(req, RequestStatus.Pending, now));
      if other != b.requestId {
        PutGetOther(s.requests, b.requestId, WithStatus(req, RequestStatus.Pending, now), other);
      }
    }
  }

  /** The provider's own direct requests under review, newest first. */
  function Waiting(s: Store, providerId: nat): (r: seq<Bid>)
    ensures multiset(r) == multiset(Filter(Values(s.bids), (b: Bid) => b.providerId == providerId && b.status == UnderReview))
    ensures SortedBy(r, (b: Bid) => Stamp(b.submitDate), true)
  {
    SortBy(Filter(Values(s.bids), (b: Bid) => b.providerId == providerId && b.status == UnderReview),
           (b: Bid) => Stamp(b.submitDate), true)
  }

  datatype WaitingPage = WaitingPage(items: seq<Bid>, totalItems: nat, totalPages: nat)

  /** `Index`: page `page` of `pageSize` requests, newest first, with the total counted before
      paging. The database refuses a page number below 1 or a page size below 1, and the
      action then shows an empty list without counts: `QueryFailed`. */
  function Index(s: Store, userId: nat, page: int, pageSize: int): (r: Result<WaitingPage, Error>)
    ensures ProviderOf(s, userId).None? ==> r == Failure(ProfileNotFound)
    ensures r.Success? <==> ProviderOf(s, userId).Some? && page >= 1 && pageSize >= 1
    ensures ProviderOf(s, userId).Some? && !(page >= 1 && pageSize >= 1) ==> r == Failure(QueryFailed)
    ensures r.Success? ==>
      var all := Waiting(s, ProviderOf(s, userId).value);
      r.value.totalItems == |all| && r.value.totalPages == TotalPages(|all|, pageSize) &&
      IsPageOf(r.value.items, all, page, pageSize) && (|r.value.items| > 0 <==> page <= r.value.totalPages)
  {
    match ProviderOf(s, userId)
    case None => Failure(ProfileNotFound)
    case Some(p) =>
      var all := Waiting(s, p);
      match OffsetFetch(all, page, pageSize)
      case None => Failure(QueryFailed)
      case Some(items) => Success(WaitingPage(items, |all|, TotalPages(|all|, pageSize)))
  }
}

=== FILE: services.dfy ===
/** The shared services: the Bootstrap colour and icon of each status and the counters of
    the provider's sidebar. */
module Services {
  import opened Wrappers
  import opened Text
  import opened Constants
  import opened Tables
  import opened Listing
  import opened Marketplace
  import Calendar

  // ---------------------------------------------------------------- status colours and icons

  /** The colour of each request status, by enumeration; DirectRequest has none of its own. */
  function RequestColor(st: RequestStatus): string {
    match st
    case Pending => "warning"
    case Bidding => "info"
    case Assigned => "primary"
    case Accepted => "success"
    case InProgress => "primary"
    case Delivered => "success"
    case Cancelled => "danger"
    case Failed => "dark"
    case DirectRequest => "secondary"
  }

  /** `GetShipmentStatusColor`: total over strings; a request status gets its colour and
      any other string the default "secondary". */
  function ShipmentStatusColor(status: string): (c: string)
    ensures ParseRequestStatus(status).Some? ==> c == RequestColor(ParseRequestStatus(status).value)
    ensures ParseRequestStatus(status).None? ==> c == "secondary"
  {
    if status == "Pending" then "warning"
    else if status == "Bidding" then "info"
    else if status == "Assigned" then "primary"
    else if status == "Accepted" then "success"
    else if status == "InProgress" then "primary"
    else if status == "Delivered" then "success"
    else if status == "Cancelled" then "danger"
    else if status == "Failed" then "dark"
    else "secondary"
  }

  /** The colour of each bid status; ContractCreated has none of its own. */
  function BidColor(st: BidStatus): string {
    match st
    case Submitted => "info"
    case UnderReview => "warning"
    case Accepted => "success"
    case Rejected => "danger"
    case Cancelled => "secondary"
    case ContractCreated => "secondary"
  }

  /** `GetBidStatusColor`. */
  function BidStatusColor(status: string): (c: string)
    ensures ParseBidStatus(status).Some? ==> c == BidColor(ParseBidStatus(status).value)
    ensures ParseBidStatus(status).None? ==> c == "secondary"
  {
    if status == "Submitted" then "info"
    else if status == "UnderReview" then "warning"
    else if status == "Accepted" then "success"
    else if status == "Rejected" then "danger"
    else "secondary"
  }

  function PaymentColor(st: PaymentStatus): string {
    match st
    case Successful => "success"
    case Pending => "warning"
    case Processing => "info"
    case Failed => "danger"
    case Refunded => "secondary"
  }

  /** `GetPaymentStatusColor`. */
  function PaymentStatusColor(status: string): (c: string)
    ensures ParsePaymentStatus(status).Some? ==> c == PaymentColor(ParsePaymentStatus(status).value)
    ensures ParsePaymentStatus(status).None? ==> c == "secondary"
  {
    if status == "Successful" then "success"
    else if status == "Pending" then "warning"
    else if status == "Processing" then "info"
    else if status == "Failed" then "danger"
    else "secondary"
  }

  function PaymentIcon(st: PaymentStatus): string {
    match st
    case Successful => "check-circle"
    case Pending => "clock"
    case Processing => "arrow-repeat"
    case Failed => "x-circle"
    case Refunded => "arrow-counterclockwise"
  }

  /** `GetPaymentStatusIcon`: a payment status gets its icon, anything else "question-circle". */
  function PaymentStatusIcon(status: string): (c: string)
    ensures ParsePaymentStatus(status).Some? ==> c == PaymentIcon(ParsePaymentStatus(status).value)
    ensures ParsePaymentStatus(status).None? ==> c == "question-circle"
  {
    if status == "Successful" then "check-circle"
    else if status == "Pending" then "clock"
    else if status == "Processing" then "arrow-repeat"
    else if status == "Failed" then "x-circle"
    else if status == "Refunded" then "arrow-counterclockwise"
    else "question-circle"
  }

  /** Every stored status string gets the colour its enumeration gives it. */
  lemma ColorsFollowStatuses(r: RequestStatus, b: BidStatus, p: PaymentStatus)
    ensures ShipmentStatusColor(r.Name()) == RequestColor(r)
    ensures BidStatusColor(b.Name()) == BidColor(b)
    ensures PaymentStatusColor(p.Name()) == PaymentColor(p) && PaymentStatusIcon(p.Name()) == PaymentIcon(p)
  {
    RequestStatusNames(r);
    BidStatusNames(b);
    PaymentStatusNames(p);
  }

  // ---------------------------------------------------------------- provider sidebar

  datatype ProviderStats = ProviderStats(
    totalBids: nat,
    activeBids: nat,
    wonContracts: nat,
    averageRating: real,
    totalReviews: nat,
    directRequests: nat)

  function BidOf(p: nat): Bid -> bool { (b: Bid) => b.providerId == p }

  function ContractOf(p: nat): Contract -> bool { (c: Contract) => c.providerId == p }

  function FeedbackOf(p: nat): Feedback -> bool { (f: Feedback) => f.providerId == p }

  predicate IsSubmitted(b: Bid) { b.status == Submitted }

  predicate IsUnderReview(b: Bid) { b.status == UnderReview }

  function RatingOrZero(f: Feedback): int { f.rating.GetOr(0) }

  /** `feedbacks.Any() ? feedbacks.Average(f => f.Rating ?? 0) : 0`. */
  function AverageRating(feedbacks: seq<Feedback>): (a: real)
    ensures |feedbacks| == 0 ==> a == 0.0
    ensures |feedbacks| > 0 ==> a * |feedbacks| as real == Sum(feedbacks, RatingOrZero) as real
    ensures RatingsInRange(feedbacks) ==> 0.0 <= a <= 5.0
  {
    if |feedbacks| == 0 then 0.0
    else
      var total := Sum(feedbacks, RatingOrZero);
      if RatingsInRange(feedbacks) then
        RatingsBounded(feedbacks);
        MeanBounds(total, |feedbacks|);
        total as real / |feedbacks| as real
      else total as real / |feedbacks| as real
  }

  /** Every rating, or 0 for a missing one, lies between 0 and 5. */
  predicate RatingsInRange(feedbacks: seq<Feedback>) {
    forall i :: 0 <= i < |feedbacks| ==> 0 <= RatingOrZero(feedbacks[i]) <= 5
  }

  lemma RatingsBounded(feedbacks: seq<Feedback>)
    requires RatingsInRange(feedbacks)
    ensures 0 <= Sum(feedbacks, RatingOrZero) <= 5 * |feedbacks|
  {
    SumBounds(feedbacks, RatingOrZero, 0, 5);
  }

  /** A total between 0 and 5 per item averages to between 0 and 5. */
  lemma MeanBounds(total: int, n: int)
    requires n > 0 && 0 <= total <= 5 * n
    ensures 0.0 <= total as real / n as real <= 5.0
  {
    var q := total as real / n as real;
    assert q * n as real == total as real;
  }

  /** The sidebar's counters for the signed-in provider: nothing without a user id in the
      claims or a provider profile; otherwise open (Submitted) bids and direct requests
      (UnderReview bids) are counted apart among the provider's bids. */
  function Sidebar(s: Store, userId: Option<nat>): (r: Option<(nat, ProviderStats)>)
    ensures r.Some? <==> userId.Some? && ProviderOf(s, userId.value).Some?
    ensures r.Some? ==>
      var p := ProviderOf(s, userId.value).value;
      var st := r.value.1;
      r.value.0 == p &&
      st.totalBids == Count(Values(s.bids), BidOf(p)) &&
      st.activeBids + st.directRequests <= st.totalBids &&
      st.wonContracts == Count(Values(s.contracts), ContractOf(p)) &&
      st.totalReviews == Count(Values(s.feedbacks), FeedbackOf(p)) &&
      (st.totalReviews == 0 ==> st.averageRating == 0.0)
    ensures r.Some? ==>
      r.value.1.averageRating == AverageRating(Filter(Values(s.feedbacks), FeedbackOf(ProviderOf(s, userId.value).value)))
  {
    if userId.None? then None
    else
      match ProviderOf(s, userId.value)
      case None => None
      case Some(p) =>
        var bids := Filter(Values(s.bids), BidOf(p));
        var feedbacks := Filter(Values(s.feedbacks), FeedbackOf(p));
        CountDisjoint(bids, IsSubmitted, IsUnderReview, (b: Bid) => IsSubmitted(b) || IsUnderReview(b));
        Some((p, ProviderStats(|bids|, Count(bids, IsSubmitted), Count(Values(s.contracts), ContractOf(p)),
          AverageRating(feedbacks), |feedbacks|, Count(bids, IsUnderReview))))
  }

  /** `a` is the mean of the feedback ratings, a missing one counting 0, over `n` of them,
      and 0 when there are none. */
  predicate IsMeanRating(a: real, n: nat, feedbacks: seq<Feedback>) {
    n == |feedbacks| && (n == 0 ==> a == 0.0) &&
    (n > 0 ==> a * n as real == Sum(feedbacks, RatingOrZero) as real)
  }

  /** The average rating of a list of feedbacks is their mean rating. */
  lemma AverageIsMean(feedbacks: seq<Feedback>)
    ensures IsMeanRating(AverageRating(feedbacks), |feedbacks|, feedbacks)
  {
  }

  /** The sidebar's rating is the mean of the provider's feedback ratings over its reviews. */
  lemma SidebarAverage(s: Store, userId: nat)
    requires ProviderOf(s, userId).Some?
    ensures IsMeanRating(Sidebar(s, Some(userId)).value.1.averageRating, Sidebar(s, Some(userId)).value.1.totalReviews,
                         Filter(Values(s.feedbacks), FeedbackOf(ProviderOf(s, userId).value)))
  {
    var feedbacks := Filter(Values(s.feedbacks), FeedbackOf(ProviderOf(s, userId).value));
    var st := Sidebar(s, Some(userId)).value.1;
    assert st.averageRating == AverageRating(feedbacks) && st.totalReviews == |feedbacks|;
    AverageIsMean(feedbacks);
  }

  function BidOfIn(p: nat, st: BidStatus): Bid -> bool {
    (b: Bid) => b.providerId == p && b.status == st
  }

  /** The sidebar's open bids are exactly the provider's Submitted bids and its direct
      requests exactly the provider's UnderReview bids, each counted over all stored bids. */
  lemma SidebarCounts(s: Store, userId: nat)
    requires ProviderOf(s, userId).Some?
    ensures var p := ProviderOf(s, userId).value;
      var st := Sidebar(s, Some(userId)).value.1;
      st.activeBids == Count(Values(s.bids), BidOfIn(p, Submitted)) &&
      st.directRequests == Count(Values(s.bids), BidOfIn(p, UnderReview))
  {
    var p := ProviderOf(s, userId).value;
    FilterFilter(Values(s.bids), BidOf(p), IsSubmitted, BidOfIn(p, Submitted));
    FilterFilter(Values(s.bids), BidOf(p), IsUnderReview, BidOfIn(p, UnderReview));
  }
}

=== FILE: tables.dfy ===
/** A database table as the application sees it: rows in key order, each row a record with
    its identity key. New rows take the next key after the largest one in use, so the order
    of the sequence is both insertion order and ascending key order, and "the first matching
    row" is the one with the lowest key. */
module Tables {
  import opened Wrappers

  datatype Row<T> = Row(id: nat, val: T)

  type Table<T> = seq<Row<T>>

  /** Keys are positive and strictly increasing along the table. */
  predicate WellKeyed<T>(t: Table<T>) {
    (forall i :: 0 <= i < |t| ==> t[i].id >= 1) &&
    (forall i, j :: 0 <= i < j < |t| ==> t[i].id < t[j].id)
  }

  predicate HasKey<T>(t: Table<T>, id: nat) {
    exists i :: 0 <= i < |t| && t[i].id == id
  }

  /** The position of the row with key `id`, if any. */
  function IndexOf<T>(t: Table<T>, id: nat): (r: Option<nat>)
    ensures r.Some? ==> r.value < |t| && t[r.value].id == id
    ensures r.Some? ==> forall i :: 0 <= i < r.value ==> t[i].id != id
    ensures r.None? <==> !HasKey(t, id)
  {
    if |t| == 0 then None
    else if t[0].id == id then Some(0)
    else
      match IndexOf(t[1..], id)
      case None =>
        assert forall i :: 1 <= i < |t| ==> t[i] == t[1..][i - 1];
        None
      case Some(k) => Some(k + 1)
  }

  /** `Find(id)`: the row's value, or nothing when no row has that key. */
  function Get<T>(t: Table<T>, id: nat): (r: Option<T>)
    ensures r.Some? <==> HasKey(t, id)
    ensures r.Some? ==> exists i :: 0 <= i < |t| && t[i] == Row(id, r.value)
  {
    match IndexOf(t, id)
    case None => None
    case Some(i) => Some(t[i].val)
  }

  /** In a well-keyed table the row with a given key is the only one. */
  lemma GetUnique<T>(t: Table<T>, i: nat)
    requires WellKeyed(t) && i < |t|
    ensures Get(t, t[i].id) == Some(t[i].val)
  {
  }

  /** The key the database assigns to the next inserted row. */
  function NextKey<T>(t: Table<T>): (k: nat)
    ensures k >= 1
    ensures forall i :: 0 <= i < |t| ==> t[i].id < k
  {
    if |t| == 0 then 1
    else
      var rest := NextKey(t[..|t| - 1]);
      assert forall i :: 0 <= i < |t| - 1 ==> t[i] == t[..|t| - 1][i];
      if t[|t| - 1].id + 1 > rest then t[|t| - 1].id + 1 else rest
  }

  /** Add a row; returns the table and the key the row received. */
  function Insert<T>(t: Table<T>, v: T): (r: (Table<T>, nat))
    ensures r.0 == t + [Row(r.1, v)]
    ensures !HasKey(t, r.1) && r.1 >= 1
    ensures WellKeyed(t) ==> WellKeyed(r.0)
  {
    var k := NextKey(t);
    (t + [Row(k, v)], k)
  }

  /** The row `Insert` appends is the one its key finds. */
  lemma InsertGet<T>(t: Table<T>, v: T)
    ensures Get(Insert(t, v).0, Insert(t, v).1) == Some(v)
  {
    var (t', k) := Insert(t, v);
    assert t'[|t|] == Row(k, v);
    assert forall i :: 0 <= i < |t| ==> t'[i] == t[i] && t[i].id != k;
  }

  /** Overwrite the value of the row with key `id`; every other row, and the order, stay. */
  function Put<T>(t: Table<T>, id: nat, v: T): (r: Table<T>)
    ensures |r| == |t|
    ensures forall i :: 0 <= i < |t| ==> r[i].id == t[i].id
    ensures forall i :: 0 <= i < |t| ==> r[i].val == (if t[i].id == id then v else t[i].val)
    ensures WellKeyed(t) ==> WellKeyed(r)
  {
    seq(|t|, i requires 0 <= i < |t| => if t[i].id == id then Row(id, v) else t[i])
  }

  /** Reading back a key just overwritten gives the new value. */
  lemma PutGet<T>(t: Table<T>, id: nat, v: T)
    requires HasKey(t, id)
    ensures Get(Put(t, id, v), id) == Some(v)
  {
    var r := Put(t, id, v);
    assert HasKey(r, id) by {
      var i :| 0 <= i < |t| && t[i].id == id;
      assert r[i].id == id;
    }
  }

  /** Overwriting one key leaves what every other key reads unchanged. */
  lemma PutGetOther<T>(t: Table<T>, id: nat, v: T, other: nat)
    requires other != id
    ensures Get(Put(t, id, v), other) == Get(t, other)
  {
    var r := Put(t, id, v);
    assert HasKey(r, other) <==> HasKey(t, other) by {
      if HasKey(r, other) {
        var i :| 0 <= i < |r| && r[i].id == other;
        assert t[i].id == other;
      }
      if HasKey(t, other) {
        var i :| 0 <= i < |t| && t[i].id == other;
        assert r[i].id == other;
      }
    }
    if HasKey(t, other) {
      var k := IndexOf(t, other).value;
      assert IndexOf(r, other) == Some(k) by {
        var kr := IndexOf(r, other).value;
        assert t[kr].id == other;
        assert r[k].id == other;
      }
    }
  }

  /** Delete the row with key `id`; the others keep their order. */
  function Remove<T(!new)>(t: Table<T>, id: nat): (r: Table<T>)
    ensures forall x :: x in r <==> x in t && x.id != id
    ensures |r| <= |t|
    ensures !HasKey(r, id)
    ensures HasKey(t, id) ==> |r| < |t|
    decreases |t|
  {
    if |t| == 0 then []
    else
      var rest := Remove(t[1..], id);
      assert forall x :: x in t <==> x == t[0] || x in t[1..];
      HasKeyCons(t, id);
      var r := if t[0].id == id then rest else [t[0]] + rest;
      assert forall i :: 0 <= i < |r| ==> r[i] in r;
      r
  }

  /** Removing a row from a well-keyed table keeps it well keyed. */
  lemma {:induction false} RemoveWellKeyed<T(!new)>(t: Table<T>, id: nat)
    requires WellKeyed(t)
    ensures WellKeyed(Remove(t, id))
    decreases |t|
  {
    if |t| > 0 {
      TailWellKeyed(t);
      RemoveWellKeyed(t[1..], id);
      if t[0].id != id {
        ConsWellKeyed(t[0], Remove(t[1..], id));
      }
    }
  }

  /** Removing a key that is present shortens the table by one row; removing an absent key
      changes nothing. */
  lemma {:induction false} RemoveCount<T(!new)>(t: Table<T>, id: nat)
    requires WellKeyed(t)
    ensures HasKey(t, id) ==> |Remove(t, id)| == |t| - 1
    ensures !HasKey(t, id) ==> Remove(t, id) == t
    decreases |t|
  {
    if |t| > 0 {
      TailWellKeyed(t);
      var tail := t[1..];
      RemoveCount(tail, id);
      HasKeyCons(t, id);
      if t[0].id == id {
        assert !HasKey(tail, id) by {
          forall i | 0 <= i < |tail| ensures tail[i].id != id {
            assert tail[i] in tail;
          }
        }
      } else {
        assert t == [t[0]] + tail;
      }
    }
  }

  lemma HasKeyCons<T>(t: Table<T>, id: nat)
    requires |t| > 0
    ensures HasKey(t, id) <==> t[0].id == id || HasKey(t[1..], id)
  {
    var tail := t[1..];
    if HasKey(t, id) && t[0].id != id {
      var i :| 0 <= i < |t| && t[i].id == id;
      assert tail[i - 1].id == id;
    }
    if HasKey(tail, id) {
      var i :| 0 <= i < |tail| && tail[i].id == id;
      assert t[i + 1].id == id;
    }
  }

  lemma TailWellKeyed<T>(t: Table<T>)
    requires WellKeyed(t) && |t| > 0
    ensures WellKeyed(t[1..])
    ensures forall x :: x in t[1..] ==> t[0].id < x.id
  {
    var tail := t[1..];
    forall i, j | 0 <= i < j < |tail| ensures tail[i].id < tail[j].id {
      assert tail[i] == t[i + 1] && tail[j] == t[j + 1];
    }
    forall x | x in tail ensures t[0].id < x.id {
      var j :| 0 <= j < |tail| && tail[j] == x;
      assert t[j + 1] == x;
    }
  }

  lemma ConsWellKeyed<T>(x: Row<T>, rest: Table<T>)
    requires WellKeyed(rest) && x.id >= 1
    requires forall y :: y in rest ==> x.id < y.id
    ensures WellKeyed([x] + rest)
  {
    var t := [x] + rest;
    forall i, j | 0 <= i < j < |t| ensures t[i].id < t[j].id {
      assert t[j] == rest[j - 1];
      assert rest[j - 1] in rest;
      if i > 0 {
        assert t[i] == rest[i - 1];
      }
    }
  }

  /** `FirstOrDefault(p)`: the earliest row satisfying `p`, or nothing when no row does. */
  function First<T>(t: Table<T>, p: Row<T> -> bool): (r: Option<Row<T>>)
    ensures r.Some? ==>
      exists i :: 0 <= i < |t| && t[i] == r.value && p(t[i]) && forall j :: 0 <= j < i ==> !p(t[j])
    ensures r.None? <==> forall i :: 0 <= i < |t| ==> !p(t[i])
  {
    if |t| == 0 then None
    else if p(t[0]) then Some(t[0])
    else
      var rest := First(t[1..], p);
      assert forall i :: 1 <= i < |t| ==> t[i] == t[1..][i - 1];
      if rest.Some? then
        ghost var k :| 0 <= k < |t[1..]| && t[1..][k] == rest.value && p(t[1..][k]) &&
          forall j :: 0 <= j < k ==> !p(t[1..][j]);
        assert t[k + 1] == rest.value;
        rest
      else rest
  }

  /** The values of a table, in row order. */
  function Values<T>(t: Table<T>): (r: seq<T>)
    ensures |r| == |t| && forall i :: 0 <= i < |t| ==> r[i] == t[i].val
  {
    seq(|t|, i requires 0 <= i < |t| => t[i].val)
  }
}

=== FILE: text.dfy ===
/** Character classes, decimal rendering and the few string operations of the .NET base
    library that the application relies on. Character classes are the ASCII ones: .NET's
    `\d`, `char.IsDigit` and `char.IsWhiteSpace` also accept other Unicode characters,
    which this model does not. */
module Text {
  import opened Wrappers

  predicate IsDigit(c: char) { '0' <= c <= '9' }

  predicate IsLowerLetter(c: char) { 'a' <= c <= 'z' }

  predicate IsUpperLetter(c: char) { 'A' <= c <= 'Z' }

  /** Space, tab, line feed, vertical tab, form feed, carriage return. */
  predicate IsWhiteSpace(c: char) { c == ' ' || '\t' <= c <= '\r' }

  predicate AllDigits(s: string) {
    forall i :: 0 <= i < |s| ==> IsDigit(s[i])
  }

  /** `string.IsNullOrEmpty`. */
  predicate IsNullOrEmpty(v: Option<string>) {
    v.None? || |v.value| == 0
  }

  /** `string.IsNullOrWhiteSpace`. */
  predicate IsNullOrWhiteSpace(v: Option<string>) {
    v.None? || forall i :: 0 <= i < |v.value| ==> IsWhiteSpace(v.value[i])
  }

  /** `char.ToLowerInvariant` restricted to ASCII. */
  function ToLower(c: char): (r: char)
    ensures IsUpperLetter(c) ==> IsLowerLetter(r)
    ensures !IsUpperLetter(c) ==> r == c
  {
    if IsUpperLetter(c) then (c as int - 'A' as int + 'a' as int) as char else c
  }

  /** `string.ToLowerInvariant`. */
  function Lower(s: string): (r: string)
    ensures |r| == |s|
    ensures forall i :: 0 <= i < |s| ==> r[i] == ToLower(s[i])
  {
    if |s| == 0 then [] else [ToLower(s[0])] + Lower(s[1..])
  }

  /** `char.ToUpperInvariant` restricted to ASCII. */
  function ToUpper(c: char): (r: char)
    ensures IsLowerLetter(c) ==> IsUpperLetter(r) && ToLower(r) == c
    ensures !IsLowerLetter(c) ==> r == c
  {
    if IsLowerLetter(c) then (c as int - 'a' as int + 'A' as int) as char else c
  }

  /** `string.ToUpper`. */
  function Upper(s: string): (r: string)
    ensures |r| == |s|
    ensures forall i :: 0 <= i < |s| ==> r[i] == ToUpper(s[i])
  {
    seq(|s|, i requires 0 <= i < |s| => ToUpper(s[i]))
  }

  predicate IsLowerHex(c: char) { IsDigit(c) || 'a' <= c <= 'f' }

  predicate IsUpperHex(c: char) { IsDigit(c) || 'A' <= c <= 'F' }

  /** `Guid.NewGuid().ToString("N")`: 32 lower-case hexadecimal digits. */
  type GuidText = s: string | |s| == 32 && forall i :: 0 <= i < |s| ==> IsLowerHex(s[i])
    witness "00000000000000000000000000000000"

  lemma LowerAppend(a: string, b: string)
    ensures Lower(a + b) == Lower(a) + Lower(b)
  {
    assert forall i :: 0 <= i < |a + b| ==> Lower(a + b)[i] == (Lower(a) + Lower(b))[i];
  }

  function DigitChar(d: nat): (c: char)
    requires d < 10
    ensures IsDigit(c)
  {
    ('0' as int + d) as char
  }

  function DigitValue(c: char): (d: nat)
    requires IsDigit(c)
    ensures d < 10 && DigitChar(d) == c
  {
    c as int - '0' as int
  }

  /** The decimal rendering of `n` used by string interpolation: no sign, no leading zeros. */
  function NatToString(n: nat): (s: string)
    ensures |s| > 0 && AllDigits(s)
    ensures |s| > 1 ==> s[0] != '0'
    decreases n
  {
    if n < 10 then [DigitChar(n)] else NatToString(n / 10) + [DigitChar(n % 10)]
  }

  /** The value of a string of decimal digits. */
  function ParseNat(s: string): nat
    requires AllDigits(s)
    decreases |s|
  {
    if |s| == 0 then 0 else 10 * ParseNat(s[..|s| - 1]) + DigitValue(s[|s| - 1])
  }

  /** Rendering and parsing are inverse: the number interpolated into an invoice or tracking
      number can be read back. */
  lemma {:induction false} ParseNatToString(n: nat)
    ensures ParseNat(NatToString(n)) == n
    decreases n
  {
    var s := NatToString(n);
    if n >= 10 {
      ParseNatToString(n / 10);
      assert s[..|s| - 1] == NatToString(n / 10);
    }
  }

  /** Distinct numbers render to distinct strings. */
  lemma NatToStringInjective(m: nat, n: nat)
    ensures NatToString(m) == NatToString(n) ==> m == n
  {
    ParseNatToString(m);
    ParseNatToString(n);
  }

  /** `n` rendered with at least `width` digits, padded with leading zeros (the `yyyy`,
      `MM` and `dd` custom format specifiers). */
  function Pad(n: nat, width: nat): (s: string)
    ensures AllDigits(s)
    ensures |NatToString(n)| <= width ==> |s| == width
    ensures ParseNat(s) == n
  {
    var d := NatToString(n);
    ParseNatToString(n);
    if |d| >= width then d
    else
      ParseNatZerosPrefix(Zeros(width - |d|), d);
      Zeros(width - |d|) + d
  }

  function Zeros(k: nat): (z: string)
    ensures |z| == k && AllDigits(z) && ParseNat(z) == 0
  {
    if k == 0 then [] else Zeros(k - 1) + ['0']
  }

  lemma ParseNatZerosPrefix(z: string, d: string)
    requires AllDigits(z) && ParseNat(z) == 0 && AllDigits(d)
    ensures AllDigits(z + d) && ParseNat(z + d) == ParseNat(d)
    decreases |d|
  {
    if |d| > 0 {
      var zd := z + d;
      assert zd[..|zd| - 1] == z + d[..|d| - 1];
      ParseNatZerosPrefix(z, d[..|d| - 1]);
    } else {
      assert z + d == z;
    }
  }

  /** A number below 10^k renders with at most k digits. */
  lemma NatToStringLength(n: nat, k: nat)
    requires n < Power10(k)
    ensures |NatToString(n)| <= k || (n == 0 && k == 0)
    decreases n
  {
    if n >= 10 {
      assert k >= 2 by { Power10Small(k); }
      assert n / 10 < Power10(k - 1);
      NatToStringLength(n / 10, k - 1);
    } else if k == 0 {
      assert n == 0;
    }
  }

  function Power10(k: nat): (p: nat)
    ensures p >= 1
  {
    if k == 0 then 1 else 10 * Power10(k - 1)
  }

  lemma Power10Small(k: nat)
    ensures k <= 1 ==> Power10(k) <= 10
  {
  }

  predicate StartsWith(s: string, prefix: string) {
    |prefix| <= |s| && s[..|prefix|] == prefix
  }

  predicate EndsWith(s: string, suffix: string) {
    |suffix| <= |s| && s[|s| - |suffix|..] == suffix
  }

  /** Ordinal substring test (`string.Contains`). */
  predicate Contains(s: string, sub: string)
    decreases |s|
  {
    StartsWith(s, sub) || (|s| > 0 && Contains(s[1..], sub))
  }

  lemma ContainsEmpty(s: string)
    ensures Contains(s, [])
  {
    assert StartsWith(s, []);
  }

  predicate IsDirectorySeparator(c: char) { c == '/' || c == '\\' }

  /** `Path.GetExtension`: the text from the last '.' of the file name on, or "" when the
      name has no '.', ends in '.', or its last '.' precedes a directory separator. */
  function GetExtension(path: string): (ext: string)
    ensures ext == [] || (ext[0] == '.' && |ext| >= 2 && EndsWith(path, ext))
    ensures forall i :: 1 <= i < |ext| ==> ext[i] != '.' && !IsDirectorySeparator(ext[i])
    decreases |path|
  {
    if |path| == 0 then []
    else
      var c := path[|path| - 1];
      if c == '.' || IsDirectorySeparator(c) then []
      else ExtensionScan(path[..|path| - 1], [c])
  }

  function ExtensionScan(rest: string, tail: string): (ext: string)
    requires |tail| >= 1
    requires forall i :: 0 <= i < |tail| ==> tail[i] != '.' && !IsDirectorySeparator(tail[i])
    ensures ext == [] || (ext[0] == '.' && |ext| >= 2 && EndsWith(rest + tail, ext))
    ensures forall i :: 1 <= i < |ext| ==> ext[i] != '.' && !IsDirectorySeparator(ext[i])
    decreases |rest|
  {
    if |rest| == 0 then []
    else
      var c := rest[|rest| - 1];
      if c == '.' then
        assert rest + tail == rest[..|rest| - 1] + ([c] + tail);
        [c] + tail
      else if IsDirectorySeparator(c) then []
      else
        assert rest + tail == rest[..|rest| - 1] + ([c] + tail);
        ExtensionScan(rest[..|rest| - 1], [c] + tail)
  }

  /** A whitelisted extension shape: a '.', then at least one character that is neither '.',
      a directory separator nor an upper-case letter. */
  predicate IsPlainExtension(e: string) {
    |e| >= 2 && e[0] == '.' &&
    forall i :: 1 <= i < |e| ==> e[i] != '.' && !IsDirectorySeparator(e[i]) && !IsUpperLetter(e[i])
  }

  /** For a plain extension `e`, `Path.GetExtension(name).ToLowerInvariant() == e` holds exactly
      when `name` ends in `e`, compared case-insensitively. */
  lemma ExtensionMatchesSuffix(name: string, e: string)
    requires IsPlainExtension(e)
    ensures Lower(GetExtension(name)) == e <==> (|e| <= |name| && Lower(name[|name| - |e|..]) == e)
  {
    if Lower(GetExtension(name)) == e {
      ExtensionIsSuffix(name, e);
    }
    if |e| <= |name| && Lower(name[|name| - |e|..]) == e {
      SuffixIsExtension(name, e);
    }
  }

  lemma ExtensionIsSuffix(name: string, e: string)
    requires Lower(GetExtension(name)) == e
    ensures |e| <= |name| && Lower(name[|name| - |e|..]) == e
  {
    var ext := GetExtension(name);
    assert |ext| == |e|;
    assert name[|name| - |e|..] == ext;
  }

  lemma {:induction false} SuffixIsExtension(name: string, e: string)
    requires IsPlainExtension(e)
    requires |e| <= |name| && Lower(name[|name| - |e|..]) == e
    ensures Lower(GetExtension(name)) == e
  {
    var k := |name| - |e|;
    var suffix := name[k..];
    assert name[k] == '.' by { assert suffix[0] == name[k]; assert ToLower(suffix[0]) == e[0]; }
    assert PlainFrom(name, k + 1) by {
      forall i | k + 1 <= i < |name|
        ensures name[i] != '.' && !IsDirectorySeparator(name[i])
      {
        assert suffix[i - k] == name[i];
        assert ToLower(suffix[i - k]) == e[i - k];
      }
    }
    SuffixExtension(name, k);
  }

  /** From position `lo` on, `s` holds neither a '.' nor a directory separator. */
  predicate PlainFrom(s: string, lo: nat) {
    forall i :: lo <= i < |s| ==> s[i] != '.' && !IsDirectorySeparator(s[i])
  }

  /** When position k holds the last '.', with no separator after it and not at the end,
      GetExtension returns name[k..]. */
  lemma SuffixExtension(name: string, k: nat)
    requires k + 1 < |name| && name[k] == '.'
    requires PlainFrom(name, k + 1)
    ensures GetExtension(name) == name[k..]
  {
    var c := name[|name| - 1];
    var init := name[..|name| - 1];
    assert PlainFrom(init, k + 1) by {
      forall i | k + 1 <= i < |init| ensures init[i] != '.' && !IsDirectorySeparator(init[i]) {
        assert init[i] == name[i];
      }
    }
    ScanFinds(init, [c], k);
    assert init + [c] == name;
  }

  lemma {:induction false} ScanFinds(rest: string, tail: string, k: nat)
    requires |tail| >= 1 && PlainFrom(tail, 0)
    requires k < |rest| && rest[k] == '.'
    requires PlainFrom(rest, k + 1)
    ensures ExtensionScan(rest, tail) == rest[k..] + tail
    decreases |rest|
  {
    var c := rest[|rest| - 1];
    var init := rest[..|rest| - 1];
    if |rest| - 1 == k {
      assert rest[k..] == [c];
    } else {
      assert PlainFrom([c] + tail, 0) by {
        forall i | 0 <= i < |[c] + tail| ensures ([c] + tail)[i] != '.' && !IsDirectorySeparator(([c] + tail)[i]) {
          if i > 0 { assert ([c] + tail)[i] == tail[i - 1]; }
        }
      }
      assert PlainFrom(init, k + 1) by {
        forall i | k + 1 <= i < |init| ensures init[i] != '.' && !IsDirectorySeparator(init[i]) {
          assert init[i] == rest[i];
        }
      }
      ScanFinds(init, [c] + tail, k);
      assert init[k..] + ([c] + tail) == rest[k..] + tail;
    }
  }

  /** `{prefix}{date}-{id}`, as in the invoice and tracking numbers, with a four-character prefix. */
  function Stamped(prefix: string, d: string, id: string): (n: string)
    requires |prefix| == 4
    ensures n == prefix + d + "-" + id
    ensures n[..4] == prefix && n[4..4 + |d|] == d && n[4 + |d|] == '-' && n[5 + |d|..] == id
  {
    var n := prefix + d + "-" + id;
    assert n[..4] == prefix;
    assert n[4..4 + |d|] == d;
    assert n[5 + |d|..] == id;
    n
  }
}

=== FILE: uploads.dfy ===
/** How an uploaded file is named and where it is stored: the slug made from a free-text
    label, and the "/{folder}/{slug}-{date}-{id}{extension}" path `UploadFileAsync` returns. */
module Uploads {
  import opened Wrappers
  import opened Text
  import opened Marketplace
  import Calendar

  // ---------------------------------------------------------------- slugs

  predicate IsDash(c: char) { c == '-' }

  predicate IsAlnum(c: char) { IsLowerLetter(c) || IsDigit(c) }

  /** A character a slug may hold. */
  predicate SlugChar(c: char) { IsAlnum(c) || c == '-' }

  /** What `[^a-z0-9\s-]` does not match. */
  predicate Kept(c: char) { SlugChar(c) || IsWhiteSpace(c) }

  predicate NoDoubleDash(s: string) {
    forall i :: 0 <= i < |s| - 1 ==> !(s[i] == '-' && s[i + 1] == '-')
  }

  /** A slug: lower-case letters, digits and single dashes, neither first nor last. */
  predicate IsSlug(s: string) {
    (forall i :: 0 <= i < |s| ==> SlugChar(s[i])) && NoDoubleDash(s) &&
    (|s| > 0 ==> s[0] != '-' && s[|s| - 1] != '-')
  }

  /** Each maximal run of characters satisfying `p` replaced by a single '-'
      (`Regex.Replace(text, pattern + "+", "-")`); `inRun` says that the text continues a
      run whose dash is already written. */
  function DashRuns(s: string, p: char -> bool, inRun: bool): string
    decreases |s|
  {
    if |s| == 0 then []
    else if p(s[0]) then (if inRun then [] else ['-']) + DashRuns(s[1..], p, true)
    else [s[0]] + DashRuns(s[1..], p, false)
  }

  /** Text made of dashes only. */
  predicate AllDashes(s: string) {
    forall i :: 0 <= i < |s| ==> s[i] == '-'
  }

  /** Leading dashes removed. */
  function TrimStart(s: string): (r: string)
    ensures |r| <= |s| && r == s[|s| - |r|..]
    ensures |r| > 0 ==> r[0] != '-'
    ensures AllDashes(s[..|s| - |r|])
    decreases |s|
  {
    if |s| > 0 && s[0] == '-' then
      var r := TrimStart(s[1..]);
      assert s[..|s| - |r|] == [s[0]] + s[1..][..|s| - 1 - |r|];
      r
    else s
  }

  /** Trailing dashes removed. */
  function TrimEnd(s: string): (r: string)
    ensures |r| <= |s| && r == s[..|r|]
    ensures |r| > 0 ==> r[|r| - 1] != '-'
    ensures AllDashes(s[|r|..])
    decreases |s|
  {
    if |s| > 0 && s[|s| - 1] == '-' then
      var r := TrimEnd(s[..|s| - 1]);
      assert s[|r|..] == s[..|s| - 1][|r|..] + [s[|s| - 1]];
      r
    else s
  }

  /** `Trim('-')`. */
  function TrimDashes(s: string): string {
    TrimEnd(TrimStart(s))
  }

  /** The lower-case letters and digits of the text, in order. */
  function Alnums(s: string): (r: string)
    ensures |r| <= |s|
    ensures forall i :: 0 <= i < |r| ==> IsAlnum(r[i])
    decreases |s|
  {
    if |s| == 0 then [] else (if IsAlnum(s[0]) then [s[0]] else []) + Alnums(s[1..])
  }

  lemma {:induction false} AlnumsAppend(a: string, b: string)
    ensures Alnums(a + b) == Alnums(a) + Alnums(b)
    decreases |a|
  {
    if |a| == 0 {
      assert a + b == b;
    } else {
      assert (a + b)[1..] == a[1..] + b;
      AlnumsAppend(a[1..], b);
    }
  }

  lemma {:induction false} AlnumsNone(s: string)
    requires forall i :: 0 <= i < |s| ==> !IsAlnum(s[i])
    ensures Alnums(s) == []
    decreases |s|
  {
    if |s| > 0 {
      AlnumsNone(s[1..]);
    }
  }

  /** `Regex.Replace(text, "[^a-z0-9\s-]", "")`: the text without the characters a slug
      drops; every letter and digit stays. */
  function Strip(s: string): (r: string)
    ensures forall i :: 0 <= i < |r| ==> Kept(r[i])
    ensures Alnums(r) == Alnums(s)
    decreases |s|
  {
    if |s| == 0 then []
    else
      var rest := Strip(s[1..]);
      if Kept(s[0]) then
        assert ([s[0]] + rest)[1..] == rest;
        [s[0]] + rest
      else rest
  }

  lemma {:induction false} StripKeeps(s: string)
    requires forall i :: 0 <= i < |s| ==> Kept(s[i])
    ensures Strip(s) == s
    decreases |s|
  {
    if |s| > 0 {
      StripKeeps(s[1..]);
      assert s == [s[0]] + s[1..];
    }
  }

  /** `Slugify`: null or empty text is "file"; otherwise lower-case it, drop every character
      but letters, digits, white space and dashes, turn white-space runs into dashes, merge
      dash runs and trim dashes from both ends. The result is a slug that keeps every letter
      and digit of the lower-cased text, in order, and is empty exactly when there is none. */
  function Slugify(text: Option<string>): (r: string)
    ensures IsNullOrEmpty(text) ==> r == "file"
    ensures IsSlug(r)
    ensures !IsNullOrEmpty(text) ==> Alnums(r) == Alnums(Lower(text.value))
    ensures !IsNullOrEmpty(text) ==> (r == [] <==> Alnums(Lower(text.value)) == [])
  {
    if IsNullOrEmpty(text) then
      assert "file"[1] == 'i' && "file"[2] == 'l';
      "file"
    else
      var lowered := Lower(text.value);
      var stripped := Strip(lowered);
      var spaced := DashRuns(stripped, IsWhiteSpace, false);
      var merged := DashRuns(spaced, IsDash, false);
      var r := TrimDashes(merged);
      SlugSteps(stripped, spaced, merged, r);
      r
  }

  /** What each step of `Slugify` keeps: the characters allowed, the letters and digits,
      and from the merge on, no double dash. */
  lemma SlugSteps(stripped: string, spaced: string, merged: string, r: string)
    requires forall i :: 0 <= i < |stripped| ==> Kept(stripped[i])
    requires spaced == DashRuns(stripped, IsWhiteSpace, false)
    requires merged == DashRuns(spaced, IsDash, false) && r == TrimDashes(merged)
    ensures IsSlug(r)
    ensures Alnums(r) == Alnums(stripped)
    ensures r == [] <==> Alnums(stripped) == []
  {
    DashRunsWithin(stripped, IsWhiteSpace, false, SlugChar);
    DashRunsWithin(spaced, IsDash, false, SlugChar);
    DashRunsAlnum(stripped, IsWhiteSpace, false);
    DashRunsAlnum(spaced, IsDash, false);
    MergeNoDoubleDash(spaced, false);
    TrimmedSlug(merged, r);
  }

  /** Trimming the dashes from both ends of text with slug characters and no double dash
      leaves a slug with the same letters and digits. */
  lemma TrimmedSlug(merged: string, r: string)
    requires forall i :: 0 <= i < |merged| ==> SlugChar(merged[i])
    requires NoDoubleDash(merged)
    requires r == TrimDashes(merged)
    ensures IsSlug(r)
    ensures Alnums(r) == Alnums(merged)
    ensures r == [] <==> Alnums(merged) == []
  {
    var a, b := TrimWindow(merged);
    SliceKeepsSlug(merged, a, b, r);
    DashesNoAlnums(merged[..a]);
    DashesNoAlnums(merged[b..]);
    WindowAlnums(merged, a, b);
    if |r| > 0 {
      assert IsAlnum(r[0]);
      assert Alnums(r) == [r[0]] + Alnums(r[1..]);
    }
  }

  /** `Trim('-')` keeps a window of the text: only dashes lie outside it, and it neither
      starts nor ends with one. */
  lemma TrimWindow(s: string) returns (a: nat, b: nat)
    ensures a <= b <= |s| && TrimDashes(s) == s[a..b]
    ensures AllDashes(s[..a]) && AllDashes(s[b..])
    ensures a < b ==> s[a] != '-' && s[b - 1] != '-'
  {
    var d := TrimStart(s);
    var r := TrimEnd(d);
    a := |s| - |d|;
    b := a + |r|;
    assert TrimDashes(s) == r;
    WindowOf(s, d, r, a, b);
  }

  /** A suffix `d` of the text after `a` leading dashes, and a prefix `r` of `d` followed by
      dashes only, sit in the text as the window from `a` to `b`. */
  lemma WindowOf(s: string, d: string, r: string, a: nat, b: nat)
    requires a <= |s| && d == s[a..] && |r| <= |d| && r == d[..|r|] && b == a + |r|
    requires AllDashes(d[|r|..])
    requires |r| > 0 ==> r[0] != '-' && r[|r| - 1] != '-'
    ensures b <= |s| && r == s[a..b] && AllDashes(s[b..])
    ensures a < b ==> s[a] != '-' && s[b - 1] != '-'
  {
    assert s[b..] == d[|r|..];
  }

  lemma DashesNoAlnums(s: string)
    requires AllDashes(s)
    ensures Alnums(s) == []
  {
    AlnumsNone(s);
  }

  /** Only dashes outside a window: the window holds every letter and digit. */
  lemma WindowAlnums(s: string, a: int, b: int)
    requires 0 <= a <= b <= |s|
    requires Alnums(s[..a]) == [] && Alnums(s[b..]) == []
    ensures Alnums(s[a..b]) == Alnums(s)
  {
    var p := s[..b];
    AlnumsSplit(s, b);
    AlnumsSplit(p, a);
    assert p[..a] == s[..a] && p[a..] == s[a..b];
  }

  lemma AlnumsSplit(s: string, k: int)
    requires 0 <= k <= |s|
    ensures Alnums(s) == Alnums(s[..k]) + Alnums(s[k..])
  {
    assert s == s[..k] + s[k..];
    AlnumsAppend(s[..k], s[k..]);
  }

  /** A slice of text with slug characters and no double dash has both too. */
  lemma SliceKeepsSlug(s: string, lo: int, hi: int, t: string)
    requires 0 <= lo <= hi <= |s| && t == s[lo..hi]
    requires forall i :: 0 <= i < |s| ==> SlugChar(s[i])
    requires NoDoubleDash(s)
    ensures forall i :: 0 <= i < |t| ==> SlugChar(t[i])
    ensures NoDoubleDash(t)
  {
    forall i | 0 <= i < |t| - 1 ensures !(t[i] == '-' && t[i + 1] == '-') {
      assert t[i] == s[lo + i] && t[i + 1] == s[lo + i + 1];
    }
  }

  /** The first part `DashRuns` writes for the text's first character. */
  function Head(s: string, p: char -> bool, inRun: bool): string
    requires |s| > 0
  {
    if p(s[0]) then (if inRun then [] else ['-']) else [s[0]]
  }

  /** A class of characters that holds of '-' and of every character of the text outside
      the runs holds of every character `DashRuns` writes. */
  lemma {:induction false} DashRunsWithin(s: string, p: char -> bool, inRun: bool, q: char -> bool)
    requires q('-') && forall i :: 0 <= i < |s| && !p(s[i]) ==> q(s[i])
    ensures forall i :: 0 <= i < |DashRuns(s, p, inRun)| ==> q(DashRuns(s, p, inRun)[i])
    decreases |s|
  {
    if |s| > 0 {
      var tail := s[1..];
      assert forall i :: 0 <= i < |tail| ==> tail[i] == s[i + 1];
      DashRunsWithin(tail, p, p(s[0]), q);
      var h := Head(s, p, inRun);
      var rest := DashRuns(tail, p, p(s[0]));
      var r := DashRuns(s, p, inRun);
      assert r == h + rest;
      forall i | 0 <= i < |r| ensures q(r[i]) {
        if i >= |h| { assert r[i] == rest[i - |h|]; }
      }
    }
  }

  /** Replacing runs of non-alphanumeric characters by dashes keeps the letters and digits. */
  lemma {:induction false} DashRunsAlnum(s: string, p: char -> bool, inRun: bool)
    requires forall c :: p(c) ==> !IsAlnum(c)
    ensures Alnums(DashRuns(s, p, inRun)) == Alnums(s)
    decreases |s|
  {
    if |s| > 0 {
      var tail := s[1..];
      var h := Head(s, p, inRun);
      var rest := DashRuns(tail, p, p(s[0]));
      DashRunsAlnum(tail, p, p(s[0]));
      assert DashRuns(s, p, inRun) == h + rest;
      AlnumsAppend(h, rest);
      if p(s[0]) {
        AlnumsNone(h);
      } else {
        assert Alnums(h) == (if IsAlnum(s[0]) then [s[0]] else []) + Alnums([]);
      }
    }
  }

  /** Merging dash runs leaves no double dash, and a merge that continues a run does not
      begin with a dash. */
  lemma {:induction false} MergeNoDoubleDash(s: string, inRun: bool)
    ensures NoDoubleDash(DashRuns(s, IsDash, inRun))
    ensures inRun && |DashRuns(s, IsDash, inRun)| > 0 ==> DashRuns(s, IsDash, inRun)[0] != '-'
    decreases |s|
  {
    if |s| > 0 {
      var tail := s[1..];
      MergeNoDoubleDash(tail, IsDash(s[0]));
      var h := Head(s, IsDash, inRun);
      var rest := DashRuns(tail, IsDash, IsDash(s[0]));
      var r := DashRuns(s, IsDash, inRun);
      assert r == h + rest;
      assert |h| == 1 ==> r[0] == h[0];
      assert |h| == 0 ==> r == rest;
      assert |rest| > 0 && |h| == 1 && h[0] == '-' ==> rest[0] != '-';
      forall i | 0 <= i < |r| - 1 ensures !(r[i] == '-' && r[i + 1] == '-') {
        if i >= |h| { assert r[i] == rest[i - |h|] && r[i + 1] == rest[i + 1 - |h|]; }
        else if |h| == 1 { assert r[1] == rest[0]; }
      }
    }
  }

  /** Text without any character satisfying `p` comes through `DashRuns` unchanged. */
  lemma {:induction false} DashRunsNone(s: string, p: char -> bool, inRun: bool)
    requires forall i :: 0 <= i < |s| ==> !p(s[i])
    ensures DashRuns(s, p, inRun) == s
    decreases |s|
  {
    if |s| > 0 {
      DashRunsNone(s[1..], p, false);
      assert s == [s[0]] + s[1..];
    }
  }

  /** Text with no double dash, and no leading dash when it continues a run, comes through
      the dash merge unchanged. */
  lemma {:induction false} MergeKeeps(s: string, inRun: bool)
    requires NoDoubleDash(s) && (inRun && |s| > 0 ==> s[0] != '-')
    ensures DashRuns(s, IsDash, inRun) == s
    decreases |s|
  {
    if |s| > 0 {
      var tail := s[1..];
      assert NoDoubleDash(tail) by {
        forall i | 0 <= i < |tail| - 1 ensures !(tail[i] == '-' && tail[i + 1] == '-') {
          assert tail[i] == s[i + 1] && tail[i + 1] == s[i + 2];
        }
      }
      assert IsDash(s[0]) && |tail| > 0 ==> tail[0] == s[1] && s[1] != '-';
      MergeKeeps(tail, IsDash(s[0]));
      assert s == [s[0]] + tail;
    }
  }

  /** A non-empty slug is its own slug. */
  lemma SlugFixed(s: string)
    requires IsSlug(s) && |s| > 0
    ensures Slugify(Some(s)) == s
  {
    assert Lower(s) == s;
    assert Strip(s) == s by { StripKeeps(s); }
    assert DashRuns(s, IsWhiteSpace, false) == s by { DashRunsNone(s, IsWhiteSpace, false); }
    assert DashRuns(s, IsDash, false) == s by { MergeKeeps(s, false); }
    assert TrimDashes(s) == s by {
      assert TrimStart(s) == s;
      assert TrimEnd(s) == s;
    }
    SlugifySteps(s);
  }

  /** `Slugify` of non-empty text is its steps applied in turn. */
  lemma SlugifySteps(s: string)
    requires |s| > 0
    ensures Slugify(Some(s)) == TrimDashes(DashRuns(DashRuns(Strip(Lower(s)), IsWhiteSpace, false), IsDash, false))
  {
  }

  /** `Slugify` is idempotent whenever it yields something. */
  lemma SlugifyIdempotent(text: Option<string>)
    requires Slugify(text) != []
    ensures Slugify(Some(Slugify(text))) == Slugify(text)
  {
    SlugFixed(Slugify(text));
  }

  /** Text made only of symbols slugifies to "", and slugifying that again gives "file". */
  lemma SymbolsOnly()
    ensures Slugify(Some("!?")) == []
    ensures Slugify(Some(Slugify(Some("!?")))) == "file"
  {
    var s := "!?";
    assert Lower(s) == s;
    assert Strip(s) == [];
  }

  // ---------------------------------------------------------------- uploads

  /** `{slug}-{yyyy-MM-dd}-{first 8 hex digits of a new GUID}{extension}`. */
  function StoredName(slug: Option<string>, fileName: string, now: Calendar.Instant, guid: GuidText): string {
    Slugify(slug) + "-" + Calendar.IsoDate(now) + "-" + guid[..8] + GetExtension(fileName)
  }

  /** `UploadFileAsync`: nothing for a missing or empty file or a failed write, else
      "/{path}/{name}". The stored file keeps the posted file's extension, which is what the
      document checks read from it. */
  function Upload(file: Option<UploadedFile>, path: string, slug: Option<string>, now: Calendar.Instant,
                  guid: GuidText, written: bool): (r: Option<string>)
    ensures r.Some? <==> !NoContent(file) && written
    ensures r.Some? ==> StartsWith(r.value, "/" + path + "/")
    ensures r.Some? ==> GetExtension(r.value) == GetExtension(file.value.fileName)
    ensures r.Some? ==> EndsWith(r.value, StoredName(slug, file.value.fileName, now, guid))
  {
    if NoContent(file) || !written then None
    else
      var name := StoredName(slug, file.value.fileName, now, guid);
      var r := "/" + path + "/" + name;
      assert r[..|"/" + path + "/"|] == "/" + path + "/";
      assert r[|r| - |name|..] == name;
      UploadKeepsExtension(path, slug, file.value.fileName, now, guid);
      Some(r)
  }

  /** The stored path's extension is the posted name's: nothing in the slug, date or id part
      is a '.' or a directory separator, and a '/' comes before them. */
  lemma UploadKeepsExtension(path: string, slug: Option<string>, fileName: string, now: Calendar.Instant, guid: GuidText)
    ensures GetExtension("/" + path + "/" + StoredName(slug, fileName, now, guid)) == GetExtension(fileName)
  {
    var stem := Slugify(slug) + "-" + Calendar.IsoDate(now) + "-" + guid[..8];
    assert StoredName(slug, fileName, now, guid) == stem + GetExtension(fileName);
    StemPlain(slug, now, guid);
    StoredUnder(path, stem, fileName);
  }

  /** A plain stem followed by a name's extension, stored under a folder, keeps that
      extension. */
  lemma StoredUnder(path: string, stem: string, fileName: string)
    requires |stem| > 0 && Plain(stem)
    ensures GetExtension("/" + path + "/" + (stem + GetExtension(fileName))) == GetExtension(fileName)
  {
    var head := "/" + path + "/";
    assert head + (stem + GetExtension(fileName)) == head + stem + GetExtension(fileName);
    PlainStemExtension(head, stem, fileName);
  }

  /** After a separator and a plain, non-empty stem, a name's extension is still that
      name's extension. */
  lemma PlainStemExtension(head: string, stem: string, fileName: string)
    requires |head| > 0 && IsDirectorySeparator(head[|head| - 1])
    requires |stem| > 0 && Plain(stem)
    ensures GetExtension(head + stem + GetExtension(fileName)) == GetExtension(fileName)
  {
    var ext := GetExtension(fileName);
    if |ext| > 0 {
      assert Plain(ext[1..]) by {
        assert forall i :: 0 <= i < |ext[1..]| ==> ext[1..][i] == ext[i + 1];
      }
      PlainThenExtension(head + stem, ext);
    } else {
      assert head + stem + ext == head + stem;
      PlainAfterSeparator(head, stem);
    }
  }

  /** A name ending in a '.' and a plain, non-empty rest has that ending as its extension. */
  lemma PlainThenExtension(front: string, ext: string)
    requires |ext| >= 2 && ext[0] == '.' && Plain(ext[1..])
    ensures GetExtension(front + ext) == ext
  {
    var r := front + ext;
    var k := |front|;
    assert r[k..] == ext;
    forall i | k < i < |r| ensures r[i] != '.' && !IsDirectorySeparator(r[i]) {
      assert r[i] == ext[1..][i - k - 1];
    }
    SuffixExtension(r, k);
  }

  /** A path whose last part, after a separator, is plain and not empty has no extension. */
  lemma PlainAfterSeparator(head: string, stem: string)
    requires |head| > 0 && IsDirectorySeparator(head[|head| - 1])
    requires |stem| > 0 && Plain(stem)
    ensures GetExtension(head + stem) == []
  {
    var r := head + stem;
    forall i | |head| - 1 < i < |r| ensures r[i] != '.' && !IsDirectorySeparator(r[i]) {
      assert r[i] == stem[i - |head|];
    }
    NoExtensionAfterSlash(r, |head| - 1);
  }

  /** Text with neither a '.' nor a directory separator. */
  predicate Plain(s: string) {
    forall i :: 0 <= i < |s| ==> s[i] != '.' && !IsDirectorySeparator(s[i])
  }

  lemma PlainAppend(a: string, b: string)
    requires Plain(a) && Plain(b)
    ensures Plain(a + b)
  {
    forall i | 0 <= i < |a + b| ensures (a + b)[i] != '.' && !IsDirectorySeparator((a + b)[i]) {
      if i >= |a| { assert (a + b)[i] == b[i - |a|]; }
    }
  }

  /** The slug, date and id part of a stored name is plain. */
  lemma StemPlain(slug: Option<string>, now: Calendar.Instant, guid: GuidText)
    ensures Plain(Slugify(slug) + "-" + Calendar.IsoDate(now) + "-" + guid[..8])
  {
    var slugText, date, id := Slugify(slug), Calendar.IsoDate(now), guid[..8];
    SlugPlain(slug);
    DatePlain(now);
    IdPlain(guid);
    PlainAppend(slugText, "-");
    PlainAppend(slugText + "-", date);
    PlainAppend(slugText + "-" + date, "-");
    PlainAppend(slugText + "-" + date + "-", id);
  }

  lemma SlugPlain(slug: Option<string>)
    ensures Plain(Slugify(slug))
  {
    SlugIsPlain(Slugify(slug));
  }

  lemma SlugIsPlain(r: string)
    requires IsSlug(r)
    ensures Plain(r)
  {
    assert forall i :: 0 <= i < |r| ==> SlugChar(r[i]);
  }

  lemma DigitsPlain(s: string)
    requires AllDigits(s)
    ensures Plain(s)
  {
  }

  lemma DatePlain(now: Calendar.Instant)
    ensures Plain(Calendar.IsoDate(now))
  {
    var y, m, d := Pad(now.year, 4), Pad(now.month, 2), Pad(now.day, 2);
    assert Calendar.IsoDate(now) == y + "-" + m + "-" + d;
    DigitsPlain(y);
    DigitsPlain(m);
    DigitsPlain(d);
    PlainAppend(y, "-");
    PlainAppend(y + "-", m);
    PlainAppend(y + "-" + m, "-");
    PlainAppend(y + "-" + m + "-", d);
  }

  lemma IdPlain(guid: GuidText)
    ensures Plain(guid[..8])
  {
    var id := guid[..8];
    assert forall i :: 0 <= i < |id| ==> IsLowerHex(id[i]);
  }

  /** A path whose last part, after a separator, holds neither '.' nor a separator and is not
      empty has no extension. */
  lemma NoExtensionAfterSlash(r: string, k: nat)
    requires k + 1 < |r| && IsDirectorySeparator(r[k])
    requires forall i :: k < i < |r| ==> r[i] != '.' && !IsDirectorySeparator(r[i])
    ensures GetExtension(r) == []
  {
    var c := r[|r| - 1];
    ScanStops(r[..|r| - 1], [c], k);
  }

  lemma {:induction false} ScanStops(rest: string, tail: string, k: nat)
    requires |tail| >= 1
    requires forall i :: 0 <= i < |tail| ==> tail[i] != '.' && !IsDirectorySeparator(tail[i])
    requires k < |rest| && IsDirectorySeparator(rest[k])
    requires forall i :: k < i < |rest| ==> rest[i] != '.' && !IsDirectorySeparator(rest[i])
    ensures ExtensionScan(rest, tail) == []
    decreases |rest|
  {
    var c := rest[|rest| - 1];
    if |rest| - 1 != k {
      ScanStops(rest[..|rest| - 1], [c] + tail, k);
    }
  }
}

=== FILE: validation.dfy ===
/** The two custom data-annotation validators of the Attributes namespace: the Saudi phone
    number and the Saudi national ID. Both let a null or blank value through, leaving
    mandatory fields to `[Required]`. */
module ValidationAttributes {
  import opened Wrappers
  import opened Text

  /** `ValidationResult.Valid`, or a result carrying an error message. */
  datatype ValidationResult = Valid | Invalid(message: string)

  /** The field name used in messages: the display name, else the member name. */
  function FieldName(displayName: Option<string>, memberName: string): string {
    displayName.GetOr(memberName)
  }

  /** `^((\+9665\d{8})|(05\d{8}))$`: "+9665" then eight digits, or "05" then eight digits. */
  predicate IsSaudiPhone(s: string) {
    (|s| == 13 && s[..5] == "+9665" && AllDigits(s[5..])) ||
    (|s| == 10 && s[..2] == "05" && AllDigits(s[2..]))
  }

  /** `PhoneNumberAttribute.IsValid`. */
  function PhoneNumber(value: Option<string>, displayName: Option<string>, memberName: string): (r: ValidationResult)
    ensures r.Valid? <==> IsNullOrWhiteSpace(value) || IsSaudiPhone(value.value)
    ensures r.Invalid? ==> StartsWith(r.message, FieldName(displayName, memberName))
  {
    if IsNullOrWhiteSpace(value) then Valid
    else if IsSaudiPhone(value.value) then Valid
    else
      var name := FieldName(displayName, memberName);
      var m := name + " must be a valid phone number. Example: +966566193395 or 0566193395";
      assert m[..|name|] == name;
      Invalid(m)
  }

  /** The reasons a national ID is refused, in the order they are checked. */
  datatype IdCheck = WrongLength | BadRegionCode | NotAllDigits | IdOk

  /** Which check a non-blank national ID fails first. */
  function NationalIdCheck(s: string): (c: IdCheck)
    ensures c == IdOk <==> |s| == 10 && '1' <= s[0] <= '9' && AllDigits(s)
    ensures c == WrongLength <==> |s| != 10
    ensures c == BadRegionCode <==> |s| == 10 && !('1' <= s[0] <= '9')
    ensures c == NotAllDigits <==> |s| == 10 && '1' <= s[0] <= '9' && !AllDigits(s)
  {
    if |s| != 10 then WrongLength
    else if !('1' <= s[0] <= '9') then BadRegionCode
    else if !AllDigits(s) then NotAllDigits
    else IdOk
  }

  /** `SaudiNationalIdAttribute.IsValid`. */
  function SaudiNationalId(value: Option<string>, displayName: Option<string>, memberName: string): (r: ValidationResult)
    ensures r.Valid? <==> IsNullOrWhiteSpace(value) || NationalIdCheck(value.value) == IdOk
    ensures r.Invalid? ==> StartsWith(r.message, "The " + FieldName(displayName, memberName) + " ")
  {
    if IsNullOrWhiteSpace(value) then Valid
    else
      var lead := "The " + FieldName(displayName, memberName) + " ";
      var tail := match NationalIdCheck(value.value)
        case WrongLength => "must be exactly 10 digits."
        case BadRegionCode => "has an invalid region code."
        case NotAllDigits => "must contain only digits."
        case IdOk => "";
      if NationalIdCheck(value.value) == IdOk then Valid
      else
        assert (lead + tail)[..|lead|] == lead;
        Invalid(lead + tail)
  }

  /** A non-blank national ID is accepted exactly when it is ten digits not starting with
      zero. */
  lemma NationalIdValidIff(s: string, displayName: Option<string>, memberName: string)
    requires !IsNullOrWhiteSpace(Some(s))
    ensures SaudiNationalId(Some(s), displayName, memberName).Valid? <==> |s| == 10 && AllDigits(s) && s[0] != '0'
  {
    if |s| == 10 && AllDigits(s) {
      assert IsDigit(s[0]);
    }
  }
}

=== FILE: wrappers.dfy ===
/** Option and Result, the two failure-carrying shapes used throughout the model.
    `None` stands for a C# `null`; `Failure` for an action that refuses and writes nothing. */
module Wrappers {

  datatype Option<+T> = None | Some(value: T) {

    /** The value, or `default` when absent (the C# `??` operator). */
    function GetOr(default: T): T {
      match this
      case Some(v) => v
      case None => default
    }
  }

  datatype Result<+R, +E> = Success(value: R) | Failure(error: E)
}
